=== FILE: README.md ===
# rdumper, modelled in Dafny

rdumper is a web backend around the MySQL dump tools mydumper and myloader.
It keeps database connections, scheduled backup tasks and job records in
SQLite. A background worker wakes once a minute, starts the backups whose
cron schedule has come due, and once an hour deletes backup directories
older than their task's retention. Every backup run gets its own directory
with a `rdumper.backup.json` sidecar and a tar archive. The HTTP handlers
list, upload, download, restore and clean up backups, guard job
cancellation and deletion, rebuild per-table progress from the dump log,
and report on the host system.

This project models the decision rules and state changes of that backend
and proves what they promise:

- **Records.** Tasks, jobs, database configurations, backups and the
  sidecar metadata are datatypes (`task.dfy`, `job.dfy`,
  `database_config.dfy`, `backup.dfy`). Each has its constructor, its
  partial update and its enum parse/display pairs, with round-trip lemmas.
- **The cron evaluator** (`task.dfy`). It covers the forms the code
  supports, over Unix seconds in UTC, and proves where each next run lands.
- **Mutable state** is held in classes:
  - the SQLite tables (`store.dfy`, class `Db`);
  - the directory tree under the backup and log directories (`disk.dfy`,
    class `FileSystem`);
  - the worker and its status counters (`task_worker.dfy`, class
    `TaskWorker`).

  The methods that change this state are proved against specification
  functions: the tick, the due-task sweep, the single-flight rule of
  `execute_task`, the spawned backup's completion step and the hourly
  cleanup.
- **Backup runs.**
  - Dump-tool arguments, engine classification, the job-status sequence
    and the column rules of `update_job_status` (`mydumper.dfy`,
    `engines.dfy`).
  - The run directory, archive and sidecar (`backup_process.dfy`).
  - The naming rules of the filesystem backup service
    (`filesystem_backup.dfy`).
  - The scan of the backup directory, its newest-first order and its
    statistics (`backup_scan.dfy`).
  - The restore's extraction dispatch (`extraction.dfy`).
- **Progress** (`progress.dfy`). The four log patterns are written as
  string functions. The line loop is a method proved equal to a fold.
- **The handlers' own rules** (`api_jobs.dfy`, `api_backups.dfy`,
  `api_system.dfy`, `api_worker.dfy`).
- **Supporting modules.** `text.dfy` and `paths.dfy` restate the parts of
  Rust's `str` and `Path` the code relies on. `clock.dfy` holds the civil
  calendar and the timestamp formats.

Clock readings, uuids, subprocess exit statuses, rows a query returns and
directory listings enter as parameters. Where the Rust code calls
something that is not defined anywhere, the call is a function parameter:
`DatabaseConfig::get_database_name`, and the RFC 3339 parser.

Behaviour of the code worth noting, which the model keeps:

- There is no thread-reuse inference and no "dump finished" sweep in the
  progress tracker. A table's status is not monotone.
- The single-flight check looks only at `pending` and `running` jobs, so a
  job left at `compressing` does not block a new run.
- Cancelling a job does not stop its spawned backup. The backup's completion
  later overwrites `cancelled`.
- The weekly schedule `0 0 * * 1` lands on a Tuesday.
- The scan of the backup directory stops at an archive whose modification
  time lies before 1970, because the code's `duration_since(UNIX_EPOCH)`
  fails there.
- `Task` carries `database_name`, since the code reads it and the table has
  the column. The backup metadata carries `used_database` for the same
  reason.

## Model

| member | source | states |
|---|---|---|
| Tasks.ParseCompression | backend/src/models/task.rs:32-42 | any other name fails with "Invalid compression type: " followed by the input as given |
| Tasks.ParseCompressionExact | backend/src/models/task.rs:35-41 | a string parses to a compression exactly when its lower-case form is that compression's name |
| Tasks.CompressionRoundTrip | backend/src/models/task.rs:22-42 | parsing the displayed name, in lower or upper case, gives the compression back |
| Tasks.NewTask | backend/src/models/task.rs:82-98 | a new task takes the request's fields, gzip, 30 days and transactional by default, is active, never run, created and updated now |
| Tasks.NewTaskCompression | backend/src/models/task.rs:89 | the stored compression of a new task parses back to the requested one, gzip when none is given |
| Tasks.UpdateTask | backend/src/models/task.rs:100-120 | each field present in the request is overwritten, updated_at becomes now, every other field is kept |
| Tasks.UpdateIdempotent | backend/src/models/task.rs:100-120 | applying the same update twice equals applying it once at the later instant |
| Tasks.EmptyUpdate | backend/src/models/task.rs:100-120 | an update with no fields only refreshes updated_at |
| Tasks.ParseCronSchedule | backend/src/models/task.rs:138-208 | a schedule without five whitespace-separated fields fails with the field count in the message; any other failure is "Unsupported cron pattern: " plus the schedule |
| Tasks.FieldPatterns | backend/src/models/task.rs:197-206 | after the literal forms, a failure of both the time-of-day and the interval pattern is "Unsupported cron pattern" |
| Tasks.CalculateNextRun | backend/src/models/task.rs:127-135 | an inactive task has no next run; an active one succeeds exactly when its schedule parses, with that instant, and otherwise carries the parse error |
| Tasks.UpdateNextRun | backend/src/models/task.rs:264-268 | on success next_run and updated_at change; on failure the task is unchanged and the error is returned |
| Tasks.MarkExecuted | backend/src/models/task.rs:271-275 | last_run is set to now even when the schedule fails; success is exactly success of calculate_next_run, and then next_run and updated_at are set too |
| Tasks.ShouldRunNow | backend/src/models/task.rs:278-287 | a task is due when it is active and its next run has come; no contract of its own, its use is stated by `Tasks.DueRightAfterExecution` and the worker's sweep lemmas |
| Tasks.StartOfHour | backend/src/models/task.rs:155-162 | the truncation to the hour lies in the hour containing the instant and falls on a full hour |
| Tasks.DaysUntilMonday | backend/src/models/task.rs:180-185 | the day offset of the weekly form is between 1 and 7 |
| Tasks.TimeOfDay | backend/src/models/task.rs:217-225 | H:M:00 lies within one day |
| Tasks.EveryMinute | backend/src/models/task.rs:148-151 | "* * * * *" gives the instant one minute ahead |
| Tasks.Hourly | backend/src/models/task.rs:152-163 | "0 * * * *" gives the first full hour strictly after now, at most one hour ahead |
| Tasks.NextFullHour | backend/src/models/task.rs:154-162 | truncating now plus one hour gives the next full hour, with no full hour in between |
| Tasks.Daily | backend/src/models/task.rs:164-177 | "0 0 * * *" gives the first midnight strictly after now, at most one day ahead |
| Tasks.NextMidnight | backend/src/models/task.rs:166-176 | truncating now plus one day gives the next midnight, with no midnight in between |
| Tasks.WeeklyDistance | backend/src/models/task.rs:180-185 | the offset computed from the weekday reaches the next day with weekday index 1 and skips no such day |
| Tasks.Weekly | backend/src/models/task.rs:178-196 | "0 0 * * 1" gives the first midnight strictly after now whose weekday index from Monday is 1 (a Tuesday), at most seven days ahead |
| Tasks.NextTuesday | backend/src/models/task.rs:180-195 | the truncated instant of the weekly form starts the next day with weekday index 1, with none in between |
| Tasks.NextDailyAtIsNext | backend/src/models/task.rs:217-232 | the time-of-day pattern gives the first instant strictly after now at that time of day, at most a day ahead |
| Tasks.SpecificTime | backend/src/models/task.rs:199-200 | "M H * * *" with M at most 59 and H at most 23, digits as u32 parses them, gives the next H:M:00 |
| Tasks.SpecificMidnight | backend/src/models/task.rs:164-177 | "0 0 * * *", caught by the daily form first, agrees with the time-of-day pattern at 00:00 |
| Tasks.SpecificValue | backend/src/models/task.rs:211-237 | the time-of-day pattern accepts the fields and gives the next H:M:00 |
| Tasks.DailyIsMidnightAt | backend/src/models/task.rs:164-177 | the daily form gives the same instant as the next 00:00:00 |
| Tasks.FieldPatternsApply | backend/src/models/task.rs:147-206 | a five-field schedule that is none of the four literal forms falls through to the field patterns |
| Tasks.IntervalMinutes | backend/src/models/task.rs:240-251 | "*/N * * * *" gives now plus N minutes for any i64 N, zero and negative ones included |
| Tasks.IntervalHours | backend/src/models/task.rs:253-258 | "0 */N * * *" gives now plus N hours for any i64 N |
| Tasks.StepField | backend/src/models/task.rs:247-248 | a "*/N" field is not a u32, not "*" and not "0", and its step is N parsed as i64 |
| Tasks.ScheduleIsAhead | backend/src/models/task.rs:138-261 | every parsed schedule lies strictly after now, except an interval of zero or fewer minutes or hours, which gives now plus that interval |
| Tasks.DueRightAfterExecution | backend/src/models/task.rs:271-287 | a task due again right after a successful mark_executed has an interval schedule of zero or fewer units |
| Tasks.InactiveNeverDue | backend/src/models/task.rs:278-287 | an inactive task, or one with no next run, is never due, and an inactive task's update_next_run clears next_run |
| Jobs.ParseJobType | backend/src/models/job.rs:26-37 | any other name fails with "Invalid job type: " followed by the input as given |
| Jobs.ParseJobTypeExact | backend/src/models/job.rs:29-36 | a string names a job kind exactly when its lower-case form is that kind's displayed name |
| Jobs.JobTypeRoundTrip | backend/src/models/job.rs:16-37 | parsing a kind's displayed name, in lower or upper case, gives the kind back |
| Jobs.ParseStatus | backend/src/models/job.rs:71-84 | any other name fails with "Invalid job status: " followed by the input as given |
| Jobs.ParseStatusExact | backend/src/models/job.rs:74-83 | a string names a status exactly when its lower-case form is that status's displayed name |
| Jobs.StatusRoundTrip | backend/src/models/job.rs:59-84 | parsing a status's displayed name, in lower or upper case, gives the status back |
| Jobs.CompressingIsNoStatus | backend/src/models/job.rs:74-83 | `compressing`, which the backup writes between dump and archive, is not a status `Job::status` accepts |
| Jobs.NoStatusOfLength | backend/src/models/job.rs:74-83 | a string whose length is not that of one of the five names never parses as a status |
| Jobs.NewJob | backend/src/models/job.rs:111-127 | a new job takes the request's task, database and backup path, has the request's kind, status pending, progress 0, no timestamps, error or log, and is created now |
| DbConfigs.NewConfig | backend/src/models/database_config.rs:40-53 | a new config takes the request's fields, port 3306 when none is given, and one instant for both stamps |
| DbConfigs.UpdateConfig | backend/src/models/database_config.rs:55-75 | each field the request gives is overwritten, every other stays, `updated_at` becomes now, id and `created_at` are kept |
| DbConfigs.UpdateConfigIdempotent | backend/src/models/database_config.rs:55-75 | applying the same update twice leaves what applying it once left, stamped with the later instant |
| DbConfigs.EmptyConfigUpdate | backend/src/models/database_config.rs:55-75 | an update naming no field only refreshes `updated_at` |
| Backups.NewBackup | backend/src/models/backup.rs:83-105 | a new backup takes the eight arguments unchanged, the fresh id and the RFC 3339 text of now |
| Backups.NewMetadata | backend/src/models/backup.rs:168-188 | the sidecar describes exactly the given backup, has no ident yet, and carries the given config and task records |
| Backups.AccessorsOfJoin | backend/src/models/backup.rs:107-154 | a backup whose archive is at `root/dir/name` reports `name` as its file name and `dir` as its folder; when its sidecar is at `root/dir/metaName`, it reports `metaName` as the sidecar's name and exists exactly when both of those paths are present |
| Backups.AgeDays | backend/src/models/backup.rs:157-164 | an unparsable `created_at` is 0 days old; otherwise the age is the whole number of days elapsed, rounded toward zero for past and future stamps alike |
| Backups.TruncDivBounds | backend/src/models/backup.rs:160 | the day count rounded toward zero is the largest whole multiple of a day not farther from zero than the elapsed time |
| FsBackups.Sanitize | backend/src/services/filesystem_backup.rs:36-46 | the ten replace calls keep the length and map each character on its own: the ten unsafe characters to `_`, every other character to itself |
| FsBackups.SanitizeIdempotent | backend/src/services/filesystem_backup.rs:36-46 | a sanitised name holds none of the ten characters, and sanitising it again changes nothing |
| FsBackups.DirectoryName | backend/src/services/filesystem_backup.rs:21-48 | the directory name is the sanitised base (the config name, or config name, `-` and the task's or config's database with a task), then `-`, then the uuid |
| FsBackups.DirectoryNameIsNormal | backend/src/services/filesystem_backup.rs:36-47 | with a uuid free of `/`, the directory name is a single path component |
| FsBackups.ProcessFor | backend/src/services/filesystem_backup.rs:51-70 | the process lives in base/directory name, uses the task's compression or "gzip", and has type "scheduled", the given id, config and task |
| FsBackups.CreateBackupProcess | backend/src/services/filesystem_backup.rs:51-76 | the process is the one derived above; the call fails exactly when `initialize` fails, with its error, and in both cases the disk is exactly what `initialize` leaves |
| FsBackups.ArchiveFolderIsRunDirectory | backend/src/services/filesystem_backup.rs:58-59 | a finished run's archive has the archive name as file name and the run's directory name as parent folder |
| FsBackups.InferCompression | backend/src/services/filesystem_backup.rs:226-234 | the compression is "unknown" exactly when the path has none of the three archive endings |
| FsBackups.CompressionOfGz | backend/src/services/filesystem_backup.rs:226-229 | a path ending in `.tar.gz` is read as gzip |
| FsBackups.CompressionOfZst | backend/src/services/filesystem_backup.rs:226-227 | a path ending in `.tar.zst` is read as zstd |
| FsBackups.CompressionOfTar | backend/src/services/filesystem_backup.rs:226-231 | a path ending in `.tar` is read as none |
| FsBackups.CompressionOfEnding | backend/src/services/filesystem_backup.rs:226-234 | a path with the extension of a compression reads back as that compression, with gzip for any unknown one |
| FsBackups.InferCompressionOfArchive | backend/src/services/filesystem_backup.rs:226-234 | the compression read off a finished run's archive is the one it was written with, gzip for anything unknown |
| FsBackups.ParseBackupFilename | backend/src/services/filesystem_backup.rs:275-305 | the ident is always `size_<n>_modified_<secs>`; the database name is the stripped name or its part before a `-`; a creation time other than now is the RFC 3339 form of a real date with a four-digit year |
| FsBackups.StripArchiveName | backend/src/services/filesystem_backup.rs:277-280 | removing the three endings from `<db>-<stamp>.<ext>` leaves `<db>-<stamp>` when the database name holds no `.tar` |
| FsBackups.ParseArchiveName | backend/src/services/filesystem_backup.rs:275-296 | an archive name this service wrote parses back to its database name, its creation instant in RFC 3339 and the ident, when the database name holds no `.tar` |
| FsBackups.LastBefore | backend/src/services/filesystem_backup.rs:284-286 | `rfind` of a character finds the copy placed before a tail that holds none |
| BackupScan.Then | backend/src/services/filesystem_backup.rs:96-161 | once a step has failed (`?`), later steps add nothing; otherwise the backups and sidecar writes of both steps add up |
| BackupScan.Named | backend/src/services/filesystem_backup.rs:106-108 | the sidecar check finds a listed entry of that name, or there is none |
| BackupScan.FindBackupFile | backend/src/services/filesystem_backup.rs:164-180 | the result is a file of the folder with an archive ending, and when there is none no file of the folder has one |
| BackupScan.LoadSidecar | backend/src/services/filesystem_backup.rs:330-334 | loading succeeds exactly for a file holding a readable record |
| BackupScan.SynthesizedMetadata | backend/src/services/filesystem_backup.rs:215-268 | the synthesized sidecar has the archive path, its own path, the size, "unknown" config id, no task, type "external", the inferred compression, the size-and-time ident and a config on port 3306 named after the parsed database |
| BackupScan.Adopt | backend/src/services/filesystem_backup.rs:137-155 | an adopted archive adds exactly one backup and one sidecar write, or, when its time lies before the epoch or its sidecar cannot be written, nothing and a failure |
| BackupScan.ScanDirectory | backend/src/services/filesystem_backup.rs:96-161 | the loop over the listing, recursing into plain folders, yields the scan of the whole listing that stops at the first failure |
| BackupScan.ScanTurn | backend/src/services/filesystem_backup.rs:100-157 | one turn adds the next entry's result to the scan so far |
| BackupScan.ScanEntry | backend/src/services/filesystem_backup.rs:103-157 | the decision tree for one entry; no contract of its own, stated by `BackupScan.FolderWithSidecar`, `BackupScan.FolderWithOrphanArchive`, `BackupScan.PlainFolderSearched` and `BackupScan.LooseArchive` |
| BackupScan.ScanList | backend/src/services/filesystem_backup.rs:96-161 | a listing scanned in order, stopping at the first failure; no contract of its own, stated by `BackupScan.FailureStops` and `BackupScan.ScanListSound` |
| BackupScan.ScanDirectoryEntry | backend/src/services/filesystem_backup.rs:103-157 | one entry is handled by the decision tree; a plain folder by the recursive call |
| BackupScan.FailureStops | backend/src/services/filesystem_backup.rs:98-100 | after an error the rest of the listing changes nothing |
| BackupScan.FolderWithSidecar | backend/src/services/filesystem_backup.rs:108-134 | a folder holding `rdumper.backup.json` is not searched below: at most one backup, at an archive directly inside it with that sidecar, and no writes |
| BackupScan.FolderWithOrphanArchive | backend/src/services/filesystem_backup.rs:135-142 | a folder with an archive but no sidecar is not searched below: it fails exactly when the archive's time lies before the epoch, and otherwise adds one "external" backup for that archive and writes the sidecar beside it, which is what is read back |
| BackupScan.PlainFolderSearched | backend/src/services/filesystem_backup.rs:143-146 | any other folder is searched: its result is the scan of its own listing |
| BackupScan.LooseArchive | backend/src/services/filesystem_backup.rs:148-156 | a loose archive with a valid time adds one backup and writes the directory's sidecar |
| BackupScan.LooseArchivesShareSidecar | backend/src/services/filesystem_backup.rs:150-155 | two loose archives in one directory both write that directory's single `rdumper.backup.json` |
| BackupScan.ThenSound | backend/src/services/filesystem_backup.rs:96-161 | joining two sound scans gives a sound scan |
| BackupScan.ScanEntrySound | backend/src/services/filesystem_backup.rs:103-157 | every backup an entry yields has an archive path, and every sidecar written is an "external" record stored at its own meta path |
| BackupScan.ScanListSound | backend/src/services/filesystem_backup.rs:96-161 | the same holds for the scan of a whole listing |
| BackupScan.AdoptSound | backend/src/services/filesystem_backup.rs:215-268 | an adopted archive yields a sound scan |
| BackupScan.SynthesizedOfOwnArchive | backend/src/services/filesystem_backup.rs:226-243 | the sidecar synthesized for an archive this service wrote names its database, creation instant and compression, when the database name holds neither `/` nor `.tar` |
| BackupScan.LexLeTotal | backend/src/services/filesystem_backup.rs:90 | the string order the sort uses is total |
| BackupScan.LexLeTransitive | backend/src/services/filesystem_backup.rs:90 | and transitive |
| BackupScan.NewestFirstPairwise | backend/src/services/filesystem_backup.rs:90 | in a newest-first list no later backup is newer than an earlier one |
| BackupScan.Insert | backend/src/services/filesystem_backup.rs:90 | inserting adds exactly that backup and puts it first or keeps the first one |
| BackupScan.InsertKeepsOrder | backend/src/services/filesystem_backup.rs:90 | inserting into a newest-first list keeps it newest first |
| BackupScan.SortNewestFirstCorrect | backend/src/services/filesystem_backup.rs:90 | the sort yields a newest-first permutation of the scanned backups |
| BackupScan.SortNewestFirst | backend/src/services/filesystem_backup.rs:90 | the sort newest first; no contract of its own, stated by `BackupScan.SortNewestFirstCorrect` |
| BackupScan.ScanBackups | backend/src/services/filesystem_backup.rs:79-93 | a missing base directory gives nothing; otherwise the scan's writes and failure, and its backups reordered newest first |
| BackupScan.GetBackupStats | backend/src/services/filesystem_backup.rs:573-593 | the count is the number of backups, the size their sum, and the two breakdowns are the counts by type and by database |
| BackupScan.CountByCounts | backend/src/services/filesystem_backup.rs:582-585 | a key is present exactly when some backup has it, with the number of backups that have it |
| BackupScan.CountsSumToTotal | backend/src/services/filesystem_backup.rs:576-593 | each breakdown's counts sum to the total count |
| BackupScan.MapTotalRemove | backend/src/services/filesystem_backup.rs:582-585 | the sum of the counts can be taken with any key first |
| BackupProcesses.NewProcess | backend/src/services/backup_process.rs:24-45 | `tmp` and `rdumper.backup.json` are named children of the root directory, and every other field is taken as given |
| BackupProcesses.ArchiveName | backend/src/services/backup_process.rs:140-146 | the config's database name, `-`, the stamp of now and the extension; no contract of its own, stated by `BackupProcesses.ArchiveNameIsNormal` and `Extraction.ExtensionOfArchive` |
| BackupProcesses.Ident | backend/src/services/backup_process.rs:244 | `size_<n>_modified_<s>`; no contract of its own, stated by `BackupProcesses.IdentRoundTrip` |
| BackupProcesses.InitializeOf | backend/src/services/backup_process.rs:48-59 | the three steps of `initialize` in order, each stopping the rest on failure; no contract of its own, stated by `BackupProcesses.InitializeOutcome` |
| BackupProcesses.AfterComplete | backend/src/services/backup_process.rs:67-84 | the disk after a successful `complete`; no contract of its own, stated by `BackupProcesses.CompleteOutcome` |
| BackupProcesses.ArchiveExtension | backend/src/services/backup_process.rs:155-162 | zstd archives as `tar.zst`, none as `tar`, and every other compression name, known or not, as `tar.gz` |
| BackupProcesses.TarArgs | backend/src/services/backup_process.rs:171-188 | the tar command line ends with the output path, then `-C <tmp> --warning=no-file-changed .` |
| BackupProcesses.TarFlagsMatchExtension | backend/src/services/backup_process.rs:155-186 | the compression flag tar is given and the extension the archive is named with agree for every compression name |
| BackupProcesses.ExtensionOfCompression | backend/src/services/backup_process.rs:155-162 | each compression a task can name gets its own extension: gzip `tar.gz`, zstd `tar.zst`, none `tar` |
| BackupProcesses.U16Of | backend/src/services/backup_process.rs:92 | the port written to the sidecar is below 65536 and equals the configured port when that fits |
| BackupProcesses.I64Of | backend/src/services/backup_process.rs:73 | the archive length read as `i64` is in range, equals the length when it fits, and is congruent to it modulo 2^64 |
| BackupProcesses.ModifiedSecs | backend/src/services/backup_process.rs:241-243 | a modification time before the epoch counts as 0 seconds, any other as itself |
| BackupProcesses.UsedDatabase | backend/src/services/backup_process.rs:104-113 | the used database is the config's name, a slash, and the task's database when it names one, else the config's |
| BackupProcesses.InitialMetadata | backend/src/services/backup_process.rs:87-136 | the first sidecar has no archive path, size 0 and no ident, and records the process's ids, types, used database, 16-bit port and task schedule |
| BackupProcesses.IdentRoundTrip | backend/src/services/backup_process.rs:244 | the integrity tag `size_<n>_modified_<s>` reads back as exactly that size and those seconds |
| BackupProcesses.UpdateMetadataFast | backend/src/services/backup_process.rs:233-250 | the archive's path, size and ident are filled in and every other sidecar field is left as read |
| BackupProcesses.Initialize | backend/src/services/backup_process.rs:48-59 | the result and the disk are those `InitializeOf` gives: the root, then `tmp`, each with its missing ancestors, then the sidecar; a failing step returns its error and keeps what the earlier steps made |
| BackupProcesses.InitializeOutcome | backend/src/services/backup_process.rs:32-59 | for a process built by `new` on a root path without a trailing `/`: `initialize` succeeds exactly when the root's chain of directories can be created, `tmp` is not a file and the sidecar path is not a directory; then the root and `tmp` are directories, the sidecar holds the initial metadata, every other existing node is kept and every new node is a directory; a root that cannot be created fails with the disk unchanged |
| BackupProcesses.Complete | backend/src/services/backup_process.rs:67-84 | the result and the disk are those `CompleteOf` gives; a tar that cannot be started fails with its io error and one that exits unsuccessfully with "Failed to create tar archive", both with no change; success needs tar to have exited with 0, returns the archive path under the root, named by database, UTC stamp and extension, after the sidecar was read, and leaves `AfterComplete` of that sidecar |
| BackupProcesses.CompleteOf | backend/src/services/backup_process.rs:67-84 | `complete` on a disk: a tar that cannot be started fails with its io error and one that exits unsuccessfully with "Failed to create tar archive", both with no change; a success returns the archive path and needs tar to have exited with 0; otherwise the first failing step after the tar stops the rest |
| BackupProcesses.CompleteOfOutcome | backend/src/services/backup_process.rs:67-84 | a successful `complete` found a record in the sidecar and leaves `AfterComplete` of it; a `complete` that fails after the tar leaves what `KeptArchive` describes |
| BackupProcesses.CompleteSucceeds | backend/src/services/backup_process.rs:32-84 | for a process laid out by `new` below a clean root, with a database name free of `/` and a four-digit year, a `complete` whose tar succeeded returns the archive exactly when the sidecar holds a record, the root is a directory, and `tmp`, when present, is a directory |
| BackupProcesses.UpdateMetadataOf | backend/src/services/backup_process.rs:233-250 | `update_metadata_fast` on a disk: success needs a readable sidecar and leaves it rewritten with the archive's path, size and ident; a failure changes nothing |
| BackupProcesses.UpdateMetadata | backend/src/services/backup_process.rs:233-250 | the result and the disk are those `UpdateMetadataOf` gives |
| BackupProcesses.CleanupTmpOf | backend/src/services/backup_process.rs:253-258 | `cleanup_tmp` on a disk: it fails exactly when `tmp` is there and is not a directory, with the disk unchanged; otherwise a present `tmp` is removed with everything below it and an absent one changes nothing |
| BackupProcesses.CleanupTmp | backend/src/services/backup_process.rs:253-258 | the result and the disk are those `CleanupTmpOf` gives |
| BackupProcesses.CompleteOutcome | backend/src/services/backup_process.rs:67-84 | for a process built by `new`, a successful `complete` leaves no `tmp`, the archive with its size, and a sidecar recording that archive, its size and ident |
| BackupProcesses.ArchiveNameIsNormal | backend/src/services/backup_process.rs:140-146 | with a database name free of `/`, the archive's name is one path component, distinct from `tmp` and the sidecar's name |
| Clock.SecondOfDay | backend/src/models/task.rs:166-176 | the second within the UTC day is below 86400 and, with the day number, gives the instant back |
| Clock.StartOfDay | backend/src/models/task.rs:166-176 | the midnight that starts the day holding an instant is at most that instant, less than a day before it, and a whole number of days after the epoch |
| Clock.WeekdayFromMonday | backend/src/models/task.rs:180 | the weekday counted from Monday is between 0 and 6 |
| Clock.CivilOf | backend/src/services/backup_process.rs:140 | the UTC calendar date and clock time of an instant is a real date with seconds below 60 |
| Clock.CivilOfRoundTrip | backend/src/services/backup_process.rs:140 | the calendar form of an instant loses nothing: the instant can be computed back from it |
| Clock.Year4 | backend/src/services/backup_process.rs:140 | `%Y` renders years 0 to 9999 as exactly four digits and any other year starting with a sign |
| Clock.ParseStamp | backend/src/services/filesystem_backup.rs:291 | a stamp that parses names a real date and time of a four-digit year |
| Clock.ParseFormatStamp | backend/src/services/backup_process.rs:140 | reading back a rendered `%Y%m%d_%H%M%S` stamp gives the same date and time, for four-digit years |
| Clock.FormatStampShape | backend/src/services/backup_process.rs:140 | a rendered stamp of a four-digit year is eight digits, an underscore and six digits |
| Clock.FormatStamp | backend/src/services/backup_process.rs:140 | `%Y%m%d_%H%M%S`; no contract of its own, stated by `Clock.FormatStampShape` and `Clock.ParseFormatStamp` |
| Clock.Rfc3339 | backend/src/services/filesystem_backup.rs:292 | `to_rfc3339` of a whole-second UTC instant, `YYYY-MM-DDTHH:MM:SS+00:00`; no contract of its own, used by `BackupScan.SynthesizedOfOwnArchive` to relate the stamp in an archive's name to the `created_at` synthesized from it |
| Text.ToLower | backend/src/models/job.rs:30 | lower-casing keeps the length and maps every character on its own |
| Text.ToUpper | backend/src/services/mydumper.rs:42 | upper-casing keeps the length and maps every character on its own |
| Text.LowerOfUpper | backend/src/models/task.rs:36 | a lower-case ASCII name is fixed by lower-casing and comes back from its upper-case spelling |
| Text.RFindChar | backend/src/services/filesystem_backup.rs:284 | the index found holds the character and no later index does; nothing is found exactly when the character is absent |
| Text.SplitOnce | backend/src/api/system.rs:105 | the split exists exactly when the separator occurs, and the text is the part before, the separator, and the part after, with no separator before |
| Text.SplitAtFirst | backend/src/api/system.rs:105 | a separator placed after a separator-free prefix is the one the split finds |
| Text.SplitWhitespace | backend/src/models/task.rs:139 | every word found is non-empty and contains no whitespace |
| Text.SplitWhitespaceOfSpaced | backend/src/models/task.rs:139 | non-empty whitespace-free words joined by single spaces split back into the same words |
| Text.Lines | backend/src/services/progress_tracker.rs:100 | no line holds a newline, and an empty text has no lines |
| Text.LinesOfTerminated | backend/src/services/progress_tracker.rs:100 | lines each written with a trailing newline read back as the same lines |
| Text.ReplaceAllSkipsPrefix | backend/src/services/filesystem_backup.rs:37-46 | a prefix in which no match starts passes through `replace` unchanged |
| Text.ReplaceAllNoMatch | backend/src/services/filesystem_backup.rs:37-46 | replacing a pattern that never occurs leaves the text unchanged |
| Text.TrimChar | backend/src/api/system.rs:106 | the result neither starts nor ends with the character, is no longer than the input, and a text already free of it at both ends is unchanged |
| Text.Trim | backend/src/api/system.rs:160 | the result neither starts nor ends with whitespace |
| Text.TrimEndMatches | backend/src/api/backups.rs:261 | the result is a prefix of the input that no longer ends with the pattern |
| Text.NatToString | backend/src/services/backup_process.rs:244 | a number prints as a non-empty run of digits with no leading zero |
| Text.DigitsValueOfNatToString | backend/src/services/backup_process.rs:244 | the digits printed for a number have that number as their value |
| Text.ParseUnsigned | backend/src/models/task.rs:214 | a parsed unsigned value is below the type's bound and the text starts with a digit or `+` |
| Text.ParseSigned | backend/src/models/task.rs:248-255 | a parsed signed value lies in the type's range |
| Text.ParseUnsignedOfNatToString | backend/src/models/task.rs:214 | parsing a printed number gives it back when it fits the type |
| Text.ParseUnsignedRejectsMinus | backend/src/models/task.rs:214 | a leading minus sign never parses as an unsigned number |
| Paths.Components | backend/src/services/backup_process.rs:32-33 | every component of a path is non-empty, not `.`, and free of separators |
| Paths.Join | backend/src/services/backup_process.rs:32-33 | a path joined with a normal name ends with that name |
| Paths.ComponentsOfJoin | backend/src/services/backup_process.rs:32-33 | joining a normal name adds exactly that one component to the path |
| Paths.ParentOfJoined | backend/src/api/jobs.rs:180 | the parent of a directory and a name joined by one separator is that directory |
| Paths.FileName | backend/src/models/backup.rs:107-113 | a file name found is a normal name |
| Paths.ParentName | backend/src/models/backup.rs:115-117 | a folder name found is a normal name |
| Paths.Extension | backend/src/services/mydumper.rs:462-464 | an extension found contains no dot |
| Paths.FileNameOfJoin | backend/src/models/backup.rs:107-109 | the file name of a path joined with a normal name is that name |
| Paths.ParentNameOfJoin | backend/src/models/backup.rs:115-117 | the folder of a file joined two levels below a path is the first name joined |
| Paths.SiblingsApart | backend/src/services/backup_process.rs:32-33 | two different normal names joined to one path give two paths, neither below the other |
| Disk.WithoutTree | backend/src/services/backup_process.rs:255 | exactly the paths not at or below the removed directory remain, each with its node unchanged |
| Disk.SidecarOf | backend/src/services/backup_process.rs:132-133 | the written sidecar parses back to the record, and its JSON `task_id` and `created_at` are the record's |
| Disk.CreateDirAllOf | backend/src/services/backup_process.rs:50 | `create_dir_all`: a directory already there is done, a file at the path fails with "File exists (os error 17)", otherwise the parent's chain is made first and a file in its way fails with "Not a directory (os error 20)"; stated by the three lemmas below |
| Disk.CreateDirAllShape | backend/src/services/backup_process.rs:50-53 | a successful `create_dir_all` keeps every node, adds only directories no longer than the path, and leaves the path a directory unless it is the root, the current directory or has no parent |
| Disk.CreateDirAllFails | backend/src/services/mydumper.rs:90 | `create_dir_all` fails exactly when, walking up from the path through its parents, the first node that exists is not a directory |
| Disk.CreateDirAllIdempotent | backend/src/services/mydumper.rs:458 | creating the same directories a second time succeeds and changes nothing |
| Disk.CreateChildDir | backend/src/services/backup_process.rs:53 | below an existing directory, `create_dir_all` of a child adds just the child, keeps a directory already there and fails with "File exists (os error 17)" on a file |
| Disk.WriteError | backend/src/services/backup_process.rs:133 | why `fs::write` or `File::create` fails: a directory at the path, a file as its parent, or a missing parent; no contract of its own, stated by `Disk.WriteBelowDir` and the write methods |
| Disk.WriteBelowDir | backend/src/services/backup_process.rs:133 | writing a file directly inside an existing directory fails only when the path is itself a directory |
| Disk.FileSystem.ReadSidecarFields | backend/src/services/task_worker.rs:440-447 | reading the `task_id` and `created_at` of a sidecar succeeds exactly when a sidecar is at the path, and yields those two JSON members |
| Disk.FileSystem.ReadSidecar | backend/src/services/backup_process.rs:234-235 | reading a sidecar succeeds exactly when the path holds a sidecar with parsable contents, and yields those contents; the answer is the one `Disk.ReadSidecarOf` gives on the same disk |
| Disk.ReadSidecarOf | backend/src/services/backup_process.rs:234-235 | reading a sidecar from a disk succeeds exactly when the path holds a sidecar with parsable contents, and yields those contents |
| Disk.FileSystem.CreateDirAll | backend/src/services/backup_process.rs:50-53 | `create_dir_all` as `CreateDirAllOf` gives it: on failure the error is returned and nothing changes, on success the tree is the one with the path and its missing ancestors created |
| Disk.FileSystem.WriteSidecar | backend/src/services/backup_process.rs:133 | writing a sidecar fails exactly where `WriteError` finds a directory at the path, a file as its parent or no parent at all, with that error and nothing changed; otherwise it replaces what was at the path |
| Disk.FileSystem.WriteManifest | backend/src/services/mydumper.rs:104 | writing the manifest fails exactly where `WriteError` finds a directory at the path, a file as its parent or no parent at all, with that error and nothing changed; otherwise it replaces what was at the path |
| Disk.FileSystem.CreateFile | backend/src/services/mydumper.rs:111 | creating a file fails exactly where `WriteError` finds a directory at the path, a file as its parent or no parent at all, with nothing changed; otherwise it leaves an empty file stamped now, truncating any file there |
| Disk.FileSystem.WriteFile | backend/src/api/backups.rs:269 | writing bytes fails exactly where `WriteError` finds a directory at the path, a file as its parent or no parent at all, with nothing changed; otherwise it leaves a file of that size and time |
| Disk.FileSystem.PutFile | backend/src/services/backup_process.rs:190 | the archive tar writes is a file of the size and time tar left, and nothing else changes |
| Disk.FileSystem.RemoveFile | backend/src/services/filesystem_backup.rs:552-557 | removing a file fails exactly on a missing path or a directory, changing nothing, with "No such file or directory (os error 2)" or "Is a directory (os error 21)"; otherwise it removes that one path |
| Disk.FileSystem.RemoveDirAll | backend/src/services/backup_process.rs:255 | removing a tree fails exactly when the path is no directory, changing nothing, with "Not a directory (os error 20)" on a file and "No such file or directory (os error 2)" on a missing path; otherwise it removes the directory and everything below it |
| Mydumper.BaseArgs | backend/src/services/mydumper.rs:124-136 | every dump starts with the same 21 connection, output, logging and object arguments |
| Mydumper.DumpFlags | backend/src/services/mydumper.rs:124-160 | after the fixed arguments, the engines are ignored exactly for transactional tasks, `--trx-tables` and `--no-backup-locks` appear exactly for non-transactional ones, and the compression flag follows the task's compression |
| Mydumper.DumpArgs | backend/src/services/mydumper.rs:124-160 | the mydumper command line; no contract of its own, stated by `Mydumper.DumpFlags` |
| Mydumper.EngineFlags | backend/src/services/mydumper.rs:139-146 | each engine policy adds its own flags and never a compression flag |
| Mydumper.UnparseableCompressionIsGzip | backend/src/services/mydumper.rs:149 | a compression name that does not parse is dumped with the gzip flag and archived as `.tar.gz` |
| Mydumper.StoredCompressionAgrees | backend/src/services/mydumper.rs:149-160 | for every compression name a task stores, the dump flag and the archive extension name the same compression |
| Mydumper.RunRowsParse | backend/src/services/mydumper.rs:176-189 | a finished row reads back as completed and a failed one as failed, while the intermediate `compressing` reads back as no status |
| Mydumper.UpdateJobStatus | backend/src/services/mydumper.rs:213-267 | one statement on the job's row: status always, `started_at` only for running, `completed_at` only for the three finishing statuses, error and log only when given; no row, no change |
| Mydumper.UpdateJobBackupPath | backend/src/services/mydumper.rs:270-277 | only the row's `backup_path` changes; no row, no change |
| Mydumper.LogFilesApart | backend/src/services/mydumper.rs:89-110 | the log directory, the manifest and the log file are three different paths |
| Mydumper.PrepareLogs | backend/src/services/mydumper.rs:89-111 | the result and the disk are those `PrepareLogsOf` gives: the log directory with its missing ancestors, then the manifest, then an empty log file whose path is returned; a failing step returns its error and keeps what the earlier steps made |
| Mydumper.PrepareLogsOf | backend/src/services/mydumper.rs:89-111 | the three steps of the log preparation in order, each stopping the rest on failure; no contract of its own, stated by `Mydumper.PrepareLogsOutcome` |
| Mydumper.PrepareLogsOutcome | backend/src/services/mydumper.rs:89-111 | for a job id without a trailing `/`: the preparation succeeds exactly when the log directory's chain can be created and neither the manifest nor the log path is a directory; then it returns the log path, the directory holds the manifest and an empty log, and every other existing node is kept; a blocked chain fails with the disk unchanged |
| Mydumper.RunRowCarriesLastStatus | backend/src/services/mydumper.rs:113-189 | a run that starts writes running first; its row carries the last status written, `started_at` from the running write and the log; `completed_at` is the instant of the failed write after a failed dump and of the completed write after a finished run, and is left as it was when mydumper could not be started or archiving failed |
| Mydumper.RunRowStatus | backend/src/services/mydumper.rs:113-189 | a started run's row reads back as a status exactly unless archiving failed, which leaves `compressing`; when mydumper could not be started it reads back as running |
| Mydumper.RunningRow | backend/src/services/mydumper.rs:113-165 | the row left when mydumper cannot be started reads back as running, started at the running write, with its log and `completed_at` untouched |
| Mydumper.CompressingRow | backend/src/services/mydumper.rs:183-186 | the row an archiving failure leaves is `compressing`, started at the running write, with its log and `completed_at` untouched, and reads back as no status |
| Mydumper.RunWrites | backend/src/services/mydumper.rs:114-192 | the statuses a run writes, in order, by where it stops; no contract of its own, stated by `Mydumper.RunRowCarriesLastStatus` and `Mydumper.RunRowsParse` |
| Mydumper.RunTouchesOneRow | backend/src/services/mydumper.rs:114-192 | the statements of a run change only its own job's row, leaving it as the run's end describes, and leave a table without that row unchanged |
| Mydumper.PrepareRun | backend/src/services/mydumper.rs:73-111 | the result and the disk are those `PrepareRunOf` gives: a failed table analysis is returned with nothing changed; otherwise the run directory with its sidecar and then the log directory with manifest and log file are laid out, and a failing step returns its error and keeps what the earlier steps made |
| Mydumper.PrepareRunOf | backend/src/services/mydumper.rs:73-111 | the steps before mydumper on a disk: a failed table analysis is returned with the disk unchanged; a success returns the run `new` builds and the log file's path |
| Mydumper.RunFilesOf | backend/src/services/mydumper.rs:84-111 | `initialize` and then the log preparation: a success needs `initialize` to have succeeded and returns the log file's path |
| Mydumper.PrepareRunOfLayout | backend/src/services/mydumper.rs:73-111 | a successful preparation leaves exactly the prepared layout: the initialized run directory, then the log directory with the manifest built from the analysed tables and an empty log |
| Mydumper.PreparedRunCompletes | backend/src/services/mydumper.rs:84-186 | over a prepared layout whose log files are apart from the run's root, `tmp` and sidecar, a `complete` at the archiving instant whose tar exited with 0 returns the archive path named by that instant and leaves the completed layout |
| Mydumper.LogsKeep | backend/src/services/mydumper.rs:89-111 | a successful log preparation keeps every existing node other than the manifest and the log file |
| Mydumper.CompleteRun | backend/src/services/mydumper.rs:186 | the result and the disk are those `CompleteOf` gives: a tar that cannot be started fails with its io error and a failed tar with "Failed to create tar archive", with nothing changed; success needs tar to have exited with 0, returns the archive path and, for well-formed names, leaves the completed layout |
| Mydumper.ArchiveRun | backend/src/services/mydumper.rs:182-194 | compressing is written at the dump's end, the run is completed into the archive named by the archiving instant, then completed is written at its own instant with the archive path; a failed archiving leaves the row compressing; the result and the disk are those `CompleteOf` gives |
| Mydumper.DumpAndArchive | backend/src/services/mydumper.rs:113-194 | running is written; a mydumper that cannot be started returns its io error after that one write; one that exits unsuccessfully writes failed with the exit code's message and returns it; in both cases the disk is unchanged; otherwise the run is archived and the result and the disk are those `CompleteOf` gives; the reply is the one `Replied` describes for where the run stopped |
| Mydumper.CreateBackupWithProgress | backend/src/services/mydumper.rs:62-195 | the whole run, each step at its own clock reading: no status is written before the preparation succeeds, and a failed preparation returns its error over the disk `PrepareRunOf` leaves; a mydumper that cannot be started or fails leaves that disk; otherwise the result and the disk are those `CompleteOf` gives on it; the status writes and the job row follow where the run stopped, and the reply is the io error, the exit message, the tar error or the archive path as `Replied` describes |
| Engines.ExcludedNames | backend/src/services/mydumper.rs:46 | exactly the seven engines MYISAM, MEMORY, CSV, ARCHIVE, FEDERATED, MERGE and BLACKHOLE are excluded |
| Engines.AnalyzeTableEngines | backend/src/services/mydumper.rs:35-59 | the loop returns the names of the dumped tables and the labels of the excluded ones, each in row order, skipping a row whose engine is NULL (a view) |
| Engines.AnalyzeAsWritten | backend/src/services/mydumper.rs:38-40 | the loop as written gets past the rows exactly when none has a NULL engine, and then gives the same two lists |
| Engines.ViewPanicsAnalysis | backend/src/services/mydumper.rs:29-40 | for a schema of one InnoDB table and one view, the analysis as written stops, while the corrected one dumps the table and excludes nothing |
| Engines.RowsWithEngine | backend/src/services/mydumper.rs:29-40 | the rows that name an engine are at most all rows, and are all of them in a schema without views |
| Engines.EveryRowPlacedOnce | backend/src/services/mydumper.rs:38-55 | every row that names an engine lands in exactly one of the two lists, and a view in neither |
| Engines.ClassifyConcat | backend/src/services/mydumper.rs:38-55 | classifying two runs of rows one after the other is classifying each; row order is kept |
| Engines.ClassifyRow | backend/src/services/mydumper.rs:42-54 | a row of an excluded engine contributes its `name (engine)` label to the excluded list; a row of any other engine, unknown engines included, contributes its name to the dump; a view contributes nothing |
| Engines.LowercaseMyIsamExcluded | backend/src/services/mydumper.rs:42 | engines are compared upper-cased, so `myisam` is excluded as `MyISAM` is |
| Engines.InnoDbAndAriaKept | backend/src/services/mydumper.rs:43-53 | InnoDB and an engine the list does not name, such as Aria, are dumped |
| Engines.ManifestOf | backend/src/services/mydumper.rs:93-102 | the manifest records the dumped tables, the excluded labels, the database and the start time as given |
| Engines.ManifestCountsEveryRow | backend/src/services/mydumper.rs:93-97 | the manifest's `count` is the number of rows the schema query returned that name an engine |
| Engines.ProgressCoversEveryRow | backend/src/services/mydumper.rs:93-99 | progress read back from a run's manifest has one entry per schema row that names an engine, the excluded ones skipped |
| Engines.IgnoredEnginesAreExcluded | backend/src/services/mydumper.rs:142-145 | the engines `--ignore-engines` names are, upper-cased and in order, the engines the table analysis excludes |
| Engines.IgnoredEnginesExcluded | backend/src/services/mydumper.rs:142-145 | every engine a dump ignores is one whose tables the analysis leaves out |
| Extraction.WithoutExtension | backend/src/services/mydumper.rs:457 | the extraction directory is the archive path without its last extension and dot; a path with no extension is kept |
| Extraction.ExtractArgs | backend/src/services/mydumper.rs:460-468 | tar arguments exist exactly for a `gz` or `zst` extension, end with the archive, `-C` and the extraction directory, and every other archive fails with "Unsupported archive format" |
| Extraction.ExtractCompressedArchive | backend/src/services/mydumper.rs:456-477 | the extraction directory and its missing ancestors are created before the extension is examined; a chain blocked by a file fails with that error and nothing changed; after the directories were made, an unsupported format fails, a tar that cannot be started fails with its io error and one that exits unsuccessfully with "Failed to extract compressed archive"; success, exactly when the chain was made, the format is supported and tar exited with 0, returns the directory |
| Extraction.ExtensionOfArchive | backend/src/services/backup_process.rs:140-146 | an archive this service wrote reports `gz`, `zst` or `tar` as its extension, following its compression |
| Extraction.RestoreOfOwnArchive | backend/src/services/mydumper.rs:462-468 | a restore can extract the service's gzip and zstd archives, with the compression they were created with, and not the plain `.tar` of an uncompressed run |
| Extraction.TarFlags | backend/src/services/backup_process.rs:173-186 | the first archiving flag is `-c` for zstd, `-cf` for none and `-czf` for every other name |
| Extraction.PlainTarNotRestorable | backend/src/services/mydumper.rs:462-468 | the plain `.tar` of a run without compression is refused as an unsupported format |
| Extraction.ExtractArgsIntended | backend/src/services/mydumper.rs:460-468 | with a `tar` case added, arguments exist exactly for `gz`, `zst` and `tar`, and agree with the code for every other extension |
| Extraction.EveryArchiveRestorable | backend/src/services/mydumper.rs:460-468 | with the `tar` case, every archive the service writes can be extracted, the plain one with the plain flag |
| Progress.ClosingQuote | backend/src/services/progress_tracker.rs:82-85 | the backtick found closes a non-empty run free of backticks that starts at the given index |
| Progress.DigitRun | backend/src/services/progress_tracker.rs:83 | the run found is all decimal digits in the sense of the regex `\d`, which is Unicode `Nd`, and is not followed by one |
| Progress.IsDecimalDigit | backend/src/services/progress_tracker.rs:83 | the regex `\d`: ASCII digits and every other Unicode 15.0 `Nd` character; no contract of its own, stated by `Progress.ArabicIndicDigitReadsAsZero` |
| Progress.ArabicIndicDigitReadsAsZero | backend/src/services/progress_tracker.rs:83-112 | a line `` `t` [٥%] `` matches the data pattern with the Arabic-Indic digit five, whose `parse::<u32>` fails, so the table's progress reads as 0 |
| Progress.MatchFrom | backend/src/services/progress_tracker.rs:82-84 | a pattern matched at an index captures a non-empty table name with no backtick in it |
| Progress.Leftmost | backend/src/services/progress_tracker.rs:110-131 | the leftmost match of a pattern captures a non-empty table name with no backtick in it |
| Progress.ErrorCapture | backend/src/services/progress_tracker.rs:134-141 | the error pattern captures a non-empty table name with no backtick in it |
| Progress.FirstNamed | backend/src/services/progress_tracker.rs:100-142 | the entry found is the first with that name; nothing is found exactly when no entry has it |
| Progress.ParseTableProgress | backend/src/services/progress_tracker.rs:78-145 | the loops return every manifest table pending, then updated by the log's lines in order |
| Progress.ScanLine | backend/src/services/progress_tracker.rs:100-141 | one line goes through the schema, data, completed and error checks in that order |
| Progress.CheckSchema | backend/src/services/progress_tracker.rs:102-108 | a schema match starts the first entry of the captured name at the line's instant |
| Progress.CheckData | backend/src/services/progress_tracker.rs:111-122 | a data match puts the first entry of the captured name in progress at the parsed percentage, keeping an earlier start |
| Progress.CheckCompleted | backend/src/services/progress_tracker.rs:125-132 | a 100% match completes the first entry of the captured name at 100% and stamps its completion |
| Progress.CheckError | backend/src/services/progress_tracker.rs:135-141 | an error match marks the first entry of the captured name failed with "Error during backup" |
| Progress.LineEffectVerdict | backend/src/services/progress_tracker.rs:100-141 | a line that does not mention a table leaves its entry alone; one that does decides its status, error winning over completed, completed over data and schema |
| Progress.UpdateFirstAt | backend/src/services/progress_tracker.rs:100-142 | an update changes only the first entry with its name and renames nothing |
| Progress.FoldLinesAt | backend/src/services/progress_tracker.rs:100-142 | over the whole log, names never change, the first entry of each name evolves by the lines alone, and later entries of the same name are never touched |
| Progress.FoldLines | backend/src/services/progress_tracker.rs:100-142 | the log lines folded in order; its contract keeps the number of entries, the rest is stated by `Progress.FoldLinesAt` and `Progress.TableProgressShape` |
| Progress.TableProgressShape | backend/src/services/progress_tracker.rs:78-145 | the result has one entry per manifest name, in manifest order; lines about other tables add and remove nothing |
| Progress.UnmentionedStaysPending | backend/src/services/progress_tracker.rs:87-97 | a table no line mentions, and every repeat of a name in the manifest, stays pending with no percentage, start, completion or error |
| Progress.LastMentionDecides | backend/src/services/progress_tracker.rs:100-142 | the last line that mentions a table decides its final status, whatever came before |
| Progress.NotMonotone | backend/src/services/progress_tracker.rs:111-132 | a table reported at 100% and then at 5% ends in progress, not completed |
| Progress.FivePercentMatches | backend/src/services/progress_tracker.rs:82-85 | in the line "`t` [5%]" only the data pattern matches, capturing `t` at 5% |
| Progress.CountsPartition | backend/src/services/progress_tracker.rs:47-52 | every entry has exactly one of the five statuses, so the five counts add up to the total |
| Progress.CountStatusExtremes | backend/src/services/progress_tracker.rs:47-52 | a status count is 0 exactly when no entry has that status, and the total exactly when every entry has it |
| Progress.OverallPercent | backend/src/services/progress_tracker.rs:54-58 | the overall percentage is at most 100, is the floor of done over total times 100, and 0 for an empty list |
| Progress.Summarize | backend/src/services/progress_tracker.rs:46-74 | the summary keeps the entries and counts all of them; each status count is the number of entries with that status, and the five add up to the total; the overall percentage is `OverallPercent` of the completed and skipped entries over the total, at most 100; the excluded list, database name and instants are carried over |
| Progress.LoadDetailedProgress | backend/src/services/progress_tracker.rs:20-75 | a manifest or log that cannot be read is the error returned; otherwise the manifest's tables as the log leaves them, then each excluded table as skipped, summarised with the manifest's start time or now |
| Progress.LoadedCounts | backend/src/services/progress_tracker.rs:32-47 | the total counts the manifest's tables and its excluded ones, and each excluded table appears, in order, as skipped |
| Worker.ExecuteTask | backend/src/services/task_worker.rs:112-352 | `execute_task` against the store leaves the jobs and tasks tables, the spawned backup and the result that the statement-by-statement outcome describes, and touches no other table |
| Worker.ExecuteOutcome | backend/src/services/task_worker.rs:112-352 | the statements `execute_task` runs, branch by branch; no contract of its own, stated by `Worker.ExecuteBranches`, `Worker.ExecuteWritesNothing`, `Worker.ExecuteOnlyAppends` and `Worker.ExecuteKeepsSingleFlight` |
| Worker.ExecuteBranches | backend/src/services/task_worker.rs:118-222 | once a configuration and a database name are found and the id is free, a live job of the task picks the cancelled branch and its absence the backup branch |
| Worker.CancelledJobShape | backend/src/services/task_worker.rs:155-165 | the cancelled job reads back as cancelled, says "Previous task is still running", is completed now, points at the task and database, and is live for no task |
| Worker.PendingJobShape | backend/src/services/task_worker.rs:225-232 | the job of a started run reads back as pending and is live for its own task only |
| Worker.PendingJobKeepsTaskLive | backend/src/services/task_worker.rs:225-232 | a job left as the tick inserted it, which is what a spawned run that panics before its first write leaves, keeps its task's single-flight query matching |
| Worker.ExecuteWritesNothing | backend/src/services/task_worker.rs:131-252 | a missing configuration fails with "Database configuration not found", no database name returns Ok, and a taken id fails on the primary key, each before anything is written |
| Worker.RefusedWrites | backend/src/services/task_worker.rs:155-197 | the live branch adds the cancelled job, spawns nothing, keeps `last_run`, moves `next_run` when the schedule evaluates, and writes no other task |
| Worker.StartedWrites | backend/src/services/task_worker.rs:224-352 | the other branch adds the pending job and spawns its backup; when the schedule evaluates `last_run` becomes now and `next_run` the next instant, otherwise no task row is written |
| Worker.ExecuteOnlyAppends | backend/src/services/task_worker.rs:112-352 | an existing job row is never changed and at most one is added, under the fresh id; only the task's own row can change |
| Worker.LiveJobCancelsRun | backend/src/services/task_worker.rs:126-197 | while a job of the task is pending or running, the task gets one cancelled job saying so, no backup starts and `last_run` is kept |
| Worker.IdleTaskStartsBackup | backend/src/services/task_worker.rs:199-352 | otherwise the task gets one pending job for `<config name>/<database>` and a backup is spawned for it, then the run is recorded on the task |
| Worker.LiveJobsFound | backend/src/services/task_worker.rs:119-124 | a pending or running job of the task is found by the single-flight query |
| Worker.ExecuteKeepsSingleFlight | backend/src/services/task_worker.rs:118-197 | `execute_task` never gives a task a second pending or running job |
| Worker.SweepCountsDueTasks | backend/src/services/task_worker.rs:82-108 | a pass counts and spawns no more runs than there are due tasks |
| Worker.SweepTouchesOnlyDue | backend/src/services/task_worker.rs:91-101 | a pass keeps every task that is not due, never changes an existing job, and every new job has the id drawn for a due task and points at that task |
| Worker.SweepKeepsSingleFlight | backend/src/services/task_worker.rs:91-197 | a whole pass never gives a task a second pending or running job |
| Worker.SweepOutcome | backend/src/services/task_worker.rs:82-108 | one pass over the fetched tasks, each due one executed with its drawn id; no contract of its own, stated by the `Worker.Sweep` lemmas above |
| Worker.RunSpawnedBackup | backend/src/services/task_worker.rs:266-334 | without a database name the job is failed at the final instant and nothing else is touched; otherwise the run's writes happen at the run's own instants, the outcome is the run's reply as `Mydumper.Replied` describes, and the final update, at its own instant, writes completed with the archive or failed with the error |
| Worker.SpawnedRunJobs | backend/src/services/task_worker.rs:302-333 | the run's statements and the final update touch only the job's own row |
| Worker.SpawnedRunRow | backend/src/services/task_worker.rs:306-333 | the row a spawned backup leaves reads back as completed with its archive and progress 100 exactly when the run finished, and as failed with the error otherwise, never as running or compressing; it was started at the run's running write and completed at the final update's instant |
| Worker.UnnamedSpawnFails | backend/src/services/task_worker.rs:287-298 | a spawned backup without a database name leaves its job failed with that message and completed now |
| Worker.SpawnHasDatabaseName | backend/src/services/task_worker.rs:209-302 | a backup is spawned only when a database name was found, so the spawned body never takes its no-name branch |
| Worker.SweepEntriesView | backend/src/services/task_worker.rs:434-463 | after one task's walk, a listed entry is gone exactly when it is a directory whose sidecar's JSON has the task's id as `task_id` and a `created_at` that reads as RFC 3339 and lies before the cutoff, whatever else the sidecar holds; every other entry is as it was |
| Worker.ExpiredView | backend/src/services/task_worker.rs:437-450 | an entry is expired for a task when it is a directory whose sidecar's JSON `task_id` is the task's id and whose `created_at` reads as RFC 3339 before the cutoff; used by `Worker.SweepEntriesView` |
| Worker.SweepEntriesCount | backend/src/services/task_worker.rs:452-455 | one task's walk counts each expired entry once, however often it is listed |
| Worker.SweepEntriesOnlyRemovesListed | backend/src/services/task_worker.rs:434-463 | one task's walk only removes paths, all of them inside listed entries |
| Worker.CleanupOnlyRemovesListed | backend/src/services/task_worker.rs:410-477 | the cleanup removes paths and adds or changes none, and leaves everything outside the listed entries alone |
| Worker.PassesSkipNonDirectory | backend/src/services/task_worker.rs:434 | a base that cannot be listed skips every task and deletes nothing |
| Worker.PassesView | backend/src/services/task_worker.rs:429-466 | after every task's walk, a listed entry is gone exactly when some task found it expired |
| Worker.PassesCount | backend/src/services/task_worker.rs:429-466 | the walks together count each entry some task found expired once |
| Worker.CleanupRemovesExactlyExpired | backend/src/services/task_worker.rs:410-477 | when the base exists, a listed entry goes exactly when some task that keeps backups for limited days finds its sidecar's `task_id` and `created_at` expired, and the count is the number of such entries; otherwise nothing changes and the count is 0 |
| Worker.CleanupOutcome | backend/src/services/task_worker.rs:410-477 | the whole cleanup: nothing when the base is missing, else one walk per task with limited retention; no contract of its own, stated by `Worker.CleanupRemovesExactlyExpired` and `Worker.CleanupOnlyRemovesListed` |
| Worker.HourlyCleanup | backend/src/services/task_worker.rs:64-68 | one more tick completes another hour exactly when its number is a multiple of 60 |
| Worker.TaskWorker.constructor | backend/src/services/task_worker.rs:23-33 | a new worker is stopped, has never ticked and has executed nothing |
| Worker.TaskWorker.MarkRunning | backend/src/services/task_worker.rs:46-50 | the worker is marked running and nothing else changes |
| Worker.TaskWorker.Tick | backend/src/services/task_worker.rs:52-78 | a tick stamps and counts itself, runs the due tasks and adds the successful calls, and removes old backups exactly on every 60th tick, keeping one cleanup per full hour |
| Worker.TaskWorker.CheckAndExecuteTasks | backend/src/services/task_worker.rs:82-108 | the pass over the fetched tasks, with `tasks_executed` grown by the calls that returned Ok |
| Worker.TaskWorker.RemoveExpiredEntries | backend/src/services/task_worker.rs:434-463 | the loop over the listing leaves the filesystem and the count one task's walk describes |
| Worker.TaskWorker.CleanupOldBackups | backend/src/services/task_worker.rs:410-477 | the loops leave the filesystem and the count the whole cleanup describes |
| Api.ErrorReply | backend/src/api/mod.rs:55-80 | a database or internal error answers 500 with a fixed text, "Database error" or "Internal server error"; a not-found answers 404 and a bad request 400, each with its own message |
| JobsApi.CreateJob | backend/src/api/jobs.rs:107-148 | a named task that does not exist is a bad request, and a taken id a database error, each with nothing written; otherwise exactly the new row, without a used database, is inserted, and the reply is the job as built, with the used database it was given |
| JobsApi.CreatedRowShape | backend/src/api/jobs.rs:125-145 | a created job is pending, cancellable and deletable, has no progress and no stamps, keeps the request's task and path, and has no used database since the insert names no such column |
| JobsApi.CancelJob | backend/src/api/jobs.rs:212-247 | a missing job is not found and a job past pending or running is refused, each with nothing written; otherwise the row is cancelled and stamped complete now |
| JobsApi.CancelledRowShape | backend/src/api/jobs.rs:232-239 | a cancelled row reads back as cancelled, is stamped complete, cannot be cancelled again and can be deleted |
| JobsApi.CancelledParses | backend/src/api/jobs.rs:235 | the written status `cancelled` reads back as Cancelled |
| JobsApi.GuardsOf | backend/src/api/jobs.rs:166-230 | for a status that parses, a job can be cancelled exactly when pending or running and deleted exactly when not running |
| JobsApi.LiveIsCancellable | backend/src/api/jobs.rs:225-230 | every job the scheduler's single-flight query finds can be cancelled |
| JobsApi.CancelReleasesTask | backend/src/api/jobs.rs:232-239 | cancelling a job removes it from the task's single-flight query and keeps every other job found as before |
| JobsApi.CompressingIsStuck | backend/src/api/jobs.rs:166-230 | a job left in the status `compressing` counts as failed: it cannot be cancelled but can be deleted |
| JobsApi.DeleteJob | backend/src/api/jobs.rs:150-210 | a missing job is not found and a running one refused, each with nothing changed; otherwise its log file and log directory are removed and then the row |
| JobsApi.DeleteRemovesRunLogs | backend/src/api/jobs.rs:171-198 | deleting a job whose log a backup run wrote removes that run's log directory with its log and manifest, and nothing outside it |
| JobsApi.RunLogPaths | backend/src/services/mydumper.rs:89-110 | a run's log and manifest sit directly in its log directory, which is the log's parent |
| JobsApi.GetJobProgress | backend/src/api/jobs.rs:287-339 | a missing job is not found; a running job with a larger live value stores and reports it as updated from the logs; any other keeps and reports the stored progress |
| JobsApi.ProgressOnlyGrows | backend/src/api/jobs.rs:304-325 | the stored progress never goes down: for a running job it becomes the larger of the stored and the live value, for any other it stays |
| JobsApi.ProgressRefreshIdempotent | backend/src/api/jobs.rs:312 | asking again with the same live value writes nothing more |
| JobsApi.ActiveJobsExactly | backend/src/api/jobs.rs:344-346 | the active list holds exactly the pending and running rows, and never more rows than there are |
| JobsApi.ActiveJobsKeepOrder | backend/src/api/jobs.rs:345 | the active list keeps the newest-first order of the rows |
| JobsApi.ActiveIsLive | backend/src/api/jobs.rs:345 | a job of a task is active exactly when the scheduler's single-flight query finds it |
| JobsApi.ActiveJobs | backend/src/api/jobs.rs:340-346 | `list_active_jobs`; no contract of its own, stated by `JobsApi.ActiveJobsExactly`, `JobsApi.ActiveJobsKeepOrder` and `JobsApi.ActiveIsLive` |
| JobsApi.DetailedLogDir | backend/src/api/jobs.rs:366-374 | a job without a log is a bad request "Job has no log output", and a log path without a parent is "Invalid log path" |
| JobsApi.DetailedLogDirOfRun | backend/src/api/jobs.rs:366-374 | for a job a backup run has logged, the directory read is that run's own log directory, where its manifest lies |
| BackupsApi.ReadForm | backend/src/api/backups.rs:184-217 | the form loop ends with the form the fields give in order: the last `file` field's size and named file, the last config id, the last compression, `gzip` without one |
| BackupsApi.FormConfigIdLastWins | backend/src/api/backups.rs:186-208 | the config id is the text of the last `database_config_id` field, and empty when there is none |
| BackupsApi.FormFileSizeLastWins | backend/src/api/backups.rs:184-202 | the file size is that of the last `file` field, and 0 when there is none |
| BackupsApi.NoCompressionField | backend/src/api/backups.rs:187-214 | without a `compression_type` field the compression stays `gzip` |
| BackupsApi.UploadCheck | backend/src/api/backups.rs:219-237 | an upload passes exactly when it has a non-empty file, a config id and a config with that id; otherwise it is a bad request: "No file provided" first, "database_config_id is required" next, and "Database configuration not found" for an unknown id |
| BackupsApi.NoFileFieldRefused | backend/src/api/backups.rs:219-221 | a form without a `file` field is refused for want of a file whatever else it carries |
| BackupsApi.UploadExtension | backend/src/api/backups.rs:247-253 | the stored extension is `tar.gz` or `tar.zst` |
| BackupsApi.UploadExtensionExact | backend/src/api/backups.rs:247-253 | the extension is `tar.zst` exactly for names ending `.tar.zst`, and `tar.gz` for every other name |
| BackupsApi.EndingsApart | backend/src/api/backups.rs:247-250 | no name ends in both `.tar.gz` and `.tar.zst`, so the order of the two tests does not matter |
| BackupsApi.SafeFileName | backend/src/api/backups.rs:255-258 | the safe name has the length of the name; each character is kept exactly when it is alphanumeric, `.`, `-` or `_`, and becomes `_` otherwise |
| BackupsApi.SafeFileNameIdempotent | backend/src/api/backups.rs:255-258 | making a safe name safe again changes nothing |
| BackupsApi.StoredNameShape | backend/src/api/backups.rs:260-264 | a stored upload starts `uploaded_` and ends in its extension, so the directory scan takes it for a backup and reads `zstd` or `gzip` off it to match |
| BackupsApi.NameCompression | backend/src/api/backups.rs:260-264 | `uploaded_<stem>_<stamp>.<ext>` for either extension is a backup file name of that extension's compression |
| BackupsApi.StoredNameHasNoSeparator | backend/src/api/backups.rs:255-264 | a stored name holds no `/` when the stamp does not and `/` is not alphanumeric |
| BackupsApi.StoredNameOfStem | backend/src/api/backups.rs:255-264 | an already safe stem with its extension appended is stored as `uploaded_<stem>_<stamp>.<ext>` |
| BackupsApi.StampHasNoSeparator | backend/src/api/backups.rs:246 | a stamp of a year from 0 to 9999 holds no `/` |
| BackupsApi.UploadPathInBackupDir | backend/src/api/backups.rs:240-266 | an upload's path lies directly in the backup directory |
| BackupsApi.RecordedCompressionIgnoresName | backend/src/api/backups.rs:187-283 | a `.tar.zst` upload sent without a `compression_type` field is recorded as `gzip` though its stored name reads `zstd` |
| BackupsApi.UploadBackup | backend/src/api/backups.rs:180-271 | a failed check answers its error with the disk untouched; a backup directory whose chain is blocked by a file is an internal error with the disk untouched; a write the created tree refuses is an internal error with only the directories made; otherwise the archive is written under the stored name with the upload's size and its path returned |
| BackupsApi.UploadWritesBelowDir | backend/src/api/backups.rs:240-271 | once the backup directory is created, writing the archive into it fails exactly when the archive's path is already a directory |
| BackupsApi.RestoreName | backend/src/api/backups.rs:424-433 | choosing the name fails exactly when no name is given, overwriting is off and the backup id is shorter than five characters |
| BackupsApi.RestoreNameChoice | backend/src/api/backups.rs:424-433 | a given name wins; else overwriting restores into the original database; else the name is the target's database name, `_` and the first five characters of the backup id |
| BackupsApi.MimeAgreesWithCompression | backend/src/api/backups.rs:514-520 | a download is served as gzip or zstd exactly when the directory scan infers that compression from its path, and as an octet stream otherwise |
| BackupsApi.UploadServedAsItsExtension | backend/src/api/backups.rs:514-520 | an uploaded archive is served with the MIME type of the extension it was stored with |
| BackupsApi.DownloadHeadersOf | backend/src/api/backups.rs:513-526 | a download's type follows the archive's path and its length is the recorded file size |
| BackupsApi.CleanupSweep | backend/src/api/backups.rs:552-575 | the loop decides one outcome per old backup |
| BackupsApi.CleanupOne | backend/src/api/backups.rs:553-574 | one turn removes an existing archive and then, unless that failed, deletes the row; only that backup's row can go and no other table changes |
| BackupsApi.CleanupOldBackups | backend/src/api/backups.rs:549-575 | the loop leaves the disk, the deleted count, the failed ids and the backups table the sweep over the old backups gives, and no other table changes |
| BackupsApi.CleanupAccounts | backend/src/api/backups.rs:549-575 | every old backup is counted once, as deleted or as a failure |
| BackupsApi.CleanupExactlyOne | backend/src/api/backups.rs:557-572 | with distinct ids, a backup is among the failures exactly when it was not deleted, and its row is deleted exactly when it was |
| BackupsApi.CleanupRemovesArchives | backend/src/api/backups.rs:554-560 | afterwards exactly the listed archives that are not directories are gone and every other node is as it was |
| BackupsApi.FileFailureIsDirectory | backend/src/api/backups.rs:554-559 | a backup fails on its archive exactly when its path is a directory |
| SystemApi.InsertionsLastWins | backend/src/api/system.rs:102-109 | a key is in a parsed map exactly when some line has an entry for it, and its value is that of the last such line |
| SystemApi.ToLowerHasNoCapitals | backend/src/api/system.rs:107 | lower-casing leaves no ASCII capital and no Kelvin sign |
| SystemApi.ParseOsRelease | backend/src/api/system.rs:101-111 | the loop over the file's lines builds the os-release map those lines define |
| SystemApi.GetOsInfo | backend/src/api/system.rs:94-120 | without the file's contents the answer is a name and version of "Unknown"; with them it is the parsed map |
| SystemApi.OsReleaseEntryShape | backend/src/api/system.rs:105-107 | a line contributes an entry exactly when it holds `=`; the key is lower case, holds no `=` and is shorter than the line, and the value neither starts nor ends with `"` |
| SystemApi.OsReleaseNormalised | backend/src/api/system.rs:104-109 | every key of the os-release map is lower case without `=`, and every value unquoted |
| SystemApi.UnquoteQuoted | backend/src/api/system.rs:106 | stripping quotes from a quoted value, or from an unquoted one, gives the value |
| SystemApi.OsReleaseEntryOfLine | backend/src/api/system.rs:105-107 | a line `key=value` or `key="value"` reads back as that key and value |
| SystemApi.KibToBytes | backend/src/api/system.rs:162 | the byte count fits a `u64`, and is the kibibytes times 1024 whenever that product fits |
| SystemApi.ParseMemInfo | backend/src/api/system.rs:155-167 | the loop over the file's lines builds the meminfo map those lines define |
| SystemApi.GetMemoryInfo | backend/src/api/system.rs:148-171 | without the file's contents the answer is the empty object; with them it is the parsed map |
| SystemApi.MemInfoKeyNormal | backend/src/api/system.rs:162 | a meminfo key holds no capital, no parenthesis and no `:` |
| SystemApi.MemInfoNormalised | backend/src/api/system.rs:158-165 | every key of the meminfo map is normalised and every value fits a `u64` |
| SystemApi.MemInfoEntryOf | backend/src/api/system.rs:159-162 | a line is split at its first `:`: the name before keys the entry and the first token after gives the value, or nothing when it does not parse |
| SystemApi.MemInfoEntryOfLine | backend/src/api/system.rs:159-162 | a line `Name: <n> kB` stores n kibibytes in bytes under the normalised name |
| SystemApi.MemInfoEmptyValueIsZero | backend/src/api/system.rs:160 | a line with nothing but white space after `:` stores 0 |
| SystemApi.MemInfoSkipsUnparsed | backend/src/api/system.rs:161 | a line whose first token is no `u64` leaves the map as it was |
| SystemApi.ToolVersion | backend/src/api/system.rs:224-240 | a version is reported exactly when the tool ran and printed something |
| SystemApi.ToolVersionOfFirstLine | backend/src/api/system.rs:233-236 | the version is the first line of the output, trimmed, whatever follows it |
| SystemApi.VersionAnswer | backend/src/api/system.rs:70-90 | the answer names the tool, carries its version and is available exactly when a version was read |
| SystemApi.VersionAvailableIsHealthy | backend/src/api/system.rs:208-222 | a tool the version answer calls available passes the health check, but a tool that runs and prints nothing passes the health check while its version answer says unavailable |
| SystemApi.FourFieldsPanic | backend/src/api/system.rs:252-258 | as written, a `df` data line of exactly four fields passes the guard and then panics reading the fifth |
| SystemApi.FourFieldsPanicExample | backend/src/api/system.rs:250-258 | the output `Size` then `overlay 50G 20G 28G` panics as written |
| SystemApi.DiskSpaceOfFields | backend/src/api/system.rs:250-262 | the corrected reader gives the first five fields in order when there are at least five, and the empty object otherwise |
| SystemApi.DiskSpaceAgrees | backend/src/api/system.rs:242-266 | the code as written fails exactly on a data line of four fields, and otherwise answers as the corrected reader does |
| SystemApi.DiskSpaceAsWritten | backend/src/api/system.rs:242-266 | `get_disk_space` as written, failing where it panics; no contract of its own, stated by `SystemApi.FourFieldsPanic` and `SystemApi.DiskSpaceAgrees` |
| SystemApi.DiskSpaceOf | backend/src/api/system.rs:242-266 | `get_disk_space` with the guard corrected to five fields; no contract of its own, stated by `SystemApi.DiskSpaceOfFields` |
| SystemApi.HealthStatusAsWritten | backend/src/api/system.rs:48-67 | `get_health_status` as written, with the `df` reader that panics on four fields; stated by `SystemApi.HealthAsWrittenAgrees` |
| SystemApi.HealthStatus | backend/src/api/system.rs:48-67 | `get_health_status` with the corrected `df` reader: healthy exactly when both tools are available |
| SystemApi.HealthAsWrittenAgrees | backend/src/api/system.rs:48-67 | the health answer as written fails exactly when the `df` data line has four fields; otherwise it equals the corrected answer, healthy exactly when both tools are available |
| SystemApi.HealthyIffBothTools | backend/src/api/system.rs:48-68 | the status is healthy exactly when both tools ran and degraded otherwise, whatever the disk usage |
| WorkerApi.StatusResponseShape | backend/src/api/worker.rs:20-44 | the status is gray exactly when the worker never ticked, green exactly when the last tick is at most 60 seconds old and red otherwise, with the matching text; the running flag, the counters and the presence of a last tick are copied |
| WorkerApi.Health | backend/src/api/worker.rs:23-30 | the colour and text of the last tick; no contract of its own, stated by `WorkerApi.StatusResponseShape` |
| WorkerApi.StatusResponse | backend/src/api/worker.rs:20-44 | `WorkerStatusResponse::from`; no contract of its own, stated by `WorkerApi.StatusResponseShape` and `WorkerApi.FreshTickIsGreen` |
| WorkerApi.FreshTickIsGreen | backend/src/api/worker.rs:24-30 | after a tick the worker shows green until 60 seconds have passed without another |
| WorkerApi.StartWorker | backend/src/api/worker.rs:61-78 | a running worker is refused with "Worker is already running"; otherwise the reply is the start message and the current, not running, status, and nothing is started |
| Store.Db.InsertJob | backend/src/api/jobs.rs:127-145 | an insert fails on the primary key exactly when the id is taken, leaving the table; otherwise it adds the row, and no other table changes |
| Store.Db.PutJob | backend/src/api/jobs.rs:232-239 | an update by id replaces the row when there is one and changes nothing otherwise, and no other table changes |
| Store.Db.DeleteJob | backend/src/api/jobs.rs:200-207 | a delete by id removes that row if present, and no other table changes |
| Store.Db.DeleteBackup | backend/src/api/backups.rs:563-566 | a delete by id removes that backup row if present, and no other table changes |
| Store.Db.PutTask | backend/src/services/task_worker.rs:338-348 | an update by id replaces the task when there is one and changes nothing otherwise, and no other table changes |

## Left out

- Subprocesses, SQL, the network and concurrency. mydumper, myloader, tar, MySQL and SQLite are not executed. Their exit statuses, outputs and returned rows are parameters. `tokio::spawn`, the `Mutex` and the minute's `sleep` between ticks are not modelled. The worker's endless loop is modelled one tick at a time.
- SQL errors are not modelled. Every statement of the model succeeds, except an `INSERT` whose primary key is taken, and the `DELETE` of the backup cleanup, whose success is an input.
- `updated_at`-style stamps that a statement writes but no rule reads are not modelled beyond what each contract names.
- The text of the dump log and of the log files is not modelled, nor is the logging service. Log files appear only as nodes of the directory tree.
- Instants are whole Unix seconds. Sub-second parts of `Utc::now()` and the `to_rfc3339` rendering of the current time are parameters. A backup run reads the clock at each step; `Mydumper.RunClock` holds those readings, in the order the code takes them, and the spawned task's final `UPDATE` has its own.
- RFC 3339 parsing is a parameter. The `%Y%m%d_%H%M%S` format is modelled digit by digit.
- `chrono::Duration::days` panics for a day count out of range; that panic is not modelled.
- Tasks.IntervalMinutes: states now plus N minutes for every `i64` N. In the code, `Duration::minutes` panics once N minutes exceed the `i64` millisecond range of a `Duration`, and `now + interval` panics once the sum leaves chrono's date range (about year 262143 either way). Neither panic is modelled, because the bounds differ between chrono versions.
- Tasks.IntervalHours: the same for `Duration::hours` and the hour count N.
- Disk: paths are compared as text, so `a/`, `a//b` and `a/./b` name other nodes than `a` and `a/b`. Every path the code writes is built with one `/` between a clean directory and a name, and `Paths.CleanDir` is what the layout lemmas ask of the base directories. The current directory `""` and the root `/` always count as existing directories.
- Progress.IsDecimalDigit: follows the `Nd` table of Unicode 15.0. A newer table would add digits, and the regex crate follows the version it was built with.
- `DatabaseConfig::get_database_name` and `connection_string_with_db` are not defined anywhere in the code. The first is a parameter; the second is not part of this model.
- `get_job_progress_from_logs` is not defined in the code. Its live value is a parameter of `JobsApi.GetJobProgress`.
- `get_job`, `list_jobs` with its pagination, `get_job_logs`, and the handlers that only read a row and pass it on (`list_backups`, `get_backup`, `create_backup`, `delete_backup`) are not modelled. They hold no rule beyond the store's lookups. `paginated_response` uses a float `ceil`.
- `restore_backup` is modelled only for its target-name choice and its extraction step. Its other parts are outside the model: the myloader run, the database creation, and the job-row updates of its spawned task.
- `download_backup` is modelled without reading the archive's bytes. Its headers are modelled; its `Content-Disposition` name is whatever `Backup::filename` gives.
- BackupsApi.UploadBackup: the backup row that follows the written archive is not part of this model, and neither are multipart read errors.
- BackupsApi.RestoreName: counts the backup id's characters where Rust slices five bytes. The two agree on the ASCII uuids the code generates.
- Rust's `char::is_alphanumeric` (Unicode) is a parameter `alnum` of the upload name rules. `to_lowercase` and `to_uppercase` are modelled for ASCII and for the few non-ASCII characters that map onto ASCII letters.
- SystemApi.KibToBytes: takes the release build's wrap-around of the `u64` product. A debug build would panic instead.
- Kernel version, uptime, git commit, build date and Rust version are not modelled. Each is a trimmed command output or a build-time variable.
- Floats: `file_size_human` is not modelled. The overall progress percentage is the integer floor, standing for the `f32` computation.
- Worker.TaskWorker.CleanupOldBackups: takes one listing of the base directory for all tasks. The code lists it again for each task, but an entry an earlier pass deleted is gone from the later listing too, so no entry is affected differently.
- Worker.RunSpawnedBackup: its `backupBase` stands for `BACKUP_DIR`, by default `data/backups` (backend/src/services/task_worker.rs:273), while the base of `Worker.TaskWorker.CleanupOldBackups` stands for the literal `./data/backups` (backend/src/services/task_worker.rs:415). Both are parameters, and no lemma ties them: as paths are compared as text, the two default spellings name different nodes, so the cleanup's listing is not shown to be the directory the runs write to.
- BackupScan.GetBackupStats: the total size is an unbounded sum. The code sums `i64` sizes (backend/src/services/filesystem_backup.rs:577), which panics in a debug build and wraps in a release build once the total passes 2^63-1, for example with two sidecars of size 9223372036854775807. Neither is modelled.
- The backups that `cleanup_old_backups` selects by `created_at < cutoff` are given as an input to `BackupsApi.CleanupOldBackups`. The cutoff itself (`days` from the query, 30 by default, backend/src/api/backups.rs:535-539) and the reply text built from the counts are therefore not modelled.
- Symbolic links are not modelled: a path names a directory, a file or nothing.
- `u64` counters (ticks, executed tasks) are unbounded naturals. Overflowing them would take longer than the age of the universe at one tick a minute.
- `Paths`: `.` components and repeated `/` are normalised as `components()` does. Platform path prefixes are not modelled.
- `Backups.Filename`, `Backups.MetaFilename`, `Backups.BackupFolder` and `Backups.BackupExists` carry no contract of their own. What they return for an archive and a sidecar joined below the same directory is stated by `Backups.AccessorsOfJoin`.
- BackupsApi.DownloadHeadersOf: the contract does not state the `Content-Disposition` header.
- BackupsApi.CleanupSweep: its own contract states only one outcome per backup. What the outcomes mean is stated by `BackupsApi.CleanupAccounts`, `BackupsApi.CleanupExactlyOne`, `BackupsApi.CleanupRemovesArchives` and `BackupsApi.FileFailureIsDirectory`.
- `backend/src/services/filesystem_backup_old.rs` and `backend/src/services/scheduler.rs` are not part of this model. The first is not compiled; the second is commented out.
- The SQL schema, the router, the CLI and the handlers of `api/logs.rs`, `api/database_configs.rs`, `api/dashboard.rs` and `api/tasks.rs` are not part of this model. `run_task_now` in `api/tasks.rs` starts a run without the single-flight check; that is not modelled.

## Findings

| source | as written | input that shows it | evidently intended | confidence | as-written member | corrected member |
|---|---|---|---|---|---|---|
| backend/src/api/system.rs:252-258 | the guard admits four fields or more, then reads the fifth (`parts[4]`) | `df` output `Size` then `overlay 50G 20G 28G`: four fields, and the handler's thread panics | demand five fields, and answer the empty object with fewer | high (not executed) | SystemApi.DiskSpaceAsWritten, SystemApi.HealthStatusAsWritten, SystemApi.FourFieldsPanic, SystemApi.FourFieldsPanicExample | SystemApi.DiskSpaceOf, SystemApi.HealthStatus, SystemApi.DiskSpaceOfFields, SystemApi.DiskSpaceAgrees, SystemApi.HealthAsWrittenAgrees |
| backend/src/services/mydumper.rs:460-468 | only `gz` and `zst` extensions are extracted; anything else is "Unsupported archive format" | a backup with compression `none` is archived as `<db>-<stamp>.tar` (backend/src/services/backup_process.rs:155-162), and its restore fails | extract a plain `.tar` with `-xf` | medium (not executed) | Extraction.ExtractArgs, Extraction.PlainTarNotRestorable | Extraction.ExtractArgsIntended, Extraction.EveryArchiveRestorable |
| backend/src/services/mydumper.rs:29-40 | `row.get("ENGINE")` reads the engine into a `String`, which panics on a NULL `ENGINE` | a schema holding a view, whose `ENGINE` in `information_schema.TABLES` is NULL: the spawned task panics before its first status write, the job stays pending, and every later tick of its task is cancelled as still running | skip the rows without an engine | medium (not executed) | Engines.AnalyzeAsWritten, Engines.ViewPanicsAnalysis, Worker.PendingJobKeepsTaskLive | Engines.AnalyzeTableEngines, Engines.InnodbTables, Engines.ExcludedTables, Engines.EveryRowPlacedOnce |

=== FILE: api.dfy ===
/**
 * The errors the HTTP handlers answer with, and the status and message
 * each is answered with. A database error carries the text of the
 * `sqlx::Error` the store raised.
 */
module Api {
  datatype ApiError =
    | DatabaseError(message: string)
    | NotFound(message: string)
    | BadRequest(message: string)
    | InternalError(message: string)

  /**
   * `ApiError::into_response`: the HTTP status and the `error` text of the
   * body. Not found and bad request show their own message; database and
   * internal errors answer 500 with a fixed text, so their message never
   * reaches the client.
   */
  function ErrorReply(e: ApiError): (r: (int, string))
    ensures r.0 == 500 <==> e.DatabaseError? || e.InternalError?
    ensures r.0 != 500 ==> r.1 == e.message && (r.0 == 404 <==> e.NotFound?)
    ensures r.0 == 500 ==> r.1 == (if e.DatabaseError? then "Database error" else "Internal server error")
  {
    match e
    case DatabaseError(_) => (500, "Database error")
    case NotFound(m) => (404, m)
    case BadRequest(m) => (400, m)
    case InternalError(_) => (500, "Internal server error")
  }
}

=== FILE: api_backups.dfy ===
/**
 * The backup handlers' own rules: reading and checking an upload form,
 * the name an uploaded archive is stored under, the database name a
 * restore targets, the MIME type of a download, and the bookkeeping of
 * the cleanup of old backups, which removes each archive and then its row.
 */
module BackupsApi {
  import opened Wrappers
  import opened Text
  import opened Clock
  import opened Paths
  import opened Backups
  import opened Disk
  import opened Store
  import opened Api
  import opened FsBackups

  // ------------------------------------------------------------ upload form

  const FILE_FIELD: string := "file"
  const CONFIG_FIELD: string := "database_config_id"
  const COMPRESSION_FIELD: string := "compression_type"

  /**
   * One multipart field, already read: its name, the file name it carries,
   * the number of bytes of its body and the body as text.
   */
  datatype Part = Part(name: Option<string>, fileName: Option<string>, size: nat, text: string)

  /** What the form loop keeps: the file's name and size, the config id and the compression. */
  datatype UploadForm = UploadForm(fileName: string, fileSize: nat, databaseConfigId: string, compressionType: string)

  const EMPTY_FORM: UploadForm := UploadForm("", 0, "", "gzip")

  /** One turn of the loop: a `file` field sets the size and, when it names one, the file name. */
  function FormStep(f: UploadForm, p: Part): UploadForm {
    if p.name == Some(FILE_FIELD) then
      f.(fileName := if p.fileName.Some? then p.fileName.value else f.fileName, fileSize := p.size)
    else if p.name == Some(CONFIG_FIELD) then f.(databaseConfigId := p.text)
    else if p.name == Some(COMPRESSION_FIELD) then f.(compressionType := p.text)
    else f
  }

  /** The form after the given fields. */
  function FormOf(parts: seq<Part>): UploadForm
    decreases |parts|
  {
    if parts == [] then EMPTY_FORM else FormStep(FormOf(parts[..|parts| - 1]), parts[|parts| - 1])
  }

  /** The `while let Some(field)` loop of `upload_backup`. */
  method ReadForm(parts: seq<Part>) returns (f: UploadForm)
    ensures f == FormOf(parts)
  {
    f := EMPTY_FORM;
    var i := 0;
    while i < |parts|
      invariant 0 <= i <= |parts|
      invariant f == FormOf(parts[..i])
    {
      assert parts[..i + 1][..i] == parts[..i];
      var p := parts[i];
      if p.name == Some(FILE_FIELD) {
        if p.fileName.Some? {
          f := f.(fileName := p.fileName.value);
        }
        f := f.(fileSize := p.size);
      } else if p.name == Some(CONFIG_FIELD) {
        f := f.(databaseConfigId := p.text);
      } else if p.name == Some(COMPRESSION_FIELD) {
        f := f.(compressionType := p.text);
      }
      i := i + 1;
    }
    assert parts[..|parts|] == parts;
  }

  /** The config id is the text of the last `database_config_id` field, and empty without one. */
  lemma {:induction false} FormConfigIdLastWins(parts: seq<Part>)
    ensures forall i :: 0 <= i < |parts| && parts[i].name == Some(CONFIG_FIELD) && LastNamed(parts, i, CONFIG_FIELD) ==>
              FormOf(parts).databaseConfigId == parts[i].text
    ensures (forall i :: 0 <= i < |parts| ==> parts[i].name != Some(CONFIG_FIELD)) ==> FormOf(parts).databaseConfigId == ""
    decreases |parts|
  {
    if parts != [] {
      var n := |parts| - 1;
      var init := parts[..n];
      FormConfigIdLastWins(init);
      forall i | 0 <= i < n && parts[i].name == Some(CONFIG_FIELD) && LastNamed(parts, i, CONFIG_FIELD)
        ensures FormOf(parts).databaseConfigId == parts[i].text
      {
        assert init[i] == parts[i];
        assert LastNamed(init, i, CONFIG_FIELD);
      }
      if forall i :: 0 <= i < |parts| ==> parts[i].name != Some(CONFIG_FIELD) {
        assert forall i :: 0 <= i < n ==> init[i].name != Some(CONFIG_FIELD);
      }
    }
  }

  /** The file size is that of the last `file` field, and 0 without one. */
  lemma {:induction false} FormFileSizeLastWins(parts: seq<Part>)
    ensures forall i :: 0 <= i < |parts| && parts[i].name == Some(FILE_FIELD) && LastNamed(parts, i, FILE_FIELD) ==>
              FormOf(parts).fileSize == parts[i].size
    ensures (forall i :: 0 <= i < |parts| ==> parts[i].name != Some(FILE_FIELD)) ==> FormOf(parts).fileSize == 0
    decreases |parts|
  {
    if parts != [] {
      var n := |parts| - 1;
      var init := parts[..n];
      FormFileSizeLastWins(init);
      forall i | 0 <= i < n && parts[i].name == Some(FILE_FIELD) && LastNamed(parts, i, FILE_FIELD)
        ensures FormOf(parts).fileSize == parts[i].size
      {
        assert init[i] == parts[i];
        assert LastNamed(init, i, FILE_FIELD);
      }
      if forall i :: 0 <= i < |parts| ==> parts[i].name != Some(FILE_FIELD) {
        assert forall i :: 0 <= i < n ==> init[i].name != Some(FILE_FIELD);
      }
    }
  }

  /** Field `i` is the last field of its name. */
  predicate LastNamed(parts: seq<Part>, i: nat, name: string)
    requires i < |parts|
  {
    forall j :: i < j < |parts| ==> parts[j].name != Some(name)
  }

  // ------------------------------------------------------------ upload checks

  const NO_FILE: string := "No file provided"
  const CONFIG_ID_REQUIRED: string := "database_config_id is required"
  const CONFIG_NOT_FOUND: string := "Database configuration not found"

  /** The checks before anything is written: a file, a config id, and a config with that id. */
  function UploadCheck(f: UploadForm, configIds: set<string>): (r: Result<(), ApiError>)
    ensures r.Ok? <==> f.fileSize > 0 && f.databaseConfigId != [] && f.databaseConfigId in configIds
    ensures r.Err? ==> r.error.BadRequest?
    ensures f.fileSize == 0 ==> r == Err(BadRequest(NO_FILE))
    ensures f.fileSize > 0 && f.databaseConfigId == [] ==> r == Err(BadRequest(CONFIG_ID_REQUIRED))
    ensures f.fileSize > 0 && f.databaseConfigId != [] && f.databaseConfigId !in configIds ==>
              r == Err(BadRequest(CONFIG_NOT_FOUND))
  {
    if f.fileSize == 0 then Err(BadRequest(NO_FILE))
    else if f.databaseConfigId == "" then Err(BadRequest(CONFIG_ID_REQUIRED))
    else if f.databaseConfigId !in configIds then Err(BadRequest(CONFIG_NOT_FOUND))
    else Ok(())
  }

  /** A form without a `file` field is refused for want of a file, whatever else it holds. */
  lemma NoFileFieldRefused(parts: seq<Part>, configIds: set<string>)
    requires forall i :: 0 <= i < |parts| ==> parts[i].name != Some(FILE_FIELD)
    ensures UploadCheck(FormOf(parts), configIds) == Err(BadRequest(NO_FILE))
  {
    FormFileSizeLastWins(parts);
  }

  // ------------------------------------------------------------ stored name

  /** The extension an upload is stored with: `tar.zst` for a `.tar.zst` name, `tar.gz` for anything else. */
  function UploadExtension(fileName: string): (ext: string)
    ensures ext == "tar.gz" || ext == "tar.zst"
  {
    if EndsWith(fileName, ".tar.gz") then "tar.gz"
    else if EndsWith(fileName, ".tar.zst") then "tar.zst"
    else "tar.gz"
  }

  /** `tar.zst` exactly for names ending `.tar.zst`: no name ends in both. */
  lemma UploadExtensionExact(fileName: string)
    ensures UploadExtension(fileName) == "tar.zst" <==> EndsWith(fileName, ".tar.zst")
    ensures UploadExtension(fileName) == "tar.gz" <==> !EndsWith(fileName, ".tar.zst")
  {
    EndingsApart(fileName);
  }

  /** No name ends in both `.tar.gz` and `.tar.zst`: their last characters differ. */
  lemma EndingsApart(s: string)
    ensures !(EndsWith(s, ".tar.gz") && EndsWith(s, ".tar.zst"))
  {
    if EndsWith(s, ".tar.gz") {
      assert s[|s| - 1] == ".tar.gz"[6];
    }
  }

  /**
   * A character the safe file name keeps: alphanumeric, `.`, `-` or `_`.
   * `alnum` is Rust's `char::is_alphanumeric`, the Unicode Alphabetic or
   * Numeric property.
   */
  predicate Kept(c: char, alnum: char -> bool) {
    alnum(c) || c == '.' || c == '-' || c == '_'
  }

  /** The safe file name: every character not kept becomes `_`, one for one. */
  function SafeFileName(name: string, alnum: char -> bool): (r: string)
    ensures |r| == |name|
    ensures forall i :: 0 <= i < |r| ==> Kept(r[i], alnum)
    ensures forall i :: 0 <= i < |r| ==> r[i] == name[i] || r[i] == '_'
    ensures forall i :: 0 <= i < |r| ==> (r[i] == name[i] <==> Kept(name[i], alnum))
  {
    seq(|name|, i requires 0 <= i < |name| => if Kept(name[i], alnum) then name[i] else '_')
  }

  /** Making a name safe twice changes nothing more. */
  lemma SafeFileNameIdempotent(name: string, alnum: char -> bool)
    ensures SafeFileName(SafeFileName(name, alnum), alnum) == SafeFileName(name, alnum)
  {
  }

  /** The name an upload is stored under: `uploaded_<safe stem>_<stamp>.<ext>`. */
  function StoredName(fileName: string, stamp: string, alnum: char -> bool): string {
    var ext := UploadExtension(fileName);
    "uploaded_" + TrimEndMatches(SafeFileName(fileName, alnum), "." + ext) + "_" + stamp + "." + ext
  }

  /**
   * A stored name starts `uploaded_` and ends in the extension it was
   * given, so the scanner takes it for a backup and reads the matching
   * compression off it.
   */
  lemma StoredNameShape(fileName: string, stamp: string, alnum: char -> bool)
    ensures var s, ext := StoredName(fileName, stamp, alnum), UploadExtension(fileName);
            StartsWith(s, "uploaded_") && EndsWith(s, "." + ext) && IsBackupFileName(s)
            && InferCompression(s) == (if ext == "tar.zst" then "zstd" else "gzip")
  {
    var ext := UploadExtension(fileName);
    NameCompression(TrimEndMatches(SafeFileName(fileName, alnum), "." + ext), stamp, ext);
  }

  /** `uploaded_<stem>_<stamp>.<ext>` for either extension is a backup name of that compression. */
  lemma NameCompression(stem: string, stamp: string, ext: string)
    requires ext == "tar.gz" || ext == "tar.zst"
    ensures var s := "uploaded_" + stem + "_" + stamp + "." + ext;
            StartsWith(s, "uploaded_") && EndsWith(s, "." + ext) && IsBackupFileName(s)
            && InferCompression(s) == (if ext == "tar.zst" then "zstd" else "gzip")
  {
    var s := "uploaded_" + stem + "_" + stamp + "." + ext;
    NameParts(stem, stamp, ext);
    if ext == "tar.zst" {
      assert "." + ext == ".tar.zst";
      CompressionOfZst(s);
    } else {
      assert "." + ext == ".tar.gz";
      CompressionOfGz(s);
    }
  }

  /** The stored name's first and last parts. */
  lemma StoredNameEnding(fileName: string, stamp: string, alnum: char -> bool)
    ensures var s, ext := StoredName(fileName, stamp, alnum), UploadExtension(fileName);
            StartsWith(s, "uploaded_") && EndsWith(s, "." + ext)
  {
    NameParts(TrimEndMatches(SafeFileName(fileName, alnum), "." + UploadExtension(fileName)), stamp,
              UploadExtension(fileName));
  }

  /** `uploaded_<stem>_<stamp>.<ext>` starts `uploaded_` and ends `.<ext>`. */
  lemma NameParts(stem: string, stamp: string, ext: string)
    ensures var s := "uploaded_" + stem + "_" + stamp + "." + ext;
            StartsWith(s, "uploaded_") && EndsWith(s, "." + ext)
  {
    var s := "uploaded_" + stem + "_" + stamp + "." + ext;
    var head := "uploaded_" + stem + "_" + stamp;
    assert s == head + ("." + ext);
    assert s[|s| - |"." + ext|..] == "." + ext;
    assert s[..9] == "uploaded_";
  }

  /** A stored name has no `/` when neither the stamp nor the kept characters do. */
  lemma StoredNameHasNoSeparator(fileName: string, stamp: string, alnum: char -> bool)
    requires '/' !in stamp && !alnum('/')
    ensures '/' !in StoredName(fileName, stamp, alnum)
  {
    var ext := UploadExtension(fileName);
    var safe := SafeFileName(fileName, alnum);
    var stem := TrimEndMatches(safe, "." + ext);
    SafeHasNoSeparator(fileName, alnum);
    assert '/' !in stem by {
      assert stem <= safe;
      forall i | 0 <= i < |stem| ensures stem[i] != '/' {
        assert stem[i] == safe[i];
      }
    }
    assert '/' !in "." + ext;
  }

  /** No `/` survives in a safe name when `/` is not alphanumeric. */
  lemma SafeHasNoSeparator(name: string, alnum: char -> bool)
    requires !alnum('/')
    ensures '/' !in SafeFileName(name, alnum)
  {
  }

  /**
   * An already safe stem with the extension appended comes back as that
   * stem: `report.tar.zst` is stored as `uploaded_report_<stamp>.tar.zst`.
   */
  lemma StoredNameOfStem(stem: string, ext: string, stamp: string, alnum: char -> bool)
    requires ext == "tar.gz" || ext == "tar.zst"
    requires forall c :: IsAsciiAlphanumeric(c) ==> alnum(c)
    requires forall i :: 0 <= i < |stem| ==> Kept(stem[i], alnum)
    requires !EndsWith(stem, "." + ext)
    ensures StoredName(stem + "." + ext, stamp, alnum) == "uploaded_" + stem + "_" + stamp + "." + ext
  {
    var name := stem + "." + ext;
    assert EndsWith(name, "." + ext) by { assert name[|name| - |"." + ext|..] == "." + ext; }
    if ext == "tar.zst" {
      UploadExtensionExact(name);
    }
    assert UploadExtension(name) == ext;
    assert SafeFileName(name, alnum) == name by {
      forall i | 0 <= i < |name| ensures Kept(name[i], alnum) {
        if i >= |stem| {
          var c := name[i];
          assert c == ("." + ext)[i - |stem|];
          assert c == '.' || IsAsciiAlphanumeric(c);
        }
      }
    }
    assert name[..|name| - |"." + ext|] == stem;
    assert TrimEndMatches(name, "." + ext) == TrimEndMatches(stem, "." + ext);
  }

  /** Where an upload is written: the stored name inside the backup directory. */
  function UploadPath(backupDir: string, f: UploadForm, now: int, alnum: char -> bool): string {
    backupDir + "/" + StoredName(f.fileName, FormatStamp(CivilOf(now)), alnum)
  }

  /** A stamp of a four-digit year holds no `/`. */
  lemma StampHasNoSeparator(now: int)
    requires 0 <= CivilOf(now).year <= 9999
    ensures '/' !in FormatStamp(CivilOf(now))
  {
    var s := FormatStamp(CivilOf(now));
    FormatStampShape(CivilOf(now));
    forall i | 0 <= i < |s| ensures s[i] != '/' {
      if i < 8 { assert IsDigit(s[..8][i]); }
      else if i > 8 { assert IsDigit(s[9..][i - 9]); }
    }
  }

  /** An upload lands directly in the backup directory. */
  lemma UploadPathInBackupDir(backupDir: string, f: UploadForm, now: int, alnum: char -> bool)
    requires backupDir != [] && backupDir[|backupDir| - 1] != '/'
    requires !alnum('/') && 0 <= CivilOf(now).year <= 9999
    ensures ParentPath(UploadPath(backupDir, f, now, alnum)) == Some(backupDir)
  {
    var name := StoredName(f.fileName, FormatStamp(CivilOf(now)), alnum);
    StampHasNoSeparator(now);
    StoredNameHasNoSeparator(f.fileName, FormatStamp(CivilOf(now)), alnum);
    StoredNameEnding(f.fileName, FormatStamp(CivilOf(now)), alnum);
    assert name != [] by { assert StartsWith(name, "uploaded_"); }
    ParentOfJoined(backupDir, name);
  }

  /**
   * The compression recorded for an upload is the form's field, `gzip` when
   * it is missing, whatever the file's name says: a `.tar.zst` upload
   * without the field is recorded as `gzip` though its name reads `zstd`.
   */
  lemma RecordedCompressionIgnoresName(parts: seq<Part>, stamp: string, alnum: char -> bool)
    requires forall i :: 0 <= i < |parts| ==> parts[i].name != Some(COMPRESSION_FIELD)
    requires EndsWith(FormOf(parts).fileName, ".tar.zst")
    ensures FormOf(parts).compressionType == "gzip"
    ensures InferCompression(StoredName(FormOf(parts).fileName, stamp, alnum)) == "zstd"
  {
    NoCompressionField(parts);
    UploadExtensionExact(FormOf(parts).fileName);
    StoredNameShape(FormOf(parts).fileName, stamp, alnum);
  }

  /** Without a `compression_type` field the compression stays `gzip`. */
  lemma {:induction false} NoCompressionField(parts: seq<Part>)
    requires forall i :: 0 <= i < |parts| ==> parts[i].name != Some(COMPRESSION_FIELD)
    ensures FormOf(parts).compressionType == "gzip"
    decreases |parts|
  {
    if parts != [] {
      NoCompressionField(parts[..|parts| - 1]);
    }
  }

  // ------------------------------------------------------------ upload

  const CREATE_DIR_FAILED: string := "Failed to create backup directory: "
  const WRITE_FAILED: string := "Failed to write backup file: "

  /**
   * `upload_backup` up to the written archive: read the form, check it,
   * create the backup directory, write the bytes under the stored name.
   * The answer is the archive's path; the backup record built from it is
   * not part of this model.
   */
  method UploadBackup(db: Db, fs: FileSystem, parts: seq<Part>, backupDir: string, now: int, alnum: char -> bool)
    returns (r: Result<string, ApiError>)
    modifies fs
    ensures var f := FormOf(parts);
            var check := UploadCheck(f, db.configs.Keys);
            var path := UploadPath(backupDir, f, now, alnum);
            var made := CreateDirAllOf(old(fs.nodes), backupDir);
            if check.Err? then r == Err(check.error) && fs.nodes == old(fs.nodes)
            else if made.Err? then r == Err(InternalError(CREATE_DIR_FAILED + made.error)) && fs.nodes == old(fs.nodes)
            else if WriteError(made.value, path).Some? then
              r == Err(InternalError(WRITE_FAILED + WriteError(made.value, path).value)) && fs.nodes == made.value
            else r == Ok(path) && fs.nodes == made.value[path := RegularFile(f.fileSize, now)]
  {
    var f := ReadForm(parts);
    var check := UploadCheck(f, db.configs.Keys);
    if check.Err? {
      return Err(check.error);
    }
    var made := fs.CreateDirAll(backupDir);
    if made.Err? {
      return Err(InternalError(CREATE_DIR_FAILED + made.error));
    }
    var path := UploadPath(backupDir, f, now, alnum);
    var written := fs.WriteFile(path, f.fileSize, now);
    if written.Err? {
      return Err(InternalError(WRITE_FAILED + written.error));
    }
    r := Ok(path);
  }

  /**
   * With a backup directory that is not empty and does not end in a
   * separator, a stored name free of separators and a four-digit year, an
   * upload whose directory could be created writes its file exactly when
   * the stored path was not already a directory.
   */
  lemma UploadWritesBelowDir(nodes: map<string, Node>, backupDir: string, f: UploadForm, now: int, alnum: char -> bool)
    requires CleanDir(backupDir) && !alnum('/') && 0 <= CivilOf(now).year <= 9999
    requires CreateDirAllOf(nodes, backupDir).Ok?
    ensures var path := UploadPath(backupDir, f, now, alnum);
            WriteError(CreateDirAllOf(nodes, backupDir).value, path).None? <==> !IsDir(nodes, path)
  {
    var path := UploadPath(backupDir, f, now, alnum);
    UploadPathInBackupDir(backupDir, f, now, alnum);
    CleanDirHasParent(backupDir);
    CreateDirAllShape(nodes, backupDir);
    var n1 := CreateDirAllOf(nodes, backupDir).value;
    WriteBelowDir(n1, backupDir, path);
    assert IsDir(n1, path) <==> IsDir(nodes, path);
  }

  // ------------------------------------------------------------ restore name

  /** What the handler's thread does when `backup.id[..5]` is cut from a shorter id: it panics. */
  const SHORT_ID_PANIC: string := "byte index 5 is out of bounds"

  /**
   * The database name a restore writes into: an explicit new name wins;
   * otherwise overwriting restores into the original name (`None`);
   * otherwise the target's database name, `_` and the first five
   * characters of the backup id.
   */
  function RestoreName(newName: Option<string>, overwrite: bool, targetDatabase: string, backupId: string)
    : (r: Result<Option<string>, string>)
    ensures r.Err? <==> newName.None? && !overwrite && |backupId| < 5
  {
    if newName.Some? then Ok(newName)
    else if overwrite then Ok(None)
    else if |backupId| < 5 then Err(SHORT_ID_PANIC)
    else Ok(Some(targetDatabase + "_" + backupId[..5]))
  }

  /**
   * The three choices, in order; a generated name reads back as the
   * target's name and a five-character prefix of the backup id.
   */
  lemma RestoreNameChoice(newName: Option<string>, overwrite: bool, targetDatabase: string, backupId: string)
    requires |backupId| >= 5
    ensures var r := RestoreName(newName, overwrite, targetDatabase, backupId);
            r.Ok?
            && (newName.Some? ==> r.value == newName)
            && (newName.None? && overwrite ==> r.value.None?)
            && (newName.None? && !overwrite ==>
                  r.value.Some? && |r.value.value| == |targetDatabase| + 6
                  && r.value.value[..|targetDatabase| + 1] == targetDatabase + "_"
                  && StartsWith(backupId, r.value.value[|targetDatabase| + 1..]))
  {
    if newName.None? && !overwrite {
      var s := targetDatabase + "_" + backupId[..5];
      assert s[..|targetDatabase| + 1] == targetDatabase + "_";
      assert s[|targetDatabase| + 1..] == backupId[..5];
    }
  }

  // ------------------------------------------------------------ download

  const GZIP_MIME: string := "application/gzip"
  const ZSTD_MIME: string := "application/zstd"
  const OCTET_MIME: string := "application/octet-stream"

  /** The `Content-Type` of a download, from the archive's path. */
  function MimeType(path: string): string {
    if EndsWith(path, ".tar.gz") then GZIP_MIME
    else if EndsWith(path, ".tar.zst") then ZSTD_MIME
    else OCTET_MIME
  }

  /** The MIME type agrees with the compression the scanner infers from the same path. */
  lemma MimeAgreesWithCompression(path: string)
    ensures MimeType(path) == GZIP_MIME <==> InferCompression(path) == "gzip"
    ensures MimeType(path) == ZSTD_MIME <==> InferCompression(path) == "zstd"
    ensures MimeType(path) == OCTET_MIME <==> InferCompression(path) == "none" || InferCompression(path) == "unknown"
  {
    UploadExtensionExact(path);
  }

  /** An uploaded archive is served with the MIME type of the extension it was stored with. */
  lemma UploadServedAsItsExtension(fileName: string, stamp: string, alnum: char -> bool)
    ensures MimeType(StoredName(fileName, stamp, alnum)) ==
              (if EndsWith(fileName, ".tar.zst") then ZSTD_MIME else GZIP_MIME)
  {
    var s := StoredName(fileName, stamp, alnum);
    StoredNameShape(fileName, stamp, alnum);
    UploadExtensionExact(fileName);
    MimeAgreesWithCompression(s);
  }

  /** The headers of a download: type, attachment name (`backup.tar.gz` without one) and length. */
  datatype DownloadHeaders = DownloadHeaders(contentType: string, disposition: string, contentLength: string)

  function DownloadHeadersOf(b: Backup): (h: DownloadHeaders)
    ensures h.contentType == MimeType(b.filePath)
    ensures h.contentLength == IntToString(b.fileSize)
  {
    var name := if Filename(b).Some? then Filename(b).value else "backup.tar.gz";
    DownloadHeaders(MimeType(b.filePath), "attachment; filename=\"" + name + "\"", IntToString(b.fileSize))
  }

  // ------------------------------------------------------------ cleanup

  /** What became of one old backup: both gone, the archive not removable, or the row not deletable. */
  datatype Outcome = Deleted | FileNotRemoved | RowNotDeleted

  /** One turn of the loop on the disk as it is then; `rowDeleted` is whether the `DELETE` succeeded. */
  function CleanupOutcome(nodes: map<string, Node>, b: Backup, rowDeleted: bool): Outcome {
    if IsDir(nodes, b.filePath) then FileNotRemoved
    else if rowDeleted then Deleted
    else RowNotDeleted
  }

  /** The disk after one turn: an archive that exists and is no directory is removed. */
  function NodesAfter(nodes: map<string, Node>, b: Backup): map<string, Node> {
    if b.filePath in nodes && !nodes[b.filePath].Directory? then nodes - {b.filePath} else nodes
  }

  /** The disk and the outcomes after the loop over the given backups. */
  datatype Sweep = Sweep(nodes: map<string, Node>, outcomes: seq<Outcome>)

  function CleanupSweep(nodes: map<string, Node>, olds: seq<Backup>, rowDeleted: seq<bool>): (s: Sweep)
    requires |olds| == |rowDeleted|
    ensures |s.outcomes| == |olds|
    decreases |olds|
  {
    if olds == [] then Sweep(nodes, [])
    else
      var k := |olds| - 1;
      var s := CleanupSweep(nodes, olds[..k], rowDeleted[..k]);
      Sweep(NodesAfter(s.nodes, olds[k]), s.outcomes + [CleanupOutcome(s.nodes, olds[k], rowDeleted[k])])
  }

  /** `deleted_count`: the backups whose archive and row both went. */
  function DeletedCount(outcomes: seq<Outcome>): nat
    decreases |outcomes|
  {
    if outcomes == [] then 0
    else DeletedCount(outcomes[..|outcomes| - 1]) + (if outcomes[|outcomes| - 1] == Deleted then 1 else 0)
  }

  /** `failed_deletions`: the ids of the other backups, in order. */
  function FailedIds(olds: seq<Backup>, outcomes: seq<Outcome>): seq<string>
    requires |olds| == |outcomes|
    decreases |olds|
  {
    if olds == [] then []
    else
      var k := |olds| - 1;
      FailedIds(olds[..k], outcomes[..k]) + (if outcomes[k] == Deleted then [] else [olds[k].id])
  }

  /** The ids whose rows were deleted. */
  function DeletedIds(olds: seq<Backup>, outcomes: seq<Outcome>): set<string>
    requires |olds| == |outcomes|
    decreases |olds|
  {
    if olds == [] then {}
    else
      var k := |olds| - 1;
      DeletedIds(olds[..k], outcomes[..k]) + (if outcomes[k] == Deleted then {olds[k].id} else {})
  }

  /** The sweep over one more backup is one more turn. */
  lemma SweepStep(nodes: map<string, Node>, olds: seq<Backup>, rowDeleted: seq<bool>, i: nat, s: Sweep, t: Sweep)
    requires |olds| == |rowDeleted| && i < |olds|
    requires s == CleanupSweep(nodes, olds[..i], rowDeleted[..i])
    requires t == CleanupSweep(nodes, olds[..i + 1], rowDeleted[..i + 1])
    ensures var o := CleanupOutcome(s.nodes, olds[i], rowDeleted[i]);
            t.nodes == NodesAfter(s.nodes, olds[i]) && t.outcomes == s.outcomes + [o]
            && DeletedCount(t.outcomes) == DeletedCount(s.outcomes) + (if o == Deleted then 1 else 0)
            && FailedIds(olds[..i + 1], t.outcomes) == FailedIds(olds[..i], s.outcomes) + (if o == Deleted then [] else [olds[i].id])
            && DeletedIds(olds[..i + 1], t.outcomes) == DeletedIds(olds[..i], s.outcomes) + (if o == Deleted then {olds[i].id} else {})
  {
    assert olds[..i + 1][..i] == olds[..i] && rowDeleted[..i + 1][..i] == rowDeleted[..i];
    assert t.outcomes[..i] == s.outcomes;
  }

  /** One turn of the loop: remove the archive if it exists, then, unless that failed, delete the row. */
  method CleanupOne(db: Db, fs: FileSystem, b: Backup, rowDeleted: bool) returns (o: Outcome)
    modifies db, fs
    ensures o == CleanupOutcome(old(fs.nodes), b, rowDeleted)
    ensures fs.nodes == NodesAfter(old(fs.nodes), b)
    ensures db.backups == if o == Deleted then old(db.backups) - {b.id} else old(db.backups)
    ensures db.jobs == old(db.jobs) && db.tasks == old(db.tasks) && db.configs == old(db.configs)
    ensures db.statusLog == old(db.statusLog)
  {
    var removed: Result<(), string> := Ok(());
    if b.filePath in fs.nodes {
      removed := fs.RemoveFile(b.filePath);
    }
    if removed.Err? {
      o := FileNotRemoved;
    } else if rowDeleted {
      db.DeleteBackup(b.id);
      o := Deleted;
    } else {
      o := RowNotDeleted;
    }
  }

  /**
   * `cleanup_old_backups`' loop over the backups older than the cutoff: an
   * archive that exists is removed first, and if that fails the backup is
   * a failure and its row is kept; otherwise the row is deleted, and a
   * failed `DELETE` makes it a failure too.
   */
  method CleanupOldBackups(db: Db, fs: FileSystem, olds: seq<Backup>, rowDeleted: seq<bool>)
    returns (deleted: nat, failed: seq<string>)
    requires |olds| == |rowDeleted|
    modifies db, fs
    ensures var s := CleanupSweep(old(fs.nodes), olds, rowDeleted);
            fs.nodes == s.nodes && deleted == DeletedCount(s.outcomes) && failed == FailedIds(olds, s.outcomes)
            && db.backups == old(db.backups) - DeletedIds(olds, s.outcomes)
    ensures db.jobs == old(db.jobs) && db.tasks == old(db.tasks) && db.configs == old(db.configs)
    ensures db.statusLog == old(db.statusLog)
  {
    deleted, failed := 0, [];
    var i := 0;
    ghost var nodes0, backups0 := fs.nodes, db.backups;
    while i < |olds|
      invariant 0 <= i <= |olds|
      invariant Accounted(nodes0, backups0, olds[..i], rowDeleted[..i], fs.nodes, db.backups, deleted, failed)
      invariant db.jobs == old(db.jobs) && db.tasks == old(db.tasks) && db.configs == old(db.configs)
      invariant db.statusLog == old(db.statusLog)
    {
      deleted, failed := CleanupTurn(db, fs, nodes0, backups0, olds, rowDeleted, i, deleted, failed);
      i := i + 1;
    }
    assert olds[..|olds|] == olds && rowDeleted[..|rowDeleted|] == rowDeleted;
  }

  /** The loop's state after the backups `olds` have been swept from `nodes0` and `backups0`. */
  ghost predicate Accounted(nodes0: map<string, Node>, backups0: map<string, Backup>,
                            olds: seq<Backup>, rowDeleted: seq<bool>,
                            nodes: map<string, Node>, backups: map<string, Backup>, deleted: nat, failed: seq<string>)
    requires |olds| == |rowDeleted|
  {
    var s := CleanupSweep(nodes0, olds, rowDeleted);
    nodes == s.nodes && deleted == DeletedCount(s.outcomes) && failed == FailedIds(olds, s.outcomes)
    && backups == backups0 - DeletedIds(olds, s.outcomes)
  }

  /** One turn of `CleanupOldBackups`' loop, over the backup at index `i`. */
  method CleanupTurn(db: Db, fs: FileSystem, ghost nodes0: map<string, Node>, ghost backups0: map<string, Backup>,
                     olds: seq<Backup>, rowDeleted: seq<bool>, i: nat, deleted: nat, failed: seq<string>)
    returns (deleted': nat, failed': seq<string>)
    requires |olds| == |rowDeleted| && i < |olds|
    requires Accounted(nodes0, backups0, olds[..i], rowDeleted[..i], fs.nodes, db.backups, deleted, failed)
    modifies db, fs
    ensures Accounted(nodes0, backups0, olds[..i + 1], rowDeleted[..i + 1], fs.nodes, db.backups, deleted', failed')
    ensures db.jobs == old(db.jobs) && db.tasks == old(db.tasks) && db.configs == old(db.configs)
    ensures db.statusLog == old(db.statusLog)
  {
    ghost var sweep := CleanupSweep(nodes0, olds[..i], rowDeleted[..i]);
    ghost var next := CleanupSweep(nodes0, olds[..i + 1], rowDeleted[..i + 1]);
    SweepStep(nodes0, olds, rowDeleted, i, sweep, next);
    ghost var backups := db.backups;
    var o := CleanupOne(db, fs, olds[i], rowDeleted[i]);
    if o == Deleted {
      deleted' := deleted + 1;
      failed' := failed;
      RemoveTwice(backups0, DeletedIds(olds[..i], sweep.outcomes), olds[i].id);
    } else {
      deleted' := deleted;
      failed' := failed + [olds[i].id];
      assert DeletedIds(olds[..i], sweep.outcomes) + {} == DeletedIds(olds[..i], sweep.outcomes);
    }
  }

  /** Removing keys in two steps is removing them all at once. */
  lemma RemoveTwice<K, V>(m: map<K, V>, ks: set<K>, k: K)
    ensures (m - ks) - {k} == m - (ks + {k})
  {
  }

  /** Every old backup is counted once: as deleted or among the failures. */
  lemma {:induction false} CleanupAccounts(outcomes: seq<Outcome>, olds: seq<Backup>)
    requires |olds| == |outcomes|
    ensures DeletedCount(outcomes) + |FailedIds(olds, outcomes)| == |olds|
    decreases |olds|
  {
    if olds != [] {
      var k := |olds| - 1;
      CleanupAccounts(outcomes[..k], olds[..k]);
    }
  }

  /**
   * With distinct ids, a backup is among the failures exactly when it was
   * not deleted, and its row is deleted exactly when it was.
   */
  lemma {:induction false} CleanupExactlyOne(outcomes: seq<Outcome>, olds: seq<Backup>, i: nat)
    requires |olds| == |outcomes| && i < |olds|
    requires forall j, k :: 0 <= j < k < |olds| ==> olds[j].id != olds[k].id
    ensures olds[i].id in FailedIds(olds, outcomes) <==> outcomes[i] != Deleted
    ensures olds[i].id in DeletedIds(olds, outcomes) <==> outcomes[i] == Deleted
    decreases |olds|
  {
    var k := |olds| - 1;
    var id := olds[i].id;
    if i < k {
      CleanupExactlyOne(outcomes[..k], olds[..k], i);
      assert olds[k].id != id;
    } else {
      IdNotBefore(outcomes[..k], olds[..k], id);
    }
  }

  /** An id that no backup of the list has is neither deleted nor failed. */
  lemma {:induction false} IdNotBefore(outcomes: seq<Outcome>, olds: seq<Backup>, id: string)
    requires |olds| == |outcomes|
    requires forall j :: 0 <= j < |olds| ==> olds[j].id != id
    ensures id !in FailedIds(olds, outcomes) && id !in DeletedIds(olds, outcomes)
    decreases |olds|
  {
    if olds != [] {
      var k := |olds| - 1;
      IdNotBefore(outcomes[..k], olds[..k], id);
    }
  }

  /** The archive paths of the listed backups. */
  function FilePaths(olds: seq<Backup>): set<string> {
    set j | 0 <= j < |olds| :: olds[j].filePath
  }

  /**
   * The disk after the cleanup: exactly the listed archives that are not
   * directories are gone, and every other node is as it was.
   */
  lemma {:induction false} CleanupRemovesArchives(nodes: map<string, Node>, olds: seq<Backup>, rowDeleted: seq<bool>)
    requires |olds| == |rowDeleted|
    ensures var after := CleanupSweep(nodes, olds, rowDeleted).nodes;
            (forall p :: p in after <==> p in nodes && (IsDir(nodes, p) || p !in FilePaths(olds)))
            && forall p :: p in after ==> after[p] == nodes[p]
    decreases |olds|
  {
    if olds != [] {
      var k := |olds| - 1;
      CleanupRemovesArchives(nodes, olds[..k], rowDeleted[..k]);
      assert FilePaths(olds) == FilePaths(olds[..k]) + {olds[k].filePath} by {
        forall p | p in FilePaths(olds) ensures p in FilePaths(olds[..k]) + {olds[k].filePath} {
          var j :| 0 <= j < |olds| && olds[j].filePath == p;
          if j < k { assert olds[..k][j] == olds[j]; }
        }
        forall p | p in FilePaths(olds[..k]) ensures p in FilePaths(olds) {
          var j :| 0 <= j < k && olds[..k][j].filePath == p;
          assert olds[j] == olds[..k][j];
        }
      }
    }
  }

  /** A backup fails on its archive exactly when its path is a directory: the loop never removes one. */
  lemma FileFailureIsDirectory(nodes: map<string, Node>, olds: seq<Backup>, rowDeleted: seq<bool>, i: nat)
    requires |olds| == |rowDeleted| && i < |olds|
    ensures CleanupSweep(nodes, olds, rowDeleted).outcomes[i] == FileNotRemoved <==> IsDir(nodes, olds[i].filePath)
  {
    var s := CleanupSweep(nodes, olds[..i], rowDeleted[..i]);
    SweepStep(nodes, olds, rowDeleted, i, s, CleanupSweep(nodes, olds[..i + 1], rowDeleted[..i + 1]));
    CleanupRemovesArchives(nodes, olds[..i], rowDeleted[..i]);
    SweepPrefix(nodes, olds, rowDeleted, i + 1);
    assert IsDir(s.nodes, olds[i].filePath) == IsDir(nodes, olds[i].filePath);
  }

  /** The outcomes of a sweep start with those of the sweep over a prefix. */
  lemma {:induction false} SweepPrefix(nodes: map<string, Node>, olds: seq<Backup>, rowDeleted: seq<bool>, n: nat)
    requires |olds| == |rowDeleted| && n <= |olds|
    ensures CleanupSweep(nodes, olds[..n], rowDeleted[..n]).outcomes
            == CleanupSweep(nodes, olds, rowDeleted).outcomes[..n]
    decreases |olds| - n
  {
    if n < |olds| {
      SweepPrefix(nodes, olds, rowDeleted, n + 1);
      SweepStep(nodes, olds, rowDeleted, n, CleanupSweep(nodes, olds[..n], rowDeleted[..n]),
                CleanupSweep(nodes, olds[..n + 1], rowDeleted[..n + 1]));
      var t := CleanupSweep(nodes, olds[..n + 1], rowDeleted[..n + 1]).outcomes;
      assert t[..n] == CleanupSweep(nodes, olds[..n], rowDeleted[..n]).outcomes;
      assert CleanupSweep(nodes, olds, rowDeleted).outcomes[..n + 1][..n]
             == CleanupSweep(nodes, olds, rowDeleted).outcomes[..n];
    } else {
      assert olds[..n] == olds && rowDeleted[..n] == rowDeleted;
    }
  }
}

=== FILE: api_jobs.dfy ===
/**
 * The job handlers: creating a job, cancelling and deleting one behind
 * their status guards, refreshing the stored progress from the live value
 * the log yields, listing the active jobs, and finding the log directory
 * the detailed progress is read from.
 */
module JobsApi {
  import opened Wrappers
  import opened Text
  import opened Tasks
  import opened Jobs
  import opened Paths
  import opened Disk
  import opened Store
  import opened Api
  import Worker
  import Mydumper

  const JOB_NOT_FOUND: string := "Job not found"
  const TASK_NOT_FOUND: string := "Task not found"
  const NOT_CANCELLABLE: string := "Job cannot be cancelled in its current state"
  const DELETE_RUNNING: string := "Cannot delete a running job. Cancel it first."
  const NO_LOG_OUTPUT: string := "Job has no log output"
  const INVALID_LOG_PATH: string := "Invalid log path"

  /** `job.status().unwrap_or(JobStatus::Failed)`: a status the enum does not accept counts as failed. */
  function StatusOrFailed(j: Job): JobStatus {
    match JobStatusOf(j)
    case Ok(s) => s
    case Err(_) => Failed
  }

  /** The guard of `cancel_job`. */
  predicate Cancellable(j: Job) {
    StatusOrFailed(j) == Pending || StatusOrFailed(j) == Running
  }

  /** The guard of `delete_job`. */
  predicate Deletable(j: Job) {
    StatusOrFailed(j) != Running
  }

  // ------------------------------------------------------------ create

  /** The row `create_job` inserts: its `INSERT` names no `used_database` column, so that one is left empty. */
  function CreatedRow(req: CreateJobRequest, id: string, now: int): Job {
    NewJob(req, id, now).(usedDatabase := None)
  }

  /**
   * `create_job`: a named task must exist; the new job is then inserted,
   * without its `used_database`, and answered as `Job::new` built it, with
   * it. A taken id fails the insert as a database error.
   */
  method CreateJob(db: Db, req: CreateJobRequest, id: string, now: int) returns (r: Result<Job, ApiError>)
    modifies db
    ensures req.taskId.Some? && req.taskId.value !in old(db.tasks) ==>
              r == Err(BadRequest(TASK_NOT_FOUND)) && db.jobs == old(db.jobs)
    ensures (req.taskId.None? || req.taskId.value in old(db.tasks)) && id in old(db.jobs) ==>
              r == Err(DatabaseError(DUPLICATE_JOB_ID)) && db.jobs == old(db.jobs)
    ensures r.Ok? <==> (req.taskId.None? || req.taskId.value in old(db.tasks)) && id !in old(db.jobs)
    ensures r.Ok? ==> r.value == NewJob(req, id, now) && db.jobs == old(db.jobs)[id := CreatedRow(req, id, now)]
    ensures db.tasks == old(db.tasks) && db.configs == old(db.configs) && db.backups == old(db.backups)
    ensures db.statusLog == old(db.statusLog)
  {
    if req.taskId.Some? && req.taskId.value !in db.tasks {
      return Err(BadRequest(TASK_NOT_FOUND));
    }
    var job := NewJob(req, id, now);
    var inserted := db.InsertJob(job.(usedDatabase := None));
    if inserted.Err? {
      return Err(DatabaseError(inserted.error));
    }
    r := Ok(job);
  }

  /** A created job is pending with no progress and no stamps, and keeps the request's task and path but not its database. */
  lemma CreatedRowShape(req: CreateJobRequest, id: string, now: int)
    ensures var j := CreatedRow(req, id, now);
            StatusOrFailed(j) == Pending && Cancellable(j) && Deletable(j) && j.progress == 0
            && j.id == id && j.taskId == req.taskId && j.backupPath == req.backupPath && j.usedDatabase.None?
            && j.startedAt.None? && j.completedAt.None? && j.createdAt == now
  {
  }

  // ------------------------------------------------------------ cancel

  /** `UPDATE jobs SET status = 'cancelled', completed_at = ? WHERE id = ?`. */
  function CancelledRow(j: Job, now: int): Job {
    j.(status := StatusName(Cancelled), completedAt := Some(now))
  }

  /** `cancel_job`: a missing job is not found, one past pending or running is refused, any other is cancelled. */
  method CancelJob(db: Db, id: string, now: int) returns (r: Result<(), ApiError>)
    modifies db
    ensures id !in old(db.jobs) ==> r == Err(NotFound(JOB_NOT_FOUND)) && db.jobs == old(db.jobs)
    ensures id in old(db.jobs) && !Cancellable(old(db.jobs)[id]) ==>
              r == Err(BadRequest(NOT_CANCELLABLE)) && db.jobs == old(db.jobs)
    ensures id in old(db.jobs) && Cancellable(old(db.jobs)[id]) ==>
              r == Ok(()) && db.jobs == old(db.jobs)[id := CancelledRow(old(db.jobs)[id], now)]
    ensures db.tasks == old(db.tasks) && db.configs == old(db.configs) && db.backups == old(db.backups)
    ensures db.statusLog == old(db.statusLog)
  {
    if id !in db.jobs {
      return Err(NotFound(JOB_NOT_FOUND));
    }
    var job := db.jobs[id];
    var current := StatusOrFailed(job);
    if !(current == Pending || current == Running) {
      return Err(BadRequest(NOT_CANCELLABLE));
    }
    db.PutJob(id, CancelledRow(job, now));
    r := Ok(());
  }

  /** A cancelled row reads back as Cancelled, is stamped complete, and cannot be cancelled again. */
  lemma CancelledRowShape(j: Job, now: int)
    ensures var c := CancelledRow(j, now);
            JobStatusOf(c) == Ok(Cancelled) && !Cancellable(c) && Deletable(c) && c.completedAt == Some(now)
  {
    var c := CancelledRow(j, now);
    CancelledParses(c);
    GuardsOf(c, Cancelled);
  }

  lemma CancelledParses(c: Job)
    requires c.status == StatusName(Cancelled)
    ensures JobStatusOf(c) == Ok(Cancelled)
  {
    StatusRoundTrip(Cancelled);
  }

  /** The guards read the parsed status. */
  lemma GuardsOf(j: Job, s: JobStatus)
    requires JobStatusOf(j) == Ok(s)
    ensures Cancellable(j) <==> s == Pending || s == Running
    ensures Deletable(j) <==> s != Running
  {
  }

  /** Every job the scheduler's single-flight query finds can be cancelled. */
  lemma LiveIsCancellable(j: Job, taskId: string)
    requires Worker.Live(j, taskId)
    ensures Cancellable(j)
  {
    StatusRoundTrip(Pending);
    StatusRoundTrip(Running);
  }

  /** Cancelling a job frees its task: the single-flight query no longer finds it, and finds every other job as before. */
  lemma CancelReleasesTask(jobs: map<string, Job>, id: string, now: int, taskId: string)
    requires id in jobs
    ensures Worker.LiveJobIds(jobs[id := CancelledRow(jobs[id], now)], taskId) == Worker.LiveJobIds(jobs, taskId) - {id}
  {
  }

  /** The status a backup writes between dump and archive cannot be cancelled, but can be deleted. */
  lemma CompressingIsStuck(j: Job)
    requires j.status == "compressing"
    ensures !Cancellable(j) && Deletable(j)
  {
    CompressingIsNoStatus();
  }

  // ------------------------------------------------------------ delete

  /**
   * What `delete_job` does to the filesystem before the row goes: the log
   * file is removed when it is a file, then its directory, when that is
   * one, with everything in it; a failure is only logged.
   */
  function LogCleanup(nodes: map<string, Node>, logOutput: Option<string>): map<string, Node> {
    match logOutput
    case None => nodes
    case Some(p) =>
      var rest := if p in nodes && !nodes[p].Directory? then nodes - {p} else nodes;
      match ParentPath(p)
      case None => rest
      case Some(d) => if IsDir(rest, d) then WithoutTree(rest, d) else rest
  }

  /** `delete_job`: a missing job is not found, a running one is refused, any other goes with its log files. */
  method DeleteJob(db: Db, fs: FileSystem, id: string) returns (r: Result<(), ApiError>)
    modifies db, fs
    ensures id !in old(db.jobs) ==> r == Err(NotFound(JOB_NOT_FOUND)) && db.jobs == old(db.jobs) && fs.nodes == old(fs.nodes)
    ensures id in old(db.jobs) && !Deletable(old(db.jobs)[id]) ==>
              r == Err(BadRequest(DELETE_RUNNING)) && db.jobs == old(db.jobs) && fs.nodes == old(fs.nodes)
    ensures id in old(db.jobs) && Deletable(old(db.jobs)[id]) ==>
              r == Ok(()) && db.jobs == old(db.jobs) - {id}
              && fs.nodes == LogCleanup(old(fs.nodes), old(db.jobs)[id].logOutput)
    ensures db.tasks == old(db.tasks) && db.configs == old(db.configs) && db.backups == old(db.backups)
    ensures db.statusLog == old(db.statusLog)
  {
    if id !in db.jobs {
      return Err(NotFound(JOB_NOT_FOUND));
    }
    var job := db.jobs[id];
    if StatusOrFailed(job) == Running {
      return Err(BadRequest(DELETE_RUNNING));
    }
    if job.logOutput.Some? {
      var p := job.logOutput.value;
      if p in fs.nodes {
        var _ := fs.RemoveFile(p);
      }
      var parent := ParentPath(p);
      if parent.Some? && IsDir(fs.nodes, parent.value) {
        var _ := fs.RemoveDirAll(parent.value);
      }
    }
    db.DeleteJob(id);
    r := Ok(());
  }

  /** Deleting a job whose log a backup run wrote removes that run's whole log directory, manifest included. */
  lemma DeleteRemovesRunLogs(nodes: map<string, Node>, logBase: string, jobId: string)
    requires jobId != [] && '/' !in jobId
    requires IsDir(nodes, Mydumper.LogDir(logBase, jobId))
    ensures var after := LogCleanup(nodes, Some(Mydumper.LogPath(logBase, jobId)));
            Mydumper.LogPath(logBase, jobId) !in after && Mydumper.ManifestPath(logBase, jobId) !in after
            && Mydumper.LogDir(logBase, jobId) !in after
            && forall q :: q in nodes && !Under(q, Mydumper.LogDir(logBase, jobId)) ==> q in after && after[q] == nodes[q]
  {
    var d, log := Mydumper.LogDir(logBase, jobId), Mydumper.LogPath(logBase, jobId);
    RunLogPaths(logBase, jobId);
    var rest := if log in nodes && !nodes[log].Directory? then nodes - {log} else nodes;
    assert IsDir(rest, d);
    assert LogCleanup(nodes, Some(log)) == WithoutTree(rest, d);
  }

  /** A run's log and manifest sit directly in its log directory. */
  lemma RunLogPaths(logBase: string, jobId: string)
    requires jobId != [] && '/' !in jobId
    ensures var d := Mydumper.LogDir(logBase, jobId);
            ParentPath(Mydumper.LogPath(logBase, jobId)) == Some(d) && Mydumper.LogPath(logBase, jobId) != d
            && Under(Mydumper.LogPath(logBase, jobId), d) && Under(Mydumper.ManifestPath(logBase, jobId), d)
  {
    var d := Mydumper.LogDir(logBase, jobId);
    assert jobId[|jobId| - 1] in jobId;
    assert d[|d| - 1] == jobId[|jobId| - 1];
    assert Mydumper.LogPath(logBase, jobId) == d + "/" + "mydumper.log";
    assert Mydumper.ManifestPath(logBase, jobId) == (d + "/") + "rdumper.meta.json";
    assert Mydumper.LogPath(logBase, jobId) == (d + "/") + "mydumper.log";
    ParentOfJoined(d, "mydumper.log");
  }

  // ------------------------------------------------------------ progress

  /** What `get_job_progress` answers. */
  datatype ProgressReply = ProgressReply(jobId: string, progress: int, status: string, updatedFromLogs: bool)

  /** The live value replaces the stored one only for a running job, and only when it is larger. */
  predicate Refreshes(j: Job, live: Result<int, string>) {
    j.status == "running" && live.Ok? && live.value > j.progress
  }

  /**
   * `get_job_progress`: a missing job is not found; otherwise the answer
   * carries the stored progress, after the live value from the log (an
   * input here) has replaced it when it `Refreshes`.
   */
  method GetJobProgress(db: Db, id: string, live: Result<int, string>) returns (r: Result<ProgressReply, ApiError>)
    modifies db
    ensures id !in old(db.jobs) ==> r == Err(NotFound(JOB_NOT_FOUND)) && db.jobs == old(db.jobs)
    ensures id in old(db.jobs) && Refreshes(old(db.jobs)[id], live) ==>
              db.jobs == old(db.jobs)[id := old(db.jobs)[id].(progress := live.value)]
              && r == Ok(ProgressReply(id, live.value, old(db.jobs)[id].status, true))
    ensures id in old(db.jobs) && !Refreshes(old(db.jobs)[id], live) ==>
              db.jobs == old(db.jobs) && r == Ok(ProgressReply(id, old(db.jobs)[id].progress, old(db.jobs)[id].status, false))
    ensures db.tasks == old(db.tasks) && db.configs == old(db.configs) && db.backups == old(db.backups)
    ensures db.statusLog == old(db.statusLog)
  {
    if id !in db.jobs {
      return Err(NotFound(JOB_NOT_FOUND));
    }
    var job := db.jobs[id];
    if job.status == "running" && live.Ok? && live.value > job.progress {
      db.PutJob(id, job.(progress := live.value));
      return Ok(ProgressReply(id, live.value, job.status, true));
    }
    r := Ok(ProgressReply(id, job.progress, job.status, false));
  }

  /** The progress a row keeps after `get_job_progress`. */
  function ProgressAfter(j: Job, live: Result<int, string>): int {
    if Refreshes(j, live) then live.value else j.progress
  }

  /**
   * The stored progress never goes down; for a running job it becomes the
   * larger of the stored and the live value, and for any other it stays.
   */
  lemma ProgressOnlyGrows(j: Job, live: Result<int, string>)
    ensures ProgressAfter(j, live) >= j.progress
    ensures j.status == "running" && live.Ok? ==>
              ProgressAfter(j, live) == (if live.value > j.progress then live.value else j.progress)
    ensures j.status != "running" || live.Err? ==> ProgressAfter(j, live) == j.progress
  {
  }

  /** A second call with the same live value changes nothing more. */
  lemma ProgressRefreshIdempotent(j: Job, live: Result<int, string>)
    ensures !Refreshes(j.(progress := ProgressAfter(j, live)), live)
  {
  }

  // ------------------------------------------------------------ active jobs and the log directory

  /** The filter of `list_active_jobs`. */
  predicate Active(j: Job) {
    j.status == "pending" || j.status == "running"
  }

  /** `list_active_jobs` over the rows in the order `ORDER BY created_at DESC` gives them. */
  function ActiveJobs(rows: seq<Job>): (r: seq<Job>)
    decreases |rows|
  {
    if rows == [] then []
    else ActiveJobs(rows[..|rows| - 1]) + (if Active(rows[|rows| - 1]) then [rows[|rows| - 1]] else [])
  }

  /** The active list holds exactly the active rows, in their order, and never more rows than there are. */
  lemma {:induction false} ActiveJobsExactly(rows: seq<Job>)
    ensures forall j :: j in ActiveJobs(rows) <==> j in rows && Active(j)
    ensures |ActiveJobs(rows)| <= |rows|
    decreases |rows|
  {
    if rows != [] {
      var n := |rows| - 1;
      ActiveJobsExactly(rows[..n]);
      assert rows == rows[..n] + [rows[n]];
    }
  }

  /** The active list keeps the newest-first order of the rows. */
  lemma {:induction false} ActiveJobsKeepOrder(rows: seq<Job>)
    requires forall i, k :: 0 <= i < k < |rows| ==> rows[i].createdAt >= rows[k].createdAt
    ensures var r := ActiveJobs(rows); forall i, k :: 0 <= i < k < |r| ==> r[i].createdAt >= r[k].createdAt
    decreases |rows|
  {
    if rows != [] {
      var n := |rows| - 1;
      ActiveJobsKeepOrder(rows[..n]);
      ActiveJobsExactly(rows[..n]);
      var p := ActiveJobs(rows[..n]);
      forall j | j in p
        ensures j.createdAt >= rows[n].createdAt
      {
        var i :| 0 <= i < n && rows[..n][i] == j;
      }
    }
  }

  /** A job of a task is active exactly when the scheduler's single-flight query finds it. */
  lemma ActiveIsLive(j: Job, taskId: string)
    requires j.taskId == Some(taskId)
    ensures Active(j) <==> Worker.Live(j, taskId)
  {
  }

  /** The directory `get_detailed_progress` reads the progress from: the parent of the job's log. */
  function DetailedLogDir(j: Job): (r: Result<string, ApiError>)
    ensures j.logOutput.None? ==> r == Err(BadRequest(NO_LOG_OUTPUT))
    ensures r.Err? && j.logOutput.Some? ==> r == Err(BadRequest(INVALID_LOG_PATH)) && ParentPath(j.logOutput.value).None?
  {
    match j.logOutput
    case None => Err(BadRequest(NO_LOG_OUTPUT))
    case Some(p) =>
      match ParentPath(p)
      case None => Err(BadRequest(INVALID_LOG_PATH))
      case Some(d) => Ok(d)
  }

  /** For a job a backup run has logged, that is the run's own log directory, where its manifest lies too. */
  lemma DetailedLogDirOfRun(j: Job, logBase: string, jobId: string)
    requires jobId != [] && '/' !in jobId && j.logOutput == Some(Mydumper.LogPath(logBase, jobId))
    ensures DetailedLogDir(j) == Ok(Mydumper.LogDir(logBase, jobId))
  {
    var d := Mydumper.LogDir(logBase, jobId);
    assert jobId[|jobId| - 1] in jobId;
    assert d[|d| - 1] == jobId[|jobId| - 1];
    assert Mydumper.LogPath(logBase, jobId) == d + "/" + "mydumper.log";
    ParentOfJoined(d, "mydumper.log");
  }
}

=== FILE: api_system.dfy ===
/**
 * The system handlers' readers of command output: `/etc/os-release` and
 * `/proc/meminfo` become key/value maps line by line, `--version` output
 * becomes the tool's version, `df -h /` becomes the root file system's
 * usage, and the health answer combines the tool checks.
 *
 * A command is given here by what it produced: `Some(stdout)` when it ran
 * and exited with status 0, `None` when it could not be started or failed.
 */
module SystemApi {
  import opened Wrappers
  import opened Text

  // ------------------------------------------------------------ line maps

  /** The entry a line contributes, if any, has key `k`. */
  predicate HasKey<V>(e: Option<(string, V)>, k: string) {
    e.Some? && e.value.0 == k
  }

  /**
   * The map a parsing loop has built after the given lines: each line's
   * entry, when it has one, inserted in turn, so that a later line
   * overwrites an earlier line's value for the same key.
   */
  function Insertions<V>(lines: seq<string>, entry: string -> Option<(string, V)>): map<string, V>
    decreases |lines|
  {
    if lines == [] then map[]
    else
      var m := Insertions(lines[..|lines| - 1], entry);
      match entry(lines[|lines| - 1])
      case None => m
      case Some(e) => m[e.0 := e.1]
  }

  /**
   * Last write wins: a key is in the map exactly when some line has an entry
   * for it, and its value is the value of the last such line.
   */
  lemma {:induction false} InsertionsLastWins<V>(lines: seq<string>, entry: string -> Option<(string, V)>, k: string)
    ensures k in Insertions(lines, entry) <==> exists i :: 0 <= i < |lines| && HasKey(entry(lines[i]), k)
    ensures k in Insertions(lines, entry) ==>
              exists i :: 0 <= i < |lines| && entry(lines[i]) == Some((k, Insertions(lines, entry)[k]))
                          && forall j :: i < j < |lines| ==> !HasKey(entry(lines[j]), k)
    decreases |lines|
  {
    if lines != [] {
      var n := |lines| - 1;
      var init := lines[..n];
      var m := Insertions(lines, entry);
      InsertionsLastWins(init, entry, k);
      assert forall i :: 0 <= i < n ==> init[i] == lines[i];
      if HasKey(entry(lines[n]), k) {
        assert m[k] == entry(lines[n]).value.1;
        assert entry(lines[n]) == Some((k, m[k]));
      } else {
        assert (k in m) == (k in Insertions(init, entry));
        if k in m {
          assert m[k] == Insertions(init, entry)[k];
          var i :| 0 <= i < |init| && entry(init[i]) == Some((k, m[k]))
                   && forall j :: i < j < |init| ==> !HasKey(entry(init[j]), k);
          assert forall j :: i < j < |lines| ==> !HasKey(entry(lines[j]), k) by {
            forall j | i < j < |lines| ensures !HasKey(entry(lines[j]), k) {
              if j < n { assert lines[j] == init[j]; }
            }
          }
        }
        if exists i :: 0 <= i < |lines| && HasKey(entry(lines[i]), k) {
          var i :| 0 <= i < |lines| && HasKey(entry(lines[i]), k);
          assert i < n && HasKey(entry(init[i]), k);
        }
      }
    }
  }

  // ------------------------------------------------------------ os-release

  /** No ASCII capital letter and no KELVIN SIGN: what `to_lowercase` leaves of those. */
  predicate NoCapitals(s: string) {
    forall i :: 0 <= i < |s| ==> !('A' <= s[i] <= 'Z') && s[i] != '\U{212A}'
  }

  /** `to_lowercase` leaves no capital behind. */
  lemma ToLowerHasNoCapitals(s: string)
    ensures NoCapitals(ToLower(s))
  {
    var t := ToLower(s);
    forall i | 0 <= i < |t| ensures !('A' <= t[i] <= 'Z') && t[i] != '\U{212A}' {
      assert t[i] == LowerChar(s[i]);
    }
  }

  /**
   * What one `/etc/os-release` line contributes: split at the first `=`,
   * the key lower-cased and the value stripped of every leading and
   * trailing `"`; a line without `=` contributes nothing.
   */
  function OsReleaseEntry(line: string): Option<(string, string)> {
    match SplitOnce(line, '=')
    case None => None
    case Some(kv) => Some((ToLower(kv.0), TrimChar(kv.1, '"')))
  }

  /** The os-release map after the given lines. */
  function OsRelease(lines: seq<string>): map<string, string> {
    Insertions(lines, OsReleaseEntry)
  }

  /** The parsing loop of `get_os_info` over the lines of the file. */
  method ParseOsRelease(content: string) returns (info: map<string, string>)
    ensures info == OsRelease(Lines(content))
  {
    var lines := Lines(content);
    info := map[];
    var i := 0;
    while i < |lines|
      invariant 0 <= i <= |lines|
      invariant info == OsRelease(lines[..i])
    {
      assert lines[..i + 1][..i] == lines[..i];
      match OsReleaseEntry(lines[i]) {
        case Some(e) => info := info[e.0 := e.1];
        case None =>
      }
      i := i + 1;
    }
    assert lines[..|lines|] == lines;
  }

  /** `get_os_info`: the parsed file, or a name and version of "Unknown" when `cat` failed. */
  method GetOsInfo(output: Option<string>) returns (info: map<string, string>)
    ensures output.None? ==> info == map["name" := "Unknown", "version" := "Unknown"]
    ensures output.Some? ==> info == OsRelease(Lines(output.value))
  {
    if output.None? {
      info := map["name" := "Unknown", "version" := "Unknown"];
    } else {
      info := ParseOsRelease(output.value);
    }
  }

  /**
   * A line contributes an entry exactly when it holds `=`; its key is the
   * text before the first `=`, lower-cased, and its value the text after
   * it, which then neither starts nor ends with `"`.
   */
  lemma OsReleaseEntryShape(line: string)
    ensures OsReleaseEntry(line).Some? <==> '=' in line
    ensures OsReleaseEntry(line).Some? ==>
              var (k, v) := OsReleaseEntry(line).value;
              NoCapitals(k) && '=' !in k && |k| < |line|
              && (v == [] || (v[0] != '"' && v[|v| - 1] != '"'))
  {
    if '=' in line {
      var kv := SplitOnce(line, '=').value;
      ToLowerHasNoCapitals(kv.0);
      assert |line| == |kv.0| + 1 + |kv.1|;
      assert '=' !in ToLower(kv.0) by {
        forall i | 0 <= i < |kv.0| ensures ToLower(kv.0)[i] != '=' {
          assert kv.0[i] != '=';
        }
      }
    }
  }

  /** Every key of the os-release map is lower case and every value is unquoted. */
  lemma OsReleaseNormalised(lines: seq<string>, k: string)
    requires k in OsRelease(lines)
    ensures NoCapitals(k) && '=' !in k
    ensures var v := OsRelease(lines)[k]; v == [] || (v[0] != '"' && v[|v| - 1] != '"')
  {
    InsertionsLastWins(lines, OsReleaseEntry, k);
    var i :| 0 <= i < |lines| && OsReleaseEntry(lines[i]) == Some((k, OsRelease(lines)[k]));
    OsReleaseEntryShape(lines[i]);
  }

  /** Unquoting a value wrapped in double quotes gives the value back. */
  lemma {:induction false} UnquoteQuoted(v: string)
    requires v == [] || (v[0] != '"' && v[|v| - 1] != '"')
    ensures TrimChar("\"" + v + "\"", '"') == v
    ensures TrimChar(v, '"') == v
  {
    var q := "\"" + v + "\"";
    assert q[1..] == v + "\"";
    if v == [] {
      assert TrimChar("\"", '"') == TrimChar([], '"');
    } else {
      var w := v + "\"";
      assert w[0] != '"' && w[|w| - 1] == '"' && w[..|w| - 1] == v;
    }
  }

  /**
   * A line written `key=value` or `key="value"`, with a lower-case key
   * without `=` and a value that is not itself quoted, is read back as
   * that key and value.
   */
  lemma OsReleaseEntryOfLine(key: string, value: string, quoted: bool)
    requires NoCapitals(key) && '=' !in key
    requires value == [] || (value[0] != '"' && value[|value| - 1] != '"')
    ensures OsReleaseEntry(key + "=" + (if quoted then "\"" + value + "\"" else value)) == Some((key, value))
  {
    var rhs := if quoted then "\"" + value + "\"" else value;
    SplitAtFirst(key, rhs, '=');
    ToLowerFixesLowercase(key);
    UnquoteQuoted(value);
  }

  // ---------------------------------------------------------------- meminfo

  /** The bytes for `kb` kibibytes as a `u64` product, which wraps around past 2^64 in a release build. */
  function KibToBytes(kb: nat): (b: nat)
    ensures b < U64_BOUND
    ensures kb * 1024 < U64_BOUND ==> b == kb * 1024
  {
    (kb * 1024) % U64_BOUND
  }

  /** A meminfo key: lower-cased, with every `(` and `)` removed. */
  function MemInfoKey(key: string): string {
    RemoveChar(RemoveChar(ToLower(key), '('), ')')
  }

  /** The first whitespace-separated token, `"0"` when there is none. */
  function FirstToken(value: string): string {
    var tokens := SplitWhitespace(Trim(value));
    if tokens == [] then "0" else tokens[0]
  }

  /**
   * What one `/proc/meminfo` line contributes: split at the first `:`, the
   * first token of the rest parsed as a `u64` count of kibibytes and
   * stored in bytes; no `:`, or a token that does not parse, contributes
   * nothing.
   */
  function MemInfoEntry(line: string): Option<(string, nat)> {
    match SplitOnce(line, ':')
    case None => None
    case Some(kv) =>
      match ParseU64(FirstToken(kv.1))
      case None => None
      case Some(kb) => Some((MemInfoKey(kv.0), KibToBytes(kb)))
  }

  /** The meminfo map after the given lines. */
  function MemInfo(lines: seq<string>): map<string, nat> {
    Insertions(lines, MemInfoEntry)
  }

  /** The parsing loop of `get_memory_info` over the lines of the file. */
  method ParseMemInfo(content: string) returns (info: map<string, nat>)
    ensures info == MemInfo(Lines(content))
  {
    var lines := Lines(content);
    info := map[];
    var i := 0;
    while i < |lines|
      invariant 0 <= i <= |lines|
      invariant info == MemInfo(lines[..i])
    {
      assert lines[..i + 1][..i] == lines[..i];
      match MemInfoEntry(lines[i]) {
        case Some(e) => info := info[e.0 := e.1];
        case None =>
      }
      i := i + 1;
    }
    assert lines[..|lines|] == lines;
  }

  /** `get_memory_info`: the parsed file, or an empty map when `cat` failed. */
  method GetMemoryInfo(output: Option<string>) returns (info: map<string, nat>)
    ensures output.None? ==> info == map[]
    ensures output.Some? ==> info == MemInfo(Lines(output.value))
  {
    if output.None? {
      info := map[];
    } else {
      info := ParseMemInfo(output.value);
    }
  }

  /** Removing one character keeps only characters that were there. */
  lemma {:induction false} RemoveCharKeeps(s: string, c: char, x: char)
    requires x in RemoveChar(s, c)
    ensures x in s && x != c
  {
    if s != [] {
      var head := if s[0] == c then [] else [s[0]];
      assert RemoveChar(s, c) == head + RemoveChar(s[1..], c);
      if x !in head {
        RemoveCharKeeps(s[1..], c, x);
      }
    }
  }

  /** A meminfo key has no capital, no parenthesis and no `:`. */
  lemma MemInfoKeyNormal(key: string)
    requires ':' !in key
    ensures var k := MemInfoKey(key); NoCapitals(k) && '(' !in k && ')' !in k && ':' !in k
  {
    var lower := ToLower(key);
    ToLowerHasNoCapitals(key);
    var k := MemInfoKey(key);
    forall i | 0 <= i < |k| ensures !('A' <= k[i] <= 'Z') && k[i] != '\U{212A}' && k[i] != '(' && k[i] != ':' {
      assert k[i] in k;
      RemoveCharKeeps(RemoveChar(lower, '('), ')', k[i]);
      RemoveCharKeeps(lower, '(', k[i]);
      var j :| 0 <= j < |lower| && lower[j] == k[i];
      assert lower[j] == LowerChar(key[j]);
      assert key[j] != ':';
    }
  }

  /**
   * Every key of the meminfo map is normalised, and every value is a `u64`;
   * it is a whole number of kibibytes in bytes whenever the product fits.
   */
  lemma MemInfoNormalised(lines: seq<string>, k: string)
    requires k in MemInfo(lines)
    ensures NoCapitals(k) && '(' !in k && ')' !in k
    ensures MemInfo(lines)[k] < U64_BOUND
  {
    InsertionsLastWins(lines, MemInfoEntry, k);
    var i :| 0 <= i < |lines| && MemInfoEntry(lines[i]) == Some((k, MemInfo(lines)[k]));
    var kv := SplitOnce(lines[i], ':').value;
    MemInfoKeyNormal(kv.0);
  }

  /** A line is split at its first `:`: the name before it keys the entry, the first token after it gives the value. */
  lemma MemInfoEntryOf(name: string, value: string)
    requires ':' !in name
    ensures MemInfoEntry(name + [':'] + value) ==
              match ParseU64(FirstToken(value))
              case None => None
              case Some(kb) => Some((MemInfoKey(name), KibToBytes(kb)))
  {
    SplitAtFirst(name, value, ':');
  }

  /** The first token of ` <n> kB` is the number. */
  lemma FirstTokenOfAmount(kb: nat)
    ensures FirstToken(" " + NatToString(kb) + " kB") == NatToString(kb)
  {
    var digits := NatToString(kb);
    var rest := JoinSpaced([digits, "kB"]);
    assert [digits, "kB"][1..] == ["kB"];
    assert JoinSpaced(["kB"]) == "kB";
    assert rest == digits + [' '] + "kB";
    assert " " + NatToString(kb) + " kB" == " " + rest;
    assert Words([digits, "kB"]) by {
      forall i | 0 <= i < |digits| ensures !IsWhitespace(digits[i]) {
        assert IsDigit(digits[i]);
      }
    }
    assert Trim(" " + rest) == rest by {
      assert (" " + rest)[1..] == rest;
      assert rest[0] == digits[0] && IsDigit(digits[0]);
      assert rest[|rest| - 1] == 'B';
    }
    SplitWhitespaceOfSpaced([digits, "kB"]);
  }

  /** A line `Name: <n> kB` stores `n` kibibytes in bytes under the normalised name. */
  lemma MemInfoEntryOfLine(name: string, kb: nat)
    requires ':' !in name
    requires kb * 1024 < U64_BOUND
    ensures MemInfoEntry(name + [':'] + " " + NatToString(kb) + " kB") == Some((MemInfoKey(name), kb * 1024))
  {
    var value := " " + NatToString(kb) + " kB";
    assert name + [':'] + " " + NatToString(kb) + " kB" == name + [':'] + value;
    MemInfoEntryOf(name, value);
    FirstTokenOfAmount(kb);
    ParseUnsignedOfNatToString(kb, U64_BOUND);
  }

  /** `"0"` parses as zero. */
  lemma ParseZero()
    ensures ParseU64("0") == Some(0)
  {
    assert "0"[..0] == [];
    assert AllDigits("0") && DigitsValue("0") == 0;
  }

  /** A line with a `:` and nothing but white space after it stores 0: `unwrap_or("0")` supplies the token. */
  lemma MemInfoEmptyValueIsZero(name: string, blank: string)
    requires ':' !in name
    requires forall i :: 0 <= i < |blank| ==> IsWhitespace(blank[i])
    ensures MemInfoEntry(name + [':'] + blank) == Some((MemInfoKey(name), 0))
  {
    MemInfoEntryOf(name, blank);
    BlankTrimsToEmpty(blank);
    ParseZero();
  }

  /** Trimming white space only leaves nothing. */
  lemma {:induction false} BlankTrimsToEmpty(s: string)
    requires forall i :: 0 <= i < |s| ==> IsWhitespace(s[i])
    ensures Trim(s) == []
    decreases |s|
  {
    if s != [] {
      BlankTrimsToEmpty(s[1..]);
    }
  }

  /** A line whose first token is not a `u64` leaves the map as it was. */
  lemma MemInfoSkipsUnparsed(lines: seq<string>, name: string, value: string)
    requires ':' !in name
    requires ParseU64(FirstToken(value)).None?
    ensures MemInfo(lines + [name + [':'] + value]) == MemInfo(lines)
  {
    var line := name + [':'] + value;
    MemInfoEntryOf(name, value);
    var all := lines + [line];
    assert all[..|all| - 1] == lines && all[|all| - 1] == line;
  }

  // ------------------------------------------------------- tool versions

  /** A non-empty text has at least one line. */
  lemma LinesOfNonEmpty(s: string)
    requires s != []
    ensures Lines(s) != []
  {
  }

  /** `get_tool_version`: the first line of the output, trimmed, or None when the tool failed or printed nothing. */
  function ToolVersion(output: Option<string>): (r: Option<string>)
    ensures r.Some? <==> output.Some? && output.value != []
  {
    if output.None? then None
    else
      var lines := Lines(output.value);
      if lines == [] then None else Some(Trim(lines[0]))
  }

  /** The version of an output whose first line is `first` is `first` trimmed, whatever follows. */
  lemma ToolVersionOfFirstLine(first: string, rest: string)
    requires '\n' !in first && (first == [] || first[|first| - 1] != '\r')
    ensures ToolVersion(Some(first + "\n" + rest)) == Some(Trim(first))
  {
    var s := first + "\n" + rest;
    assert s[|first|] == '\n' && s[..|first|] == first;
    assert FindChar(s, '\n') == Some(|first|);
  }

  /** The answer of `get_mydumper_version` and `get_myloader_version`. */
  datatype VersionReply = VersionReply(tool: string, version: Option<string>, available: bool)

  function VersionAnswer(tool: string, output: Option<string>): (r: VersionReply)
    ensures r.tool == tool && r.version == ToolVersion(output)
    ensures r.available <==> output.Some? && output.value != []
  {
    var v := ToolVersion(output);
    VersionReply(tool, v, v.Some?)
  }

  /** `check_mydumper_available` and `check_myloader_available`: the `--version` run succeeded. */
  function ToolAvailable(output: Option<string>): bool {
    output.Some?
  }

  /**
   * A tool the version answer calls available is available to the health
   * check; the converse fails for a tool that exits 0 and prints nothing.
   */
  lemma VersionAvailableIsHealthy(output: Option<string>)
    ensures VersionAnswer("", output).available ==> ToolAvailable(output)
    ensures output == Some([]) ==> ToolAvailable(output) && !VersionAnswer("", output).available
  {
  }

  // ------------------------------------------------------------ disk space

  /** The five columns the handler reports for the root file system. */
  datatype DiskSpace = DiskSpace(filesystem: string, size: string, used: string, available: string,
                                 usePercentage: string)

  /** What the handler's thread does when `parts[4]` is read from four parts: it panics. */
  const INDEX_OUT_OF_BOUNDS: string := "index out of bounds: the len is 4 but the index is 4"

  /** The fields of the second line of the output, when there is one. */
  function SecondLineFields(output: Option<string>): Option<seq<string>> {
    if output.None? then None
    else
      var lines := Lines(output.value);
      if |lines| < 2 then None else Some(SplitWhitespace(lines[1]))
  }

  /**
   * `get_disk_space` as written: four fields or more pass the guard, but
   * the fifth is read, so exactly four fields panic (`Err`); `None` is the
   * empty object.
   */
  function DiskSpaceAsWritten(output: Option<string>): Result<Option<DiskSpace>, string> {
    match SecondLineFields(output)
    case None => Ok(None)
    case Some(parts) =>
      if |parts| >= 4 then
        if |parts| > 4 then Ok(Some(DiskSpace(parts[0], parts[1], parts[2], parts[3], parts[4])))
        else Err(INDEX_OUT_OF_BOUNDS)
      else Ok(None)
  }

  /** `get_disk_space` with the guard matching the fields it reads: at least five, else the empty object. */
  function DiskSpaceOf(output: Option<string>): Option<DiskSpace> {
    match SecondLineFields(output)
    case None => None
    case Some(parts) =>
      if |parts| >= 5 then Some(DiskSpace(parts[0], parts[1], parts[2], parts[3], parts[4])) else None
  }

  /** Words, as `split_whitespace` yields them: non-empty and free of white space. */
  predicate Words(ws: seq<string>) {
    (forall k :: 0 <= k < |ws| ==> ws[k] != [])
    && forall k, i :: 0 <= k < |ws| && 0 <= i < |ws[k]| ==> !IsWhitespace(ws[k][i])
  }

  /** The second line of `header` then the fields joined by spaces splits into those fields. */
  lemma SecondLineOf(header: string, fields: seq<string>)
    requires '\n' !in header && (header == [] || header[|header| - 1] != '\r')
    requires Words(fields) && fields != []
    ensures SecondLineFields(Some(Terminated([header, JoinSpaced(fields)]))) == Some(fields)
  {
    var line := JoinSpaced(fields);
    SplitWhitespaceOfSpaced(fields);
    JoinedEndsInWord(fields);
    JoinedHasNoNewline(fields);
    LinesOfTerminated([header, line]);
  }

  /** Words joined by spaces end in the last word's last character, which is no `\r`. */
  lemma {:induction false} JoinedEndsInWord(fields: seq<string>)
    requires Words(fields) && fields != []
    ensures var s := JoinSpaced(fields); s != [] && !IsWhitespace(s[|s| - 1])
    decreases |fields|
  {
    if |fields| > 1 {
      JoinedEndsInWord(fields[1..]);
      var rest := JoinSpaced(fields[1..]);
      assert JoinSpaced(fields) == fields[0] + [' '] + rest;
    } else {
      assert fields[0][|fields[0]| - 1] in fields[0];
    }
  }

  /** Words joined by spaces hold no `\n`: it is white space, and so is no word's character nor the separator. */
  lemma {:induction false} JoinedHasNoNewline(fields: seq<string>)
    requires Words(fields)
    ensures '\n' !in JoinSpaced(fields)
    decreases |fields|
  {
    if fields != [] {
      var w := fields[0];
      assert '\n' !in w by {
        forall i | 0 <= i < |w| ensures w[i] != '\n' {
          assert !IsWhitespace(w[i]);
        }
      }
      if |fields| > 1 {
        JoinedHasNoNewline(fields[1..]);
        var rest := JoinSpaced(fields[1..]);
        assert JoinSpaced(fields) == w + [' '] + rest;
      }
    }
  }

  /** As written, a second line of exactly four fields panics instead of answering. */
  lemma FourFieldsPanic(header: string, fields: seq<string>)
    requires '\n' !in header && (header == [] || header[|header| - 1] != '\r')
    requires Words(fields) && |fields| == 4
    ensures DiskSpaceAsWritten(Some(Terminated([header, JoinSpaced(fields)]))) == Err(INDEX_OUT_OF_BOUNDS)
  {
    SecondLineOf(header, fields);
  }

  /** The panic on a concrete `df` output whose data line lacks the use column: `overlay 50G 20G 28G`. */
  lemma FourFieldsPanicExample()
    ensures DiskSpaceAsWritten(Some("Size\n" + "overlay 50G 20G 28G" + "\n")) == Err(INDEX_OUT_OF_BOUNDS)
  {
    var fields := ExampleFields();
    ExampleOutput(JoinSpaced(fields));
    FourFieldsPanic("Size", fields);
  }

  /** The four fields of the example's data line, and that line. */
  lemma ExampleFields() returns (fields: seq<string>)
    ensures Words(fields) && |fields| == 4 && JoinSpaced(fields) == "overlay 50G 20G 28G"
  {
    fields := ["overlay", "50G", "20G", "28G"];
    assert fields[1..] == ["50G", "20G", "28G"] && fields[1..][1..] == ["20G", "28G"];
    assert fields[1..][1..][1..] == ["28G"];
    assert JoinSpaced(["28G"]) == "28G";
    assert JoinSpaced(["20G", "28G"]) == "20G" + [' '] + "28G";
    assert JoinSpaced(fields[1..]) == "50G" + [' '] + ("20G" + [' '] + "28G");
  }

  /** The example's output: a header line, then the data line. */
  lemma ExampleOutput(line: string)
    ensures Terminated(["Size", line]) == "Size\n" + line + "\n"
  {
    var lines := ["Size", line];
    assert lines[1..] == [line] && [line][1..] == [];
    assert Terminated([line]) == line + ['\n'] + Terminated([]);
  }

  /**
   * The corrected reader never fails: five fields or more give the first
   * five in order, fewer give the empty object; and wherever the code as
   * written answers, it answers the same.
   */
  lemma DiskSpaceOfFields(header: string, fields: seq<string>)
    requires '\n' !in header && (header == [] || header[|header| - 1] != '\r')
    requires Words(fields) && fields != []
    ensures var d := DiskSpaceOf(Some(Terminated([header, JoinSpaced(fields)])));
            (d.Some? <==> |fields| >= 5)
            && (d.Some? ==> d.value == DiskSpace(fields[0], fields[1], fields[2], fields[3], fields[4]))
  {
    SecondLineOf(header, fields);
  }

  /** The code as written fails exactly on four fields, and otherwise agrees with the corrected reader. */
  lemma DiskSpaceAgrees(output: Option<string>)
    ensures DiskSpaceAsWritten(output).Err? <==> SecondLineFields(output).Some? && |SecondLineFields(output).value| == 4
    ensures DiskSpaceAsWritten(output).Ok? ==> DiskSpaceAsWritten(output).value == DiskSpaceOf(output)
  {
  }

  // ---------------------------------------------------------------- health

  /** `get_health_status`: the overall status, both tool checks and the disk usage. */
  datatype HealthReply = HealthReply(status: string, mydumper: bool, myloader: bool, diskSpace: Option<DiskSpace>)

  const HEALTHY: string := "healthy"
  const DEGRADED: string := "degraded"

  /**
   * `get_health_status` as written, from the two `--version` runs and the
   * `df -h /` run: the handler panics (`Err`) wherever the disk reader as
   * written does.
   */
  function HealthStatusAsWritten(mydumper: Option<string>, myloader: Option<string>, df: Option<string>)
    : Result<HealthReply, string>
  {
    var dumperUp, loaderUp := ToolAvailable(mydumper), ToolAvailable(myloader);
    match DiskSpaceAsWritten(df)
    case Err(e) => Err(e)
    case Ok(d) => Ok(HealthReply(if dumperUp && loaderUp then HEALTHY else DEGRADED, dumperUp, loaderUp, d))
  }

  /** `get_health_status` over the corrected disk reader: it always answers. */
  function HealthStatus(mydumper: Option<string>, myloader: Option<string>, df: Option<string>): HealthReply {
    var dumperUp, loaderUp := ToolAvailable(mydumper), ToolAvailable(myloader);
    HealthReply(if dumperUp && loaderUp then HEALTHY else DEGRADED, dumperUp, loaderUp, DiskSpaceOf(df))
  }

  /** Healthy exactly when both tools ran, degraded otherwise; the disk usage does not enter the status. */
  lemma HealthyIffBothTools(mydumper: Option<string>, myloader: Option<string>, df: Option<string>, df2: Option<string>)
    ensures var r := HealthStatus(mydumper, myloader, df);
            (r.status == HEALTHY <==> mydumper.Some? && myloader.Some?)
            && (r.status == DEGRADED <==> !(mydumper.Some? && myloader.Some?))
            && r.status == HealthStatus(mydumper, myloader, df2).status
  {
  }

  /**
   * As written, the health handler panics exactly on a `df` data line of
   * four fields; everywhere else it answers what the corrected handler
   * answers, so the status is healthy exactly when both tools ran.
   */
  lemma HealthAsWrittenAgrees(mydumper: Option<string>, myloader: Option<string>, df: Option<string>)
    ensures var r := HealthStatusAsWritten(mydumper, myloader, df);
            (r.Err? <==> SecondLineFields(df).Some? && |SecondLineFields(df).value| == 4)
            && (r.Err? ==> r.error == INDEX_OUT_OF_BOUNDS)
            && (r.Ok? ==> r.value == HealthStatus(mydumper, myloader, df)
                          && (r.value.status == HEALTHY <==> mydumper.Some? && myloader.Some?))
  {
    DiskSpaceAgrees(df);
    HealthyIffBothTools(mydumper, myloader, df, df);
  }
}

=== FILE: api_worker.dfy ===
/**
 * The worker handlers: the status answer, with a colour that says whether
 * the last tick is recent, and the start request, which only refuses a
 * worker that is already running.
 */
module WorkerApi {
  import opened Wrappers
  import opened Api
  import opened Worker

  const ALREADY_RUNNING: string := "Worker is already running"
  const START_REQUESTED: string :=
    "Worker start requested. Note: Worker should be started automatically on application startup."

  /** `WorkerStatusResponse`; `last_tick` is rendered by `to_rfc3339`, a parameter here. */
  datatype WorkerStatusResponse = WorkerStatusResponse(
    isRunning: bool,
    lastTick: Option<string>,
    totalTicks: nat,
    tasksExecuted: nat,
    statusColor: string,
    statusText: string)

  /** The colour and the text for the last tick, seen at `now` (both in whole seconds). */
  function Health(lastTick: Option<int>, now: int): (string, string) {
    match lastTick
    case None => ("gray", "Not started")
    case Some(t) => if now - t <= 60 then ("green", "Running") else ("red", "Stale")
  }

  /** `WorkerStatusResponse::from`. */
  function StatusResponse(s: WorkerStatus, now: int, rfc3339: int -> string): WorkerStatusResponse {
    var health := Health(s.lastTick, now);
    WorkerStatusResponse(s.isRunning, if s.lastTick.Some? then Some(rfc3339(s.lastTick.value)) else None,
                         s.totalTicks, s.tasksExecuted, health.0, health.1)
  }

  /**
   * Gray exactly when the worker never ticked, green exactly when the last
   * tick is at most a minute old, red otherwise; the counters and the
   * running flag are copied as they are.
   */
  lemma StatusResponseShape(s: WorkerStatus, now: int, rfc3339: int -> string)
    ensures var r := StatusResponse(s, now, rfc3339);
            (r.statusColor == "gray" <==> s.lastTick.None?)
            && (r.statusColor == "green" <==> s.lastTick.Some? && now - s.lastTick.value <= 60)
            && (r.statusColor == "red" <==> s.lastTick.Some? && now - s.lastTick.value > 60)
            && r.statusText == (if r.statusColor == "gray" then "Not started"
                                else if r.statusColor == "green" then "Running" else "Stale")
            && r.isRunning == s.isRunning && r.totalTicks == s.totalTicks && r.tasksExecuted == s.tasksExecuted
            && (r.lastTick.Some? <==> s.lastTick.Some?)
  {
  }

  /** Right after a tick the worker shows green, and it turns red once a minute passes without another. */
  lemma FreshTickIsGreen(s: WorkerStatus, tick: int, now: int)
    requires s.lastTick == Some(tick)
    ensures Health(s.lastTick, now).0 == "green" <==> now <= tick + 60
  {
  }

  /** What `start_worker` answers when it does not refuse. */
  datatype StartReply = StartReply(message: string, currentStatus: WorkerStatusResponse)

  /** `start_worker`: refused while running; otherwise a message and the status, and nothing is started or changed. */
  method StartWorker(worker: TaskWorker, now: int, rfc3339: int -> string) returns (r: Result<StartReply, ApiError>)
    ensures r.Err? <==> worker.status.isRunning
    ensures r.Err? ==> r.error == BadRequest(ALREADY_RUNNING)
    ensures r.Ok? ==> r.value == StartReply(START_REQUESTED, StatusResponse(worker.status, now, rfc3339))
                      && !r.value.currentStatus.isRunning
  {
    var status := worker.GetStatus();
    if status.isRunning {
      return Err(BadRequest(ALREADY_RUNNING));
    }
    r := Ok(StartReply(START_REQUESTED, StatusResponse(status, now, rfc3339)));
  }
}

=== FILE: backup.dfy ===
/**
 * Backups on disk: the record the scanner and the API hand around, the JSON
 * sidecar (`rdumper.backup.json`) written next to each archive, and the
 * path accessors and age computation on a backup.
 *
 * `created_at` is the RFC 3339 text the code stores; reading it back is the
 * parameter `rfc3339`, which gives the Unix second or `None` for text that
 * is not RFC 3339.
 */
module Backups {
  import opened Wrappers
  import opened Paths

  /**
   * A backup: archive and sidecar paths, size and compression, and where it
   * came from ("manual", "scheduled", "uploaded", "external"). The struct
   * shown lacks `used_database`, which the scanner sets; it is added here.
   */
  datatype Backup = Backup(
    id: string,
    databaseName: string,
    databaseConfigId: string,
    taskId: Option<string>,
    usedDatabase: Option<string>,
    filePath: string,
    metaPath: string,
    fileSize: int,
    compressionType: string,
    createdAt: string,
    backupType: string)

  /** The connection settings recorded in a sidecar; `port` is a `u16`. */
  datatype DatabaseConfigInfo = DatabaseConfigInfo(
    id: string,
    name: string,
    host: string,
    port: nat,
    username: string,
    databaseName: string)

  datatype TaskInfo = TaskInfo(
    id: string,
    name: string,
    schedule: Option<string>,
    useNonTransactional: bool)

  /** The sidecar's contents (`used_database` added as for `Backup`). */
  datatype BackupMetadata = BackupMetadata(
    id: string,
    databaseName: string,
    databaseConfigId: string,
    taskId: Option<string>,
    usedDatabase: Option<string>,
    filePath: string,
    metaPath: string,
    fileSize: int,
    compressionType: string,
    createdAt: string,
    backupType: string,
    ident: Option<string>,
    databaseConfig: DatabaseConfigInfo,
    taskInfo: Option<TaskInfo>)

  /**
   * `Backup::new`: the eight arguments verbatim, `id` the fresh uuid and
   * `created_at` the RFC 3339 text of now; the constructor does not know a
   * used database.
   */
  function NewBackup(databaseName: string, databaseConfigId: string, taskId: Option<string>,
                     filePath: string, metaPath: string, fileSize: int, compressionType: string,
                     backupType: string, id: string, nowText: string): (b: Backup)
    ensures b.id == id && b.createdAt == nowText && b.usedDatabase.None?
    ensures b.databaseName == databaseName && b.databaseConfigId == databaseConfigId && b.taskId == taskId
    ensures b.filePath == filePath && b.metaPath == metaPath && b.fileSize == fileSize
    ensures b.compressionType == compressionType && b.backupType == backupType
  {
    Backup(id, databaseName, databaseConfigId, taskId, None, filePath, metaPath, fileSize,
           compressionType, nowText, backupType)
  }

  /** `BackupMetadata::new`: the backup's fields, no ident yet, and the given config and task records. */
  function NewMetadata(b: Backup, config: DatabaseConfigInfo, task: Option<TaskInfo>): (m: BackupMetadata)
    ensures BackupOf(m) == b
    ensures m.ident.None? && m.databaseConfig == config && m.taskInfo == task
  {
    BackupMetadata(b.id, b.databaseName, b.databaseConfigId, b.taskId, b.usedDatabase, b.filePath,
                   b.metaPath, b.fileSize, b.compressionType, b.createdAt, b.backupType, None,
                   config, task)
  }

  /** The backup a sidecar describes: its fields without the ident and the two records. */
  function BackupOf(m: BackupMetadata): Backup {
    Backup(m.id, m.databaseName, m.databaseConfigId, m.taskId, m.usedDatabase, m.filePath,
           m.metaPath, m.fileSize, m.compressionType, m.createdAt, m.backupType)
  }

  /** `Backup::filename`. */
  function Filename(b: Backup): Option<string> { FileName(b.filePath) }

  /** `Backup::meta_filename`. */
  function MetaFilename(b: Backup): Option<string> { FileName(b.metaPath) }

  /** `Backup::backup_folder`: the name of the directory holding the archive. */
  function BackupFolder(b: Backup): Option<string> { ParentName(b.filePath) }

  /** `Backup::exists`: both the archive and the sidecar are on disk. */
  predicate BackupExists(present: set<string>, b: Backup) {
    Exists(present, b.filePath) && Exists(present, b.metaPath)
  }

  /**
   * A backup whose archive sits at `root/dir/name` reports `name` as its file and `dir` as its
   * folder; a sidecar beside it at `root/dir/metaName` is reported as `metaName`; and the backup
   * exists exactly when both of those paths are present.
   */
  lemma AccessorsOfJoin(b: Backup, root: string, dir: string, name: string, metaName: string, present: set<string>)
    requires NormalName(dir) && NormalName(name)
    requires b.filePath == Join(Join(root, dir), name)
    ensures Filename(b) == Some(name) && BackupFolder(b) == Some(dir)
    ensures NormalName(metaName) && b.metaPath == Join(Join(root, dir), metaName) ==>
              MetaFilename(b) == Some(metaName)
              && (BackupExists(present, b) <==> Join(Join(root, dir), name) in present
                                                && Join(Join(root, dir), metaName) in present)
  {
    FileNameOfJoin(Join(root, dir), name);
    ParentNameOfJoin(root, dir, name);
    if NormalName(metaName) && b.metaPath == Join(Join(root, dir), metaName) {
      FileNameOfJoin(Join(root, dir), metaName);
    }
  }

  const SECONDS_PER_DAY: int := 86400

  /** Rust's `/` on `i64`: the quotient rounded toward zero. */
  function TruncDiv(a: int, d: int): int
    requires d > 0
  {
    if a >= 0 then a / d else -((-a) / d)
  }

  /**
   * `Backup::age_days`: whole days from `created_at` to `now`, rounded
   * toward zero as `Duration::num_days` does; 0 when `created_at` does not
   * parse.
   */
  function AgeDays(b: Backup, now: int, rfc3339: string -> Option<int>): (r: int)
    ensures rfc3339(b.createdAt).None? ==> r == 0
    ensures rfc3339(b.createdAt).Some? && now >= rfc3339(b.createdAt).value ==>
              var age := now - rfc3339(b.createdAt).value;
              0 <= r && r * SECONDS_PER_DAY <= age < (r + 1) * SECONDS_PER_DAY
    ensures rfc3339(b.createdAt).Some? && now < rfc3339(b.createdAt).value ==>
              var age := now - rfc3339(b.createdAt).value;
              r <= 0 && (r - 1) * SECONDS_PER_DAY < age <= r * SECONDS_PER_DAY
  {
    match rfc3339(b.createdAt)
    case None => 0
    case Some(created) => TruncDivBounds(now - created, SECONDS_PER_DAY); TruncDiv(now - created, SECONDS_PER_DAY)
  }

  /** The quotient rounded toward zero is the largest whole multiple not farther from zero than `a`. */
  lemma TruncDivBounds(a: int, d: int)
    requires d > 0
    ensures a >= 0 ==> 0 <= TruncDiv(a, d) && TruncDiv(a, d) * d <= a < (TruncDiv(a, d) + 1) * d
    ensures a < 0 ==> TruncDiv(a, d) <= 0 && (TruncDiv(a, d) - 1) * d < a <= TruncDiv(a, d) * d
  {
    if a >= 0 { NonNegativeQuotient(a, d, TruncDiv(a, d)); } else { NegativeQuotient(a, d, TruncDiv(a, d)); }
  }

  lemma NonNegativeQuotient(a: int, d: int, t: int)
    requires d > 0 && a >= 0 && t == a / d
    ensures 0 <= t && t * d <= a < (t + 1) * d
  {
    assert a == t * d + a % d;
    assert (t + 1) * d == t * d + d;
  }

  lemma NegativeQuotient(a: int, d: int, t: int)
    requires d > 0 && a < 0 && t == -((-a) / d)
    ensures t <= 0 && (t - 1) * d < a <= t * d
  {
    var q := (-a) / d;
    assert -a == q * d + (-a) % d;
    assert t * d == -(q * d);
    assert (t - 1) * d == -(q * d) - d;
  }
}

=== FILE: backup_process.dfy ===
/**
 * One backup run on disk: its root directory `<base>/<dir>`, the `tmp`
 * directory mydumper writes into, the `rdumper.backup.json` sidecar, and
 * the two steps that create them (`initialize`) and turn `tmp` into a tar
 * archive next to the sidecar (`complete`).
 */
module BackupProcesses {
  import opened Wrappers
  import opened Text
  import opened Clock
  import opened Paths
  import opened Tasks
  import opened DbConfigs
  import opened Backups
  import opened Disk
  import opened Tools

  const TMP_DIR_NAME: string := "tmp"
  const META_FILE_NAME: string := "rdumper.backup.json"

  datatype BackupProcess = BackupProcess(
    id: string,
    rootDir: string,
    tmpDir: string,
    metaFile: string,
    config: DatabaseConfig,
    task: Option<Task>,
    backupType: string,
    compressionType: string)

  /** `BackupProcess::new`: `tmp` and the sidecar are named children of the root. */
  function NewProcess(id: string, rootDir: string, config: DatabaseConfig, task: Option<Task>,
                      backupType: string, compressionType: string): (p: BackupProcess)
    ensures p.tmpDir == Join(rootDir, TMP_DIR_NAME) && p.metaFile == Join(rootDir, META_FILE_NAME)
    ensures FileName(p.tmpDir) == Some(TMP_DIR_NAME) && FileName(p.metaFile) == Some(META_FILE_NAME)
    ensures p.id == id && p.rootDir == rootDir && p.config == config && p.task == task
    ensures p.backupType == backupType && p.compressionType == compressionType
  {
    FixedNamesNormal();
    FileNameOfJoin(rootDir, TMP_DIR_NAME);
    FileNameOfJoin(rootDir, META_FILE_NAME);
    BackupProcess(id, rootDir, Join(rootDir, TMP_DIR_NAME), Join(rootDir, META_FILE_NAME),
                  config, task, backupType, compressionType)
  }

  /** A process laid out as `new` lays it out. */
  predicate WellFormed(p: BackupProcess) {
    p.tmpDir == Join(p.rootDir, TMP_DIR_NAME) && p.metaFile == Join(p.rootDir, META_FILE_NAME)
  }

  // ------------------------------------------------------------ the archive

  /** `get_archive_extension`: anything but zstd and none is archived as gzip. */
  function ArchiveExtension(compression: string): (r: string)
    ensures r == "tar.zst" <==> compression == "zstd"
    ensures r == "tar" <==> compression == "none"
    ensures r == "tar.gz" <==> compression != "zstd" && compression != "none"
  {
    match compression
    case "gzip" => "tar.gz"
    case "zstd" => "tar.zst"
    case "none" => "tar"
    case _ => "tar.gz"
  }

  /** The archive's name: the config's database name (never the task's), the UTC stamp of `now`, the extension. */
  function ArchiveName(p: BackupProcess, now: int): string {
    p.config.databaseName + "-" + FormatStamp(CivilOf(now)) + "." + ArchiveExtension(p.compressionType)
  }

  function ArchivePath(p: BackupProcess, now: int): string {
    Join(p.rootDir, ArchiveName(p, now))
  }

  /** The tar command line of `create_tar_archive`: the compression flag, then `-C <tmp> .`. */
  function TarArgs(compression: string, output: string, tmp: string): (r: seq<string>)
    ensures |r| >= 6 && r[|r| - 4..] == ["-C", tmp, "--warning=no-file-changed", "."]
    ensures r[|r| - 5] == output
  {
    var head := match compression
      case "zstd" => ["-c", "--zstd", "-f", output]
      case "none" => ["-cf", output]
      case _ => ["-czf", output];
    assert (head + ["-C", tmp, "--warning=no-file-changed", "."])[..|head|] == head;
    head + ["-C", tmp, "--warning=no-file-changed", "."]
  }

  /** The flag tar is given and the extension the archive gets name the same compression. */
  lemma TarFlagsMatchExtension(compression: string, output: string, tmp: string)
    ensures var flags := TarArgs(compression, output, tmp)[0];
            (ArchiveExtension(compression) == "tar.gz" <==> flags == "-czf")
            && (ArchiveExtension(compression) == "tar" <==> flags == "-cf")
            && (ArchiveExtension(compression) == "tar.zst" <==> flags == "-c")
  {
  }

  /** The extension of every compression a task can name. */
  lemma ExtensionOfCompression(c: CompressionType)
    ensures ArchiveExtension(CompressionName(c)) == (match c case Gzip => "tar.gz" case Zstd => "tar.zst" case NoCompression => "tar")
  {
  }

  // ------------------------------------------------------------ the sidecar

  /** `port as u16`: the low 16 bits of the `i32`. */
  function U16Of(port: int): (r: nat)
    ensures r < 0x1_0000
    ensures 0 <= port < 0x1_0000 ==> r == port
  {
    port % 0x1_0000
  }

  /** `u64 as i64`: two's-complement reinterpretation. */
  function I64Of(n: nat): (r: int)
    requires n < U64_BOUND
    ensures I64_MIN <= r <= I64_MAX
    ensures n <= I64_MAX ==> r == n
    ensures (r - n) % U64_BOUND == 0
  {
    if n <= I64_MAX then n else n - U64_BOUND
  }

  /** `duration_since(UNIX_EPOCH).unwrap_or_default().as_secs()`: a time before the epoch counts as 0. */
  function ModifiedSecs(t: int): (r: nat)
    ensures t >= 0 ==> r == t
    ensures t < 0 ==> r == 0
  {
    if t >= 0 then t else 0
  }

  /** The `used_database` of a run: `<config name>/<task's database, else the config's>`. */
  function UsedDatabase(config: DatabaseConfig, task: Option<Task>): (r: string)
    ensures task.Some? && task.value.databaseName.Some? ==> r == config.name + "/" + task.value.databaseName.value
    ensures task.None? || task.value.databaseName.None? ==> r == config.name + "/" + config.databaseName
  {
    var db := if task.Some? && task.value.databaseName.Some? then task.value.databaseName.value else config.databaseName;
    config.name + "/" + db
  }

  function ConfigInfo(c: DatabaseConfig): DatabaseConfigInfo {
    DatabaseConfigInfo(c.id, c.name, c.host, U16Of(c.port), c.username, c.databaseName)
  }

  function TaskInfoOf(t: Task): TaskInfo {
    TaskInfo(t.id, t.name, Some(t.cronSchedule), t.useNonTransactional)
  }

  /** `create_initial_metadata`: no archive yet, so no path, size 0 and no ident. */
  function InitialMetadata(p: BackupProcess, nowText: string): (m: BackupMetadata)
    ensures m.id == p.id && m.metaPath == p.metaFile && m.createdAt == nowText
    ensures m.filePath == "" && m.fileSize == 0 && m.ident.None?
    ensures m.taskId == (if p.task.Some? then Some(p.task.value.id) else None)
    ensures m.usedDatabase == Some(UsedDatabase(p.config, p.task))
    ensures m.databaseName == p.config.databaseName && m.databaseConfigId == p.config.id
    ensures m.compressionType == p.compressionType && m.backupType == p.backupType
    ensures m.databaseConfig.port == U16Of(p.config.port)
    ensures p.task.Some? ==> m.taskInfo.Some? && m.taskInfo.value.schedule == Some(p.task.value.cronSchedule)
    ensures p.task.None? ==> m.taskInfo.None?
  {
    BackupMetadata(p.id, p.config.databaseName, p.config.id,
                   if p.task.Some? then Some(p.task.value.id) else None,
                   Some(UsedDatabase(p.config, p.task)), "", p.metaFile, 0, p.compressionType,
                   nowText, p.backupType, None, ConfigInfo(p.config),
                   if p.task.Some? then Some(TaskInfoOf(p.task.value)) else None)
  }

  /** The integrity tag of a finished archive: `size_<bytes>_modified_<seconds>`. */
  function Ident(size: int, secs: nat): string {
    "size_" + IntToString(size) + "_modified_" + NatToString(secs)
  }

  /** Reading an ident back into its size and seconds. */
  function ParseIdent(s: string): Option<(nat, nat)> {
    if !StartsWith(s, "size_") then None
    else match SplitOnce(s[5..], '_')
      case None => None
      case Some((size, tail)) =>
        if !StartsWith(tail, "modified_") then None
        else
          var n, t := ParseU64(size), ParseU64(tail[9..]);
          if n.Some? && t.Some? then Some((n.value, t.value)) else None
  }

  /** An ident names its size and seconds unambiguously. */
  lemma IdentRoundTrip(size: nat, secs: nat)
    requires size < U64_BOUND && secs < U64_BOUND
    ensures ParseIdent(Ident(size, secs)) == Some((size, secs))
  {
    var a, b := NatToString(size), NatToString(secs);
    var s := Ident(size, secs);
    assert s == "size_" + a + "_modified_" + b;
    assert s[5..] == a + ['_'] + ("modified_" + b);
    assert '_' !in a by {
      forall i | 0 <= i < |a| ensures a[i] != '_' { assert IsDigit(a[i]); }
    }
    SplitAtFirst(a, "modified_" + b, '_');
    assert ("modified_" + b)[9..] == b;
    ParseUnsignedOfNatToString(size, U64_BOUND);
    ParseUnsignedOfNatToString(secs, U64_BOUND);
  }

  /** `update_metadata_fast`: the archive's path, size and ident are filled in and nothing else changes. */
  function UpdateMetadataFast(m: BackupMetadata, archivePath: string, size: int, secs: nat): (r: BackupMetadata)
    ensures r.filePath == archivePath && r.fileSize == size && r.ident == Some(Ident(size, secs))
    ensures r.(filePath := m.filePath, fileSize := m.fileSize, ident := m.ident) == m
  {
    m.(filePath := archivePath, fileSize := size, ident := Some(Ident(size, secs)))
  }

  // ------------------------------------------------------------ the two steps

  /**
   * `initialize` on the disk `nodes`: its answer and the disk it leaves.
   * The root is created with its missing ancestors, then `tmp`, then the
   * initial sidecar is written; the first failure stops it.
   */
  function InitializeOf(nodes: map<string, Node>, p: BackupProcess, nowText: string): (Result<(), string>, map<string, Node>) {
    match CreateDirAllOf(nodes, p.rootDir)
    case Err(e) => (Err(e), nodes)
    case Ok(n1) =>
      match CreateDirAllOf(n1, p.tmpDir)
      case Err(e) => (Err(e), n1)
      case Ok(n2) =>
        match WriteError(n2, p.metaFile)
        case Some(e) => (Err(e), n2)
        case None => (Ok(()), n2[p.metaFile := SidecarOf(InitialMetadata(p, nowText))])
  }

  /** `initialize`: create the root, then `tmp`, then write the initial sidecar; the first failure stops it. */
  method Initialize(p: BackupProcess, fs: FileSystem, nowText: string) returns (r: Result<(), string>)
    modifies fs
    ensures (r, fs.nodes) == InitializeOf(old(fs.nodes), p, nowText)
  {
    var made := fs.CreateDirAll(p.rootDir);
    if made.Err? { return Err(made.error); }
    made := fs.CreateDirAll(p.tmpDir);
    if made.Err? { return Err(made.error); }
    var written := fs.WriteSidecar(p.metaFile, InitialMetadata(p, nowText));
    if written.Err? { return Err(written.error); }
    r := Ok(());
  }

  /**
   * For a process laid out by `new` on a clean root, `initialize` succeeds
   * exactly when the root's chain can be created, `tmp` is not a file and
   * the sidecar's path is not a directory. It then leaves the root and
   * `tmp` as directories and the initial sidecar, keeps every other node
   * and adds only directories; when the root cannot be created, nothing
   * changes.
   */
  lemma InitializeOutcome(nodes: map<string, Node>, p: BackupProcess, nowText: string)
    requires WellFormed(p) && CleanDir(p.rootDir)
    ensures var (r, after) := InitializeOf(nodes, p, nowText);
            (r.Ok? <==> CreateDirAllOf(nodes, p.rootDir).Ok? && !(p.tmpDir in nodes && !nodes[p.tmpDir].Directory?)
                        && !IsDir(nodes, p.metaFile))
            && (r.Ok? ==> DirThenFileLayout(nodes, after, p.rootDir, p.tmpDir, p.metaFile, SidecarOf(InitialMetadata(p, nowText))))
            && (CreateDirAllOf(nodes, p.rootDir).Err? ==> r.Err? && after == nodes)
  {
    CleanDirHasParent(p.rootDir);
    var made := CreateDirAllOf(nodes, p.rootDir);
    if made.Ok? {
      CreateDirAllShape(nodes, p.rootDir);
      InitializeAfterRoot(nodes, made.value, p, nowText);
    }
  }

  /** `initialize` once the root's chain is created into `n1`: `tmp` below the root, then the sidecar. */
  lemma InitializeAfterRoot(nodes: map<string, Node>, n1: map<string, Node>, p: BackupProcess, nowText: string)
    requires WellFormed(p) && CleanDir(p.rootDir) && CreateDirAllOf(nodes, p.rootDir) == Ok(n1)
    requires IsDir(n1, p.rootDir)
    requires forall k :: k in nodes ==> k in n1 && n1[k] == nodes[k]
    requires forall k :: k in n1 && k !in nodes ==> n1[k] == Directory && |k| <= |p.rootDir|
    ensures var (r, after) := InitializeOf(nodes, p, nowText);
            (r.Ok? <==> !(p.tmpDir in nodes && !nodes[p.tmpDir].Directory?) && !IsDir(nodes, p.metaFile))
            && (r.Ok? ==> DirThenFileLayout(nodes, after, p.rootDir, p.tmpDir, p.metaFile, SidecarOf(InitialMetadata(p, nowText))))
  {
    FixedNamesNormal();
    SiblingsApart(p.rootDir, META_FILE_NAME, TMP_DIR_NAME);
    ParentOfJoin(p.rootDir, TMP_DIR_NAME);
    ParentOfJoin(p.rootDir, META_FILE_NAME);
    DirThenFile(nodes, n1, p.rootDir, p.tmpDir, p.metaFile, SidecarOf(InitialMetadata(p, nowText)));
  }

  /**
   * Over `n1`, which holds the directory `d` and otherwise the nodes of
   * `nodes` plus directories no longer than `d`: creating the child `c`
   * fails exactly on a file there, and then writing `s` at the child `f`
   * fails exactly on a directory there.
   */
  lemma DirThenFile(nodes: map<string, Node>, n1: map<string, Node>, d: string, c: string, f: string, s: Node)
    requires IsDir(n1, d) && ParentPath(c) == Some(d) && ParentPath(f) == Some(d) && c != f
    requires |c| > |d| && |f| > |d|
    requires forall k :: k in nodes ==> k in n1 && n1[k] == nodes[k]
    requires forall k :: k in n1 && k !in nodes ==> n1[k] == Directory && |k| <= |d|
    ensures var made := CreateDirAllOf(n1, c);
            (made.Err? <==> c in nodes && !nodes[c].Directory?)
            && (made.Ok? ==> (WriteError(made.value, f).None? <==> !IsDir(nodes, f)))
            && (made.Ok? && !IsDir(nodes, f) ==> DirThenFileLayout(nodes, made.value[f := s], d, c, f, s))
  {
    assert c in n1 <==> c in nodes;
    assert f in n1 <==> f in nodes;
    CreateChildDir(n1, d, c);
    if !(c in nodes && !nodes[c].Directory?) {
      var n2 := if c in nodes then n1 else n1[c := Directory];
      assert CreateDirAllOf(n1, c) == Ok(n2);
      WriteBelowDir(n2, d, f);
      assert IsDir(n2, f) <==> IsDir(nodes, f);
      if !IsDir(nodes, f) {
        KeptBelow(nodes, n2, d, c, f, s);
      }
    }
  }

  /** The directories `d` and `c`, the file `s` at `f`, every other node of `nodes`, and otherwise directories. */
  predicate DirThenFileLayout(nodes: map<string, Node>, after: map<string, Node>, d: string, c: string, f: string, s: Node) {
    IsDir(after, d) && IsDir(after, c) && f in after && after[f] == s
    && (forall k :: k in nodes && k != f ==> k in after && after[k] == nodes[k])
    && (forall k :: k in after && k !in nodes && k != f ==> after[k] == Directory)
  }

  /** Writing a file over a disk that extends `nodes` with directories keeps that relation. */
  lemma KeptBelow(nodes: map<string, Node>, n2: map<string, Node>, d: string, c: string, f: string, s: Node)
    requires IsDir(n2, d) && IsDir(n2, c) && d != f && c != f
    requires forall k :: k in nodes ==> k in n2 && n2[k] == nodes[k]
    requires forall k :: k in n2 && k !in nodes ==> n2[k] == Directory
    ensures DirThenFileLayout(nodes, n2[f := s], d, c, f, s)
  {
  }

  /** The disk after a successful `complete`, given the sidecar `m` it read. */
  function AfterComplete(nodes: map<string, Node>, p: BackupProcess, now: int, size: nat, modified: int,
                         m: BackupMetadata): map<string, Node>
    requires size < U64_BOUND
  {
    var archive := ArchivePath(p, now);
    var n1 := nodes[archive := RegularFile(size, modified)]
                   [p.metaFile := SidecarOf(UpdateMetadataFast(m, archive, I64Of(size), ModifiedSecs(modified)))];
    if p.tmpDir in n1 then WithoutTree(n1, p.tmpDir) else n1
  }

  /**
   * `update_metadata_fast` on the disk `nodes`: read the sidecar at `meta`
   * back, fill in the archive's path, size and ident, and write it again.
   * Either step can fail, and then nothing has changed.
   */
  function UpdateMetadataOf(nodes: map<string, Node>, meta: string, archive: string, size: int, secs: nat)
    : (r: (Result<(), string>, map<string, Node>))
    ensures r.0.Ok? ==> ReadSidecarOf(nodes, meta).Ok?
    ensures r.0.Ok? ==> r.1 == nodes[meta := SidecarOf(UpdateMetadataFast(ReadSidecarOf(nodes, meta).value, archive, size, secs))]
    ensures r.0.Err? ==> r.1 == nodes
  {
    match ReadSidecarOf(nodes, meta)
    case Err(e) => (Err(e), nodes)
    case Ok(m) =>
      match WriteError(nodes, meta)
      case Some(e) => (Err(e), nodes)
      case None => (Ok(()), nodes[meta := SidecarOf(UpdateMetadataFast(m, archive, size, secs))])
  }

  /** `cleanup_tmp` on the disk `nodes`: a present `tmp` is removed with all it holds; a file there fails. */
  function CleanupTmpOf(nodes: map<string, Node>, tmp: string): (r: (Result<(), string>, map<string, Node>))
    ensures r.0.Err? <==> tmp in nodes && !IsDir(nodes, tmp)
    ensures r.0.Ok? ==> r.1 == if tmp in nodes then WithoutTree(nodes, tmp) else nodes
    ensures r.0.Err? ==> r.1 == nodes
  {
    if tmp !in nodes then (Ok(()), nodes)
    else if !IsDir(nodes, tmp) then (Err(ENOTDIR), nodes)
    else (Ok(()), WithoutTree(nodes, tmp))
  }

  /** What `create_tar_archive` answers when tar ran and did not succeed. */
  const TAR_FAILED: string := "Failed to create tar archive"

  /**
   * `complete` on the disk `nodes`, with `now` the instant `create_archive`
   * reads for the archive's name: its answer and the disk it leaves. A tar
   * that cannot be started fails with its io error, one that fails with
   * `TAR_FAILED`, and neither changes anything; otherwise the archive is on
   * disk, then the sidecar is updated and `tmp` cleaned up; the first
   * failure stops it.
   */
  function CompleteOf(nodes: map<string, Node>, p: BackupProcess, now: int, tar: ToolRun, size: nat,
                      modified: int): (r: (Result<string, string>, map<string, Node>))
    requires size < U64_BOUND
    ensures tar.NotSpawned? ==> r == (Err(tar.error), nodes)
    ensures FailedExit(tar) ==> r == (Err(TAR_FAILED), nodes)
    ensures r.0.Ok? ==> Succeeded(tar) && r.0.value == ArchivePath(p, now)
  {
    if tar.NotSpawned? then (Err(tar.error), nodes)
    else if !Succeeded(tar) then (Err(TAR_FAILED), nodes)
    else
      var archive := ArchivePath(p, now);
      var (updated, n2) := UpdateMetadataOf(nodes[archive := RegularFile(size, modified)], p.metaFile, archive,
                                            I64Of(size), ModifiedSecs(modified));
      if updated.Err? then (Err(updated.error), n2)
      else
        var (cleaned, n3) := CleanupTmpOf(n2, p.tmpDir);
        if cleaned.Err? then (Err(cleaned.error), n3) else (Ok(archive), n3)
  }

  /**
   * What `complete` leaves on the disk: on success, `AfterComplete` of the
   * sidecar as it was before; on a failure after the tar, the archive is
   * kept as `KeptArchive` says.
   */
  lemma CompleteOfOutcome(nodes: map<string, Node>, p: BackupProcess, now: int, tar: ToolRun, size: nat,
                          modified: int)
    requires size < U64_BOUND
    ensures var (r, after) := CompleteOf(nodes, p, now, tar, size, modified);
            (r.Ok? ==> ReadSidecarOf(nodes, p.metaFile).Ok?
                       && after == AfterComplete(nodes, p, now, size, modified, ReadSidecarOf(nodes, p.metaFile).value))
            && (Succeeded(tar) && r.Err? ==> KeptArchive(nodes, after, p, now, size, modified))
  {
    if Succeeded(tar) {
      var archive := ArchivePath(p, now);
      var tarred := nodes[archive := RegularFile(size, modified)];
      var (updated, n2) := UpdateMetadataOf(tarred, p.metaFile, archive, I64Of(size), ModifiedSecs(modified));
      if updated.Err? {
        assert n2 == tarred;
        TarredKept(nodes, p, now, size, modified);
      } else {
        var m := ReadSidecarOf(tarred, p.metaFile).value;
        assert archive != p.metaFile;
        assert ReadSidecarOf(nodes, p.metaFile) == Ok(m);
        var (cleaned, n3) := CleanupTmpOf(n2, p.tmpDir);
        if cleaned.Err? {
          RewrittenSidecarKept(nodes, n2, p, now, size, modified, m);
        } else {
          assert n3 == AfterComplete(nodes, p, now, size, modified, m);
        }
      }
    }
  }

  /** The disk right after the tar is what `KeptArchive` describes. */
  lemma TarredKept(nodes: map<string, Node>, p: BackupProcess, now: int, size: nat, modified: int)
    requires size < U64_BOUND
    ensures KeptArchive(nodes, nodes[ArchivePath(p, now) := RegularFile(size, modified)], p, now, size, modified)
  {
  }

  /** Rewriting the sidecar after the tar leaves what `KeptArchive` describes. */
  lemma RewrittenSidecarKept(nodes: map<string, Node>, n2: map<string, Node>, p: BackupProcess, now: int,
                             size: nat, modified: int, m: BackupMetadata)
    requires size < U64_BOUND
    requires n2 == nodes[ArchivePath(p, now) := RegularFile(size, modified)]
                        [p.metaFile := SidecarOf(UpdateMetadataFast(m, ArchivePath(p, now), I64Of(size), ModifiedSecs(modified)))]
    requires ArchivePath(p, now) != p.metaFile && p.metaFile in nodes
    ensures KeptArchive(nodes, n2, p, now, size, modified)
  {
    var tarred := nodes[ArchivePath(p, now) := RegularFile(size, modified)];
    assert n2 - {p.metaFile} == tarred - {p.metaFile};
  }

  /**
   * What a `complete` that fails after the tar leaves: the archive tar
   * wrote and every other node but the sidecar as they were, including
   * `tmp`; the sidecar either as it was or rewritten to record the archive.
   */
  predicate KeptArchive(nodes: map<string, Node>, after: map<string, Node>, p: BackupProcess, now: int, size: nat,
                        modified: int)
  {
    var tarred := nodes[ArchivePath(p, now) := RegularFile(size, modified)];
    after - {p.metaFile} == tarred - {p.metaFile}
    && (p.metaFile in after <==> p.metaFile in tarred)
    && (p.metaFile in after && after[p.metaFile] != tarred[p.metaFile] ==>
          after[p.metaFile].Sidecar? && after[p.metaFile].content.Some?
          && after[p.metaFile].content.value.filePath == ArchivePath(p, now))
  }

  /** `update_metadata_fast`, on the filesystem. */
  method UpdateMetadata(p: BackupProcess, fs: FileSystem, archive: string, size: int, secs: nat)
    returns (r: Result<(), string>)
    modifies fs
    ensures (r, fs.nodes) == UpdateMetadataOf(old(fs.nodes), p.metaFile, archive, size, secs)
  {
    var current := fs.ReadSidecar(p.metaFile);
    assert current == ReadSidecarOf(old(fs.nodes), p.metaFile);
    if current.Err? {
      return Err(current.error);
    }
    var written := fs.WriteSidecar(p.metaFile, UpdateMetadataFast(current.value, archive, size, secs));
    r := if written.Err? then Err(written.error) else Ok(());
  }

  /** `cleanup_tmp`, on the filesystem. */
  method CleanupTmp(p: BackupProcess, fs: FileSystem) returns (r: Result<(), string>)
    modifies fs
    ensures (r, fs.nodes) == CleanupTmpOf(old(fs.nodes), p.tmpDir)
  {
    r := Ok(());
    if p.tmpDir in fs.nodes {
      var removed := fs.RemoveDirAll(p.tmpDir);
      if removed.Err? {
        r := Err(removed.error);
      }
    }
  }

  /**
   * `complete`: tar `tmp` into the archive (how tar ran, and the size and
   * modification second of what it wrote, are inputs), fill the archive
   * into the sidecar, remove `tmp`, and return the archive's path.
   */
  method Complete(p: BackupProcess, fs: FileSystem, now: int, tar: ToolRun, size: nat, modified: int)
    returns (r: Result<string, string>)
    requires size < U64_BOUND
    modifies fs
    ensures (r, fs.nodes) == CompleteOf(old(fs.nodes), p, now, tar, size, modified)
    ensures tar.NotSpawned? ==> r == Err(tar.error) && fs.nodes == old(fs.nodes)
    ensures FailedExit(tar) ==> r == Err(TAR_FAILED) && fs.nodes == old(fs.nodes)
    ensures r.Ok? ==> r.value == ArchivePath(p, now) && Succeeded(tar)
    ensures r.Ok? ==> old(fs.ReadSidecar(p.metaFile)).Ok?
    ensures r.Ok? ==> fs.nodes == AfterComplete(old(fs.nodes), p, now, size, modified, old(fs.ReadSidecar(p.metaFile)).value)
  {
    CompleteOfOutcome(fs.nodes, p, now, tar, size, modified);
    var archive := ArchivePath(p, now);
    if tar.NotSpawned? {
      return Err(tar.error);
    }
    if !Succeeded(tar) {
      return Err(TAR_FAILED);
    }
    fs.PutFile(archive, size, modified);
    var updated := UpdateMetadata(p, fs, archive, I64Of(size), ModifiedSecs(modified));
    if updated.Err? {
      return Err(updated.error);
    }
    var cleaned := CleanupTmp(p, fs);
    if cleaned.Err? {
      return Err(cleaned.error);
    }
    r := Ok(archive);
  }

  /**
   * For a process laid out by `new` below a clean root, with a database
   * name free of `/` and a four-digit year, a `complete` whose tar
   * succeeded returns the archive exactly when the sidecar holds a record,
   * the root is a directory and `tmp`, if present, is a directory.
   */
  lemma CompleteSucceeds(nodes: map<string, Node>, p: BackupProcess, now: int, size: nat, modified: int)
    requires WellFormed(p) && CleanDir(p.rootDir) && size < U64_BOUND
    requires '/' !in p.config.databaseName && 0 <= CivilOf(now).year <= 9999
    ensures CompleteOf(nodes, p, now, Exited(Some(0)), size, modified).0.Ok? <==>
              ReadSidecarOf(nodes, p.metaFile).Ok? && IsDir(nodes, p.rootDir)
              && (p.tmpDir in nodes ==> IsDir(nodes, p.tmpDir))
  {
    var name := ArchiveName(p, now);
    ArchiveNameIsNormal(p, now);
    FixedNamesNormal();
    SiblingsApart(p.rootDir, name, TMP_DIR_NAME);
    SiblingsApart(p.rootDir, name, META_FILE_NAME);
    ParentOfJoin(p.rootDir, META_FILE_NAME);
    ParentOfJoin(p.rootDir, name);
    assert ArchivePath(p, now) != p.rootDir by {
      assert |ArchivePath(p, now)| > |p.rootDir|;
    }
    CompleteSucceedsApart(nodes, p, now, size, modified);
  }

  /** `CompleteSucceeds` once the archive is known to be apart from the root, `tmp` and the sidecar. */
  lemma CompleteSucceedsApart(nodes: map<string, Node>, p: BackupProcess, now: int, size: nat, modified: int)
    requires size < U64_BOUND
    requires ParentPath(p.metaFile) == Some(p.rootDir) && !AlwaysDir(p.rootDir)
    requires ArchivePath(p, now) != p.rootDir && ArchivePath(p, now) != p.tmpDir && ArchivePath(p, now) != p.metaFile
    requires p.tmpDir != p.metaFile
    ensures CompleteOf(nodes, p, now, Exited(Some(0)), size, modified).0.Ok? <==>
              ReadSidecarOf(nodes, p.metaFile).Ok? && IsDir(nodes, p.rootDir)
              && (p.tmpDir in nodes ==> IsDir(nodes, p.tmpDir))
  {
    var archive := ArchivePath(p, now);
    var tarred := nodes[archive := RegularFile(size, modified)];
    var secs := ModifiedSecs(modified);
    UpdateSucceeds(tarred, p.metaFile, p.rootDir, archive, I64Of(size), secs);
    var (updated, n2) := UpdateMetadataOf(tarred, p.metaFile, archive, I64Of(size), secs);
    assert ReadSidecarOf(tarred, p.metaFile) == ReadSidecarOf(nodes, p.metaFile);
    assert IsDir(tarred, p.rootDir) == IsDir(nodes, p.rootDir);
    if updated.Ok? {
      var cleaned := CleanupTmpOf(n2, p.tmpDir).0;
      assert cleaned.Ok? <==> p.tmpDir in nodes ==> IsDir(nodes, p.tmpDir);
      assert CompleteOf(nodes, p, now, Exited(Some(0)), size, modified).0.Ok? == cleaned.Ok?;
    } else {
      assert CompleteOf(nodes, p, now, Exited(Some(0)), size, modified).0 == Err(updated.error);
    }
  }

  /** Below a directory that is not always there, updating a sidecar needs the sidecar and that directory. */
  lemma UpdateSucceeds(nodes: map<string, Node>, meta: string, dir: string, archive: string, size: int, secs: nat)
    requires ParentPath(meta) == Some(dir) && !AlwaysDir(dir)
    ensures UpdateMetadataOf(nodes, meta, archive, size, secs).0.Ok? <==> ReadSidecarOf(nodes, meta).Ok? && IsDir(nodes, dir)
  {
  }

  /** No `tmp`, the archive with its size, and a sidecar recording that archive and its size. */
  predicate CompletedLayout(after: map<string, Node>, p: BackupProcess, now: int, size: nat, modified: int)
    requires size < U64_BOUND
  {
    p.tmpDir !in after
    && ArchivePath(p, now) in after && after[ArchivePath(p, now)] == RegularFile(size, modified)
    && p.metaFile in after && after[p.metaFile].Sidecar? && after[p.metaFile].content.Some?
    && after[p.metaFile].content.value.filePath == ArchivePath(p, now)
    && after[p.metaFile].content.value.fileSize == I64Of(size)
  }

  /**
   * For a process laid out by `new`, with a database name free of `/` and a
   * four-digit year, a successful `complete` leaves no `tmp`, the archive
   * with its size, and a sidecar recording that archive and its size.
   */
  lemma CompleteOutcome(nodes: map<string, Node>, p: BackupProcess, now: int, size: nat, modified: int, m: BackupMetadata)
    requires WellFormed(p) && size < U64_BOUND
    requires '/' !in p.config.databaseName && 0 <= CivilOf(now).year <= 9999
    ensures CompletedLayout(AfterComplete(nodes, p, now, size, modified, m), p, now, size, modified)
  {
    var name := ArchiveName(p, now);
    ArchiveNameIsNormal(p, now);
    FixedNamesNormal();
    SiblingsApart(p.rootDir, name, TMP_DIR_NAME);
    SiblingsApart(p.rootDir, META_FILE_NAME, TMP_DIR_NAME);
    SiblingsApart(p.rootDir, name, META_FILE_NAME);
    assert ArchivePath(p, now) == Join(p.rootDir, name);
    AfterCompleteShape(nodes, p, now, size, modified, m);
  }

  /** What `complete` leaves, whenever the archive and the sidecar are distinct and outside `tmp`. */
  lemma AfterCompleteShape(nodes: map<string, Node>, p: BackupProcess, now: int, size: nat, modified: int, m: BackupMetadata)
    requires size < U64_BOUND
    requires ArchivePath(p, now) != p.metaFile
    requires !Under(ArchivePath(p, now), p.tmpDir) && !Under(p.metaFile, p.tmpDir)
    ensures CompletedLayout(AfterComplete(nodes, p, now, size, modified, m), p, now, size, modified)
  {
    assert Under(p.tmpDir, p.tmpDir);
  }

  /** `tmp` and the sidecar's name are two different normal names. */
  lemma FixedNamesNormal()
    ensures NormalName(TMP_DIR_NAME) && NormalName(META_FILE_NAME) && TMP_DIR_NAME != META_FILE_NAME
  {
    assert |TMP_DIR_NAME| != |META_FILE_NAME|;
  }

  /** The archive's name is a single normal component different from `tmp` and the sidecar's name. */
  lemma ArchiveNameIsNormal(p: BackupProcess, now: int)
    requires '/' !in p.config.databaseName && 0 <= CivilOf(now).year <= 9999
    ensures NormalName(ArchiveName(p, now))
    ensures ArchiveName(p, now) != TMP_DIR_NAME && ArchiveName(p, now) != META_FILE_NAME
  {
    var c := CivilOf(now);
    var stamp := FormatStamp(c);
    var ext := ArchiveExtension(p.compressionType);
    assert |stamp| == 15;
    assert '/' !in stamp by {
      forall i | 0 <= i < |stamp| ensures stamp[i] != '/' {
        assert stamp == Year4(c.year) + Pad2(c.month) + Pad2(c.day) + "_" + Pad2(c.hour) + Pad2(c.minute) + Pad2(c.second);
      }
    }
    assert '/' !in ext;
    var name := ArchiveName(p, now);
    assert |name| >= 20;
    forall i | 0 <= i < |name| ensures name[i] != '/' {
      assert name == p.config.databaseName + "-" + stamp + "." + ext;
    }
  }
}

=== FILE: backup_scan.dfy ===
/**
 * The scan of the backup base directory: which folders hold a backup,
 * which get a synthesized sidecar, which are searched further, how the
 * result is ordered, and the statistics computed over it.
 *
 * The directory tree is the listing `read_dir` gives, entry by entry in its
 * order; a file named `rdumper.backup.json` carries what its text parses
 * to. The scan reads that listing as it was when the scan began and returns
 * the sidecars it writes, in order, next to the backups it finds; later
 * reads in the same scan never look at a path an earlier write touched.
 */
module BackupScan {
  import opened Wrappers
  import opened Text
  import opened Clock
  import opened Paths
  import opened DbConfigs
  import opened Backups
  import opened BackupProcesses
  import opened FsBackups
  import Disk

  /** A file length as `u64`. */
  type U64 = n: nat | n < U64_BOUND

  /** One entry of a directory listing; `modified` is whole seconds from the epoch. */
  datatype Entry =
    | File(name: string, size: U64, modified: int, sidecar: Option<BackupMetadata>)
    | Folder(name: string, children: seq<Entry>)

  /** A sidecar the scan writes: where, and the record it holds. */
  datatype Written = Written(path: string, metadata: BackupMetadata)

  /** What a scan produces: backups found, sidecars written, and the error that stopped it, if one did. */
  datatype Scan = Scan(backups: seq<Backup>, written: seq<Written>, failure: Option<string>)

  /** The uuid drawn for the sidecar of each archive, and the current time in RFC 3339. */
  datatype ScanEnv = ScanEnv(freshId: string -> string, nowText: string)

  const NOTHING: Scan := Scan([], [], None)

  /** `b` runs only when `a` did not fail; their findings and writes add up. */
  function Then(a: Scan, b: Scan): (r: Scan)
    ensures a.failure.Some? ==> r == a
    ensures a.failure.None? ==> r.backups == a.backups + b.backups && r.written == a.written + b.written && r.failure == b.failure
  {
    if a.failure.Some? then a else Scan(a.backups + b.backups, a.written + b.written, b.failure)
  }

  /** `is_backup_file`: the path's file name carries an archive ending. */
  predicate IsArchivePath(p: string) {
    FileName(p).Some? && IsBackupFileName(FileName(p).value)
  }

  /** The entry of a listing with the given name (`Path::exists` on `folder.join(name)`). */
  function Named(es: seq<Entry>, name: string): (r: Option<Entry>)
    ensures r.Some? ==> r.value in es && r.value.name == name
    ensures r.None? ==> forall k :: 0 <= k < |es| ==> es[k].name != name
  {
    if es == [] then None
    else if es[0].name == name then Some(es[0])
    else Named(es[1..], name)
  }

  /** `find_backup_file_in_folder`: the first file of the listing that is an archive. */
  function FindBackupFile(folder: string, es: seq<Entry>): (r: Option<Entry>)
    ensures r.Some? ==> r.value in es && r.value.File? && IsArchivePath(Join(folder, r.value.name))
    ensures r.None? ==> forall k :: 0 <= k < |es| && es[k].File? ==> !IsArchivePath(Join(folder, es[k].name))
  {
    if es == [] then None
    else if es[0].File? && IsArchivePath(Join(folder, es[0].name)) then Some(es[0])
    else FindBackupFile(folder, es[1..])
  }

  /** `load_backup_metadata` of the listed sidecar entry. */
  function LoadSidecar(e: Entry): (r: Result<BackupMetadata, string>)
    ensures r.Ok? <==> e.File? && e.sidecar.Some?
  {
    match e
    case Folder(_, _) => Err(Disk.EISDIR)
    case File(_, _, _, None) => Err("invalid sidecar JSON")
    case File(_, _, _, Some(m)) => Ok(m)
  }

  /**
   * The sidecar `create_metadata_file_for_backup` writes for an archive
   * found without one: what the archive's name and path tell, the rest
   * "unknown", and the type "external".
   */
  function SynthesizedMetadata(archive: string, meta: string, size: int, secs: nat, env: ScanEnv): (m: BackupMetadata)
    ensures m.filePath == archive && m.metaPath == meta && m.fileSize == size && m.backupType == "external"
    ensures m.databaseConfigId == "unknown" && m.taskId.None? && m.usedDatabase.None? && m.taskInfo.None?
    ensures m.compressionType == InferCompression(archive) && m.ident == Some(Ident(size, secs))
    ensures m.databaseConfig.port == DEFAULT_PORT && m.databaseConfig.databaseName == m.databaseName
  {
    var filename := if FileName(archive).Some? then FileName(archive).value else "unknown";
    var parsed := ParseBackupFilename(filename, size, secs, env.nowText);
    BackupMetadata(env.freshId(archive), parsed.databaseName, "unknown", None, None, archive, meta, size,
                   InferCompression(archive), parsed.createdAt, "external", Some(parsed.ident),
                   DatabaseConfigInfo("unknown", "Unknown Database (" + parsed.databaseName + ")", "unknown",
                                      DEFAULT_PORT, "unknown", parsed.databaseName),
                   None)
  }

  /**
   * An archive without a sidecar in directory `dir`: the sidecar is
   * synthesized at `dir/rdumper.backup.json` and read back. A modification
   * time before the epoch, or a directory where the sidecar goes, fails
   * the scan.
   */
  function Adopt(dir: string, f: Entry, metaEntry: Option<Entry>, env: ScanEnv): (s: Scan)
    requires f.File?
    ensures s.failure.None? ==> |s.backups| == 1 && |s.written| == 1
    ensures s.failure.Some? ==> s.backups == [] && s.written == []
  {
    var archive, meta := Join(dir, f.name), Join(dir, META_FILE_NAME);
    if f.modified < 0 then Scan([], [], Some("second time provided was later than self"))
    else if metaEntry.Some? && metaEntry.value.Folder? then Scan([], [], Some(Disk.EISDIR))
    else
      var m := SynthesizedMetadata(archive, meta, I64Of(f.size), f.modified, env);
      Scan([BackupOf(m)], [Written(meta, m)], None)
  }

  /** A folder with a sidecar: the backup it describes, at the first archive of the folder; nothing when it does not load. */
  function FromSidecar(path: string, children: seq<Entry>, metaEntry: Entry): Scan {
    match LoadSidecar(metaEntry)
    case Err(_) => NOTHING
    case Ok(m) =>
      match FindBackupFile(path, children)
      case None => NOTHING
      case Some(f) => Scan([BackupOf(m).(filePath := Join(path, f.name), metaPath := Join(path, META_FILE_NAME))], [], None)
  }

  /** One entry of the listing of `dir`: the decision tree of `scan_directory_recursive`. */
  function ScanEntry(dir: string, listing: seq<Entry>, e: Entry, env: ScanEnv): Scan
    decreases e, 0
  {
    match e
    case File(name, _, _, _) =>
      if IsArchivePath(Join(dir, name)) then Adopt(dir, e, Named(listing, META_FILE_NAME), env) else NOTHING
    case Folder(name, children) =>
      var path := Join(dir, name);
      match Named(children, META_FILE_NAME)
      case Some(metaEntry) => FromSidecar(path, children, metaEntry)
      case None =>
        match FindBackupFile(path, children)
        case Some(f) => Adopt(path, f, None, env)
        case None => ScanList(path, children, |children|, env)
  }

  /** The first `n` entries of a listing, in order, stopping at the first failure. */
  function ScanList(dir: string, listing: seq<Entry>, n: nat, env: ScanEnv): Scan
    requires n <= |listing|
    decreases listing, n
  {
    if n == 0 then NOTHING
    else Then(ScanList(dir, listing, n - 1, env), ScanEntry(dir, listing, listing[n - 1], env))
  }

  /** `scan_directory_recursive`: the listing entry by entry, recursing into plain folders. */
  method ScanDirectory(dir: string, listing: seq<Entry>, env: ScanEnv) returns (s: Scan)
    ensures s == ScanList(dir, listing, |listing|, env)
    decreases listing, 1
  {
    s := NOTHING;
    var i := 0;
    while i < |listing| && s.failure.None?
      invariant 0 <= i <= |listing|
      invariant s == ScanList(dir, listing, i, env)
    {
      s := ScanTurn(dir, listing, i, env, s);
      i := i + 1;
    }
    if i < |listing| {
      FailureStops(dir, listing, i, |listing|, env, s);
    }
  }

  /** One turn of that loop: the scan so far followed by the next entry's. */
  method ScanTurn(dir: string, listing: seq<Entry>, i: nat, env: ScanEnv, s: Scan) returns (s': Scan)
    requires i < |listing| && s == ScanList(dir, listing, i, env)
    ensures s' == ScanList(dir, listing, i + 1, env)
    decreases listing, 0
  {
    var step := ScanDirectoryEntry(dir, listing, listing[i], env);
    ScanListStep(dir, listing, i, env);
    s' := Then(s, step);
  }

  /** One entry of that loop: a plain folder is scanned by the recursive call, anything else directly. */
  method ScanDirectoryEntry(dir: string, listing: seq<Entry>, e: Entry, env: ScanEnv) returns (step: Scan)
    ensures step == ScanEntry(dir, listing, e, env)
    decreases e, 0
  {
    match e {
      case File(_, _, _, _) =>
        step := ScanEntry(dir, listing, e, env);
      case Folder(name, children) =>
        var path := Join(dir, name);
        if Named(children, META_FILE_NAME).None? && FindBackupFile(path, children).None? {
          step := ScanDirectory(path, children, env);
          PlainFolderSearched(dir, listing, name, children, env);
        } else {
          step := ScanEntry(dir, listing, e, env);
        }
    }
  }

  /** Once the scan has failed, the remaining entries change nothing. */
  lemma FailureStops(dir: string, listing: seq<Entry>, i: nat, j: nat, env: ScanEnv, s: Scan)
    requires i <= j <= |listing| && ScanList(dir, listing, i, env) == s && s.failure.Some?
    ensures ScanList(dir, listing, j, env) == s
  {
    var k := i;
    while k < j
      invariant i <= k <= j && ScanList(dir, listing, k, env) == s
    {
      FailedStepKeeps(dir, listing, k, env);
      k := k + 1;
    }
  }

  lemma ScanListStep(dir: string, listing: seq<Entry>, i: nat, env: ScanEnv)
    requires i < |listing|
    ensures ScanList(dir, listing, i + 1, env) == Then(ScanList(dir, listing, i, env), ScanEntry(dir, listing, listing[i], env))
  {
  }

  lemma ThenAfterFailure(a: Scan, b: Scan)
    requires a.failure.Some?
    ensures Then(a, b) == a
  {
  }

  /** A failed scan stays as it is over one more entry. */
  lemma FailedStepKeeps(dir: string, listing: seq<Entry>, n: nat, env: ScanEnv)
    requires n < |listing| && ScanList(dir, listing, n, env).failure.Some?
    ensures ScanList(dir, listing, n + 1, env) == ScanList(dir, listing, n, env)
  {
    ScanListStep(dir, listing, n, env);
    ThenAfterFailure(ScanList(dir, listing, n, env), ScanEntry(dir, listing, listing[n], env));
  }

  // ------------------------------------------------------------ the three kinds of folder

  /**
   * A folder holding `rdumper.backup.json` is not searched below: it
   * yields at most one backup, whose archive is a file directly inside it,
   * and writes nothing.
   */
  lemma FolderWithSidecar(dir: string, listing: seq<Entry>, name: string, children: seq<Entry>, env: ScanEnv)
    requires Named(children, META_FILE_NAME).Some?
    ensures var s := ScanEntry(dir, listing, Folder(name, children), env);
            var path := Join(dir, name);
            s.written == [] && s.failure.None? && |s.backups| <= 1
            && forall b :: b in s.backups ==>
                 b.metaPath == Join(path, META_FILE_NAME)
                 && exists k :: 0 <= k < |children| && children[k].File? && b.filePath == Join(path, children[k].name)
  {
    var path := Join(dir, name);
    var metaEntry := Named(children, META_FILE_NAME).value;
    if LoadSidecar(metaEntry).Ok? && FindBackupFile(path, children).Some? {
      var f := FindBackupFile(path, children).value;
      var k :| 0 <= k < |children| && children[k] == f;
      assert ScanEntry(dir, listing, Folder(name, children), env).backups[0].filePath == Join(path, children[k].name);
    }
  }

  /**
   * A folder without a sidecar but with an archive is not searched below
   * either: it yields one "external" backup and writes its sidecar, the
   * record read back being the one written, unless the archive's
   * modification time lies before the epoch.
   */
  lemma FolderWithOrphanArchive(dir: string, listing: seq<Entry>, name: string, children: seq<Entry>, env: ScanEnv)
    requires Named(children, META_FILE_NAME).None? && FindBackupFile(Join(dir, name), children).Some?
    ensures var s := ScanEntry(dir, listing, Folder(name, children), env);
            var path := Join(dir, name);
            var f := FindBackupFile(path, children).value;
            (s.failure.Some? <==> f.modified < 0)
            && (s.failure.None? ==>
                  |s.backups| == 1 && s.written == [Written(Join(path, META_FILE_NAME), s.written[0].metadata)]
                  && s.backups[0] == BackupOf(s.written[0].metadata)
                  && s.backups[0].backupType == "external"
                  && s.backups[0].filePath == Join(path, f.name)
                  && s.backups[0].metaPath == Join(path, META_FILE_NAME))
  {
  }

  /** Any other folder is searched: its result is the scan of its own listing. */
  lemma PlainFolderSearched(dir: string, listing: seq<Entry>, name: string, children: seq<Entry>, env: ScanEnv)
    requires Named(children, META_FILE_NAME).None? && FindBackupFile(Join(dir, name), children).None?
    ensures ScanEntry(dir, listing, Folder(name, children), env) == ScanList(Join(dir, name), children, |children|, env)
  {
  }

  /**
   * Two archives lying loose in the same directory both get their sidecar
   * written to that directory's single `rdumper.backup.json`, so only the
   * second survives on disk.
   */
  lemma LooseArchivesShareSidecar(dir: string, a: Entry, b: Entry, env: ScanEnv)
    requires a.File? && b.File? && a.modified >= 0 && b.modified >= 0
    requires IsArchivePath(Join(dir, a.name)) && IsArchivePath(Join(dir, b.name))
    requires a.name != META_FILE_NAME && b.name != META_FILE_NAME
    ensures var s := ScanList(dir, [a, b], 2, env);
            s.failure.None? && |s.backups| == 2 && |s.written| == 2
            && s.written[0].path == s.written[1].path == Join(dir, META_FILE_NAME)
  {
    var listing := [a, b];
    assert Named(listing, META_FILE_NAME).None? by {
      assert listing[1..] == [b] && [b][1..] == [];
    }
    ScanListStep(dir, listing, 0, env);
    ScanListStep(dir, listing, 1, env);
    LooseArchive(dir, listing, a, env);
    LooseArchive(dir, listing, b, env);
  }

  /** A loose archive with a valid time, in a directory without a sidecar entry, writes that directory's sidecar. */
  lemma LooseArchive(dir: string, listing: seq<Entry>, f: Entry, env: ScanEnv)
    requires f.File? && f.modified >= 0 && IsArchivePath(Join(dir, f.name)) && Named(listing, META_FILE_NAME).None?
    ensures var s := ScanEntry(dir, listing, f, env);
            s.failure.None? && |s.backups| == 1 && |s.written| == 1 && s.written[0].path == Join(dir, META_FILE_NAME)
  {
  }

  // ------------------------------------------------------------ what every scan guarantees

  /** What holds of every scan result: archives only, each sidecar written next to a backup, "external". */
  predicate Sound(s: Scan) {
    |s.written| <= |s.backups|
    && (forall i :: 0 <= i < |s.backups| ==> IsArchivePath(s.backups[i].filePath))
    && (forall i :: 0 <= i < |s.written| ==>
          s.written[i].metadata.metaPath == s.written[i].path && s.written[i].metadata.backupType == "external")
  }

  lemma ThenSound(a: Scan, b: Scan)
    requires Sound(a) && Sound(b)
    ensures Sound(Then(a, b))
  {
    if a.failure.None? {
      var r := Then(a, b);
      forall i | |a.backups| <= i < |r.backups| ensures r.backups[i] == b.backups[i - |a.backups|] { }
      forall i | |a.written| <= i < |r.written| ensures r.written[i] == b.written[i - |a.written|] { }
    }
  }

  lemma ThenSoundAt(a: Scan, b: Scan, s: Scan)
    requires Sound(a) && Sound(b) && s == Then(a, b)
    ensures Sound(s)
  {
    ThenSound(a, b);
  }

  /** Every backup the scan reports is an archive, and every sidecar it writes is an "external" one paired with a backup. */
  lemma {:induction false} ScanEntrySound(dir: string, listing: seq<Entry>, e: Entry, env: ScanEnv)
    ensures Sound(ScanEntry(dir, listing, e, env))
    decreases e, 0
  {
    match e
    case File(name, _, _, _) =>
      if IsArchivePath(Join(dir, name)) {
        AdoptSound(dir, e, Named(listing, META_FILE_NAME), env);
      }
    case Folder(name, children) =>
      var path := Join(dir, name);
      match Named(children, META_FILE_NAME)
      case Some(metaEntry) =>
      case None =>
        match FindBackupFile(path, children)
        case Some(f) => AdoptSound(path, f, None, env);
        case None => ScanListSound(path, children, |children|, env);
  }

  lemma ScanListSound(dir: string, listing: seq<Entry>, n: nat, env: ScanEnv)
    requires n <= |listing|
    ensures Sound(ScanList(dir, listing, n, env))
    decreases listing, n
  {
    var k := 0;
    while k < n
      invariant k <= n && Sound(ScanList(dir, listing, k, env))
    {
      ScanListSoundStep(dir, listing, k, env);
      k := k + 1;
    }
  }

  lemma ScanListSoundStep(dir: string, listing: seq<Entry>, k: nat, env: ScanEnv)
    requires k < |listing| && Sound(ScanList(dir, listing, k, env))
    ensures Sound(ScanList(dir, listing, k + 1, env))
    decreases listing, k
  {
    ScanEntrySound(dir, listing, listing[k], env);
    ScanListStep(dir, listing, k, env);
    ThenSoundAt(ScanList(dir, listing, k, env), ScanEntry(dir, listing, listing[k], env), ScanList(dir, listing, k + 1, env));
  }

  lemma AdoptSound(dir: string, f: Entry, metaEntry: Option<Entry>, env: ScanEnv)
    requires f.File? && IsArchivePath(Join(dir, f.name))
    ensures Sound(Adopt(dir, f, metaEntry, env))
  {
  }

  /**
   * The sidecar synthesized for an archive this service wrote, found
   * without its sidecar, names the right database, creation instant and
   * compression, as long as the database name holds neither `/` nor `.tar`.
   */
  lemma SynthesizedOfOwnArchive(p: BackupProcess, now: int, meta: string, size: int, secs: nat, env: ScanEnv)
    requires '/' !in p.config.databaseName && !Contains(p.config.databaseName, ".tar")
    requires 0 <= CivilOf(now).year <= 9999
    ensures var m := SynthesizedMetadata(ArchivePath(p, now), meta, size, secs, env);
            m.databaseName == p.config.databaseName && m.createdAt == Rfc3339(CivilOf(now))
            && m.compressionType
               == (if p.compressionType == "zstd" || p.compressionType == "none" then p.compressionType else "gzip")
  {
    ArchiveNameIsNormal(p, now);
    FileNameOfJoin(p.rootDir, ArchiveName(p, now));
    ParseArchiveName(p, now, size, secs, env.nowText);
    InferCompressionOfArchive(p, now);
  }

  // ------------------------------------------------------------ newest first

  /** Rust's `Ord` on strings: lexicographic by character. */
  predicate LexLe(a: string, b: string) {
    a == [] || (b != [] && (a[0] < b[0] || (a[0] == b[0] && LexLe(a[1..], b[1..]))))
  }

  lemma {:induction false} LexLeTotal(a: string, b: string)
    ensures LexLe(a, b) || LexLe(b, a)
  {
    if a != [] && b != [] && a[0] == b[0] {
      LexLeTotal(a[1..], b[1..]);
    }
  }

  lemma {:induction false} LexLeTransitive(a: string, b: string, c: string)
    requires LexLe(a, b) && LexLe(b, c)
    ensures LexLe(a, c)
  {
    if a != [] && b != [] && c != [] && a[0] == b[0] == c[0] {
      LexLeTransitive(a[1..], b[1..], c[1..]);
    }
  }

  /** Newest first: `created_at` never increases from one backup to the next. */
  predicate NewestFirst(bs: seq<Backup>) {
    forall i :: 0 < i < |bs| ==> LexLe(bs[i].createdAt, bs[i - 1].createdAt)
  }

  /** Hence no later backup is newer than an earlier one. */
  lemma {:induction false} NewestFirstPairwise(bs: seq<Backup>, i: nat, j: nat)
    requires NewestFirst(bs) && i <= j < |bs|
    ensures LexLe(bs[j].createdAt, bs[i].createdAt)
    decreases j - i
  {
    if i == j {
      LexLeTotal(bs[i].createdAt, bs[i].createdAt);
    } else {
      NewestFirstPairwise(bs, i + 1, j);
      LexLeTransitive(bs[j].createdAt, bs[i + 1].createdAt, bs[i].createdAt);
    }
  }

  /** `b` placed after every backup at least as new, before the first older one. */
  function Insert(b: Backup, s: seq<Backup>): (r: seq<Backup>)
    ensures multiset(r) == multiset(s) + multiset{b}
    ensures |r| == |s| + 1 && (r[0] == b || (s != [] && r[0] == s[0]))
  {
    if s == [] then [b]
    else if LexLe(b.createdAt, s[0].createdAt) then
      assert s == [s[0]] + s[1..];
      [s[0]] + Insert(b, s[1..])
    else [b] + s
  }

  /**
   * `backups.sort_by(|a, b| b.created_at.cmp(&a.created_at))`: a sort
   * by `created_at`, newest first.
   */
  function SortNewestFirst(bs: seq<Backup>): seq<Backup> {
    if bs == [] then [] else Insert(bs[|bs| - 1], SortNewestFirst(bs[..|bs| - 1]))
  }

  lemma {:induction false} InsertKeepsOrder(b: Backup, s: seq<Backup>)
    requires NewestFirst(s)
    ensures NewestFirst(Insert(b, s))
    decreases |s|
  {
    if s != [] {
      var r := Insert(b, s);
      if LexLe(b.createdAt, s[0].createdAt) {
        var t := Insert(b, s[1..]);
        InsertKeepsOrder(b, s[1..]);
        assert r == [s[0]] + t;
        assert LexLe(t[0].createdAt, s[0].createdAt);
        forall i | 1 < i < |r| ensures LexLe(r[i].createdAt, r[i - 1].createdAt) {
          assert r[i] == t[i - 1] && r[i - 1] == t[i - 2];
        }
      } else {
        LexLeTotal(b.createdAt, s[0].createdAt);
        assert r == [b] + s;
        forall i | 1 < i < |r| ensures LexLe(r[i].createdAt, r[i - 1].createdAt) {
          assert r[i] == s[i - 1] && r[i - 1] == s[i - 2];
        }
      }
    }
  }

  /** The scan's order: newest first, and the same backups. */
  lemma {:induction false} SortNewestFirstCorrect(bs: seq<Backup>)
    ensures NewestFirst(SortNewestFirst(bs))
    ensures multiset(SortNewestFirst(bs)) == multiset(bs)
  {
    if bs != [] {
      SortNewestFirstCorrect(bs[..|bs| - 1]);
      InsertKeepsOrder(bs[|bs| - 1], SortNewestFirst(bs[..|bs| - 1]));
      assert bs == bs[..|bs| - 1] + [bs[|bs| - 1]];
    }
  }

  /**
   * `scan_backups`: nothing when the base directory does not exist;
   * otherwise the scan of its listing, newest first.
   */
  function ScanBackups(base: string, listing: Option<seq<Entry>>, env: ScanEnv): (s: Scan)
    ensures listing.None? ==> s == NOTHING
    ensures listing.Some? ==> var raw := ScanList(base, listing.value, |listing.value|, env);
              s.failure == raw.failure && s.written == raw.written
              && multiset(s.backups) == multiset(raw.backups) && NewestFirst(s.backups)
  {
    match listing
    case None => NOTHING
    case Some(es) =>
      var raw := ScanList(base, es, |es|, env);
      SortNewestFirstCorrect(raw.backups);
      raw.(backups := SortNewestFirst(raw.backups))
  }

  // ------------------------------------------------------------ statistics

  datatype StatKey = ByType | ByDatabase

  function KeyOf(b: Backup, key: StatKey): string {
    match key
    case ByType => b.backupType
    case ByDatabase => b.databaseName
  }

  /** The counts the `entry(..).or_insert(0) += 1` loop builds, backup by backup. */
  function CountBy(bs: seq<Backup>, key: StatKey): map<string, nat> {
    if bs == [] then map[]
    else
      var m := CountBy(bs[..|bs| - 1], key);
      var k := KeyOf(bs[|bs| - 1], key);
      m[k := (if k in m then m[k] else 0) + 1]
  }

  /** How many backups have key `k`. */
  function Occurrences(bs: seq<Backup>, key: StatKey, k: string): nat {
    if bs == [] then 0
    else Occurrences(bs[..|bs| - 1], key, k) + (if KeyOf(bs[|bs| - 1], key) == k then 1 else 0)
  }

  function SizeTotal(bs: seq<Backup>): int {
    if bs == [] then 0 else SizeTotal(bs[..|bs| - 1]) + bs[|bs| - 1].fileSize
  }

  datatype BackupStats = BackupStats(totalCount: nat, totalSize: int, byType: map<string, nat>, byDatabase: map<string, nat>)

  /** `get_backup_stats` over the scanned backups. */
  method GetBackupStats(backups: seq<Backup>) returns (stats: BackupStats)
    ensures stats.totalCount == |backups| && stats.totalSize == SizeTotal(backups)
    ensures stats.byType == CountBy(backups, ByType) && stats.byDatabase == CountBy(backups, ByDatabase)
  {
    var totalSize := 0;
    var byType: map<string, nat> := map[];
    var byDatabase: map<string, nat> := map[];
    var i := 0;
    while i < |backups|
      invariant 0 <= i <= |backups|
      invariant totalSize == SizeTotal(backups[..i])
      invariant byType == CountBy(backups[..i], ByType) && byDatabase == CountBy(backups[..i], ByDatabase)
    {
      var b := backups[i];
      assert backups[..i + 1][..i] == backups[..i];
      totalSize := totalSize + b.fileSize;
      byType := byType[b.backupType := (if b.backupType in byType then byType[b.backupType] else 0) + 1];
      byDatabase := byDatabase[b.databaseName := (if b.databaseName in byDatabase then byDatabase[b.databaseName] else 0) + 1];
      i := i + 1;
    }
    assert backups[..i] == backups;
    stats := BackupStats(|backups|, totalSize, byType, byDatabase);
  }

  /** Each count is the number of backups with that key, and only keys that occur are present. */
  lemma {:induction false} CountByCounts(bs: seq<Backup>, key: StatKey, k: string)
    ensures k in CountBy(bs, key) <==> Occurrences(bs, key, k) > 0
    ensures k in CountBy(bs, key) ==> CountBy(bs, key)[k] == Occurrences(bs, key, k)
  {
    if bs != [] {
      CountByCounts(bs[..|bs| - 1], key, k);
    }
  }

  /** The sum of a map's values. */
  ghost function MapTotal(m: map<string, nat>): nat
    decreases |m|
  {
    if m == map[] then 0
    else
      var k :| k in m;
      assert |m - {k}| < |m| by { assert (m - {k}).Keys == m.Keys - {k}; }
      m[k] + MapTotal(m - {k})
  }

  /** Any key may be taken out first. */
  lemma {:induction false} MapTotalRemove(m: map<string, nat>, k: string)
    requires k in m
    ensures MapTotal(m) == m[k] + MapTotal(m - {k})
    decreases |m|
  {
    var j :| j in m && MapTotal(m) == m[j] + MapTotal(m - {j});
    if j != k {
      assert (m - {j}).Keys == m.Keys - {j} && (m - {k}).Keys == m.Keys - {k};
      MapTotalRemove(m - {j}, k);
      MapTotalRemove(m - {k}, j);
      assert m - {j} - {k} == m - {k} - {j};
    }
  }

  /** Setting one key's value changes the total by the difference. */
  lemma MapTotalUpdate(m: map<string, nat>, k: string, v: nat)
    ensures MapTotal(m[k := v]) == MapTotal(m) - (if k in m then m[k] else 0) + v
  {
    MapTotalRemove(m[k := v], k);
    if k in m {
      MapTotalRemove(m, k);
      assert m[k := v] - {k} == m - {k};
    } else {
      assert m[k := v] - {k} == m;
    }
  }

  /** Both breakdowns account for every backup exactly once: their counts sum to `total_count`. */
  lemma {:induction false} CountsSumToTotal(bs: seq<Backup>, key: StatKey)
    ensures MapTotal(CountBy(bs, key)) == |bs|
  {
    if bs != [] {
      var m := CountBy(bs[..|bs| - 1], key);
      var k := KeyOf(bs[|bs| - 1], key);
      CountsSumToTotal(bs[..|bs| - 1], key);
      MapTotalUpdate(m, k, (if k in m then m[k] else 0) + 1);
    }
  }
}

=== FILE: clock.dfy ===
/**
 * Instants as Unix seconds in UTC, the proleptic Gregorian calendar, and the
 * two chrono renderings the backend uses: `%Y%m%d_%H%M%S` (archive names) and
 * RFC 3339 with a `+00:00` offset (the time parsed back out of an archive name).
 */
module Clock {
  import opened Wrappers
  import opened Text

  const SECONDS_PER_DAY: int := 86400

  /** Whole days since 1970-01-01 (floor division, also for instants before 1970). */
  function DayNumber(t: int): int { t / SECONDS_PER_DAY }

  function SecondOfDay(t: int): (r: nat)
    ensures r < SECONDS_PER_DAY
    ensures DayNumber(t) * SECONDS_PER_DAY + r == t
  {
    t % SECONDS_PER_DAY
  }

  /** The instant of midnight that starts the day containing `t`. */
  function StartOfDay(t: int): (r: int)
    ensures r <= t < r + SECONDS_PER_DAY
    ensures r % SECONDS_PER_DAY == 0
  {
    DayNumber(t) * SECONDS_PER_DAY
  }

  /** chrono's `weekday().num_days_from_monday()`: 1970-01-01 was a Thursday. */
  function WeekdayFromMonday(t: int): (w: nat)
    ensures w < 7
  {
    (DayNumber(t) + 3) % 7
  }

  // ------------------------------------------------------------ calendar

  predicate IsLeapYear(y: int) { y % 4 == 0 && (y % 100 != 0 || y % 400 == 0) }

  function DaysInYear(y: int): nat { if IsLeapYear(y) then 366 else 365 }

  function DaysInMonth(y: int, m: int): (n: nat)
    requires 1 <= m <= 12
    ensures 28 <= n <= 31
  {
    if m == 2 then (if IsLeapYear(y) then 29 else 28)
    else if m == 4 || m == 6 || m == 9 || m == 11 then 30
    else 31
  }

  /** Days in months `m` through December of year `y`. */
  function DaysFromMonth(y: int, m: int): nat
    requires 1 <= m <= 13
    decreases 13 - m
  {
    if m == 13 then 0 else DaysInMonth(y, m) + DaysFromMonth(y, m + 1)
  }

  /** Days in January through month `m - 1` of year `y`. */
  function DaysBeforeMonth(y: int, m: int): nat
    requires 1 <= m <= 13
  {
    if m == 1 then 0 else DaysBeforeMonth(y, m - 1) + DaysInMonth(y, m - 1)
  }

  lemma {:induction false} MonthsSplitYear(y: int, m: int)
    requires 1 <= m <= 13
    ensures DaysBeforeMonth(y, m) + DaysFromMonth(y, m) == DaysInYear(y)
    decreases m
  {
    if m == 1 {
      assert DaysFromMonth(y, 1) == DaysInYear(y) by {
        assert DaysFromMonth(y, 13) == 0;
      }
    } else {
      MonthsSplitYear(y, m - 1);
    }
  }

  /** Days from 1970-01-01 to January 1 of year `y` (negative before 1970). */
  function YearStart(y: int): int
    decreases if y < 1970 then 1970 - y else y - 1970
  {
    if y == 1970 then 0
    else if y > 1970 then YearStart(y - 1) + DaysInYear(y - 1)
    else YearStart(y + 1) - DaysInYear(y)
  }

  /** The year containing day `days` counted from January 1 of `y`, and the day's index within that year. */
  function YearAndOrdinal(days: int, y: int): (r: (int, nat))
    ensures r.1 < DaysInYear(r.0)
    decreases (if days < 0 then 1 else 0), (if days < 0 then -days else days)
  {
    if days < 0 then YearAndOrdinal(days + DaysInYear(y - 1), y - 1)
    else if days >= DaysInYear(y) then YearAndOrdinal(days - DaysInYear(y), y + 1)
    else (y, days)
  }

  lemma {:induction false} YearStartStep(y: int)
    ensures YearStart(y + 1) == YearStart(y) + DaysInYear(y)
    decreases if y < 1970 then 1970 - y else y - 1970
  {
  }

  lemma {:induction false} YearAndOrdinalCounts(days: int, y: int)
    ensures YearStart(YearAndOrdinal(days, y).0) + YearAndOrdinal(days, y).1 == YearStart(y) + days
    decreases (if days < 0 then 1 else 0), (if days < 0 then -days else days)
  {
    if days < 0 {
      YearAndOrdinalCounts(days + DaysInYear(y - 1), y - 1);
      YearStartStep(y - 1);
    } else if days >= DaysInYear(y) {
      YearAndOrdinalCounts(days - DaysInYear(y), y + 1);
      YearStartStep(y);
    }
  }

  /** The month (from `m` on) and day of month of the `ord`-th remaining day of year `y`. */
  function MonthAndDay(y: int, ord: nat, m: int): (r: (int, int))
    requires 1 <= m <= 12
    requires ord < DaysFromMonth(y, m)
    ensures m <= r.0 <= 12 && 1 <= r.1 <= DaysInMonth(y, r.0)
    ensures DaysBeforeMonth(y, r.0) + r.1 - 1 == DaysBeforeMonth(y, m) + ord
    decreases 12 - m
  {
    if ord < DaysInMonth(y, m) then (m, ord + 1)
    else MonthAndDay(y, ord - DaysInMonth(y, m), m + 1)
  }

  /** A broken-down UTC date and time. `second` may be 60, chrono's leap-second form. */
  datatype Civil = Civil(year: int, month: int, day: int, hour: int, minute: int, second: int)

  predicate ValidCivil(c: Civil) {
    1 <= c.month <= 12 && 1 <= c.day <= DaysInMonth(c.year, c.month)
    && 0 <= c.hour < 24 && 0 <= c.minute < 60 && 0 <= c.second <= 60
  }

  /** The calendar date and clock time of a Unix instant. */
  function CivilOf(t: int): (c: Civil)
    ensures ValidCivil(c) && c.second < 60
  {
    var (y, ord) := YearAndOrdinal(DayNumber(t), 1970);
    MonthsSplitYear(y, 1);
    var (m, d) := MonthAndDay(y, ord, 1);
    var s := SecondOfDay(t);
    Civil(y, m, d, s / 3600, s % 3600 / 60, s % 60)
  }

  /** The Unix instant of a broken-down time with seconds below 60. */
  function UnixOf(c: Civil): int
    requires ValidCivil(c)
  {
    (YearStart(c.year) + DaysBeforeMonth(c.year, c.month) + c.day - 1) * SECONDS_PER_DAY
    + c.hour * 3600 + c.minute * 60 + c.second
  }

  /** `CivilOf` loses nothing: the instant can be recomputed from its calendar form. */
  lemma CivilOfRoundTrip(t: int)
    ensures UnixOf(CivilOf(t)) == t
  {
    var days := DayNumber(t);
    var (y, ord) := YearAndOrdinal(days, 1970);
    YearAndOrdinalCounts(days, 1970);
    MonthsSplitYear(y, 1);
    var (m, d) := MonthAndDay(y, ord, 1);
    assert YearStart(1970) == 0;
    assert YearStart(y) + DaysBeforeMonth(y, m) + d - 1 == days;
    var s := SecondOfDay(t);
    assert s / 3600 * 3600 + s % 3600 / 60 * 60 + s % 60 == s;
  }

  // ------------------------------------------------------------ rendering

  function Pad2(n: nat): (s: string)
    requires n < 100
    ensures |s| == 2 && AllDigits(s)
  {
    [DigitChar(n / 10), DigitChar(n % 10)]
  }

  function Pad4(n: nat): (s: string)
    requires n < 10000
    ensures |s| == 4 && AllDigits(s)
  {
    Pad2(n / 100) + Pad2(n % 100)
  }

  /** `NatToString(n)` with zeros in front up to `width` characters. */
  function ZeroPad(n: nat, width: nat): (s: string)
    ensures |s| >= width && AllDigits(s)
  {
    var d := NatToString(n);
    if |d| >= width then d else seq(width - |d|, _ => '0') + d
  }

  /** chrono's `%Y`: four digits for years 0 to 9999, else a sign and at least four digits. */
  function Year4(y: int): (s: string)
    ensures 0 <= y <= 9999 ==> |s| == 4 && AllDigits(s)
    ensures !(0 <= y <= 9999) ==> s != [] && !IsDigit(s[0])
  {
    if 0 <= y <= 9999 then Pad4(y)
    else if y < 0 then "-" + ZeroPad(-y, 4)
    else "+" + ZeroPad(y, 4)
  }

  /** `%Y%m%d_%H%M%S`. */
  function FormatStamp(c: Civil): string
    requires ValidCivil(c)
  {
    Year4(c.year) + Pad2(c.month) + Pad2(c.day) + "_" + Pad2(c.hour) + Pad2(c.minute) + Pad2(c.second)
  }

  /** `to_rfc3339()` of a whole-second UTC instant. */
  function Rfc3339(c: Civil): string
    requires ValidCivil(c) && 0 <= c.year <= 9999
  {
    Year4(c.year) + "-" + Pad2(c.month) + "-" + Pad2(c.day) + "T"
    + Pad2(c.hour) + ":" + Pad2(c.minute) + ":" + Pad2(c.second) + "+00:00"
  }

  /**
   * `NaiveDateTime::parse_from_str(s, "%Y%m%d_%H%M%S")` on a string of ASCII
   * digits and underscores: each field must take its full width, so only the
   * layout `DDDDDDDD_DDDDDD` is accepted, and the fields must form a real date
   * and time (second 60 is chrono's leap second).
   */
  function ParseStamp(s: string): (r: Option<Civil>)
    ensures r.Some? ==> ValidCivil(r.value) && 0 <= r.value.year <= 9999
  {
    if |s| == 15 && s[8] == '_' && AllDigits(s[..8]) && AllDigits(s[9..]) then
      var c := Civil(DigitsValue(s[..4]), DigitsValue(s[4..6]), DigitsValue(s[6..8]),
                     DigitsValue(s[9..11]), DigitsValue(s[11..13]), DigitsValue(s[13..15]));
      assert AllDigits(s[..4]) && s[..4] == s[..8][..4];
      if ValidCivil(c) then
        DigitsValueBound(s[..4]);
        Some(c)
      else None
    else None
  }

  function Pow10(n: nat): nat { if n == 0 then 1 else 10 * Pow10(n - 1) }

  lemma {:induction false} DigitsValueBound(s: string)
    requires AllDigits(s)
    ensures DigitsValue(s) < Pow10(|s|)
  {
    if s != [] {
      DigitsValueBound(s[..|s| - 1]);
    }
  }

  lemma AllDigitsConcat(a: string, b: string)
    requires AllDigits(a) && AllDigits(b)
    ensures AllDigits(a + b)
  {
    forall i | 0 <= i < |a + b| ensures IsDigit((a + b)[i]) {
      if i < |a| { assert (a + b)[i] == a[i]; } else { assert (a + b)[i] == b[i - |a|]; }
    }
  }

  lemma {:induction false} DigitsValueConcat(a: string, b: string)
    requires AllDigits(a) && AllDigits(b)
    ensures AllDigits(a + b)
    ensures DigitsValue(a + b) == DigitsValue(a) * Pow10(|b|) + DigitsValue(b)
    decreases |b|
  {
    AllDigitsConcat(a, b);
    if b == [] {
      assert a + b == a;
    } else {
      var b' := b[..|b| - 1];
      var last := b[|b| - 1];
      assert (a + b)[..|a + b| - 1] == a + b';
      assert (a + b)[|a + b| - 1] == last;
      DigitsValueConcat(a, b');
      ShiftDigit(DigitsValue(a + b), DigitsValue(a), Pow10(|b|), Pow10(|b'|), DigitsValue(b), DigitsValue(b'), DigitValue(last));
    }
  }

  /** One more digit on the right: the left part's weight grows tenfold. */
  lemma ShiftDigit(v: int, x: int, bigP: int, p: int, bigY: int, y: int, d: int)
    requires v == 10 * (x * p + y) + d && bigY == 10 * y + d && bigP == 10 * p
    ensures v == x * bigP + bigY
  {
    assert x * bigP == 10 * (x * p);
  }

  lemma DigitValueOfChar(d: nat)
    requires d < 10
    ensures DigitValue(DigitChar(d)) == d
  {
  }

  lemma Pad2Value(n: nat)
    requires n < 100
    ensures DigitsValue(Pad2(n)) == n
  {
    var s := Pad2(n);
    DigitValueOfChar(n / 10);
    DigitValueOfChar(n % 10);
    assert s[..1] == [DigitChar(n / 10)];
    assert s[..1][..0] == [];
    assert DigitsValue(s[..1]) == n / 10;
    assert DigitsValue(s) == 10 * (n / 10) + n % 10;
  }

  lemma Pad4Value(n: nat)
    requires n < 10000
    ensures DigitsValue(Pad4(n)) == n
  {
    Pad2Value(n / 100);
    Pad2Value(n % 100);
    DigitsValueConcat(Pad2(n / 100), Pad2(n % 100));
  }

  /** Reading back a rendered stamp gives the same date and time, for four-digit years. */
  lemma ParseFormatStamp(c: Civil)
    requires ValidCivil(c) && 0 <= c.year <= 9999
    ensures ParseStamp(FormatStamp(c)) == Some(c)
  {
    var y, mo, d, h, mi, se := Pad4(c.year), Pad2(c.month), Pad2(c.day), Pad2(c.hour), Pad2(c.minute), Pad2(c.second);
    var s := FormatStamp(c);
    assert s == y + mo + d + "_" + h + mi + se;
    assert s[..4] == y && s[4..6] == mo && s[6..8] == d;
    assert s[9..11] == h && s[11..13] == mi && s[13..15] == se;
    assert s[..8] == y + mo + d;
    assert s[9..] == h + mi + se;
    FormatStampShape(c);
    Pad4Value(c.year);
    Pad2Value(c.month);
    Pad2Value(c.day);
    Pad2Value(c.hour);
    Pad2Value(c.minute);
    Pad2Value(c.second);
  }

  /** A stamp of a four-digit year is eight digits, `_`, six digits. */
  lemma FormatStampShape(c: Civil)
    requires ValidCivil(c) && 0 <= c.year <= 9999
    ensures var s := FormatStamp(c); |s| == 15 && s[8] == '_' && AllDigits(s[..8]) && AllDigits(s[9..])
  {
    var y, mo, d, h, mi, se := Pad4(c.year), Pad2(c.month), Pad2(c.day), Pad2(c.hour), Pad2(c.minute), Pad2(c.second);
    var s := FormatStamp(c);
    assert s == y + mo + d + "_" + h + mi + se;
    assert AllDigits(s[..8]) by {
      forall i | 0 <= i < 8 ensures IsDigit(s[..8][i]) {
        if i < 4 { assert s[..8][i] == y[i]; }
        else if i < 6 { assert s[..8][i] == mo[i - 4]; }
        else { assert s[..8][i] == d[i - 6]; }
      }
    }
    assert AllDigits(s[9..]) by {
      forall i | 0 <= i < 6 ensures IsDigit(s[9..][i]) {
        if i < 2 { assert s[9..][i] == h[i]; }
        else if i < 4 { assert s[9..][i] == mi[i - 2]; }
        else { assert s[9..][i] == se[i - 4]; }
      }
    }
  }
}

=== FILE: database_config.dfy ===
/**
 * Database connection settings: the row a task points at through its
 * `database_config_id`, its constructor with the MySQL port default and its
 * partial update. Instants are Unix seconds.
 */
module DbConfigs {
  import opened Wrappers

  /** The port used when a request names none. */
  const DEFAULT_PORT: int := 3306

  /** A row of the database_configs table; `port` is an `i32`. */
  datatype DatabaseConfig = DatabaseConfig(
    id: string,
    name: string,
    host: string,
    port: int,
    username: string,
    password: string,
    databaseName: string,
    createdAt: int,
    updatedAt: int)

  datatype CreateConfigRequest = CreateConfigRequest(
    name: string,
    host: string,
    port: Option<int>,
    username: string,
    password: string,
    databaseName: string)

  datatype UpdateConfigRequest = UpdateConfigRequest(
    name: Option<string>,
    host: Option<string>,
    port: Option<int>,
    username: Option<string>,
    password: Option<string>,
    databaseName: Option<string>)

  /** `DatabaseConfig::new`: `id` is the fresh uuid and `now` the one instant both stamps take. */
  function NewConfig(req: CreateConfigRequest, id: string, now: int): (c: DatabaseConfig)
    ensures c.id == id
    ensures c.name == req.name && c.host == req.host && c.username == req.username
    ensures c.password == req.password && c.databaseName == req.databaseName
    ensures req.port.Some? ==> c.port == req.port.value
    ensures req.port.None? ==> c.port == DEFAULT_PORT
    ensures c.createdAt == now && c.updatedAt == c.createdAt
  {
    DatabaseConfig(id, req.name, req.host, req.port.UnwrapOr(DEFAULT_PORT), req.username,
                   req.password, req.databaseName, now, now)
  }

  /**
   * `DatabaseConfig::update`: each field the request gives is overwritten,
   * `updated_at` becomes `now`, and `id` and `created_at` stay.
   */
  function UpdateConfig(c: DatabaseConfig, req: UpdateConfigRequest, now: int): (r: DatabaseConfig)
    ensures r.name == (if req.name.Some? then req.name.value else c.name)
    ensures r.host == (if req.host.Some? then req.host.value else c.host)
    ensures r.port == (if req.port.Some? then req.port.value else c.port)
    ensures r.username == (if req.username.Some? then req.username.value else c.username)
    ensures r.password == (if req.password.Some? then req.password.value else c.password)
    ensures r.databaseName == (if req.databaseName.Some? then req.databaseName.value else c.databaseName)
    ensures r.id == c.id && r.createdAt == c.createdAt && r.updatedAt == now
  {
    var c1 := if req.name.Some? then c.(name := req.name.value) else c;
    var c2 := if req.host.Some? then c1.(host := req.host.value) else c1;
    var c3 := if req.port.Some? then c2.(port := req.port.value) else c2;
    var c4 := if req.username.Some? then c3.(username := req.username.value) else c3;
    var c5 := if req.password.Some? then c4.(password := req.password.value) else c4;
    var c6 := if req.databaseName.Some? then c5.(databaseName := req.databaseName.value) else c5;
    c6.(updatedAt := now)
  }

  /** Sending the same update twice leaves what sending it once left, stamped later. */
  lemma UpdateConfigIdempotent(c: DatabaseConfig, req: UpdateConfigRequest, now1: int, now2: int)
    ensures UpdateConfig(UpdateConfig(c, req, now1), req, now2) == UpdateConfig(c, req, now2)
  {
  }

  /** An update that gives no field only refreshes `updated_at`. */
  lemma EmptyConfigUpdate(c: DatabaseConfig, now: int)
    ensures UpdateConfig(c, UpdateConfigRequest(None, None, None, None, None, None), now) == c.(updatedAt := now)
  {
  }
}

=== FILE: disk.dfy ===
/**
 * The part of the filesystem a backup run touches, as a map from path to
 * node: directories, sidecar files, the table manifest a run writes next to
 * its dump log, and other files with their size and modification second.
 * Paths are compared as text; the root and the current directory always
 * exist and are not keys.
 */
module Disk {
  import opened Wrappers
  import opened Text
  import opened Paths
  import opened Backups
  import opened Progress

  /** The operating-system errors these calls meet, by their Linux names. */
  datatype OsError = FileExists | NotADirectory | IsADirectory | NoSuchFile

  /** The text `io::Error` displays for each: the `strerror` message and the Linux error number. */
  function OsErrorText(e: OsError): string {
    match e
    case FileExists => "File exists (os error 17)"
    case NotADirectory => "Not a directory (os error 20)"
    case IsADirectory => "Is a directory (os error 21)"
    case NoSuchFile => "No such file or directory (os error 2)"
  }

  const EEXIST: string := OsErrorText(FileExists)
  const ENOTDIR: string := OsErrorText(NotADirectory)
  const EISDIR: string := OsErrorText(IsADirectory)
  const ENOENT: string := OsErrorText(NoSuchFile)

  /**
   * A sidecar file is seen two ways: as the `task_id` and `created_at`
   * members of its JSON object where these are strings (what
   * `serde_json::Value::get(..).as_str()` answers; `None` otherwise, and
   * for text that is not JSON at all), and as the `BackupMetadata` record
   * it parses to (`None` when it does not).
   */
  datatype Node =
    | Directory
    | Sidecar(taskId: Option<string>, createdAt: Option<string>, content: Option<BackupMetadata>)
    | Manifest(meta: RdumperMeta)
    | RegularFile(size: nat, modified: int)

  /** The sidecar `serde_json::to_string_pretty` writes for a record. */
  function SidecarOf(m: BackupMetadata): (n: Node)
    ensures n.Sidecar? && n.content == Some(m)
    ensures n.taskId == m.taskId && n.createdAt == Some(m.createdAt)
  {
    Sidecar(m.taskId, Some(m.createdAt), Some(m))
  }

  /** `q` is `p` itself or lies somewhere below it. */
  predicate Under(q: string, p: string) {
    q == p || StartsWith(q, p + "/")
  }

  /** The nodes that remain once the tree rooted at `p` is gone. */
  function WithoutTree(nodes: map<string, Node>, p: string): (r: map<string, Node>)
    ensures forall q :: q in r <==> q in nodes && !Under(q, p)
    ensures forall q :: q in r ==> r[q] == nodes[q]
  {
    map q | q in nodes && !Under(q, p) :: nodes[q]
  }

  predicate IsDir(nodes: map<string, Node>, p: string) {
    p in nodes && nodes[p].Directory?
  }

  /** A path that always names an existing directory: the current directory or the root. */
  predicate AlwaysDir(p: string) {
    p == "" || p == "/"
  }

  /**
   * `fs::create_dir_all`: a path already a directory, and a path without
   * a parent, are done; a file in the way fails with `EEXIST`, a file
   * standing for one of the missing directories' ancestors with `ENOTDIR`;
   * otherwise the parent's chain is created first, then the
   * directory. A failure creates nothing.
   */
  function CreateDirAllOf(nodes: map<string, Node>, p: string): Result<map<string, Node>, string>
    decreases |p|
  {
    if AlwaysDir(p) then Ok(nodes)
    else if p in nodes then (if nodes[p].Directory? then Ok(nodes) else Err(EEXIST))
    else match ParentPath(p)
      case None => Ok(nodes)
      case Some(q) =>
        match CreateDirAllOf(nodes, q)
        case Err(_) => Err(ENOTDIR)
        case Ok(n) => Ok(n[p := Directory])
  }

  /** The paths `create_dir_all` walks up through: `p`, its parent, and so on while there is one. */
  function Chain(p: string): (r: seq<string>)
    ensures |r| > 0 && r[0] == p
    decreases |p|
  {
    if AlwaysDir(p) then [p]
    else match ParentPath(p)
      case None => [p]
      case Some(q) => [p] + Chain(q)
  }

  /**
   * `create_dir_all` keeps every node it finds and adds only directories,
   * none longer than `p`; unless `p` is the root, the current directory or
   * only separators, `p` is a directory afterwards.
   */
  lemma {:induction false} CreateDirAllShape(nodes: map<string, Node>, p: string)
    requires CreateDirAllOf(nodes, p).Ok?
    ensures var n := CreateDirAllOf(nodes, p).value;
            (forall k :: k in nodes ==> k in n && n[k] == nodes[k])
            && (forall k :: k in n && k !in nodes ==> n[k] == Directory && |k| <= |p|)
            && (AlwaysDir(p) || ParentPath(p).None? || IsDir(n, p))
    decreases |p|
  {
    if !AlwaysDir(p) && p !in nodes && ParentPath(p).Some? {
      CreateDirAllShape(nodes, ParentPath(p).value);
    }
  }

  /**
   * Walking up from `p`, the first node that is there is not a directory
   * (and is not the root or the current directory, which always are).
   */
  predicate Blocked(nodes: map<string, Node>, p: string) {
    exists k :: 0 <= k < |Chain(p)| && BlockedAt(nodes, Chain(p), k)
  }

  /** Entry `k` of the walk is the first one there, and it is not a directory. */
  predicate BlockedAt(nodes: map<string, Node>, c: seq<string>, k: nat)
    requires k < |c|
  {
    c[k] in nodes && !nodes[c[k]].Directory? && !AlwaysDir(c[k]) && forall i :: 0 <= i < k ==> c[i] !in nodes
  }

  /** `create_dir_all` fails exactly where the first node there on the way up is not a directory. */
  lemma CreateDirAllFails(nodes: map<string, Node>, p: string)
    ensures CreateDirAllOf(nodes, p).Err? <==> Blocked(nodes, p)
  {
    if CreateDirAllOf(nodes, p).Err? {
      FailureIsBlocked(nodes, p);
    } else if Blocked(nodes, p) {
      BlockedFails(nodes, p);
    }
  }

  /** A failure of `create_dir_all` is blocked on the way up. */
  lemma {:induction false} FailureIsBlocked(nodes: map<string, Node>, p: string)
    requires CreateDirAllOf(nodes, p).Err?
    ensures Blocked(nodes, p)
    decreases |p|
  {
    if p in nodes {
      assert BlockedAt(nodes, Chain(p), 0);
    } else {
      var q := ParentPath(p).value;
      FailureIsBlocked(nodes, q);
      var c, cq := Chain(p), Chain(q);
      assert c == [p] + cq;
      var k :| 0 <= k < |cq| && BlockedAt(nodes, cq, k);
      assert c[k + 1] == cq[k];
      forall i | 0 <= i < k + 1
        ensures c[i] !in nodes
      {
        if i > 0 {
          assert c[i] == cq[i - 1];
        }
      }
      assert BlockedAt(nodes, c, k + 1);
    }
  }

  /** A walk blocked on the way up makes `create_dir_all` fail. */
  lemma {:induction false} BlockedFails(nodes: map<string, Node>, p: string)
    requires Blocked(nodes, p)
    ensures CreateDirAllOf(nodes, p).Err?
    decreases |p|
  {
    var c := Chain(p);
    var k :| 0 <= k < |c| && BlockedAt(nodes, c, k);
    if k > 0 {
      assert c[0] == p && p !in nodes;
      var q := ParentPath(p).value;
      var cq := Chain(q);
      assert c == [p] + cq;
      assert cq[k - 1] == c[k];
      forall i | 0 <= i < k - 1
        ensures cq[i] !in nodes
      {
        assert cq[i] == c[i + 1];
      }
      assert BlockedAt(nodes, cq, k - 1);
      BlockedFails(nodes, q);
    }
  }

  /** Creating the same directories a second time changes nothing. */
  lemma CreateDirAllIdempotent(nodes: map<string, Node>, p: string)
    requires CreateDirAllOf(nodes, p).Ok?
    ensures CreateDirAllOf(CreateDirAllOf(nodes, p).value, p) == CreateDirAllOf(nodes, p)
  {
    CreateDirAllShape(nodes, p);
  }

  /**
   * Why writing a file at `p` fails, if it does: `p` is a directory (or
   * the root), its parent is a file, or its parent is missing.
   */
  function WriteError(nodes: map<string, Node>, p: string): Option<string> {
    if IsDir(nodes, p) then Some(EISDIR)
    else match ParentPath(p)
      case None => Some(if p == [] then ENOENT else EISDIR)
      case Some(q) =>
        if AlwaysDir(q) || IsDir(nodes, q) then None
        else if q in nodes then Some(ENOTDIR)
        else Some(ENOENT)
  }

  /**
   * `fs::read_to_string` followed by `serde_json::from_str::<BackupMetadata>`
   * on the disk `nodes`: succeeds exactly on a sidecar whose JSON is a record.
   */
  function ReadSidecarOf(nodes: map<string, Node>, p: string): (r: Result<BackupMetadata, string>)
    ensures r.Ok? <==> p in nodes && nodes[p].Sidecar? && nodes[p].content.Some?
    ensures r.Ok? ==> r.value == nodes[p].content.value
  {
    if p !in nodes then Err(ENOENT)
    else match nodes[p]
      case Sidecar(_, _, Some(m)) => Ok(m)
      case Directory => Err(EISDIR)
      case _ => Err("invalid sidecar JSON")
  }

  /** Below a directory, `create_dir_all` of a child adds just the child, or fails on a file there. */
  lemma CreateChildDir(nodes: map<string, Node>, d: string, c: string)
    requires IsDir(nodes, d) && ParentPath(c) == Some(d)
    ensures CreateDirAllOf(nodes, c) == if c !in nodes then Ok(nodes[c := Directory])
                                        else if nodes[c].Directory? then Ok(nodes) else Err(EEXIST)
  {
    assert !AlwaysDir(c);
  }

  /** Below a directory, writing a file fails only on a directory. */
  lemma WriteBelowDir(nodes: map<string, Node>, d: string, f: string)
    requires IsDir(nodes, d) && ParentPath(f) == Some(d)
    ensures WriteError(nodes, f) == if IsDir(nodes, f) then Some(EISDIR) else None
  {
  }

  class FileSystem {
    var nodes: map<string, Node>

    constructor(initial: map<string, Node>)
      ensures nodes == initial
    {
      nodes := initial;
    }

    /** `fs::read_to_string` followed by `serde_json::from_str::<BackupMetadata>`, on this disk. */
    function ReadSidecar(p: string): (r: Result<BackupMetadata, string>)
      reads this
      ensures r.Ok? <==> p in nodes && nodes[p].Sidecar? && nodes[p].content.Some?
      ensures r.Ok? ==> r.value == nodes[p].content.value
    {
      ReadSidecarOf(nodes, p)
    }

    /**
     * `fs::read_to_string` followed by `serde_json::from_str::<Value>`, then
     * `get("task_id")` and `get("created_at")` as strings: fails unless a
     * sidecar file is at `p`.
     */
    function ReadSidecarFields(p: string): (r: Result<(Option<string>, Option<string>), string>)
      reads this
      ensures r.Ok? <==> p in nodes && nodes[p].Sidecar?
      ensures r.Ok? ==> r.value == (nodes[p].taskId, nodes[p].createdAt)
    {
      if p !in nodes then Err(ENOENT)
      else match nodes[p]
        case Sidecar(taskId, createdAt, _) => Ok((taskId, createdAt))
        case Directory => Err(EISDIR)
        case _ => Err("invalid sidecar JSON")
    }

    /** `fs::create_dir_all`, as `CreateDirAllOf` describes it. */
    method CreateDirAll(p: string) returns (r: Result<(), string>)
      modifies this
      ensures var made := CreateDirAllOf(old(nodes), p);
              (r.Ok? <==> made.Ok?) && (r.Ok? ==> nodes == made.value) && (r.Err? ==> r.error == made.error && nodes == old(nodes))
    {
      var made := CreateDirAllOf(nodes, p);
      if made.Err? {
        return Err(made.error);
      }
      nodes := made.value;
      r := Ok(());
    }

    /** `fs::write` of a sidecar: replaces whatever file was there; fails as `WriteError` says. */
    method WriteSidecar(p: string, m: BackupMetadata) returns (r: Result<(), string>)
      modifies this
      ensures r.Err? <==> WriteError(old(nodes), p).Some?
      ensures r.Ok? ==> nodes == old(nodes)[p := SidecarOf(m)]
      ensures r.Err? ==> r.error == WriteError(old(nodes), p).value && nodes == old(nodes)
    {
      var e := WriteError(nodes, p);
      if e.Some? {
        return Err(e.value);
      }
      nodes := nodes[p := SidecarOf(m)];
      r := Ok(());
    }

    /** `fs::write` of the table manifest: replaces whatever file was there; fails as `WriteError` says. */
    method WriteManifest(p: string, meta: RdumperMeta) returns (r: Result<(), string>)
      modifies this
      ensures r.Err? <==> WriteError(old(nodes), p).Some?
      ensures r.Ok? ==> nodes == old(nodes)[p := Manifest(meta)]
      ensures r.Err? ==> r.error == WriteError(old(nodes), p).value && nodes == old(nodes)
    {
      var e := WriteError(nodes, p);
      if e.Some? {
        return Err(e.value);
      }
      nodes := nodes[p := Manifest(meta)];
      r := Ok(());
    }

    /** `File::create`: an empty file stamped `now`, truncating one already there; fails as `WriteError` says. */
    method CreateFile(p: string, now: int) returns (r: Result<(), string>)
      modifies this
      ensures r.Err? <==> WriteError(old(nodes), p).Some?
      ensures r.Ok? ==> nodes == old(nodes)[p := RegularFile(0, now)]
      ensures r.Err? ==> r.error == WriteError(old(nodes), p).value && nodes == old(nodes)
    {
      var e := WriteError(nodes, p);
      if e.Some? {
        return Err(e.value);
      }
      nodes := nodes[p := RegularFile(0, now)];
      r := Ok(());
    }

    /** `fs::write` of bytes: a file of that many bytes stamped `modified`, replacing one already there; fails as `WriteError` says. */
    method WriteFile(p: string, size: nat, modified: int) returns (r: Result<(), string>)
      modifies this
      ensures r.Err? <==> WriteError(old(nodes), p).Some?
      ensures r.Ok? ==> nodes == old(nodes)[p := RegularFile(size, modified)]
      ensures r.Err? ==> r.error == WriteError(old(nodes), p).value && nodes == old(nodes)
    {
      var e := WriteError(nodes, p);
      if e.Some? {
        return Err(e.value);
      }
      nodes := nodes[p := RegularFile(size, modified)];
      r := Ok(());
    }

    /** A subprocess (tar) leaving a file of the given size and modification second. */
    method PutFile(p: string, size: nat, modified: int)
      modifies this
      ensures nodes == old(nodes)[p := RegularFile(size, modified)]
    {
      nodes := nodes[p := RegularFile(size, modified)];
    }

    /** `fs::remove_file` (`unlink`): fails on a missing path and on a directory. */
    method RemoveFile(p: string) returns (r: Result<(), string>)
      modifies this
      ensures r.Err? <==> p !in old(nodes) || old(nodes)[p].Directory?
      ensures r.Ok? ==> nodes == old(nodes) - {p}
      ensures r.Err? ==> nodes == old(nodes)
      ensures r.Err? ==> r.error == if p in old(nodes) then EISDIR else ENOENT
    {
      if p !in nodes {
        r := Err(ENOENT);
      } else if nodes[p].Directory? {
        r := Err(EISDIR);
      } else {
        nodes := nodes - {p};
        r := Ok(());
      }
    }

    /** `fs::remove_dir_all`: the directory and everything below it; fails on a file and on a missing path. */
    method RemoveDirAll(p: string) returns (r: Result<(), string>)
      modifies this
      ensures r.Err? <==> !IsDir(old(nodes), p)
      ensures r.Ok? ==> nodes == WithoutTree(old(nodes), p)
      ensures r.Err? ==> nodes == old(nodes)
      ensures r.Err? ==> r.error == if p in old(nodes) then ENOTDIR else ENOENT
    {
      if p !in nodes {
        r := Err(ENOENT);
      } else if !IsDir(nodes, p) {
        r := Err(ENOTDIR);
      } else {
        nodes := WithoutTree(nodes, p);
        r := Ok(());
      }
    }
  }
}

=== FILE: engines.dfy ===
/**
 * The table analysis of the mydumper service: which tables of a schema a
 * transactional dump covers and which it leaves out by engine, the
 * `rdumper.meta.json` manifest that records both lists, and the engine
 * list the dump's `--ignore-engines` option names.
 */
module Engines {
  import opened Wrappers
  import opened Text
  import Progress

  // ------------------------------------------------------------ table engines

  /**
   * One row of `information_schema.TABLES` for the dumped schema; a view's
   * `ENGINE` is NULL.
   */
  datatype EngineRow = EngineRow(table: string, engine: Option<string>)

  /** The engines whose tables a transactional dump leaves out, upper-cased. */
  const EXCLUDED_ENGINES: seq<string> := ["MYISAM", "MEMORY", "CSV", "ARCHIVE", "FEDERATED", "MERGE", "BLACKHOLE"]

  /** `u` is one of `names`. */
  predicate Listed(u: string, names: seq<string>)
    decreases |names|
  {
    names != [] && (names[0] == u || Listed(u, names[1..]))
  }

  /** A table is excluded when its engine, upper-cased, is one of those; INNODB and unknown engines are kept. */
  predicate ExcludedEngine(engine: string) {
    Listed(ToUpper(engine), EXCLUDED_ENGINES)
  }

  /** The excluded upper-case engine names, one by one. */
  lemma ExcludedNames(u: string)
    ensures Listed(u, EXCLUDED_ENGINES) <==>
              (u == "MYISAM" || u == "MEMORY" || u == "CSV" || u == "ARCHIVE" || u == "FEDERATED" || u == "MERGE" || u == "BLACKHOLE")
  {
    var es := EXCLUDED_ENGINES;
    assert es[1..][1..][1..][1..][1..][1..][1..] == [];
  }

  /** How an excluded table is listed: its name and its engine as the server spelled it. */
  function ExcludedLabel(table: string, engine: string): string {
    table + " (" + engine + ")"
  }

  /** The tables the dump covers, in row order; a row without an engine is in neither list. */
  function InnodbTables(rows: seq<EngineRow>): seq<string>
    decreases |rows|
  {
    if rows == [] then []
    else
      var last := rows[|rows| - 1];
      InnodbTables(rows[..|rows| - 1])
        + (match last.engine
           case None => []
           case Some(engine) => if ExcludedEngine(engine) then [] else [last.table])
  }

  /** The labels of the tables the dump leaves out, in row order. */
  function ExcludedTables(rows: seq<EngineRow>): seq<string>
    decreases |rows|
  {
    if rows == [] then []
    else
      var last := rows[|rows| - 1];
      ExcludedTables(rows[..|rows| - 1])
        + (match last.engine
           case None => []
           case Some(engine) => if ExcludedEngine(engine) then [ExcludedLabel(last.table, engine)] else [])
  }

  /** The rows that name an engine: all of them, unless the schema holds views. */
  function RowsWithEngine(rows: seq<EngineRow>): (n: nat)
    ensures n <= |rows|
    ensures (forall i :: 0 <= i < |rows| ==> rows[i].engine.Some?) ==> n == |rows|
    decreases |rows|
  {
    if rows == [] then 0
    else RowsWithEngine(rows[..|rows| - 1]) + (if rows[|rows| - 1].engine.Some? then 1 else 0)
  }

  /**
   * The classification loop of `analyze_table_engines`, over the rows the
   * schema query returned, skipping a row whose engine is NULL.
   */
  method AnalyzeTableEngines(rows: seq<EngineRow>) returns (innodb: seq<string>, excluded: seq<string>)
    ensures innodb == InnodbTables(rows) && excluded == ExcludedTables(rows)
  {
    innodb, excluded := [], [];
    var i := 0;
    while i < |rows|
      invariant 0 <= i <= |rows|
      invariant innodb == InnodbTables(rows[..i]) && excluded == ExcludedTables(rows[..i])
    {
      var row := rows[i];
      assert rows[..i + 1][..i] == rows[..i];
      match row.engine {
        case None =>
        case Some(engine) =>
          ExcludedNames(ToUpper(engine));
          match ToUpper(engine) {
            case "INNODB" =>
              innodb := innodb + [row.table];
            case "MYISAM" | "MEMORY" | "CSV" | "ARCHIVE" | "FEDERATED" | "MERGE" | "BLACKHOLE" =>
              excluded := excluded + [row.table + " (" + engine + ")"];
            case _ =>
              innodb := innodb + [row.table];
          }
      }
      i := i + 1;
    }
    assert rows[..|rows|] == rows;
  }

  /**
   * The loop as written: `row.get("ENGINE")` into a `String` panics on a
   * NULL engine, so a schema holding a view never gets past the analysis
   * (`None`); without views it gives the two lists.
   */
  function AnalyzeAsWritten(rows: seq<EngineRow>): (r: Option<(seq<string>, seq<string>)>)
    ensures r.None? <==> exists i :: 0 <= i < |rows| && rows[i].engine.None?
    ensures r.Some? ==> r.value == (InnodbTables(rows), ExcludedTables(rows))
    decreases |rows|
  {
    if rows == [] then Some(([], []))
    else
      var init := rows[..|rows| - 1];
      var last := rows[|rows| - 1];
      assert forall i :: 0 <= i < |init| ==> init[i] == rows[i];
      match AnalyzeAsWritten(init)
      case None => None
      case Some(lists) =>
        match last.engine
        case None => None
        case Some(engine) =>
          if ExcludedEngine(engine) then
            assert InnodbTables(rows) == InnodbTables(init) + [] == lists.0;
            Some((lists.0, lists.1 + [ExcludedLabel(last.table, engine)]))
          else
            assert ExcludedTables(rows) == ExcludedTables(init) + [] == lists.1;
            Some((lists.0 + [last.table], lists.1))
  }

  /**
   * A schema with one InnoDB table and one view: the analysis as written
   * panics, and the corrected one dumps the table and lists nothing as
   * excluded.
   */
  lemma ViewPanicsAnalysis()
    ensures var rows := [EngineRow("orders", Some("InnoDB")), EngineRow("order_totals", None)];
            AnalyzeAsWritten(rows).None? && InnodbTables(rows) == ["orders"] && ExcludedTables(rows) == []
  {
    var rows := [EngineRow("orders", Some("InnoDB")), EngineRow("order_totals", None)];
    assert rows[1].engine.None?;
    assert rows[..1] == [EngineRow("orders", Some("InnoDB"))];
    assert [EngineRow("orders", Some("InnoDB"))][..0] == [];
    InnoDbAndAriaKept();
  }

  /** Every row that names an engine lands in exactly one of the two lists. */
  lemma {:induction false} EveryRowPlacedOnce(rows: seq<EngineRow>)
    ensures |InnodbTables(rows)| + |ExcludedTables(rows)| == RowsWithEngine(rows)
    decreases |rows|
  {
    if rows != [] {
      EveryRowPlacedOnce(rows[..|rows| - 1]);
    }
  }

  /** Classifying two runs of rows one after the other is classifying each: row order is kept. */
  lemma {:induction false} ClassifyConcat(a: seq<EngineRow>, b: seq<EngineRow>)
    ensures InnodbTables(a + b) == InnodbTables(a) + InnodbTables(b)
    ensures ExcludedTables(a + b) == ExcludedTables(a) + ExcludedTables(b)
    decreases |b|
  {
    if b == [] {
      assert a + b == a;
    } else {
      var init := b[..|b| - 1];
      assert (a + b)[..|a + b| - 1] == a + init;
      assert (a + b)[|a + b| - 1] == b[|b| - 1];
      ClassifyConcat(a, init);
    }
  }

  /** What one row contributes: its name to the dump, its label to the excluded list, or nothing for a view. */
  lemma ClassifyRow(row: EngineRow)
    ensures row.engine.None? ==> InnodbTables([row]) == [] && ExcludedTables([row]) == []
    ensures row.engine.Some? && ExcludedEngine(row.engine.value) ==>
              InnodbTables([row]) == [] && ExcludedTables([row]) == [ExcludedLabel(row.table, row.engine.value)]
    ensures row.engine.Some? && !ExcludedEngine(row.engine.value) ==>
              InnodbTables([row]) == [row.table] && ExcludedTables([row]) == []
  {
    assert [row][..0] == [];
  }

  /** The engine names are compared after upper-casing: `myisam` is excluded as `MyISAM` is. */
  lemma LowercaseMyIsamExcluded()
    ensures ExcludedEngine("myisam")
  {
    assert ToUpper("myisam") == "MYISAM";
    ExcludedNames("MYISAM");
  }

  /** InnoDB and an engine the list does not name, such as Aria, are dumped. */
  lemma InnoDbAndAriaKept()
    ensures !ExcludedEngine("InnoDB") && !ExcludedEngine("Aria")
  {
    assert ToUpper("InnoDB") == "INNODB";
    assert ToUpper("Aria") == "ARIA";
    ExcludedNames("INNODB");
    ExcludedNames("ARIA");
  }

  /** Every entry of a list is listed in it. */
  lemma {:induction false} ListedAt(names: seq<string>, i: nat)
    requires i < |names|
    ensures Listed(names[i], names)
    decreases i
  {
    if i > 0 {
      ListedAt(names[1..], i - 1);
    }
  }

  // ------------------------------------------------------------ the table manifest

  /** `rdumper.meta.json`; `count` is the two lengths' sum cast to `u32`. */
  function ManifestOf(innodb: seq<string>, excluded: seq<string>, databaseName: string, startedAt: string)
    : (m: Progress.RdumperMeta)
    ensures m.tables == innodb && m.excludedTables == excluded
    ensures m.databaseName == databaseName && m.startedAt == startedAt
  {
    Progress.RdumperMeta((|innodb| + |excluded|) % U32_BOUND, innodb, excluded, databaseName, startedAt)
  }

  /** The manifest of a classified schema counts every row the query returned that names an engine. */
  lemma ManifestCountsEveryRow(rows: seq<EngineRow>, databaseName: string, startedAt: string)
    requires |rows| < U32_BOUND
    ensures ManifestOf(InnodbTables(rows), ExcludedTables(rows), databaseName, startedAt).count == RowsWithEngine(rows)
  {
    EveryRowPlacedOnce(rows);
    var n := |InnodbTables(rows)| + |ExcludedTables(rows)|;
    assert n == RowsWithEngine(rows) <= |rows|;
    SmallRemainder(n, U32_BOUND);
  }

  lemma SmallRemainder(x: nat, m: nat)
    requires x < m
    ensures x % m == x
  {
  }

  /**
   * Progress read back from a run's manifest reports one entry per row of
   * the schema query that names an engine: the dumped tables, then the
   * excluded ones as skipped.
   */
  lemma ProgressCoversEveryRow(rows: seq<EngineRow>, databaseName: string, startedAt: string, log: string,
                               clock: nat -> int, now: int, d: Progress.DetailedProgress)
    requires var m := ManifestOf(InnodbTables(rows), ExcludedTables(rows), databaseName, startedAt);
             d.tables == Progress.TableProgressOf(log, m.tables, clock)
               + seq(|m.excludedTables|, i requires 0 <= i < |m.excludedTables| => Progress.SkippedEntry(m.excludedTables[i], now))
    requires d.totalTables == |d.tables|
    ensures d.totalTables == RowsWithEngine(rows)
    ensures forall i :: |InnodbTables(rows)| <= i < |d.tables| ==> d.tables[i].status == Progress.Skipped
  {
    var m := ManifestOf(InnodbTables(rows), ExcludedTables(rows), databaseName, startedAt);
    Progress.LoadedCounts(log, m, clock, now, d);
    EveryRowPlacedOnce(rows);
  }

  /** The engines `--ignore-engines` names, one by one. */
  const IGNORED_ENGINES: seq<string> := ["MyISAM", "MEMORY", "CSV", "ARCHIVE", "FEDERATED", "MERGE", "BLACKHOLE"]

  /** The argument of `--ignore-engines`: those names, comma-separated. */
  const IGNORE_ENGINES_ARG: string := "MyISAM,MEMORY,CSV,ARCHIVE,FEDERATED,MERGE,BLACKHOLE"

  /** The engines a dump ignores are, upper-cased and in order, the engines the table analysis excludes. */
  lemma {:induction false} IgnoredEnginesAreExcluded()
    ensures |IGNORED_ENGINES| == |EXCLUDED_ENGINES|
    ensures forall i :: 0 <= i < |IGNORED_ENGINES| ==> ToUpper(IGNORED_ENGINES[i]) == EXCLUDED_ENGINES[i]
  {
    forall i | 0 <= i < |IGNORED_ENGINES| ensures ToUpper(IGNORED_ENGINES[i]) == EXCLUDED_ENGINES[i] {
      if i == 0 {
        assert ToUpper("MyISAM") == "MYISAM";
      } else {
        assert IGNORED_ENGINES[i] == EXCLUDED_ENGINES[i];
        UpperFixesUppercase(EXCLUDED_ENGINES[i]);
      }
    }
  }

  /** Every engine a dump ignores is one whose tables the table analysis leaves out. */
  lemma IgnoredEnginesExcluded()
    ensures forall e :: e in IGNORED_ENGINES ==> ExcludedEngine(e)
  {
    IgnoredEnginesAreExcluded();
    forall e | e in IGNORED_ENGINES ensures ExcludedEngine(e) {
      var i :| 0 <= i < |IGNORED_ENGINES| && IGNORED_ENGINES[i] == e;
      ListedAt(EXCLUDED_ENGINES, i);
    }
  }
}

=== FILE: extraction.dfy ===
/**
 * The extraction step of a restore: the tar command `extract_compressed_archive`
 * picks by the archive's extension, the directory it extracts into, and how
 * that dispatch meets the archives the backup side writes.
 */
module Extraction {
  import opened Wrappers
  import opened Text
  import opened Clock
  import opened Paths
  import opened Disk
  import opened Tools
  import opened BackupProcesses
  import opened FsBackups

  // ------------------------------------------------------------ restore extraction

  /** `Path::with_extension("")`: the path without its file name's last extension and that dot. */
  function WithoutExtension(p: string): (r: string)
    ensures Extension(p).Some? && EndsWith(p, "." + Extension(p).value) ==> r + "." + Extension(p).value == p
    ensures Extension(p).None? ==> r == p
  {
    match Extension(p)
    case Some(e) => if EndsWith(p, "." + e) then p[..|p| - |e| - 1] else p
    case None => p
  }

  /** The tar arguments `extract_compressed_archive` picks by the archive's extension. */
  function ExtractArgs(archive: string): (r: Result<seq<string>, string>)
    ensures r.Ok? <==> Extension(archive) == Some("gz") || Extension(archive) == Some("zst")
    ensures r.Err? ==> r.error == "Unsupported archive format"
    ensures r.Ok? ==> |r.value| >= 4 && r.value[|r.value| - 3..] == [archive, "-C", WithoutExtension(archive)]
  {
    var dir := WithoutExtension(archive);
    if Extension(archive) == Some("gz") then Ok(["-xzf", archive, "-C", dir])
    else if Extension(archive) == Some("zst") then Ok(["--zstd", "-xf", archive, "-C", dir])
    else Err("Unsupported archive format")
  }

  /**
   * `extract_compressed_archive`: the target directory is created first,
   * whatever the extension; then tar (how it ran is `tar`) extracts into
   * it. A tar that cannot be started fails with its io error.
   */
  method ExtractCompressedArchive(fs: FileSystem, archive: string, tar: ToolRun) returns (r: Result<string, string>)
    modifies fs
    ensures var dir := WithoutExtension(archive);
            var made := CreateDirAllOf(old(fs.nodes), dir);
            var blocked := made.Err?;
            (blocked ==> r == Err(made.error) && fs.nodes == old(fs.nodes))
            && (!blocked ==> fs.nodes == made.value)
            && (!blocked && ExtractArgs(archive).Err? ==> r == Err("Unsupported archive format"))
            && (!blocked && ExtractArgs(archive).Ok? && tar.NotSpawned? ==> r == Err(tar.error))
            && (!blocked && ExtractArgs(archive).Ok? && FailedExit(tar) ==> r == Err("Failed to extract compressed archive"))
            && (r.Ok? <==> !blocked && ExtractArgs(archive).Ok? && Succeeded(tar))
            && (r.Ok? ==> r.value == dir)
  {
    var dir := WithoutExtension(archive);
    var made := fs.CreateDirAll(dir);
    if made.Err? {
      return Err(made.error);
    }
    var args := ExtractArgs(archive);
    if args.Err? {
      return Err(args.error);
    }
    // tar runs with `args`; how it ran is the input `tar`.
    if tar.NotSpawned? {
      return Err(tar.error);
    }
    if !Succeeded(tar) {
      return Err("Failed to extract compressed archive");
    }
    r := Ok(dir);
  }

  /** The last extension of a name that ends in `.e`, with `e` free of dots and something before the dot. */
  lemma ExtensionAfterDot(root: string, a: string, e: string)
    requires NormalName(a + "." + e) && a != [] && '.' !in e
    ensures Extension(Join(root, a + "." + e)) == Some(e)
  {
    var n := a + "." + e;
    FileNameOfJoin(root, n);
    LastBefore(a, '.', e);
    assert n[|a| + 1..] == e;
  }

  /** The extension `Path::extension` reports for an archive this service wrote. */
  lemma ExtensionOfArchive(p: BackupProcess, now: int)
    requires '/' !in p.config.databaseName && 0 <= CivilOf(now).year <= 9999
    ensures var x := ArchiveExtension(p.compressionType);
            Extension(ArchivePath(p, now)) == Some(if x == "tar.gz" then "gz" else if x == "tar.zst" then "zst" else "tar")
  {
    var x := ArchiveExtension(p.compressionType);
    var head := p.config.databaseName + "-" + FormatStamp(CivilOf(now));
    ArchiveNameIsNormal(p, now);
    assert ArchiveName(p, now) == head + "." + x;
    if x == "tar.gz" {
      assert head + "." + x == (head + ".tar") + "." + "gz";
      ExtensionAfterDot(p.rootDir, head + ".tar", "gz");
    } else if x == "tar.zst" {
      assert head + "." + x == (head + ".tar") + "." + "zst";
      ExtensionAfterDot(p.rootDir, head + ".tar", "zst");
    } else {
      assert head != [] by { assert |head| > 0; }
      ExtensionAfterDot(p.rootDir, head, "tar");
    }
  }

  /**
   * A restore can extract the archives of gzip and zstd runs, with the tar
   * compression they were created with, but not the plain `.tar` of a run
   * without compression.
   */
  lemma RestoreOfOwnArchive(p: BackupProcess, now: int)
    requires '/' !in p.config.databaseName && 0 <= CivilOf(now).year <= 9999
    ensures var path := ArchivePath(p, now);
            (ExtractArgs(path).Ok? <==> ArchiveExtension(p.compressionType) != "tar")
            && (ExtractArgs(path).Ok? ==>
                  (ExtractArgs(path).value[0] == "-xzf" <==> TarArgs(p.compressionType, path, p.tmpDir)[0] == "-czf"))
  {
    ExtensionOfArchive(p, now);
    TarFlags(p, now);
  }

  /** The first tar flag of each compression's archiving command. */
  lemma TarFlags(p: BackupProcess, now: int)
    ensures var t := TarArgs(p.compressionType, ArchivePath(p, now), p.tmpDir);
            (p.compressionType == "zstd" ==> t[0] == "-c")
            && (p.compressionType == "none" ==> t[0] == "-cf")
            && (p.compressionType != "zstd" && p.compressionType != "none" ==> t[0] == "-czf")
  {
  }

  /** The plain `.tar` of an uncompressed run is refused by the restore's extraction. */
  lemma PlainTarNotRestorable(p: BackupProcess, now: int)
    requires '/' !in p.config.databaseName && 0 <= CivilOf(now).year <= 9999
    requires p.compressionType == "none"
    ensures ExtractArgs(ArchivePath(p, now)) == Err("Unsupported archive format")
  {
    ExtensionOfArchive(p, now);
  }

  /** The dispatch with the uncompressed `.tar` case the archiving side produces. */
  function ExtractArgsIntended(archive: string): (r: Result<seq<string>, string>)
    ensures r.Ok? <==> Extension(archive) == Some("gz") || Extension(archive) == Some("zst") || Extension(archive) == Some("tar")
    ensures Extension(archive) != Some("tar") ==> r == ExtractArgs(archive)
  {
    if Extension(archive) == Some("tar") then Ok(["-xf", archive, "-C", WithoutExtension(archive)])
    else ExtractArgs(archive)
  }

  /** With the `.tar` case, every archive the service writes can be extracted, with a flag of its own compression. */
  lemma EveryArchiveRestorable(p: BackupProcess, now: int)
    requires '/' !in p.config.databaseName && 0 <= CivilOf(now).year <= 9999
    ensures var path := ArchivePath(p, now);
            ExtractArgsIntended(path).Ok?
            && (ExtractArgsIntended(path).value[0] == "-xf" <==> TarArgs(p.compressionType, path, p.tmpDir)[0] == "-cf")
  {
    ExtensionOfArchive(p, now);
    TarFlags(p, now);
  }
}

=== FILE: filesystem_backup.dfy ===
/**
 * Naming rules of the filesystem backup service: the human-readable
 * directory a run gets below the base directory, the process set up in it,
 * which files count as archives and what compression their names imply,
 * and how an archive's name is read back into a database name and a
 * creation time when it turns up without a sidecar.
 */
module FsBackups {
  import opened Wrappers
  import opened Text
  import opened Clock
  import opened Paths
  import opened Tasks
  import opened DbConfigs
  import opened Backups
  import opened Disk
  import opened BackupProcesses

  // ------------------------------------------------------------ directory names

  /** The ten characters `generate_backup_directory_name` replaces by `_`. */
  predicate Unsafe(c: char) {
    c == ' ' || c == '/' || c == '\\' || c == ':' || c == '*' || c == '?' || c == '"' || c == '<' || c == '>' || c == '|'
  }

  function SanitizeChar(c: char): char {
    if Unsafe(c) then '_' else c
  }

  /** The chain of ten single-character `replace` calls, in the order written. */
  function Sanitize(s: string): (r: string)
    ensures |r| == |s|
    ensures forall i :: 0 <= i < |s| ==> r[i] == SanitizeChar(s[i])
  {
    var s1 := ReplaceChar(s, ' ', '_');
    var s2 := ReplaceChar(s1, '/', '_');
    var s3 := ReplaceChar(s2, '\\', '_');
    var s4 := ReplaceChar(s3, ':', '_');
    var s5 := ReplaceChar(s4, '*', '_');
    var s6 := ReplaceChar(s5, '?', '_');
    var s7 := ReplaceChar(s6, '"', '_');
    var s8 := ReplaceChar(s7, '<', '_');
    var s9 := ReplaceChar(s8, '>', '_');
    ReplaceChar(s9, '|', '_')
  }

  /** A sanitised name holds none of the ten characters, and sanitising it again changes nothing. */
  lemma SanitizeIdempotent(s: string)
    ensures forall i :: 0 <= i < |Sanitize(s)| ==> !Unsafe(Sanitize(s)[i])
    ensures Sanitize(Sanitize(s)) == Sanitize(s)
  {
    var t := Sanitize(s);
    assert forall i :: 0 <= i < |t| ==> Sanitize(t)[i] == t[i];
  }

  /** What the directory is named after: the config, and with a task also its database. */
  function BaseName(config: DatabaseConfig, task: Option<Task>): string {
    if task.Some? then
      config.name + "-" + (if task.value.databaseName.Some? then task.value.databaseName.value else config.databaseName)
    else config.name
  }

  /** `generate_backup_directory_name`: `<sanitised base>-<uuid>`. */
  function DirectoryName(config: DatabaseConfig, task: Option<Task>, uuid: string): (r: string)
    ensures |r| == |BaseName(config, task)| + 1 + |uuid|
    ensures r[..|BaseName(config, task)|] == Sanitize(BaseName(config, task))
    ensures r[|BaseName(config, task)|] == '-' && r[|BaseName(config, task)| + 1..] == uuid
  {
    var s := Sanitize(BaseName(config, task));
    assert (s + "-" + uuid)[..|s|] == s;
    s + "-" + uuid
  }

  /** With a uuid free of `/`, the directory name is one normal path component. */
  lemma DirectoryNameIsNormal(config: DatabaseConfig, task: Option<Task>, uuid: string)
    requires '/' !in uuid
    ensures NormalName(DirectoryName(config, task, uuid))
  {
    var base := BaseName(config, task);
    var r := DirectoryName(config, task, uuid);
    forall i | 0 <= i < |r| ensures r[i] != '/' {
      if i < |base| {
        assert r[i] == r[..|base|][i] == SanitizeChar(base[i]);
      } else if i > |base| {
        assert r[i] == uuid[i - |base| - 1];
      }
    }
  }

  /** `create_backup_process` (before `initialize`): the run's root below the base, the task's compression or gzip, "scheduled". */
  function ProcessFor(base: string, backupId: string, config: DatabaseConfig, task: Option<Task>, uuid: string): (p: BackupProcess)
    ensures p.rootDir == Join(base, DirectoryName(config, task, uuid)) && WellFormed(p)
    ensures p.compressionType == (if task.Some? then task.value.compressionType else "gzip")
    ensures p.backupType == "scheduled" && p.id == backupId && p.config == config && p.task == task
  {
    NewProcess(backupId, Join(base, DirectoryName(config, task, uuid)), config, task, "scheduled",
               if task.Some? then task.value.compressionType else "gzip")
  }

  /** `create_backup_process`: lay out the run, then `initialize` it. */
  method CreateBackupProcess(fs: FileSystem, base: string, backupId: string, config: DatabaseConfig,
                             task: Option<Task>, uuid: string, nowText: string)
    returns (r: Result<BackupProcess, string>)
    modifies fs
    ensures r.Ok? ==> r.value == ProcessFor(base, backupId, config, task, uuid)
    ensures var (init, after) := InitializeOf(old(fs.nodes), ProcessFor(base, backupId, config, task, uuid), nowText);
            fs.nodes == after && (r.Ok? <==> init.Ok?) && (r.Err? ==> r.error == init.error)
  {
    var p := ProcessFor(base, backupId, config, task, uuid);
    var init := Initialize(p, fs, nowText);
    if init.Err? {
      return Err(init.error);
    }
    r := Ok(p);
  }

  /** The folder of a finished run's archive, as `Backup::backup_folder` reports it, is the run's directory name. */
  lemma ArchiveFolderIsRunDirectory(base: string, backupId: string, config: DatabaseConfig, task: Option<Task>,
                                    uuid: string, now: int)
    requires '/' !in uuid && '/' !in config.databaseName && 0 <= CivilOf(now).year <= 9999
    ensures var p := ProcessFor(base, backupId, config, task, uuid);
            FileName(ArchivePath(p, now)) == Some(ArchiveName(p, now))
            && ParentName(ArchivePath(p, now)) == Some(DirectoryName(config, task, uuid))
  {
    var p := ProcessFor(base, backupId, config, task, uuid);
    DirectoryNameIsNormal(config, task, uuid);
    ArchiveNameIsNormal(p, now);
    FileNameOfJoin(p.rootDir, ArchiveName(p, now));
    ParentNameOfJoin(base, DirectoryName(config, task, uuid), ArchiveName(p, now));
  }

  // ------------------------------------------------------------ archive files

  /** `is_backup_file` on a file name: one of the three archive endings. */
  predicate IsBackupFileName(name: string) {
    EndsWith(name, ".tar.gz") || EndsWith(name, ".tar.zst") || EndsWith(name, ".tar")
  }

  /** The compression `create_metadata_file_for_backup` reads off a path, trying zstd, then gzip, then none. */
  function InferCompression(path: string): (r: string)
    ensures r == "unknown" <==> !IsBackupFileName(path)
  {
    if EndsWith(path, ".tar.zst") then "zstd"
    else if EndsWith(path, ".tar.gz") then "gzip"
    else if EndsWith(path, ".tar") then "none"
    else "unknown"
  }

  // ------------------------------------------------------------ reading archive names

  /** The result of `parse_backup_filename`. */
  datatype ParsedName = ParsedName(databaseName: string, createdAt: string, ident: string)

  /** The archive name with every occurrence of each ending removed, in the order written. */
  function StripExtensions(filename: string): string {
    ReplaceAll(ReplaceAll(ReplaceAll(filename, ".tar.gz", ""), ".tar.zst", ""), ".tar", "")
  }

  /** The characters a stamp suffix may consist of before it is parsed. */
  predicate StampChars(s: string) {
    forall i :: 0 <= i < |s| ==> IsDigit(s[i]) || s[i] == '_'
  }

  /**
   * `parse_backup_filename`: `<database>-<YYYYMMDD_HHMMSS>` after the
   * endings are stripped gives the database and that instant in RFC 3339;
   * anything else gives the whole stripped name and the current time.
   */
  function ParseBackupFilename(filename: string, fileSize: int, modifiedSecs: nat, nowText: string): (r: ParsedName)
    ensures r.ident == Ident(fileSize, modifiedSecs)
    ensures var s := StripExtensions(filename);
            r.databaseName == s || (|r.databaseName| < |s| && s[..|r.databaseName|] == r.databaseName && s[|r.databaseName|] == '-')
    ensures r.createdAt != nowText ==> exists c :: ValidCivil(c) && 0 <= c.year <= 9999 && r.createdAt == Rfc3339(c)
  {
    var stripped := StripExtensions(filename);
    var ident := Ident(fileSize, modifiedSecs);
    match RFindChar(stripped, '-')
    case Some(dash) =>
      var stamp := stripped[dash + 1..];
      if |stamp| == 15 && StampChars(stamp) && ParseStamp(stamp).Some? then
        ParsedName(stripped[..dash], Rfc3339(ParseStamp(stamp).value), ident)
      else ParsedName(stripped, nowText, ident)
    case None => ParsedName(stripped, nowText, ident)
  }

  /** The compression read off a finished run's archive is the one it was written with, gzip standing for anything unknown. */
  lemma InferCompressionOfArchive(p: BackupProcess, now: int)
    requires '/' !in p.config.databaseName && 0 <= CivilOf(now).year <= 9999
    ensures InferCompression(ArchivePath(p, now))
            == (if p.compressionType == "zstd" || p.compressionType == "none" then p.compressionType else "gzip")
  {
    ArchivePathEnding(p, now);
    CompressionOfEnding(ArchivePath(p, now), p.compressionType);
  }

  /** A path ending in the extension `ArchiveExtension` gives a compression is read back as that compression. */
  lemma CompressionOfEnding(path: string, compression: string)
    requires EndsWith(path, "." + ArchiveExtension(compression))
    ensures InferCompression(path) == (if compression == "zstd" || compression == "none" then compression else "gzip")
  {
    var ext := ArchiveExtension(compression);
    if ext == "tar.gz" { assert "." + ext == ".tar.gz"; CompressionOfGz(path); }
    else if ext == "tar.zst" { assert "." + ext == ".tar.zst"; CompressionOfZst(path); }
    else { assert "." + ext == ".tar"; CompressionOfTar(path); }
  }

  /** A finished run's archive path ends in `.` and the extension of its compression. */
  lemma ArchivePathEnding(p: BackupProcess, now: int)
    requires '/' !in p.config.databaseName && 0 <= CivilOf(now).year <= 9999
    ensures EndsWith(ArchivePath(p, now), "." + ArchiveExtension(p.compressionType))
  {
    var ext := ArchiveExtension(p.compressionType);
    var pre := p.config.databaseName + "-" + FormatStamp(CivilOf(now));
    ArchiveNameIsNormal(p, now);
    assert EndsWith(ArchivePath(p, now), ArchiveName(p, now));
    assert ArchiveName(p, now) == pre + ("." + ext);
    EndsWithOfSuffix(ArchivePath(p, now), pre + ("." + ext), "." + ext);
  }

  lemma CompressionOfGz(path: string)
    requires EndsWith(path, ".tar.gz")
    ensures InferCompression(path) == "gzip"
  {
    assert path[|path| - 1] == ".tar.gz"[6];
  }

  lemma CompressionOfZst(path: string)
    requires EndsWith(path, ".tar.zst")
    ensures InferCompression(path) == "zstd"
  {
  }

  lemma CompressionOfTar(path: string)
    requires EndsWith(path, ".tar")
    ensures InferCompression(path) == "none"
  {
    assert path[|path| - 1] == ".tar"[3];
  }

  /** A string ending in `t` ends in every suffix of `t`. */
  lemma EndsWithOfSuffix(s: string, t: string, u: string)
    requires EndsWith(s, t) && EndsWith(t, u)
    ensures EndsWith(s, u)
  {
    assert s[|s| - |u|..] == s[|s| - |t|..][|t| - |u|..];
  }

  /** No `.tar` starts before index `n`. */
  predicate NoTarBefore(s: string, n: int) {
    forall i :: 0 <= i < n ==> !MatchAt(s, ".tar", i)
  }

  /** In `<db>-<stamp>` followed by anything, no `.tar` starts before the stamp ends. */
  lemma NoTarInName(db: string, stamp: string, y: string)
    requires !Contains(db, ".tar") && StampChars(stamp)
    ensures NoTarBefore(db + "-" + stamp + y, |db| + 1 + |stamp|)
  {
    var s := db + "-" + stamp + y;
    forall i | 0 <= i < |db| + 1 + |stamp| ensures !MatchAt(s, ".tar", i) {
      if i > |db| {
        assert s[i] == stamp[i - |db| - 1];
      } else if i == |db| {
        assert s[i] == '-';
      } else if i + 4 <= |db| {
        assert !MatchAt(db, ".tar", i);
        assert s[i..i + 4] == db[i..i + 4];
        assert s[i..][..4] == s[i..i + 4] && db[i..][..4] == db[i..i + 4];
      } else {
        assert s[|db|] == '-';
        assert |db| - i < 4;
        if |s| - i >= 4 {
          assert s[i..][|db| - i] == '-';
        }
      }
    }
  }

  /** Every ending begins with `.tar`, so none starts where `.tar` does not. */
  lemma NoEndingBefore(s: string, n: int, pat: string)
    requires NoTarBefore(s, n) && |pat| >= 4 && pat[..4] == ".tar"
    ensures forall i :: 0 <= i < n ==> !MatchAt(s, pat, i)
  {
    forall i | 0 <= i < n ensures !MatchAt(s, pat, i) {
      assert !MatchAt(s, ".tar", i);
      if 0 <= i <= |s| && |pat| <= |s| - i {
        assert s[i..][..4] == s[i..][..|pat|][..4];
      }
    }
  }

  /** Stripping the endings from an archive name leaves `<db>-<stamp>`. */
  lemma StripArchiveName(db: string, stamp: string, ext: string)
    requires !Contains(db, ".tar") && StampChars(stamp)
    requires ext == "tar.gz" || ext == "tar.zst" || ext == "tar"
    ensures StripExtensions(db + "-" + stamp + "." + ext) == db + "-" + stamp
  {
    var x, y := db + "-" + stamp, "." + ext;
    assert db + "-" + stamp + "." + ext == x + y;
    NoTarInName(db, stamp, "");
    assert x + "" == x;
    if ext == "tar.gz" {
      assert y == ".tar.gz";
      NoTarInName(db, stamp, ".tar.gz");
      StripGz(x);
    } else if ext == "tar.zst" {
      assert y == ".tar.zst";
      NoTarInName(db, stamp, ".tar.zst");
      StripZst(x);
    } else {
      assert y == ".tar";
      NoTarInName(db, stamp, ".tar");
      StripTar(x);
    }
  }

  /** The three passes on a name `x` free of endings that ends in `.tar.gz`. */
  lemma StripGz(x: string)
    requires NoTarBefore(x, |x|) && NoTarBefore(x + ".tar.gz", |x|)
    ensures StripExtensions(x + ".tar.gz") == x
  {
    NoEndingBefore(x + ".tar.gz", |x|, ".tar.gz");
    StripFinal(x, ".tar.gz");
    NoEndingBefore(x, |x|, ".tar.zst");
    NoEndingBefore(x, |x|, ".tar");
    ReplaceAllNoMatch(x, ".tar.zst", "");
    ReplaceAllNoMatch(x, ".tar", "");
  }

  /** The three passes on a name `x` free of endings that ends in `.tar.zst`. */
  lemma StripZst(x: string)
    requires NoTarBefore(x, |x|) && NoTarBefore(x + ".tar.zst", |x|)
    ensures StripExtensions(x + ".tar.zst") == x
  {
    var y := ".tar.zst";
    NoEndingBefore(x + y, |x|, ".tar.gz");
    ReplaceAllSkipsPrefix(x, y, ".tar.gz", "");
    ZstKeepsGz();
    NoEndingBefore(x + y, |x|, ".tar.zst");
    StripFinal(x, ".tar.zst");
    NoEndingBefore(x, |x|, ".tar");
    ReplaceAllNoMatch(x, ".tar", "");
  }

  /** The three passes on a name `x` free of endings that ends in `.tar`. */
  lemma StripTar(x: string)
    requires NoTarBefore(x + ".tar", |x|)
    ensures StripExtensions(x + ".tar") == x
  {
    var y := ".tar";
    TarKeepsLonger();
    NoEndingBefore(x + y, |x|, ".tar.gz");
    ReplaceAllSkipsPrefix(x, y, ".tar.gz", "");
    NoEndingBefore(x + y, |x|, ".tar.zst");
    ReplaceAllSkipsPrefix(x, y, ".tar.zst", "");
    NoEndingBefore(x + y, |x|, ".tar");
    StripFinal(x, ".tar");
  }

  /** A pattern replaced in itself leaves the replacement. */
  lemma ReplaceAllSelf(pat: string)
    requires pat != []
    ensures ReplaceAll(pat, pat, "") == ""
  {
    assert pat[|pat|..] == [];
  }

  /** `.tar.zst` holds no `.tar.gz`. */
  lemma ZstKeepsGz()
    ensures ReplaceAll(".tar.zst", ".tar.gz", "") == ".tar.zst"
  {
    var s := ".tar.zst";
    forall i | 0 <= i < |s| ensures !MatchAt(s, ".tar.gz", i) {
      if i == 0 { assert s[5] != ".tar.gz"[5]; }
      else if i < 4 { assert s[i] != '.'; }
    }
    ReplaceAllNoMatch(s, ".tar.gz", "");
  }

  /** `.tar` is too short to hold either longer ending. */
  lemma TarKeepsLonger()
    ensures ReplaceAll(".tar", ".tar.gz", "") == ".tar"
    ensures ReplaceAll(".tar", ".tar.zst", "") == ".tar"
  {
    var s := ".tar";
    forall i | 0 <= i < |s| ensures !MatchAt(s, ".tar.gz", i) && !MatchAt(s, ".tar.zst", i) {
    }
    ReplaceAllNoMatch(s, ".tar.gz", "");
    ReplaceAllNoMatch(s, ".tar.zst", "");
  }

  /** The replacement of a final `pat` after a prefix free of it. */
  lemma StripFinal(x: string, pat: string)
    requires pat != [] && forall i :: 0 <= i < |x| ==> !MatchAt(x + pat, pat, i)
    ensures ReplaceAll(x + pat, pat, "") == x
  {
    ReplaceAllSkipsPrefix(x, pat, pat, "");
    ReplaceAllSelf(pat);
    assert x + "" == x;
  }

  /** The last `c` of `a + [c] + b`, when `b` holds none, is the one after `a`. */
  lemma {:induction false} LastBefore(a: string, c: char, b: string)
    requires c !in b
    ensures RFindChar(a + [c] + b, c) == Some(|a|)
    decreases |b|
  {
    var s := a + [c] + b;
    if b != [] {
      assert s[|s| - 1] == b[|b| - 1] && b[|b| - 1] in b;
      assert s[..|s| - 1] == a + [c] + b[..|b| - 1];
      LastBefore(a, c, b[..|b| - 1]);
    }
  }

  /** A stamp of a four-digit year passes the character filter. */
  lemma StampOfYear(c: Civil)
    requires ValidCivil(c) && 0 <= c.year <= 9999
    ensures |FormatStamp(c)| == 15 && StampChars(FormatStamp(c)) && '-' !in FormatStamp(c)
  {
    var s := FormatStamp(c);
    FormatStampShape(c);
    forall i | 0 <= i < 15 ensures IsDigit(s[i]) || s[i] == '_' {
      if i < 8 { assert s[i] == s[..8][i]; }
      else if i > 8 { assert s[i] == s[9..][i - 9]; }
    }
  }

  /**
   * An archive this service wrote reads back as its database name and its
   * creation instant, as long as the database name holds no `.tar`.
   */
  lemma ParseArchiveName(p: BackupProcess, now: int, fileSize: int, secs: nat, nowText: string)
    requires !Contains(p.config.databaseName, ".tar") && 0 <= CivilOf(now).year <= 9999
    ensures ParseBackupFilename(ArchiveName(p, now), fileSize, secs, nowText)
            == ParsedName(p.config.databaseName, Rfc3339(CivilOf(now)), Ident(fileSize, secs))
  {
    var db, c := p.config.databaseName, CivilOf(now);
    var stamp, ext := FormatStamp(c), ArchiveExtension(p.compressionType);
    StampOfYear(c);
    assert ArchiveName(p, now) == db + "-" + stamp + "." + ext;
    StripArchiveName(db, stamp, ext);
    SplitAtLastDash(db, stamp);
    ParseFormatStamp(c);
  }

  /** `name-stamp` splits at the dash before a stamp free of dashes. */
  lemma SplitAtLastDash(db: string, stamp: string)
    requires '-' !in stamp
    ensures var s := db + "-" + stamp;
            RFindChar(s, '-') == Some(|db|) && s[..|db|] == db && s[|db| + 1..] == stamp
  {
    var s := db + "-" + stamp;
    assert s == db + ['-'] + stamp;
    LastBefore(db, '-', stamp);
    assert s[..|db|] == db && s[|db| + 1..] == stamp;
  }
}

=== FILE: job.dfy ===
/**
 * Jobs: the kind and status enums with their `Display`/`FromStr` pairs, and
 * the job record that every backup, restore and cleanup run writes to the
 * jobs table. The status column is a plain string, so values the enum does
 * not know (the backup's intermediate "compressing") can sit in it.
 */
module Jobs {
  import opened Wrappers
  import opened Text

  // ------------------------------------------------------------ job kinds

  datatype JobType = Backup | Restore | Cleanup

  function JobTypeName(t: JobType): string {
    match t
    case Backup => "backup"
    case Restore => "restore"
    case Cleanup => "cleanup"
  }

  /** `JobType::from_str`: the three names, ignoring case. */
  function ParseJobType(s: string): (r: Result<JobType, string>)
    ensures r.Err? ==> r.error == "Invalid job type: " + s
  {
    var l := ToLower(s);
    if l == "backup" then Ok(Backup)
    else if l == "restore" then Ok(Restore)
    else if l == "cleanup" then Ok(Cleanup)
    else Err("Invalid job type: " + s)
  }

  /** A string names a job kind exactly when its lower-case form is that kind's name. */
  lemma ParseJobTypeExact(s: string, t: JobType)
    ensures ParseJobType(s) == Ok(t) <==> ToLower(s) == JobTypeName(t)
  {
  }

  lemma JobTypeRoundTrip(t: JobType)
    ensures ParseJobType(JobTypeName(t)) == Ok(t)
    ensures ParseJobType(ToUpper(JobTypeName(t))) == Ok(t)
  {
    var name := JobTypeName(t);
    LowerOfUpper(name);
    ParseJobTypeExact(name, t);
    ParseJobTypeExact(ToUpper(name), t);
  }

  // ------------------------------------------------------------ job statuses

  datatype JobStatus = Pending | Running | Completed | Failed | Cancelled

  /** `JobStatus::default()`. */
  const DEFAULT_STATUS: JobStatus := Pending

  function StatusName(s: JobStatus): string {
    match s
    case Pending => "pending"
    case Running => "running"
    case Completed => "completed"
    case Failed => "failed"
    case Cancelled => "cancelled"
  }

  /** `JobStatus::from_str`: the five names, ignoring case. */
  function ParseStatus(s: string): (r: Result<JobStatus, string>)
    ensures r.Err? ==> r.error == "Invalid job status: " + s
  {
    var l := ToLower(s);
    if l == "pending" then Ok(Pending)
    else if l == "running" then Ok(Running)
    else if l == "completed" then Ok(Completed)
    else if l == "failed" then Ok(Failed)
    else if l == "cancelled" then Ok(Cancelled)
    else Err("Invalid job status: " + s)
  }

  /** A string names a status exactly when its lower-case form is that status's name. */
  lemma ParseStatusExact(s: string, st: JobStatus)
    ensures ParseStatus(s) == Ok(st) <==> ToLower(s) == StatusName(st)
  {
  }

  lemma StatusRoundTrip(st: JobStatus)
    ensures ParseStatus(StatusName(st)) == Ok(st)
    ensures ParseStatus(ToUpper(StatusName(st))) == Ok(st)
  {
    var name := StatusName(st);
    LowerOfUpper(name);
    ParseStatusExact(name, st);
    ParseStatusExact(ToUpper(name), st);
  }

  /** The status the backup writes between dump and archive is not a status the enum accepts. */
  lemma CompressingIsNoStatus()
    ensures ParseStatus("compressing").Err?
  {
    NoStatusOfLength("compressing");
  }

  /** Only strings as long as one of the five names can parse. */
  lemma NoStatusOfLength(s: string)
    requires |s| != 6 && |s| != 7 && |s| != 9
    ensures ParseStatus(s).Err?
  {
    forall st: JobStatus ensures ToLower(s) != StatusName(st) {
      assert |StatusName(st)| != |s|;
    }
  }

  // ------------------------------------------------------------ the job record

  /** A row of the jobs table; instants are Unix seconds. */
  datatype Job = Job(
    id: string,
    taskId: Option<string>,
    usedDatabase: Option<string>,
    jobType: string,
    status: string,
    progress: int,
    startedAt: Option<int>,
    completedAt: Option<int>,
    errorMessage: Option<string>,
    logOutput: Option<string>,
    backupPath: Option<string>,
    createdAt: int)

  datatype CreateJobRequest = CreateJobRequest(
    taskId: Option<string>,
    usedDatabase: Option<string>,
    jobType: JobType,
    backupPath: Option<string>)

  /** `Job::new`: `id` is the fresh uuid and `now` the creation instant. */
  function NewJob(req: CreateJobRequest, id: string, now: int): (j: Job)
    ensures j.id == id && j.createdAt == now
    ensures j.taskId == req.taskId && j.usedDatabase == req.usedDatabase && j.backupPath == req.backupPath
    ensures ParseJobType(j.jobType) == Ok(req.jobType)
    ensures JobStatusOf(j) == Ok(DEFAULT_STATUS) && j.progress == 0
    ensures j.startedAt.None? && j.completedAt.None? && j.errorMessage.None? && j.logOutput.None?
  {
    JobTypeRoundTrip(req.jobType);
    StatusRoundTrip(DEFAULT_STATUS);
    Job(id, req.taskId, req.usedDatabase, JobTypeName(req.jobType), StatusName(DEFAULT_STATUS), 0,
        None, None, None, None, req.backupPath, now)
  }

  /** `Job::status`: the stored status string, parsed. */
  function JobStatusOf(j: Job): Result<JobStatus, string> {
    ParseStatus(j.status)
  }
}

=== FILE: mydumper.dfy ===
/**
 * The backup orchestration of the mydumper service: the dump tool's command
 * line, the job-row updates around a run and the run itself. The MySQL
 * schema query, the mydumper and tar subprocesses and the clock are inputs:
 * the rows the query returns, the exit statuses and the instants are
 * parameters.
 */
module Mydumper {
  import opened Wrappers
  import opened Text
  import opened Clock
  import opened Tasks
  import opened Jobs
  import opened DbConfigs
  import opened Paths
  import opened Disk
  import opened BackupProcesses
  import opened FsBackups
  import opened Store
  import opened Engines
  import opened Tools
  import Progress

  // ------------------------------------------------------------ the mydumper command line

  /** The connection, output, logging and object options every dump gets. */
  function BaseArgs(config: DatabaseConfig, databaseName: string, outputDir: string, logPath: string): (r: seq<string>)
    ensures |r| == 21
  {
    ["--host", config.host, "--port", IntToString(config.port), "--user", config.username,
     "--password", config.password, "--database", databaseName, "--outputdir", outputDir,
     "--verbose", "3", "--threads", "4", "--logfile", logPath, "--triggers", "--events", "--routines"]
  }

  /** Non-transactional tables are either dumped without locks or their engines ignored. */
  function EngineArgs(useNonTransactional: bool): seq<string> {
    if useNonTransactional then ["--trx-tables", "0", "--no-backup-locks"]
    else ["--ignore-engines", IGNORE_ENGINES_ARG]
  }

  /** `task.compression_type().unwrap_or(Gzip)`: a name that does not parse counts as gzip. */
  function DumpCompression(task: Task): CompressionType {
    TaskCompression(task).UnwrapOr(Gzip)
  }

  function CompressionArgs(c: CompressionType): seq<string> {
    match c
    case Gzip => ["--compress"]
    case Zstd => ["--compress-protocol"]
    case NoCompression => []
  }

  /** The arguments `create_backup_with_progress` passes to mydumper. */
  function DumpArgs(config: DatabaseConfig, databaseName: string, outputDir: string, logPath: string, task: Task)
    : seq<string>
  {
    BaseArgs(config, databaseName, outputDir, logPath) + EngineArgs(task.useNonTransactional)
      + CompressionArgs(DumpCompression(task))
  }

  /**
   * After the 21 fixed arguments, exactly one of the two engine policies
   * appears, and the compression flag follows the task's compression.
   */
  lemma DumpFlags(config: DatabaseConfig, databaseName: string, outputDir: string, logPath: string, task: Task)
    ensures var args := DumpArgs(config, databaseName, outputDir, logPath, task);
            var tail := args[21..];
            args[..21] == BaseArgs(config, databaseName, outputDir, logPath)
            && ("--ignore-engines" in tail <==> !task.useNonTransactional)
            && ("--trx-tables" in tail <==> task.useNonTransactional)
            && ("--no-backup-locks" in tail <==> task.useNonTransactional)
            && ("--compress" in tail <==> DumpCompression(task) == Gzip)
            && ("--compress-protocol" in tail <==> DumpCompression(task) == Zstd)
  {
    var base := BaseArgs(config, databaseName, outputDir, logPath);
    var e, c := EngineArgs(task.useNonTransactional), CompressionArgs(DumpCompression(task));
    var args := DumpArgs(config, databaseName, outputDir, logPath, task);
    assert args == base + (e + c);
    assert args[..21] == base && args[21..] == e + c;
    EngineFlags(task.useNonTransactional);
    forall x ensures x in e + c <==> x in e || x in c {
    }
  }

  /** The flags each engine policy adds, none of them a compression flag. */
  lemma EngineFlags(useNonTransactional: bool)
    ensures var e := EngineArgs(useNonTransactional);
            ("--ignore-engines" in e <==> !useNonTransactional)
            && ("--trx-tables" in e <==> useNonTransactional)
            && ("--no-backup-locks" in e <==> useNonTransactional)
            && "--compress" !in e && "--compress-protocol" !in e
  {
    var n := |IGNORE_ENGINES_ARG|;
    assert n == 51;
  }

  /** A compression name no parse accepts gives the gzip flag to mydumper and a `.tar.gz` archive. */
  lemma UnparseableCompressionIsGzip(task: Task)
    requires TaskCompression(task).Err?
    ensures CompressionArgs(DumpCompression(task)) == ["--compress"]
    ensures ArchiveExtension(task.compressionType) == "tar.gz"
  {
    if task.compressionType == "zstd" || task.compressionType == "none" {
      ToLowerFixesLowercase(task.compressionType);
    }
  }

  /** For every name the tasks table stores, the dump flag and the archive extension name the same compression. */
  lemma StoredCompressionAgrees(task: Task, c: CompressionType)
    requires task.compressionType == CompressionName(c)
    ensures DumpCompression(task) == c
    ensures CompressionArgs(c) == ["--compress"] <==> ArchiveExtension(task.compressionType) == "tar.gz"
    ensures CompressionArgs(c) == ["--compress-protocol"] <==> ArchiveExtension(task.compressionType) == "tar.zst"
    ensures CompressionArgs(c) == [] <==> ArchiveExtension(task.compressionType) == "tar"
  {
    CompressionRoundTrip(c);
  }

  // ------------------------------------------------------------ job rows

  /** The statuses `update_job_status` stamps `completed_at` for. */
  predicate Finishing(status: string) {
    status == "completed" || status == "failed" || status == "cancelled"
  }

  /** The row `update_job_status` leaves: its columns, each only where the rule says. */
  function StatusColumns(j: Job, status: string, errorMessage: Option<string>, logOutput: Option<string>, now: int)
    : Job
  {
    j.(status := status,
       startedAt := if status == "running" then Some(now) else j.startedAt,
       completedAt := if Finishing(status) then Some(now) else j.completedAt,
       errorMessage := if errorMessage.Some? then errorMessage else j.errorMessage,
       logOutput := if logOutput.Some? then logOutput else j.logOutput)
  }

  /**
   * The clock readings one run takes, each where the code calls
   * `Utc::now()` or the filesystem stamps a file: the sidecar's
   * `created_at` and the manifest's `started_at` as RFC 3339 text, the log
   * file's creation second, then the instant of each `update_job_status`
   * (running, then failed or compressing after the dump, then completed)
   * and, between the last two, the instant `create_archive` names the
   * archive by.
   */
  datatype RunClock = RunClock(createdText: string, startedText: string, prepared: int,
                               running: int, dumped: int, archived: int, completed: int)

  /** The row of a run that finished: completed, started when running was written and completed when completed was. */
  function FinishedRow(j: Job, logPath: string, archive: string, c: RunClock): Job {
    j.(status := "completed", startedAt := Some(c.running), completedAt := Some(c.completed),
       logOutput := Some(logPath), backupPath := Some(archive))
  }

  /** The row of a run whose dump failed: failed with the exit message, completed when failed was written. */
  function FailedRow(j: Job, logPath: string, message: string, c: RunClock): Job {
    j.(status := "failed", startedAt := Some(c.running), completedAt := Some(c.dumped),
       errorMessage := Some(message), logOutput := Some(logPath))
  }

  /** A finished row reads back as Completed and a failed one as Failed; the intermediate "compressing" reads back as no status. */
  lemma RunRowsParse(j: Job, logPath: string, archive: string, message: string, c: RunClock)
    ensures JobStatusOf(FinishedRow(j, logPath, archive, c)) == Ok(Completed)
    ensures JobStatusOf(FailedRow(j, logPath, message, c)) == Ok(Failed)
    ensures JobStatusOf(StatusColumns(j, "compressing", None, Some(logPath), c.dumped)).Err?
  {
    StatusRoundTrip(Completed);
    StatusRoundTrip(Failed);
    CompressingIsNoStatus();
  }

  /** The jobs table after `update_job_status` on the row of `id`; no row, no change. */
  function WithStatus(jobs: map<string, Job>, id: string, status: string, errorMessage: Option<string>,
                      logOutput: Option<string>, now: int): map<string, Job> {
    if id in jobs then jobs[id := StatusColumns(jobs[id], status, errorMessage, logOutput, now)] else jobs
  }

  /** The jobs table after `update_job_backup_path` on the row of `id`; no row, no change. */
  function WithBackupPath(jobs: map<string, Job>, id: string, backupPath: string): map<string, Job> {
    if id in jobs then jobs[id := jobs[id].(backupPath := Some(backupPath))] else jobs
  }

  /** `update_job_status`: one statement on the row of `jobId`, recorded in the status log. */
  method UpdateJobStatus(db: Db, jobId: string, status: string, errorMessage: Option<string>,
                         logOutput: Option<string>, now: int)
    modifies db
    ensures db.jobs == WithStatus(old(db.jobs), jobId, status, errorMessage, logOutput, now)
    ensures db.statusLog == old(db.statusLog) + [StatusWrite(jobId, status)]
    ensures db.tasks == old(db.tasks) && db.configs == old(db.configs) && db.backups == old(db.backups)
  {
    if jobId in db.jobs {
      db.jobs := db.jobs[jobId := StatusColumns(db.jobs[jobId], status, errorMessage, logOutput, now)];
    }
    db.statusLog := db.statusLog + [StatusWrite(jobId, status)];
  }

  /** `update_job_backup_path`: only `backup_path` of the row changes. */
  method UpdateJobBackupPath(db: Db, jobId: string, backupPath: string)
    modifies db
    ensures db.jobs == WithBackupPath(old(db.jobs), jobId, backupPath)
    ensures db.statusLog == old(db.statusLog)
    ensures db.tasks == old(db.tasks) && db.configs == old(db.configs) && db.backups == old(db.backups)
  {
    if jobId in db.jobs {
      db.jobs := db.jobs[jobId := db.jobs[jobId].(backupPath := Some(backupPath))];
    }
  }

  // ------------------------------------------------------------ exit statuses and log files

  /** `{:?}` of `ExitStatus::code()`: `Some(<code>)`, or `None` when a signal ended the process. */
  function ExitCodeText(code: Option<int>): string {
    match code
    case Some(c) => "Some(" + IntToString(c) + ")"
    case None => "None"
  }

  function ExitMessage(code: Option<int>): string {
    "mydumper failed with exit code: " + ExitCodeText(code)
  }

  /** The error a failed mydumper run records: the exit message, or the io error when it could not be started. */
  function DumpMessage(dump: ToolRun): string {
    match dump
    case Exited(code) => ExitMessage(code)
    case NotSpawned(e) => e
  }

  /** The per-job log directory: the log base and the job id, joined by `format!`. */
  const LOG_FILE_NAME: string := "mydumper.log"
  const MANIFEST_FILE_NAME: string := "rdumper.meta.json"

  function LogDir(logBase: string, jobId: string): string {
    logBase + "/" + jobId
  }

  function LogPath(logBase: string, jobId: string): string {
    LogDir(logBase, jobId) + "/" + LOG_FILE_NAME
  }

  function ManifestPath(logBase: string, jobId: string): string {
    LogDir(logBase, jobId) + "/" + MANIFEST_FILE_NAME
  }

  /** The manifest and the log file live at two different paths. */
  lemma LogFilesApart(logBase: string, jobId: string)
    ensures ManifestPath(logBase, jobId) != LogPath(logBase, jobId)
    ensures LogDir(logBase, jobId) != LogPath(logBase, jobId)
    ensures LogDir(logBase, jobId) != ManifestPath(logBase, jobId)
  {
    var m, l := ManifestPath(logBase, jobId), LogPath(logBase, jobId);
    assert m[|m| - 1] == 'n' && l[|l| - 1] == 'g';
  }

  /**
   * The log directory, the manifest and the empty log file a run prepares
   * before the dump, on the disk `nodes`: the answer (the log file's path)
   * and the disk left; the first failure stops it.
   */
  function PrepareLogsOf(nodes: map<string, Node>, logBase: string, jobId: string, manifest: Progress.RdumperMeta,
                         now: int): (r: (Result<string, string>, map<string, Node>))
    ensures r.0.Ok? ==> r.0.value == LogPath(logBase, jobId)
  {
    LogsOf(nodes, LogDir(logBase, jobId), ManifestPath(logBase, jobId), LogPath(logBase, jobId), manifest, now)
  }

  /** The directory `d` with its chain, the manifest at `m`, then the empty log at `l`. */
  function LogsOf(nodes: map<string, Node>, d: string, m: string, l: string, manifest: Progress.RdumperMeta,
                  now: int): (r: (Result<string, string>, map<string, Node>))
    ensures r.0.Ok? ==> r.0.value == l
    ensures r.0.Ok? ==> CreateDirAllOf(nodes, d).Ok?
                        && r.1 == CreateDirAllOf(nodes, d).value[m := Manifest(manifest)][l := RegularFile(0, now)]
  {
    match CreateDirAllOf(nodes, d)
    case Err(e) => (Err(e), nodes)
    case Ok(n1) =>
      match WriteError(n1, m)
      case Some(e) => (Err(e), n1)
      case None =>
        var n2 := n1[m := Manifest(manifest)];
        match WriteError(n2, l)
        case Some(e) => (Err(e), n2)
        case None => (Ok(l), n2[l := RegularFile(0, now)])
  }

  /** The steps of `PrepareLogsOf`, on the filesystem. */
  method PrepareLogs(fs: FileSystem, logBase: string, jobId: string, manifest: Progress.RdumperMeta, now: int)
    returns (r: Result<string, string>)
    modifies fs
    ensures (r, fs.nodes) == PrepareLogsOf(old(fs.nodes), logBase, jobId, manifest, now)
  {
    var logDir := LogDir(logBase, jobId);
    var made := fs.CreateDirAll(logDir);
    if made.Err? {
      return Err(made.error);
    }
    var written := fs.WriteManifest(logDir + "/" + MANIFEST_FILE_NAME, manifest);
    if written.Err? {
      return Err(written.error);
    }
    var logPath := logDir + "/" + LOG_FILE_NAME;
    var created := fs.CreateFile(logPath, now);
    if created.Err? {
      return Err(created.error);
    }
    r := Ok(logPath);
  }

  /**
   * For a job id that is not empty and does not end in a separator, the
   * logs are prepared exactly when the log directory's chain can be created
   * and neither the manifest's nor the log file's path is a directory. The
   * log directory is then a directory holding the manifest and an empty
   * log file stamped `now`; every other node is kept and only directories
   * are added. When the log directory cannot be created, nothing changes.
   */
  lemma PrepareLogsOutcome(nodes: map<string, Node>, logBase: string, jobId: string, manifest: Progress.RdumperMeta,
                           now: int)
    requires jobId != [] && jobId[|jobId| - 1] != '/'
    ensures var (r, after) := PrepareLogsOf(nodes, logBase, jobId, manifest, now);
            var d, m, l := LogDir(logBase, jobId), ManifestPath(logBase, jobId), LogPath(logBase, jobId);
            (r.Ok? <==> CreateDirAllOf(nodes, d).Ok? && !IsDir(nodes, m) && !IsDir(nodes, l))
            && (r.Ok? ==> r.value == l && LogsLayout(nodes, after, d, m, l, manifest, now))
            && (CreateDirAllOf(nodes, d).Err? ==> r.Err? && after == nodes)
  {
    LogFilesApart(logBase, jobId);
    var d, m, l := LogDir(logBase, jobId), ManifestPath(logBase, jobId), LogPath(logBase, jobId);
    assert CleanDir(d) by { assert d[|d| - 1] == jobId[|jobId| - 1]; }
    ParentOfJoined(d, MANIFEST_FILE_NAME);
    ParentOfJoined(d, LOG_FILE_NAME);
    LogsOutcome(nodes, d, m, l, manifest, now);
  }

  /** `LogsOf` for a clean directory `d` and two different files directly below it. */
  lemma LogsOutcome(nodes: map<string, Node>, d: string, m: string, l: string, manifest: Progress.RdumperMeta, now: int)
    requires CleanDir(d) && ParentPath(m) == Some(d) && ParentPath(l) == Some(d) && m != l
    requires |m| > |d| && |l| > |d|
    ensures var (r, after) := LogsOf(nodes, d, m, l, manifest, now);
            (r.Ok? <==> CreateDirAllOf(nodes, d).Ok? && !IsDir(nodes, m) && !IsDir(nodes, l))
            && (r.Ok? ==> r.value == l && LogsLayout(nodes, after, d, m, l, manifest, now))
            && (CreateDirAllOf(nodes, d).Err? ==> r.Err? && after == nodes)
  {
    CleanDirHasParent(d);
    if CreateDirAllOf(nodes, d).Ok? {
      var n1 := CreateDirAllOf(nodes, d).value;
      CreateDirAllShape(nodes, d);
      CreatedKeepsDir(nodes, n1, d, m);
      CreatedKeepsDir(nodes, n1, d, l);
      LogFilesBelow(nodes, n1, d, m, l, manifest);
      LogFilesKept(nodes, n1, d, m, l, manifest, now);
    }
  }

  /** The log directory `d`, the manifest at `m`, an empty log at `l`, every other node of `nodes`, and otherwise directories. */
  predicate LogsLayout(nodes: map<string, Node>, after: map<string, Node>, d: string, m: string, l: string,
                       manifest: Progress.RdumperMeta, now: int) {
    IsDir(after, d) && m in after && after[m] == Manifest(manifest) && l in after && after[l] == RegularFile(0, now)
    && (forall k :: k in nodes && k != m && k != l ==> k in after && after[k] == nodes[k])
    && (forall k :: k in after && k !in nodes && k != m && k != l ==> after[k] == Directory)
  }

  /** The two writes below the created directory `d` succeed exactly when neither file was a directory before. */
  lemma LogFilesBelow(nodes: map<string, Node>, n1: map<string, Node>, d: string, m: string, l: string,
                      manifest: Progress.RdumperMeta)
    requires IsDir(n1, d) && ParentPath(m) == Some(d) && ParentPath(l) == Some(d) && m != l && m != d
    requires (IsDir(n1, m) <==> IsDir(nodes, m)) && (IsDir(n1, l) <==> IsDir(nodes, l))
    ensures WriteError(n1, m).None? <==> !IsDir(nodes, m)
    ensures WriteError(n1[m := Manifest(manifest)], l).None? <==> !IsDir(nodes, l)
  {
    WriteBelowDir(n1, d, m);
    WriteBelowDir(n1[m := Manifest(manifest)], d, l);
  }

  /** A path longer than `d` is a directory after the directories up to `d` are created exactly when it was one before. */
  lemma CreatedKeepsDir(nodes: map<string, Node>, n1: map<string, Node>, d: string, f: string)
    requires |f| > |d|
    requires forall k :: k in nodes ==> k in n1 && n1[k] == nodes[k]
    requires forall k :: k in n1 && k !in nodes ==> n1[k] == Directory && |k| <= |d|
    ensures IsDir(n1, f) <==> IsDir(nodes, f)
  {
  }

  lemma LogFilesKept(nodes: map<string, Node>, n1: map<string, Node>, d: string, m: string, l: string,
                     manifest: Progress.RdumperMeta, now: int)
    requires IsDir(n1, d) && d != m && d != l && m != l
    requires forall k :: k in nodes ==> k in n1 && n1[k] == nodes[k]
    requires forall k :: k in n1 && k !in nodes ==> n1[k] == Directory
    ensures LogsLayout(nodes, n1[m := Manifest(manifest)][l := RegularFile(0, now)], d, m, l, manifest, now)
  {
  }

  // ------------------------------------------------------------ how a run ends

  /**
   * Where a run stops: before its first status write, when mydumper could
   * not be started, after a failed dump, after a failed archiving, or
   * finished.
   */
  datatype RunEnd = NotStarted | DumpNotSpawned | DumpFailed | ArchiveFailed | Finished

  /** The statuses a run of job `id` that stops at `e` writes, in order. */
  function RunWrites(id: string, e: RunEnd): seq<StatusWrite> {
    match e
    case NotStarted => []
    case DumpNotSpawned => [StatusWrite(id, "running")]
    case DumpFailed => [StatusWrite(id, "running"), StatusWrite(id, "failed")]
    case ArchiveFailed => [StatusWrite(id, "running"), StatusWrite(id, "compressing")]
    case Finished => [StatusWrite(id, "running"), StatusWrite(id, "compressing"), StatusWrite(id, "completed")]
  }

  /**
   * The job row a run that stops at `e` leaves; a run whose mydumper could
   * not be started leaves the row running and an archiving failure leaves
   * it compressing.
   */
  function RunRow(j: Job, e: RunEnd, logPath: string, archive: string, message: string, c: RunClock): Job {
    match e
    case NotStarted => j
    case DumpNotSpawned => StatusColumns(j, "running", None, Some(logPath), c.running)
    case DumpFailed => FailedRow(j, logPath, message, c)
    case ArchiveFailed =>
      StatusColumns(StatusColumns(j, "running", None, Some(logPath), c.running), "compressing", None, Some(logPath), c.dumped)
    case Finished => FinishedRow(j, logPath, archive, c)
  }

  /**
   * A run that starts writes running first, and the row it leaves carries
   * the last status it wrote, its log, `started_at` from the running write,
   * and `completed_at` from the failed or the completed write; the two ends
   * that stop between them leave `completed_at` as it was (`RunRowStatus`
   * says what status those rows read back as).
   */
  lemma RunRowCarriesLastStatus(j: Job, e: RunEnd, logPath: string, archive: string, message: string, c: RunClock)
    requires e != NotStarted
    ensures var ws := RunWrites(j.id, e);
            ws[0] == StatusWrite(j.id, "running")
            && ws[|ws| - 1] == StatusWrite(j.id, RunRow(j, e, logPath, archive, message, c).status)
    ensures var row := RunRow(j, e, logPath, archive, message, c);
            row.startedAt == Some(c.running) && row.logOutput == Some(logPath)
    ensures var row := RunRow(j, e, logPath, archive, message, c);
            && (e == DumpFailed ==> row.completedAt == Some(c.dumped))
            && (e == Finished ==> row.completedAt == Some(c.completed))
            && (e == DumpNotSpawned || e == ArchiveFailed ==> row.completedAt == j.completedAt)
  {
  }

  /** The status a started run's row reads back as: none after an archiving failure, Running when mydumper could not be started. */
  lemma RunRowStatus(j: Job, e: RunEnd, logPath: string, archive: string, message: string, c: RunClock)
    requires e != NotStarted
    ensures JobStatusOf(RunRow(j, e, logPath, archive, message, c)).Ok? <==> e != ArchiveFailed
    ensures e == DumpNotSpawned ==> JobStatusOf(RunRow(j, e, logPath, archive, message, c)) == Ok(Running)
  {
    match e {
      case DumpNotSpawned => RunningRow(j, logPath, c.running);
      case DumpFailed => RunRowsParse(j, logPath, archive, message, c);
      case ArchiveFailed => CompressingRow(j, logPath, c.running, c.dumped);
      case Finished => RunRowsParse(j, logPath, archive, message, c);
    }
  }

  /** The row a run whose mydumper could not be started leaves: running since the write, with its log, `completed_at` untouched. */
  lemma RunningRow(j: Job, logPath: string, running: int)
    ensures var row := StatusColumns(j, "running", None, Some(logPath), running);
            JobStatusOf(row) == Ok(Running) && row.startedAt == Some(running) && row.logOutput == Some(logPath)
            && row.completedAt == j.completedAt
  {
    assert !Finishing("running");
    StatusRoundTrip(Running);
  }

  /**
   * The row an archiving failure leaves: compressing, started when running
   * was written, with its log, `completed_at` untouched, and no status it
   * reads back as.
   */
  lemma CompressingRow(j: Job, logPath: string, running: int, dumped: int)
    ensures var row := StatusColumns(StatusColumns(j, "running", None, Some(logPath), running), "compressing", None,
                                     Some(logPath), dumped);
            row.status == "compressing" && row.startedAt == Some(running) && row.logOutput == Some(logPath)
            && row.completedAt == j.completedAt && JobStatusOf(row).Err?
  {
    assert !Finishing("running") && !Finishing("compressing");
    CompressingIsNoStatus();
  }

  /** The jobs table after the writes of a run of job `id` that stops at `e`, statement by statement. */
  function RunJobs(jobs: map<string, Job>, id: string, e: RunEnd, logPath: string, archive: string, message: string,
                   c: RunClock): map<string, Job> {
    if e == NotStarted then jobs
    else
      var running := WithStatus(jobs, id, "running", None, Some(logPath), c.running);
      if e == DumpNotSpawned then running
      else if e == DumpFailed then WithStatus(running, id, "failed", Some(message), Some(logPath), c.dumped)
      else
        var compressing := WithStatus(running, id, "compressing", None, Some(logPath), c.dumped);
        if e == ArchiveFailed then compressing
        else WithBackupPath(WithStatus(compressing, id, "completed", None, Some(logPath), c.completed), id, archive)
  }

  /** The writes of a started run, as `running` appended to the log and then the rest. */
  lemma WritesAfterRunning(log: seq<StatusWrite>, id: string)
    ensures var running := log + [StatusWrite(id, "running")];
            log + RunWrites(id, DumpNotSpawned) == running
            && log + RunWrites(id, DumpFailed) == running + [StatusWrite(id, "failed")]
            && log + RunWrites(id, ArchiveFailed) == running + [StatusWrite(id, "compressing")]
            && log + RunWrites(id, Finished) == running + [StatusWrite(id, "compressing"), StatusWrite(id, "completed")]
  {
  }

  /**
   * The statements of a run touch the row of its own job and no other, and
   * leave there the row `RunRow` describes; a table without that row is
   * left as it was.
   */
  lemma RunTouchesOneRow(jobs: map<string, Job>, id: string, e: RunEnd, logPath: string, archive: string,
                         message: string, c: RunClock)
    ensures id in jobs ==> RunJobs(jobs, id, e, logPath, archive, message, c)
                             == jobs[id := RunRow(jobs[id], e, logPath, archive, message, c)]
    ensures id !in jobs ==> RunJobs(jobs, id, e, logPath, archive, message, c) == jobs
  {
    if id in jobs {
      var j := jobs[id];
      var running := jobs[id := StatusColumns(j, "running", None, Some(logPath), c.running)];
      assert WithStatus(jobs, id, "running", None, Some(logPath), c.running) == running;
      match e {
        case NotStarted =>
          assert jobs[id := j] == jobs;
        case DumpNotSpawned =>
        case DumpFailed =>
        case ArchiveFailed =>
        case Finished =>
      }
    }
  }

  // ------------------------------------------------------------ a backup run

  /**
   * The files a prepared run has laid out over `before`: the run directory
   * with its initial sidecar, then the log directory holding the manifest
   * and an empty log file.
   */
  ghost predicate PreparedLayout(before: map<string, Node>, after: map<string, Node>, p: BackupProcess,
                                 rows: seq<EngineRow>, databaseName: string, logBase: string, jobId: string,
                                 c: RunClock)
  {
    var m := ManifestOf(InnodbTables(rows), ExcludedTables(rows), databaseName, c.startedText);
    var (laid, prepared) := RunFilesOf(before, p, logBase, jobId, m, c.prepared, c.createdText);
    laid.Ok? && after == prepared
  }

  /**
   * The files of a run on the disk `nodes`: `initialize` (its sidecar
   * created at `createdText`), then the logs (the log file made at `now`);
   * the answer is the log file's path, and the first failure stops it.
   */
  function RunFilesOf(nodes: map<string, Node>, p: BackupProcess, logBase: string, jobId: string,
                      manifest: Progress.RdumperMeta, now: int, createdText: string)
    : (r: (Result<string, string>, map<string, Node>))
    ensures r.0.Ok? ==> InitializeOf(nodes, p, createdText).0.Ok? && r.0.value == LogPath(logBase, jobId)
  {
    var (init, laid) := InitializeOf(nodes, p, createdText);
    if init.Err? then (Err(init.error), laid) else PrepareLogsOf(laid, logBase, jobId, manifest, now)
  }

  /** `RunFilesOf` as its two steps, for the proofs of the methods that take them. */
  lemma RunFilesSteps(nodes: map<string, Node>, p: BackupProcess, logBase: string, jobId: string,
                      manifest: Progress.RdumperMeta, now: int, createdText: string)
    ensures var init := InitializeOf(nodes, p, createdText);
            RunFilesOf(nodes, p, logBase, jobId, manifest, now, createdText)
            == if init.0.Err? then (Err(init.0.error), init.1) else PrepareLogsOf(init.1, logBase, jobId, manifest, now)
  {
  }

  /**
   * The steps before mydumper starts, on the disk `nodes`: the answer (the
   * run and its log file's path) and the disk left. A failed table analysis
   * changes nothing; otherwise the run directory is initialized, then the
   * logs are prepared, and the first failure stops it with what that step
   * leaves.
   */
  function PrepareRunOf(nodes: map<string, Node>, config: DatabaseConfig, databaseName: string, task: Task,
                        jobId: string, backupBase: string, logBase: string, uuid: string,
                        rows: Result<seq<EngineRow>, string>, c: RunClock)
    : (r: (Result<(BackupProcess, string), string>, map<string, Node>))
    ensures rows.Err? ==> r == (Err(rows.error), nodes)
    ensures r.0.Ok? ==> rows.Ok? && r.0.value == (ProcessFor(backupBase, jobId, config, Some(task), uuid), LogPath(logBase, jobId))
  {
    match rows
    case Err(e) => (Err(e), nodes)
    case Ok(rs) =>
      var p := ProcessFor(backupBase, jobId, config, Some(task), uuid);
      var manifest := ManifestOf(InnodbTables(rs), ExcludedTables(rs), databaseName, c.startedText);
      var (laid, prepared) := RunFilesOf(nodes, p, logBase, jobId, manifest, c.prepared, c.createdText);
      if laid.Err? then (Err(laid.error), prepared) else (Ok((p, laid.value)), prepared)
  }

  /**
   * The steps before mydumper starts: the table analysis, the run directory
   * with its sidecar, then the log directory with the manifest and the log
   * file. Returns the run and its log file's path.
   */
  method PrepareRun(fs: FileSystem, config: DatabaseConfig, databaseName: string, task: Task, jobId: string,
                    backupBase: string, logBase: string, uuid: string, rows: Result<seq<EngineRow>, string>,
                    c: RunClock)
    returns (r: Result<(BackupProcess, string), string>)
    modifies fs
    ensures (r, fs.nodes) == PrepareRunOf(old(fs.nodes), config, databaseName, task, jobId, backupBase, logBase, uuid,
                                          rows, c)
    ensures rows.Err? ==> r == Err(rows.error) && fs.nodes == old(fs.nodes)
    ensures r.Ok? ==> rows.Ok? && r.value == (ProcessFor(backupBase, jobId, config, Some(task), uuid), LogPath(logBase, jobId))
    ensures r.Ok? ==> PreparedLayout(old(fs.nodes), fs.nodes, r.value.0, rows.value, databaseName, logBase, jobId, c)
  {
    ghost var before := fs.nodes;
    PrepareRunOfLayout(before, config, databaseName, task, jobId, backupBase, logBase, uuid, rows, c);
    if rows.Err? {
      return Err(rows.error);
    }
    var innodb, excluded := AnalyzeTableEngines(rows.value);
    ghost var p := ProcessFor(backupBase, jobId, config, Some(task), uuid);
    var manifest := ManifestOf(innodb, excluded, databaseName, c.startedText);
    RunFilesSteps(before, p, logBase, jobId, manifest, c.prepared, c.createdText);
    var created := CreateBackupProcess(fs, backupBase, jobId, config, Some(task), uuid, c.createdText);
    if created.Err? {
      return Err(created.error);
    }
    var prepared := PrepareLogs(fs, logBase, jobId, manifest, c.prepared);
    if prepared.Err? {
      return Err(prepared.error);
    }
    r := Ok((created.value, prepared.value));
  }

  /** A preparation that succeeds leaves the layout `PreparedLayout` describes. */
  lemma PrepareRunOfLayout(nodes: map<string, Node>, config: DatabaseConfig, databaseName: string, task: Task,
                           jobId: string, backupBase: string, logBase: string, uuid: string,
                           rows: Result<seq<EngineRow>, string>, c: RunClock)
    ensures var (r, after) := PrepareRunOf(nodes, config, databaseName, task, jobId, backupBase, logBase, uuid, rows, c);
            r.Ok? ==> PreparedLayout(nodes, after, r.value.0, rows.value, databaseName, logBase, jobId, c)
  {
  }

  /**
   * A prepared run whose manifest and log file are neither its root, its
   * `tmp` nor its sidecar, with a database name free of `/` and a
   * four-digit year at the archive's instant: once mydumper and tar
   * succeed, `complete` returns the archive named by that instant and
   * leaves the completed layout.
   */
  lemma PreparedRunCompletes(before: map<string, Node>, after: map<string, Node>, p: BackupProcess,
                             rows: seq<EngineRow>, databaseName: string, logBase: string, jobId: string,
                             c: RunClock, size: nat, modified: int)
    requires PreparedLayout(before, after, p, rows, databaseName, logBase, jobId, c)
    requires WellFormed(p) && CleanDir(p.rootDir) && size < U64_BOUND
    requires '/' !in p.config.databaseName && 0 <= CivilOf(c.archived).year <= 9999
    requires ManifestPath(logBase, jobId) != p.rootDir && ManifestPath(logBase, jobId) != p.tmpDir
             && ManifestPath(logBase, jobId) != p.metaFile
    requires LogPath(logBase, jobId) != p.rootDir && LogPath(logBase, jobId) != p.tmpDir && LogPath(logBase, jobId) != p.metaFile
    ensures CompleteOf(after, p, c.archived, Exited(Some(0)), size, modified).0 == Ok(ArchivePath(p, c.archived))
    ensures CompletedLayout(CompleteOf(after, p, c.archived, Exited(Some(0)), size, modified).1, p, c.archived, size, modified)
  {
    var m := ManifestOf(InnodbTables(rows), ExcludedTables(rows), databaseName, c.startedText);
    RunFilesSteps(before, p, logBase, jobId, m, c.prepared, c.createdText);
    var laid := InitializeOf(before, p, c.createdText).1;
    InitializeOutcome(before, p, c.createdText);
    assert IsDir(laid, p.rootDir) && IsDir(laid, p.tmpDir) && laid[p.metaFile] == SidecarOf(InitialMetadata(p, c.createdText));
    LogsKeep(laid, logBase, jobId, m, c.prepared, p.rootDir);
    LogsKeep(laid, logBase, jobId, m, c.prepared, p.tmpDir);
    LogsKeep(laid, logBase, jobId, m, c.prepared, p.metaFile);
    CompleteSucceeds(after, p, c.archived, size, modified);
    CompleteOfOutcome(after, p, c.archived, Exited(Some(0)), size, modified);
    CompleteOutcome(after, p, c.archived, size, modified, ReadSidecarOf(after, p.metaFile).value);
  }

  /** Preparing the logs keeps every node but the manifest and the log file. */
  lemma LogsKeep(nodes: map<string, Node>, logBase: string, jobId: string, manifest: Progress.RdumperMeta, now: int,
                 k: string)
    requires PrepareLogsOf(nodes, logBase, jobId, manifest, now).0.Ok?
    requires k != ManifestPath(logBase, jobId) && k != LogPath(logBase, jobId) && k in nodes
    ensures var after := PrepareLogsOf(nodes, logBase, jobId, manifest, now).1;
            k in after && after[k] == nodes[k]
  {
    LogsKeepAt(nodes, LogDir(logBase, jobId), ManifestPath(logBase, jobId), LogPath(logBase, jobId), manifest, now, k);
  }

  /** `LogsKeep` for any directory and two files. */
  lemma LogsKeepAt(nodes: map<string, Node>, d: string, m: string, l: string, manifest: Progress.RdumperMeta, now: int,
                   k: string)
    requires LogsOf(nodes, d, m, l, manifest, now).0.Ok?
    requires k != m && k != l && k in nodes
    ensures var after := LogsOf(nodes, d, m, l, manifest, now).1;
            k in after && after[k] == nodes[k]
  {
    var n1 := CreateDirAllOf(nodes, d).value;
    CreateDirAllShape(nodes, d);
  }

  /** `complete` on the run, with the layout it leaves whenever the run's names are well formed. */
  method CompleteRun(p: BackupProcess, fs: FileSystem, now: int, tar: ToolRun, size: nat, modified: int)
    returns (r: Result<string, string>)
    requires size < U64_BOUND
    modifies fs
    ensures (r, fs.nodes) == CompleteOf(old(fs.nodes), p, now, tar, size, modified)
    ensures tar.NotSpawned? ==> r == Err(tar.error) && fs.nodes == old(fs.nodes)
    ensures FailedExit(tar) ==> r == Err(TAR_FAILED) && fs.nodes == old(fs.nodes)
    ensures r.Ok? ==> r.value == ArchivePath(p, now) && Succeeded(tar)
    ensures r.Ok? && WellFormed(p) && '/' !in p.config.databaseName && 0 <= CivilOf(now).year <= 9999 ==>
              CompletedLayout(fs.nodes, p, now, size, modified)
  {
    ghost var before := fs.nodes;
    ghost var m := fs.ReadSidecar(p.metaFile);
    r := Complete(p, fs, now, tar, size, modified);
    if r.Ok? && WellFormed(p) && '/' !in p.config.databaseName && 0 <= CivilOf(now).year <= 9999 {
      CompleteOutcome(before, p, now, size, modified, m.value);
    }
  }

  /**
   * What a run reports for where it stopped: success with the archive's
   * path exactly when it finished, which needs tar to have succeeded; the
   * io error when mydumper or tar could not be started; the exit message
   * when mydumper failed; tar's own error when tar failed.
   */
  predicate Replied(r: Result<string, string>, end: RunEnd, dump: ToolRun, tar: ToolRun, archive: string) {
    (r.Ok? <==> end == Finished)
    && (end == DumpNotSpawned ==> dump.NotSpawned? && r == Err(dump.error))
    && (end == DumpFailed ==> dump.Exited? && r == Err("mydumper failed: " + ExitMessage(dump.code)))
    && (end == ArchiveFailed && tar.NotSpawned? ==> r == Err(tar.error))
    && (end == ArchiveFailed && FailedExit(tar) ==> r == Err(TAR_FAILED))
    && (end == Finished ==> Succeeded(tar))
    && (r.Ok? ==> r.value == archive)
  }

  /**
   * The steps after a successful dump: compressing is written at
   * `dumped`, the run is completed into the archive named by `archived`,
   * then completed is written at `completed` and the archive's path is
   * written to the row.
   */
  method ArchiveRun(db: Db, fs: FileSystem, p: BackupProcess, jobId: string, logPath: string,
                    tar: ToolRun, size: nat, modified: int, c: RunClock)
    returns (r: Result<string, string>)
    requires size < U64_BOUND
    modifies db, fs
    ensures db.tasks == old(db.tasks) && db.configs == old(db.configs) && db.backups == old(db.backups)
    ensures db.statusLog == old(db.statusLog) + (if r.Ok? then [StatusWrite(jobId, "compressing"), StatusWrite(jobId, "completed")]
                                                 else [StatusWrite(jobId, "compressing")])
    ensures var compressing := WithStatus(old(db.jobs), jobId, "compressing", None, Some(logPath), c.dumped);
            db.jobs == if r.Err? then compressing
                       else WithBackupPath(WithStatus(compressing, jobId, "completed", None, Some(logPath), c.completed),
                                           jobId, r.value)
    ensures (r, fs.nodes) == CompleteOf(old(fs.nodes), p, c.archived, tar, size, modified)
    ensures tar.NotSpawned? ==> r == Err(tar.error) && fs.nodes == old(fs.nodes)
    ensures FailedExit(tar) ==> r == Err(TAR_FAILED) && fs.nodes == old(fs.nodes)
    ensures r.Ok? ==> r.value == ArchivePath(p, c.archived) && Succeeded(tar)
    ensures r.Ok? && WellFormed(p) && '/' !in p.config.databaseName && 0 <= CivilOf(c.archived).year <= 9999 ==>
              CompletedLayout(fs.nodes, p, c.archived, size, modified)
  {
    UpdateJobStatus(db, jobId, "compressing", None, Some(logPath), c.dumped);
    r := CompleteRun(p, fs, c.archived, tar, size, modified);
    if r.Err? {
      return;
    }
    UpdateJobStatus(db, jobId, "completed", None, Some(logPath), c.completed);
    UpdateJobBackupPath(db, jobId, r.value);
  }

  /**
   * The steps from the first status write on: running is written, mydumper
   * runs (`dump` is whether it started and how it exited), then the run
   * stops with the io error, failed is written, or the run is archived.
   */
  method DumpAndArchive(db: Db, fs: FileSystem, p: BackupProcess, config: DatabaseConfig, databaseName: string,
                        task: Task, jobId: string, logPath: string, dump: ToolRun,
                        tar: ToolRun, size: nat, modified: int, c: RunClock)
    returns (r: Result<string, string>, ghost end: RunEnd)
    requires size < U64_BOUND
    modifies db, fs
    ensures db.tasks == old(db.tasks) && db.configs == old(db.configs) && db.backups == old(db.backups)
    ensures end != NotStarted
    ensures db.statusLog == old(db.statusLog) + RunWrites(jobId, end)
    ensures db.jobs == RunJobs(old(db.jobs), jobId, end, logPath, ArchivePath(p, c.archived), DumpMessage(dump), c)
    ensures end == DumpNotSpawned <==> dump.NotSpawned?
    ensures end == DumpFailed <==> FailedExit(dump)
    ensures Replied(r, end, dump, tar, ArchivePath(p, c.archived))
    ensures !Succeeded(dump) ==> fs.nodes == old(fs.nodes)
    ensures Succeeded(dump) ==> (r, fs.nodes) == CompleteOf(old(fs.nodes), p, c.archived, tar, size, modified)
    ensures r.Ok? && WellFormed(p) && '/' !in p.config.databaseName && 0 <= CivilOf(c.archived).year <= 9999 ==>
              CompletedLayout(fs.nodes, p, c.archived, size, modified)
  {
    WritesAfterRunning(db.statusLog, jobId);
    UpdateJobStatus(db, jobId, "running", None, Some(logPath), c.running);
    // mydumper runs with these arguments; whether it started and how it exited is the input `dump`.
    var args := DumpArgs(config, databaseName, p.tmpDir, logPath, task);
    if dump.NotSpawned? {
      return Err(dump.error), DumpNotSpawned;
    }
    if !Succeeded(dump) {
      var message := ExitMessage(dump.code);
      UpdateJobStatus(db, jobId, "failed", Some(message), Some(logPath), c.dumped);
      return Err("mydumper failed: " + message), DumpFailed;
    }
    var archived := ArchiveRun(db, fs, p, jobId, logPath, tar, size, modified, c);
    if archived.Err? {
      return archived, ArchiveFailed;
    }
    r, end := archived, Finished;
  }

  /**
   * `create_backup_with_progress` for job `jobId`. `rows` is the schema
   * query's answer (or its error), `dump` how mydumper ran, `tar`, `size`
   * and `modified` the outcome of the archiving tar, `uuid` the run
   * directory's uuid and `c` the run's clock readings; `end` is where the
   * run stopped.
   */
  method CreateBackupWithProgress(db: Db, fs: FileSystem, config: DatabaseConfig, databaseName: string, task: Task,
                                  jobId: string, backupBase: string, logBase: string, uuid: string,
                                  rows: Result<seq<EngineRow>, string>, dump: ToolRun,
                                  tar: ToolRun, size: nat, modified: int, c: RunClock)
    returns (r: Result<string, string>, ghost end: RunEnd)
    requires size < U64_BOUND
    modifies db, fs
    ensures db.tasks == old(db.tasks) && db.configs == old(db.configs) && db.backups == old(db.backups)
    ensures end == NotStarted ==> r.Err? && db.statusLog == old(db.statusLog) && db.jobs == old(db.jobs)
    ensures end != NotStarted ==> db.statusLog == old(db.statusLog) + RunWrites(jobId, end)
    ensures end != NotStarted ==> db.jobs == RunJobs(old(db.jobs), jobId, end, LogPath(logBase, jobId),
                               ArchivePath(ProcessFor(backupBase, jobId, config, Some(task), uuid), c.archived), DumpMessage(dump), c)
    ensures rows.Err? ==> end == NotStarted && r == Err(rows.error) && fs.nodes == old(fs.nodes)
    ensures end == DumpNotSpawned <==> end != NotStarted && dump.NotSpawned?
    ensures end == DumpFailed <==> end != NotStarted && FailedExit(dump)
    ensures end != NotStarted ==> Replied(r, end, dump, tar, ArchivePath(ProcessFor(backupBase, jobId, config, Some(task), uuid), c.archived))
    ensures r.Ok? && '/' !in config.databaseName && 0 <= CivilOf(c.archived).year <= 9999 ==>
              CompletedLayout(fs.nodes, ProcessFor(backupBase, jobId, config, Some(task), uuid), c.archived, size, modified)
    ensures var (prepared, laid) := PrepareRunOf(old(fs.nodes), config, databaseName, task, jobId, backupBase, logBase,
                                                 uuid, rows, c);
            (end == NotStarted <==> prepared.Err?)
            && (prepared.Err? ==> r == Err(prepared.error) && fs.nodes == laid)
            && (prepared.Ok? && !Succeeded(dump) ==> fs.nodes == laid)
            && (prepared.Ok? && Succeeded(dump) ==>
                  (r, fs.nodes) == CompleteOf(laid, ProcessFor(backupBase, jobId, config, Some(task), uuid), c.archived,
                                              tar, size, modified))
  {
    var prepared := PrepareRun(fs, config, databaseName, task, jobId, backupBase, logBase, uuid, rows, c);
    if prepared.Err? {
      return Err(prepared.error), NotStarted;
    }
    var p, logPath := prepared.value.0, prepared.value.1;
    r, end := DumpAndArchive(db, fs, p, config, databaseName, task, jobId, logPath, dump,
                             tar, size, modified, c);
  }
}

=== FILE: paths.dfy ===
/**
 * The part of Rust's `Path`/`PathBuf` the backup code relies on, on `/`
 * separated strings: `join`, `file_name`, `parent().file_name()`,
 * `extension` and `exists` against a set of existing paths.
 *
 * `components()` drops empty components and `.` components (a leading `.`
 * stays as the current directory, which is never a normal component, so
 * dropping it too does not change any answer below) and keeps `..`.
 */
module Paths {
  import opened Wrappers
  import opened Text

  /** The component one segment between separators contributes. */
  function Keep(seg: string): seq<string> {
    if seg == [] || seg == "." then [] else [seg]
  }

  /** The components of a path, first to last. */
  function Components(p: string): (r: seq<string>)
    ensures forall k :: 0 <= k < |r| ==> r[k] != [] && r[k] != "." && '/' !in r[k]
    decreases |p|
  {
    match RFindChar(p, '/')
    case None => Keep(p)
    case Some(i) => Components(p[..i]) + Keep(p[i + 1..])
  }

  /** A name that `join` appends as exactly one normal component. */
  predicate NormalName(n: string) {
    n != [] && n != "." && n != ".." && '/' !in n
  }

  /** The text `join` puts before a relative name: the path and, unless it is empty or already ends in one, a separator. */
  function DirPrefix(p: string): string {
    if p == [] || p[|p| - 1] == '/' then p else p + "/"
  }

  /** `PathBuf::join`: an absolute name replaces the path; a relative one follows `DirPrefix`. */
  function Join(p: string, n: string): (r: string)
    ensures NormalName(n) ==> EndsWith(r, n)
  {
    if n != [] && n[0] == '/' then n else DirPrefix(p) + n
  }

  /**
   * `Path::parent` as text: trailing separators are ignored, the last
   * component and the separators before it are dropped, and a path with no
   * component has no parent.
   */
  function ParentPath(p: string): (r: Option<string>)
    ensures r.Some? ==> |r.value| < |p|
  {
    var t := TrimEndMatches(p, "/");
    if t == [] then None
    else match RFindChar(t, '/')
      case None => Some("")
      case Some(i) => var d := TrimEndMatches(t[..i], "/"); Some(if d == [] then "/" else d)
  }

  /** A text that does not end in the pattern is what trimming leaves. */
  lemma TrimEndNoMatch(s: string, p: string)
    requires p != [] && !EndsWith(s, p)
    ensures TrimEndMatches(s, p) == s
  {
  }

  /** The last index holding `c` is what `rfind` returns. */
  lemma LastOccurrence(s: string, c: char, j: nat)
    requires j < |s| && s[j] == c && forall k :: j < k < |s| ==> s[k] != c
    ensures RFindChar(s, c) == Some(j)
  {
    var i := RFindChar(s, c).value;
    assert forall k :: i < k < |s| ==> s[k] != c by {
      forall k | i < k < |s|
        ensures s[k] != c
      {
        assert s[k] == s[i + 1..][k - i - 1];
      }
    }
  }

  /** The parent of a directory and a name joined by one separator is that directory. */
  lemma ParentOfJoined(d: string, n: string)
    requires d != [] && d[|d| - 1] != '/' && n != [] && '/' !in n
    ensures ParentPath(d + "/" + n) == Some(d)
  {
    var s := d + "/" + n;
    NoTrailingSeparator(s);
    SeparatorBeforeName(d, n, s);
    assert s[..|d|] == d;
    NoTrailingSeparator(d);
  }

  /** A non-empty path that does not end in a separator: `join` puts one separator between it and a relative name. */
  predicate CleanDir(d: string) {
    d != [] && d[|d| - 1] != '/'
  }

  /** A normal name joined to a clean path lies directly below it. */
  lemma ParentOfJoin(d: string, n: string)
    requires CleanDir(d) && NormalName(n)
    ensures Join(d, n) == d + "/" + n && ParentPath(Join(d, n)) == Some(d)
  {
    assert n[0] != '/' by { assert n[0] in n; }
    ParentOfJoined(d, n);
  }

  /** A clean path has a parent. */
  lemma CleanDirHasParent(d: string)
    requires CleanDir(d)
    ensures ParentPath(d).Some?
  {
    NoTrailingSeparator(d);
  }

  lemma NoTrailingSeparator(s: string)
    requires s != [] && s[|s| - 1] != '/'
    ensures TrimEndMatches(s, "/") == s
  {
    assert s[|s| - 1..] == [s[|s| - 1]];
    TrimEndNoMatch(s, "/");
  }

  lemma SeparatorBeforeName(d: string, n: string, s: string)
    requires s == d + "/" + n && n != [] && '/' !in n
    ensures s != [] && s[|s| - 1] != '/'
    ensures RFindChar(s, '/') == Some(|d|)
  {
    assert s[|s| - 1] == n[|n| - 1];
    assert n[|n| - 1] in n;
    assert s[|d|] == '/';
    assert forall k :: |d| < k < |s| ==> s[k] != '/' by {
      forall k | |d| < k < |s|
        ensures s[k] != '/'
      {
        assert s[k] == n[k - |d| - 1];
        assert n[k - |d| - 1] in n;
      }
    }
    LastOccurrence(s, '/', |d|);
  }

  /** `Path::file_name`: the last component, unless there is none or it is `..`. */
  function FileName(p: string): (r: Option<string>)
    ensures r.Some? ==> NormalName(r.value)
  {
    var cs := Components(p);
    if cs == [] || cs[|cs| - 1] == ".." then None else Some(cs[|cs| - 1])
  }

  /** `Path::parent().and_then(file_name)`: the component before the last one. */
  function ParentName(p: string): (r: Option<string>)
    ensures r.Some? ==> NormalName(r.value)
  {
    var cs := Components(p);
    if |cs| < 2 || cs[|cs| - 2] == ".." then None else Some(cs[|cs| - 2])
  }

  /** `Path::extension`: what follows the last `.` of the file name, unless the name starts there. */
  function Extension(p: string): (r: Option<string>)
    ensures r.Some? ==> '.' !in r.value
  {
    match FileName(p)
    case None => None
    case Some(n) =>
      match RFindChar(n, '.')
      case None => None
      case Some(i) => if i == 0 then None else Some(n[i + 1..])
  }

  /** `Path::exists`, against the set of paths present on disk. */
  predicate Exists(present: set<string>, p: string) {
    p in present
  }

  /** The segment after the last separator is the last one `components()` sees. */
  lemma ComponentsAfterSlash(q: string, n: string)
    requires '/' !in n
    ensures Components(q + "/" + n) == Components(q) + Keep(n)
  {
    var r := q + "/" + n;
    assert r[|q|] == '/' && r[|q| + 1..] == n;
    assert RFindChar(r, '/') == Some(|q|);
    assert r[..|q|] == q;
  }

  /** A relative normal name adds exactly one component to the path it is joined to. */
  lemma ComponentsOfJoin(p: string, n: string)
    requires NormalName(n)
    ensures Components(Join(p, n)) == Components(p) + [n]
  {
    assert n[0] != '/' by { assert n[0] in n; }
    if p == [] {
      assert Join(p, n) == n;
      SingleSegment(n);
    } else if p[|p| - 1] == '/' {
      assert Join(p, n) == p + n;
      TrailingSlash(p, n);
    } else {
      assert Join(p, n) == p + "/" + n;
      ComponentsAfterSlash(p, n);
    }
  }

  /** After a trailing separator a name is one more component. */
  lemma TrailingSlash(p: string, n: string)
    requires p != [] && p[|p| - 1] == '/' && '/' !in n
    ensures Components(p + n) == Components(p) + Keep(n)
  {
    var q := p[..|p| - 1];
    assert p == q + "/" + [];
    assert p + n == q + "/" + n;
    ComponentsAfterSlash(q, []);
    ComponentsAfterSlash(q, n);
  }

  /** A name without a separator is its own single component. */
  lemma SingleSegment(n: string)
    requires NormalName(n)
    ensures Components(n) == [n]
  {
    assert RFindChar(n, '/').None?;
  }

  /** The file name of `p` joined with a normal name is that name. */
  lemma FileNameOfJoin(p: string, n: string)
    requires NormalName(n)
    ensures FileName(Join(p, n)) == Some(n)
  {
    ComponentsOfJoin(p, n);
  }

  /** The folder of a file joined twice below `p` is the first name joined. */
  lemma ParentNameOfJoin(p: string, d: string, n: string)
    requires NormalName(d) && NormalName(n)
    ensures ParentName(Join(Join(p, d), n)) == Some(d)
  {
    ComponentsOfJoin(p, d);
    ComponentsOfJoin(Join(p, d), n);
  }

  /**
   * Two different normal names joined to the same path give paths neither
   * of which lies below the other.
   */
  lemma SiblingsApart(p: string, a: string, b: string)
    requires NormalName(a) && NormalName(b) && a != b
    ensures Join(p, a) != Join(p, b)
    ensures !StartsWith(Join(p, a), Join(p, b) + "/")
  {
    assert a[0] != '/' by { assert a[0] in a; }
    assert b[0] != '/' by { assert b[0] in b; }
    var x := DirPrefix(p);
    assert Join(p, a) == x + a && Join(p, b) == x + b;
    assert (x + a)[|x|..] == a && (x + b)[|x|..] == b;
    var y := x + b + "/";
    assert y[|x| + |b|] == '/';
    if |x| + |b| < |x + a| {
      assert (x + a)[|x| + |b|] == a[|b|];
      assert a[|b|] in a;
    }
  }
}

=== FILE: progress.dfy ===
/**
 * Per-table progress of a running dump, rebuilt from the mydumper log
 * (backend/src/services/progress_tracker.rs with the records of
 * backend/src/models/progress.rs).
 *
 * The four regular expressions of the tracker are written out as string
 * functions; the line loop is a method proved equal to a left fold of
 * `ApplyLine`, and the properties of the reconstruction are lemmas about that
 * fold.
 */
module Progress {
  import opened Wrappers
  import opened Text

  datatype TableStatus = Pending | InProgress | Completed | Skipped | Error

  datatype TableProgress = TableProgress(
    name: string,
    status: TableStatus,
    percent: Option<nat>,
    startedAt: Option<int>,
    completedAt: Option<int>,
    errorMessage: Option<string>)

  /** The manifest `rdumper.meta.json` written before the dump starts. */
  datatype RdumperMeta = RdumperMeta(
    count: nat,
    tables: seq<string>,
    excludedTables: seq<string>,
    databaseName: string,
    startedAt: string)

  datatype DetailedProgress = DetailedProgress(
    jobId: string,
    overallProgress: nat,
    totalTables: nat,
    completedTables: nat,
    inProgressTables: nat,
    pendingTables: nat,
    skippedTables: nat,
    errorTables: nat,
    tables: seq<TableProgress>,
    excludedTables: seq<string>,
    databaseName: string,
    startedAt: int,
    lastUpdated: int)

  const ERROR_DURING_BACKUP: string := "Error during backup"
  const EXCLUDED_MESSAGE: string := "Non-InnoDB table, excluded from backup"

  function PendingEntry(name: string): TableProgress {
    TableProgress(name, Pending, None, None, None, None)
  }

  // ------------------------------------------------------------ the four patterns

  const SCHEMA_PREFIX: string := "dumping schema for `"

  /**
   * The index of the backtick that closes a non-empty run of non-backtick
   * characters starting at `k`: the regex fragment "([^`]+)`".
   */
  function ClosingQuote(l: string, k: nat): (r: Option<nat>)
    requires k <= |l|
    ensures r.Some? ==> k < r.value < |l| && l[r.value] == '`' && '`' !in l[k..r.value]
  {
    match FindChar(l[k..], '`')
    case None => None
    case Some(j) =>
      if j > 0 then
        assert l[k..][..j] == l[k..k + j];
        Some(k + j)
      else None
  }

  /**
   * `x` lies in one of the runs of ten decimal digits (general category
   * Nd) of Unicode 15.0 beyond ASCII, the mathematical digits aside.
   */
  predicate InDigitRun(x: int) {
    0x0660 <= x < 0x066A || 0x06F0 <= x < 0x06FA || 0x07C0 <= x < 0x07CA
    || 0x0966 <= x < 0x0970 || 0x09E6 <= x < 0x09F0 || 0x0A66 <= x < 0x0A70
    || 0x0AE6 <= x < 0x0AF0 || 0x0B66 <= x < 0x0B70 || 0x0BE6 <= x < 0x0BF0
    || 0x0C66 <= x < 0x0C70 || 0x0CE6 <= x < 0x0CF0 || 0x0D66 <= x < 0x0D70
    || 0x0DE6 <= x < 0x0DF0 || 0x0E50 <= x < 0x0E5A || 0x0ED0 <= x < 0x0EDA
    || 0x0F20 <= x < 0x0F2A || 0x1040 <= x < 0x104A || 0x1090 <= x < 0x109A
    || 0x17E0 <= x < 0x17EA || 0x1810 <= x < 0x181A || 0x1946 <= x < 0x1950
    || 0x19D0 <= x < 0x19DA || 0x1A80 <= x < 0x1A8A || 0x1A90 <= x < 0x1A9A
    || 0x1B50 <= x < 0x1B5A || 0x1BB0 <= x < 0x1BBA || 0x1C40 <= x < 0x1C4A
    || 0x1C50 <= x < 0x1C5A || 0xA620 <= x < 0xA62A || 0xA8D0 <= x < 0xA8DA
    || 0xA900 <= x < 0xA90A || 0xA9D0 <= x < 0xA9DA || 0xA9F0 <= x < 0xA9FA
    || 0xAA50 <= x < 0xAA5A || 0xABF0 <= x < 0xABFA || 0xFF10 <= x < 0xFF1A
    || 0x104A0 <= x < 0x104AA || 0x10D30 <= x < 0x10D3A || 0x11066 <= x < 0x11070
    || 0x110F0 <= x < 0x110FA || 0x11136 <= x < 0x11140 || 0x111D0 <= x < 0x111DA
    || 0x112F0 <= x < 0x112FA || 0x11450 <= x < 0x1145A || 0x114D0 <= x < 0x114DA
    || 0x11650 <= x < 0x1165A || 0x116C0 <= x < 0x116CA || 0x11730 <= x < 0x1173A
    || 0x118E0 <= x < 0x118EA || 0x11950 <= x < 0x1195A || 0x11C50 <= x < 0x11C5A
    || 0x11D50 <= x < 0x11D5A || 0x11DA0 <= x < 0x11DAA || 0x11F50 <= x < 0x11F5A
    || 0x16A60 <= x < 0x16A6A || 0x16AC0 <= x < 0x16ACA || 0x16B50 <= x < 0x16B5A
    || 0x1E140 <= x < 0x1E14A || 0x1E2F0 <= x < 0x1E2FA || 0x1E4F0 <= x < 0x1E4FA
    || 0x1E950 <= x < 0x1E95A || 0x1FBF0 <= x < 0x1FBFA
  }

  /** The regex `\d`, which is Unicode-aware: a character of general category Nd. */
  predicate IsDecimalDigit(c: char) {
    IsDigit(c) || 0x1D7CE <= c as int <= 0x1D7FF || InDigitRun(c as int)
  }

  /** Length of the run of decimal digits starting at `k`: the regex fragment "(\d+)". */
  function DigitRun(l: string, k: nat): (n: nat)
    requires k <= |l|
    ensures k + n <= |l| && forall i :: k <= i < k + n ==> IsDecimalDigit(l[i])
    ensures k + n < |l| ==> !IsDecimalDigit(l[k + n])
    decreases |l| - k
  {
    if k < |l| && IsDecimalDigit(l[k]) then
      var n := 1 + DigitRun(l, k + 1);
      assert l[k..k + n] == [l[k]] + l[k + 1..k + n];
      n
    else 0
  }

  /** What one match of a pattern captures: the table name and, for the data pattern, the digits of the percentage. */
  datatype Capture = Capture(table: string, digits: string)

  datatype Pattern = SchemaPattern | DataPattern | CompletedPattern

  /** The match of a pattern that starts exactly at index `i` of line `l`, if there is one. */
  function MatchFrom(p: Pattern, l: string, i: nat): (r: Option<Capture>)
    requires i <= |l|
    ensures r.Some? ==> r.value.table != [] && '`' !in r.value.table
  {
    match p
    case SchemaPattern =>
      if MatchAt(l, SCHEMA_PREFIX, i) then
        match ClosingQuote(l, i + |SCHEMA_PREFIX|)
        case None => None
        case Some(j) => Some(Capture(l[i + |SCHEMA_PREFIX|..j], ""))
      else None
    case DataPattern =>
      if i < |l| && l[i] == '`' then
        match ClosingQuote(l, i + 1)
        case None => None
        case Some(j) =>
          if MatchAt(l, "` [", j) then
            var n := DigitRun(l, j + 3);
            if n > 0 && MatchAt(l, "%]", j + 3 + n) then Some(Capture(l[i + 1..j], l[j + 3..j + 3 + n]))
            else None
          else None
      else None
    case CompletedPattern =>
      if i < |l| && l[i] == '`' then
        match ClosingQuote(l, i + 1)
        case None => None
        case Some(j) => if MatchAt(l, "` [100%]", j) then Some(Capture(l[i + 1..j], "")) else None
      else None
  }

  /** The leftmost match of a pattern at or after index `i` (what `Regex::captures` reports). */
  function Leftmost(p: Pattern, l: string, i: nat): (r: Option<Capture>)
    requires i <= |l|
    ensures r.Some? ==> r.value.table != [] && '`' !in r.value.table
    decreases |l| - i
  {
    match MatchFrom(p, l, i)
    case Some(c) => Some(c)
    case None => if i == |l| then None else Leftmost(p, l, i + 1)
  }

  /** "dumping schema for `([^`]+)`" */
  function SchemaCapture(l: string): Option<Capture> { Leftmost(SchemaPattern, l, 0) }

  /** "`([^`]+)` \[(\d+)%\]" */
  function DataCapture(l: string): Option<Capture> { Leftmost(DataPattern, l, 0) }

  /** "`([^`]+)` \[100%\]" */
  function CompletedCapture(l: string): Option<Capture> { Leftmost(CompletedPattern, l, 0) }

  /**
   * The name in the last backtick-quoted run that starts at or after `k` and
   * before `e`: the greedy ".*" of "ERROR.*`([^`]+)`" gives up as few
   * characters as it can.
   */
  function LastQuoted(l: string, k: nat, e: nat): (r: Option<string>)
    requires k <= e <= |l|
    ensures r.Some? ==> r.value != [] && '`' !in r.value
    decreases e - k
  {
    if e == k then None
    else if l[e - 1] == '`' then
      match ClosingQuote(l, e)
      case Some(j) => Some(l[e..j])
      case None => LastQuoted(l, k, e - 1)
    else LastQuoted(l, k, e - 1)
  }

  /** "ERROR.*`([^`]+)`": the match starts at the first `ERROR`, and captures the last quoted name after it. */
  function ErrorCapture(l: string): (r: Option<string>)
    ensures r.Some? ==> r.value != [] && '`' !in r.value
  {
    match FindStr(l, "ERROR")
    case None => None
    case Some(i) => LastQuoted(l, i + 5, |l|)
  }

  // ------------------------------------------------------------ one line

  /** The first entry with the given name: `tables.iter_mut().find(|t| t.name == name)`. */
  function FirstNamed(tables: seq<TableProgress>, name: string): (r: Option<nat>)
    ensures r.Some? ==> r.value < |tables| && tables[r.value].name == name
    ensures r.Some? ==> forall j :: 0 <= j < r.value ==> tables[j].name != name
    ensures r.None? ==> forall j :: 0 <= j < |tables| ==> tables[j].name != name
  {
    if tables == [] then None
    else if tables[0].name == name then Some(0)
    else match FirstNamed(tables[1..], name)
      case None => None
      case Some(j) => Some(j + 1)
  }

  /** The entry update a single log event makes. */
  datatype Event = SchemaEvent(at: int) | DataEvent(pct: nat, at: int) | CompletedEvent(at: int) | ErrorEvent

  function Apply(e: TableProgress, ev: Event): TableProgress {
    match ev
    case SchemaEvent(t) => e.(status := InProgress, startedAt := Some(t))
    case DataEvent(pct, t) =>
      e.(status := InProgress, percent := Some(pct), startedAt := if e.startedAt.None? then Some(t) else e.startedAt)
    case CompletedEvent(t) => e.(status := Completed, percent := Some(100), completedAt := Some(t))
    case ErrorEvent => e.(status := Error, errorMessage := Some(ERROR_DURING_BACKUP))
  }

  /** Apply an event to the first entry named `name`; nothing happens when there is none. */
  function UpdateFirst(tables: seq<TableProgress>, name: string, ev: Event): (r: seq<TableProgress>)
    ensures |r| == |tables|
  {
    match FirstNamed(tables, name)
    case None => tables
    case Some(i) => tables[i := Apply(tables[i], ev)]
  }

  /** The percentage of a data match: `parse::<u32>().unwrap_or(0)`. */
  function Percent(digits: string): nat {
    ParseU32(digits).UnwrapOr(0)
  }

  /** What the four patterns find in one line. */
  datatype LineMatches = LineMatches(schema: Option<Capture>, data: Option<Capture>, completed: Option<Capture>, error: Option<string>)

  function Matches(l: string): LineMatches {
    LineMatches(SchemaCapture(l), DataCapture(l), CompletedCapture(l), ErrorCapture(l))
  }

  /** One check of a line: the event goes to the first entry with the captured name, if any. */
  function Step(tables: seq<TableProgress>, name: Option<string>, ev: Event): (r: seq<TableProgress>)
    ensures |r| == |tables|
  {
    if name.Some? then UpdateFirst(tables, name.value, ev) else tables
  }

  function NameOf(c: Option<Capture>): (r: Option<string>)
    ensures forall n :: r == Some(n) <==> c.Some? && c.value.table == n
  {
    if c.Some? then Some(c.value.table) else None
  }

  /** The percentage a data match reports (0 when there is none; it is then unused). */
  function PercentOf(c: Option<Capture>): nat {
    if c.Some? then Percent(c.value.digits) else 0
  }

  /**
   * The four checks of one line, in the order the tracker makes them:
   * "dumping schema for `t`" starts `t`, "`t` [P%]" puts it at P percent,
   * "`t` [100%]" completes it and "ERROR ... `t`" marks it failed.
   */
  function ApplyMatches(tables: seq<TableProgress>, m: LineMatches, now: int): (r: seq<TableProgress>)
    ensures |r| == |tables|
  {
    Step(Step(Step(Step(tables, NameOf(m.schema), SchemaEvent(now)),
                   NameOf(m.data), DataEvent(PercentOf(m.data), now)),
              NameOf(m.completed), CompletedEvent(now)),
         m.error, ErrorEvent)
  }

  function ApplyLine(tables: seq<TableProgress>, l: string, now: int): (r: seq<TableProgress>)
    ensures |r| == |tables|
  {
    ApplyMatches(tables, Matches(l), now)
  }

  /** All entries pending, one per manifest name, in manifest order. */
  function Initial(names: seq<string>): (r: seq<TableProgress>)
    ensures |r| == |names|
    ensures forall i :: 0 <= i < |names| ==> r[i] == PendingEntry(names[i])
  {
    seq(|names|, i requires 0 <= i < |names| => PendingEntry(names[i]))
  }

  /** The lines folded in order; line `k` is processed at instant `clock(k)`. */
  function FoldLines(tables: seq<TableProgress>, ls: seq<string>, clock: nat -> int): (r: seq<TableProgress>)
    ensures |r| == |tables|
    decreases |ls|
  {
    if ls == [] then tables
    else ApplyLine(FoldLines(tables, ls[..|ls| - 1], clock), ls[|ls| - 1], clock(|ls| - 1))
  }

  /** What `parse_table_progress` returns. */
  function TableProgressOf(log: string, names: seq<string>, clock: nat -> int): seq<TableProgress> {
    FoldLines(Initial(names), Lines(log), clock)
  }

  lemma InitialSnoc(names: seq<string>, i: nat)
    requires i < |names|
    ensures Initial(names[..i + 1]) == Initial(names[..i]) + [PendingEntry(names[i])]
  {
  }

  lemma FoldLinesSnoc(tables: seq<TableProgress>, ls: seq<string>, k: nat, clock: nat -> int)
    requires k < |ls|
    ensures FoldLines(tables, ls[..k + 1], clock) == ApplyLine(FoldLines(tables, ls[..k], clock), ls[k], clock(k))
  {
    assert ls[..k + 1][..k] == ls[..k];
  }

  /** `parse_table_progress`: initialise every manifest table as pending, then walk the log line by line. */
  method ParseTableProgress(log: string, names: seq<string>, clock: nat -> int) returns (tables: seq<TableProgress>)
    ensures tables == TableProgressOf(log, names, clock)
  {
    tables := [];
    var i := 0;
    while i < |names|
      invariant 0 <= i <= |names|
      invariant tables == Initial(names[..i])
    {
      InitialSnoc(names, i);
      tables := tables + [PendingEntry(names[i])];
      i := i + 1;
    }
    assert names[..|names|] == names;
    var lines := Lines(log);
    var k := 0;
    while k < |lines|
      invariant 0 <= k <= |lines|
      invariant tables == FoldLines(Initial(names), lines[..k], clock)
    {
      FoldLinesSnoc(Initial(names), lines, k, clock);
      tables := ScanLine(tables, lines[k], clock(k));
      k := k + 1;
    }
    assert lines[..|lines|] == lines;
  }

  /** The body of the line loop: the four checks, each updating the first entry it names in place. */
  method ScanLine(tables0: seq<TableProgress>, line: string, now: int) returns (tables: seq<TableProgress>)
    ensures tables == ApplyLine(tables0, line, now)
  {
    tables := CheckSchema(tables0, line, now);
    tables := CheckData(tables, line, now);
    tables := CheckCompleted(tables, line, now);
    tables := CheckError(tables, line);
  }

  method CheckSchema(tables0: seq<TableProgress>, line: string, now: int) returns (tables: seq<TableProgress>)
    ensures tables == Step(tables0, NameOf(SchemaCapture(line)), SchemaEvent(now))
  {
    tables := tables0;
    var schema := SchemaCapture(line);
    if schema.Some? {
      var found := FirstNamed(tables, schema.value.table);
      if found.Some? {
        tables := tables[found.value := tables[found.value].(status := InProgress, startedAt := Some(now))];
      }
    }
  }

  method CheckData(tables0: seq<TableProgress>, line: string, now: int) returns (tables: seq<TableProgress>)
    ensures tables == Step(tables0, NameOf(DataCapture(line)), DataEvent(PercentOf(DataCapture(line)), now))
  {
    tables := tables0;
    var data := DataCapture(line);
    if data.Some? {
      var progress := ParseU32(data.value.digits).UnwrapOr(0);
      var found := FirstNamed(tables, data.value.table);
      if found.Some? {
        var e := tables[found.value];
        e := e.(status := InProgress, percent := Some(progress));
        if e.startedAt.None? {
          e := e.(startedAt := Some(now));
        }
        tables := tables[found.value := e];
      }
    }
  }

  method CheckCompleted(tables0: seq<TableProgress>, line: string, now: int) returns (tables: seq<TableProgress>)
    ensures tables == Step(tables0, NameOf(CompletedCapture(line)), CompletedEvent(now))
  {
    tables := tables0;
    var completed := CompletedCapture(line);
    if completed.Some? {
      var found := FirstNamed(tables, completed.value.table);
      if found.Some? {
        tables := tables[found.value := tables[found.value].(status := Completed, percent := Some(100), completedAt := Some(now))];
      }
    }
  }

  method CheckError(tables0: seq<TableProgress>, line: string) returns (tables: seq<TableProgress>)
    ensures tables == Step(tables0, ErrorCapture(line), ErrorEvent)
  {
    tables := tables0;
    var error := ErrorCapture(line);
    if error.Some? {
      var found := FirstNamed(tables, error.value);
      if found.Some? {
        tables := tables[found.value := tables[found.value].(status := Error, errorMessage := Some(ERROR_DURING_BACKUP))];
      }
    }
  }

  // ------------------------------------------------------------ properties of the fold

  /** A line mentions a table when one of the four patterns captures its name. */
  predicate Mentions(m: LineMatches, name: string) {
    NameOf(m.schema) == Some(name) || NameOf(m.data) == Some(name) || NameOf(m.completed) == Some(name) || m.error == Some(name)
  }

  /** An event applied to an entry only when it is about that entry's name. */
  function EffectOn(e: TableProgress, name: Option<string>, ev: Event): (r: TableProgress)
    ensures r.name == e.name
  {
    if name == Some(e.name) then Apply(e, ev) else e
  }

  /** What one line does to the entry it updates (the first entry of its name). */
  function LineEffect(e: TableProgress, m: LineMatches, now: int): (r: TableProgress)
    ensures r.name == e.name
  {
    EffectOn(EffectOn(EffectOn(EffectOn(e, NameOf(m.schema), SchemaEvent(now)),
                               NameOf(m.data), DataEvent(PercentOf(m.data), now)),
                      NameOf(m.completed), CompletedEvent(now)),
             m.error, ErrorEvent)
  }

  /** The status a line leaves its table in: the error check runs last, then completed, then data and schema. */
  function Verdict(m: LineMatches, name: string): TableStatus
    requires Mentions(m, name)
  {
    if m.error == Some(name) then Error
    else if NameOf(m.completed) == Some(name) then Completed
    else InProgress
  }

  /** A line that does not mention a table leaves its entry alone; one that does decides its status. */
  lemma LineEffectVerdict(e: TableProgress, m: LineMatches, now: int)
    ensures !Mentions(m, e.name) ==> LineEffect(e, m, now) == e
    ensures Mentions(m, e.name) ==> LineEffect(e, m, now).status == Verdict(m, e.name)
    ensures m.error == Some(e.name) ==> LineEffect(e, m, now).errorMessage == Some(ERROR_DURING_BACKUP)
    ensures NameOf(m.completed) == Some(e.name) && m.error != Some(e.name)
            ==> LineEffect(e, m, now).percent == Some(100) && LineEffect(e, m, now).completedAt == Some(now)
  {
  }

  predicate SameNames(a: seq<TableProgress>, b: seq<TableProgress>) {
    |a| == |b| && forall j :: 0 <= j < |a| ==> a[j].name == b[j].name
  }

  lemma {:induction false} FirstNamedSameNames(a: seq<TableProgress>, b: seq<TableProgress>, name: string)
    requires SameNames(a, b)
    ensures FirstNamed(a, name) == FirstNamed(b, name)
  {
    if a != [] {
      assert SameNames(a[1..], b[1..]) by {
        forall j | 0 <= j < |a[1..]| ensures a[1..][j].name == b[1..][j].name {
          assert a[j + 1].name == b[j + 1].name;
        }
      }
      FirstNamedSameNames(a[1..], b[1..], name);
    }
  }

  /** An update touches only the first entry with its name, and renames nothing. */
  lemma UpdateFirstAt(tables: seq<TableProgress>, name: string, ev: Event, i: nat)
    requires i < |tables|
    ensures SameNames(tables, UpdateFirst(tables, name, ev))
    ensures UpdateFirst(tables, name, ev)[i]
            == if name == tables[i].name && FirstNamed(tables, name) == Some(i) then Apply(tables[i], ev) else tables[i]
  {
  }

  /** One check, seen from entry `i`: it changes at most the first entry of the captured name. */
  lemma StepAt(tables: seq<TableProgress>, name: Option<string>, ev: Event, i: nat)
    requires i < |tables|
    ensures SameNames(tables, Step(tables, name, ev))
    ensures Step(tables, name, ev)[i]
            == if FirstNamed(tables, tables[i].name) == Some(i) then EffectOn(tables[i], name, ev) else tables[i]
  {
    if name.Some? {
      UpdateFirstAt(tables, name.value, ev, i);
    }
  }

  /** One line, seen from entry `i`: the first entry of a name gets `LineEffect`, every other entry is untouched. */
  lemma ApplyMatchesAt(tables: seq<TableProgress>, m: LineMatches, now: int, i: nat)
    requires i < |tables|
    ensures SameNames(tables, ApplyMatches(tables, m, now))
    ensures ApplyMatches(tables, m, now)[i]
            == if FirstNamed(tables, tables[i].name) == Some(i) then LineEffect(tables[i], m, now) else tables[i]
  {
    var n := tables[i].name;
    var t1 := Step(tables, NameOf(m.schema), SchemaEvent(now));
    StepAt(tables, NameOf(m.schema), SchemaEvent(now), i);
    FirstNamedSameNames(tables, t1, n);
    var t2 := Step(t1, NameOf(m.data), DataEvent(PercentOf(m.data), now));
    StepAt(t1, NameOf(m.data), DataEvent(PercentOf(m.data), now), i);
    FirstNamedSameNames(t1, t2, n);
    var t3 := Step(t2, NameOf(m.completed), CompletedEvent(now));
    StepAt(t2, NameOf(m.completed), CompletedEvent(now), i);
    FirstNamedSameNames(t2, t3, n);
    StepAt(t3, m.error, ErrorEvent, i);
  }

  /** What the patterns find in each line, line by line. */
  function MatchesOf(ls: seq<string>): (r: seq<LineMatches>)
    ensures |r| == |ls|
    decreases |ls|
  {
    if ls == [] then [] else MatchesOf(ls[..|ls| - 1]) + [Matches(ls[|ls| - 1])]
  }

  lemma {:induction false} MatchesOfAt(ls: seq<string>, k: nat)
    requires k < |ls|
    ensures MatchesOf(ls)[k] == Matches(ls[k])
    decreases |ls|
  {
    if k < |ls| - 1 {
      MatchesOfAt(ls[..|ls| - 1], k);
    }
  }

  /** The lines' matches folded over one entry alone; line `k` is processed at `clock(k)`. */
  function EntryFold(e: TableProgress, ms: seq<LineMatches>, clock: nat -> int): (r: TableProgress)
    ensures r.name == e.name
    decreases |ms|
  {
    if ms == [] then e
    else LineEffect(EntryFold(e, ms[..|ms| - 1], clock), ms[|ms| - 1], clock(|ms| - 1))
  }

  /**
   * The whole fold, seen from entry `i`: names never change, the first entry
   * of each name evolves by the lines alone, and every later entry with the
   * same name is never touched.
   */
  lemma {:induction false} FoldLinesAt(tables: seq<TableProgress>, ls: seq<string>, clock: nat -> int, i: nat)
    requires i < |tables|
    ensures SameNames(tables, FoldLines(tables, ls, clock))
    ensures FoldLines(tables, ls, clock)[i]
            == if FirstNamed(tables, tables[i].name) == Some(i) then EntryFold(tables[i], MatchesOf(ls), clock) else tables[i]
    decreases |ls|
  {
    if ls != [] {
      var init := ls[..|ls| - 1];
      var prev := FoldLines(tables, init, clock);
      FoldLinesAt(tables, init, clock, i);
      FirstNamedSameNames(tables, prev, tables[i].name);
      ApplyMatchesAt(prev, Matches(ls[|ls| - 1]), clock(|ls| - 1), i);
      assert MatchesOf(ls)[..|ls| - 1] == MatchesOf(init);
      forall j | 0 <= j < |tables| ensures FoldLines(tables, ls, clock)[j].name == tables[j].name {
        FoldLinesAt(tables, init, clock, j);
        ApplyMatchesAt(prev, Matches(ls[|ls| - 1]), clock(|ls| - 1), j);
      }
    }
  }

  /**
   * `parse_table_progress` returns one entry per manifest name, in manifest
   * order; log lines about tables outside the manifest add and remove nothing.
   */
  lemma TableProgressShape(log: string, names: seq<string>, clock: nat -> int)
    ensures |TableProgressOf(log, names, clock)| == |names|
    ensures forall i :: 0 <= i < |names| ==> TableProgressOf(log, names, clock)[i].name == names[i]
  {
    if names != [] {
      FoldLinesAt(Initial(names), Lines(log), clock, 0);
    }
  }

  /** Lines that never mention an entry's name leave the entry as it was. */
  lemma {:induction false} EntryFoldUnmentioned(e: TableProgress, ms: seq<LineMatches>, clock: nat -> int)
    requires forall k :: 0 <= k < |ms| ==> !Mentions(ms[k], e.name)
    ensures EntryFold(e, ms, clock) == e
    decreases |ms|
  {
    if ms != [] {
      EntryFoldUnmentioned(e, ms[..|ms| - 1], clock);
      LineEffectVerdict(e, ms[|ms| - 1], clock(|ms| - 1));
    }
  }

  /** What the patterns find in each line of a log. */
  function LogMatches(log: string): (r: seq<LineMatches>)
    ensures |r| == |Lines(log)|
  {
    MatchesOf(Lines(log))
  }

  /**
   * A manifest table that no line mentions stays pending, with no percentage,
   * start, completion or error; so does every repeat of a name after its first
   * occurrence in the manifest.
   */
  lemma UnmentionedStaysPending(log: string, names: seq<string>, clock: nat -> int, i: nat)
    requires i < |names|
    requires (exists j :: 0 <= j < i && names[j] == names[i])
             || forall k :: 0 <= k < |LogMatches(log)| ==> !Mentions(LogMatches(log)[k], names[i])
    ensures TableProgressOf(log, names, clock)[i] == PendingEntry(names[i])
  {
    var init := Initial(names);
    FoldLinesAt(init, Lines(log), clock, i);
    if exists j :: 0 <= j < i && names[j] == names[i] {
      var j :| 0 <= j < i && names[j] == names[i];
      assert init[j].name == init[i].name;
    } else {
      EntryFoldUnmentioned(init[i], LogMatches(log), clock);
    }
  }

  /** Over a single entry, the last line that mentions it decides its status. */
  lemma {:induction false} EntryFoldLastMention(e: TableProgress, ms: seq<LineMatches>, clock: nat -> int, k: nat)
    requires k < |ms| && Mentions(ms[k], e.name)
    requires forall k' :: k < k' < |ms| ==> !Mentions(ms[k'], e.name)
    ensures EntryFold(e, ms, clock).status == Verdict(ms[k], e.name)
    decreases |ms|
  {
    var last := |ms| - 1;
    var prev := EntryFold(e, ms[..last], clock);
    LineEffectVerdict(prev, ms[last], clock(last));
    if k < last {
      assert forall k' :: k < k' < |ms[..last]| ==> ms[..last][k'] == ms[k'];
      EntryFoldLastMention(e, ms[..last], clock, k);
    }
  }

  /**
   * The last line that mentions a table decides its final status: lines
   * before it do not matter, so a table can go back from Completed to
   * InProgress.
   */
  lemma LastMentionDecides(log: string, names: seq<string>, clock: nat -> int, i: nat, k: nat)
    requires i < |names| && forall j :: 0 <= j < i ==> names[j] != names[i]
    requires k < |LogMatches(log)| && Mentions(LogMatches(log)[k], names[i])
    requires forall k' :: k < k' < |LogMatches(log)| ==> !Mentions(LogMatches(log)[k'], names[i])
    ensures TableProgressOf(log, names, clock)[i].status == Verdict(LogMatches(log)[k], names[i])
  {
    var init := Initial(names);
    FoldLinesAt(init, Lines(log), clock, i);
    assert FirstNamed(init, names[i]) == Some(i) by {
      assert init[i].name == names[i];
      assert forall j :: 0 <= j < i ==> init[j].name != names[i];
    }
    EntryFoldLastMention(init[i], LogMatches(log), clock, k);
  }

  // ------------------------------------------------------------ the summary

  /** How many entries have status `st`. */
  function CountStatus(tables: seq<TableProgress>, st: TableStatus): (n: nat)
    ensures n <= |tables|
  {
    if tables == [] then 0 else (if tables[0].status == st then 1 else 0) + CountStatus(tables[1..], st)
  }

  /** No entry is counted exactly when none has the status, and all are exactly when every one has it. */
  lemma {:induction false} CountStatusExtremes(tables: seq<TableProgress>, st: TableStatus)
    ensures CountStatus(tables, st) == 0 <==> forall i :: 0 <= i < |tables| ==> tables[i].status != st
    ensures CountStatus(tables, st) == |tables| <==> forall i :: 0 <= i < |tables| ==> tables[i].status == st
  {
    if tables != [] {
      CountStatusExtremes(tables[1..], st);
      assert forall i :: 1 <= i < |tables| ==> tables[i] == tables[1..][i - 1];
    }
  }

  /** Every entry has exactly one of the five statuses. */
  lemma {:induction false} CountsPartition(tables: seq<TableProgress>)
    ensures CountStatus(tables, Completed) + CountStatus(tables, InProgress) + CountStatus(tables, Pending)
            + CountStatus(tables, Skipped) + CountStatus(tables, Error) == |tables|
  {
    if tables != [] {
      CountsPartition(tables[1..]);
    }
  }

  /** `(completed + skipped) / total * 100` rounded down, or 0 for an empty manifest. */
  function OverallPercent(done: nat, total: nat): (p: nat)
    requires done <= total
    ensures p <= 100
    ensures total > 0 ==> p * total <= done * 100 < (p + 1) * total
    ensures total == 0 ==> p == 0
  {
    if total > 0 then done * 100 / total else 0
  }

  function SkippedEntry(name: string, now: int): TableProgress {
    TableProgress(name, Skipped, None, None, Some(now), Some(EXCLUDED_MESSAGE))
  }

  /** The summary of a finished list of entries. */
  function Summarize(jobId: string, tables: seq<TableProgress>, meta: RdumperMeta, startedAt: int, now: int): (d: DetailedProgress)
    ensures d.totalTables == |tables| && d.tables == tables
    ensures d.completedTables == CountStatus(tables, Completed) && d.inProgressTables == CountStatus(tables, InProgress)
    ensures d.pendingTables == CountStatus(tables, Pending) && d.skippedTables == CountStatus(tables, Skipped)
    ensures d.errorTables == CountStatus(tables, Error)
    ensures d.completedTables + d.inProgressTables + d.pendingTables + d.skippedTables + d.errorTables == d.totalTables
    ensures d.completedTables + d.skippedTables <= d.totalTables
    ensures d.overallProgress == OverallPercent(d.completedTables + d.skippedTables, d.totalTables)
    ensures d.overallProgress <= 100
    ensures d.excludedTables == meta.excludedTables && d.databaseName == meta.databaseName
    ensures d.startedAt == startedAt && d.lastUpdated == now && d.jobId == jobId
  {
    CountsPartition(tables);
    var c, s := CountStatus(tables, Completed), CountStatus(tables, Skipped);
    DetailedProgress(jobId, OverallPercent(c + s, |tables|), |tables|, c, CountStatus(tables, InProgress),
                     CountStatus(tables, Pending), s, CountStatus(tables, Error), tables,
                     meta.excludedTables, meta.databaseName, startedAt, now)
  }

  /**
   * `load_detailed_progress`. The two file reads (with the manifest's JSON
   * decoding) are inputs that either hold the content or the error that stops
   * the call; `parseTime` is chrono's RFC 3339 parser; `clock` gives the instant
   * of each log line and `now` the instant of the call.
   */
  method LoadDetailedProgress(jobId: string, meta: Result<RdumperMeta, string>, log: Result<string, string>,
                              parseTime: string -> Option<int>, clock: nat -> int, now: int)
    returns (r: Result<DetailedProgress, string>)
    ensures meta.Err? ==> r == Err(meta.error)
    ensures meta.Ok? && log.Err? ==> r == Err(log.error)
    ensures meta.Ok? && log.Ok? ==> r.Ok?
    ensures r.Ok? ==> (r.value.tables == TableProgressOf(log.value, meta.value.tables, clock)
                         + seq(|meta.value.excludedTables|, i requires 0 <= i < |meta.value.excludedTables| => SkippedEntry(meta.value.excludedTables[i], now)))
    ensures r.Ok? ==> r.value == Summarize(jobId, r.value.tables, meta.value, parseTime(meta.value.startedAt).UnwrapOr(now), now)
  {
    if meta.Err? {
      return Err(meta.error);
    }
    if log.Err? {
      return Err(log.error);
    }
    var m := meta.value;
    var tables := ParseTableProgress(log.value, m.tables, clock);
    ghost var parsed := tables;
    var i := 0;
    while i < |m.excludedTables|
      invariant 0 <= i <= |m.excludedTables|
      invariant tables == parsed + seq(i, j requires 0 <= j < i => SkippedEntry(m.excludedTables[j], now))
    {
      tables := tables + [SkippedEntry(m.excludedTables[i], now)];
      i := i + 1;
    }
    var startedAt := parseTime(m.startedAt).UnwrapOr(now);
    r := Ok(Summarize(jobId, tables, m, startedAt, now));
  }

  /** Every excluded table is reported as skipped, and the counts add up to the manifest plus the excluded list. */
  lemma LoadedCounts(log: string, meta: RdumperMeta, clock: nat -> int, now: int, d: DetailedProgress)
    requires d.tables == TableProgressOf(log, meta.tables, clock)
               + seq(|meta.excludedTables|, i requires 0 <= i < |meta.excludedTables| => SkippedEntry(meta.excludedTables[i], now))
    requires d.totalTables == |d.tables|
    ensures d.totalTables == |meta.tables| + |meta.excludedTables|
    ensures forall i :: 0 <= i < |meta.excludedTables| ==>
              d.tables[|meta.tables| + i].status == Skipped && d.tables[|meta.tables| + i].name == meta.excludedTables[i]
  {
    TableProgressShape(log, meta.tables, clock);
    SkippedAfter(TableProgressOf(log, meta.tables, clock), meta.excludedTables, now, d.tables);
  }

  /** Entries followed by one skipped entry per excluded name: each name's entry sits after the others. */
  lemma SkippedAfter(a: seq<TableProgress>, names: seq<string>, now: int, tables: seq<TableProgress>)
    requires tables == a + seq(|names|, i requires 0 <= i < |names| => SkippedEntry(names[i], now))
    ensures |tables| == |a| + |names|
    ensures forall i :: 0 <= i < |names| ==> tables[|a| + i].status == Skipped && tables[|a| + i].name == names[i]
  {
    var b := seq(|names|, i requires 0 <= i < |names| => SkippedEntry(names[i], now));
    forall i | 0 <= i < |names|
      ensures tables[|a| + i].status == Skipped && tables[|a| + i].name == names[i]
    {
      assert tables[|a| + i] == b[i];
    }
  }

  /** A concrete log of two lines: a table that reached 100% and was then reported at 5% ends InProgress, not Completed. */
  lemma NotMonotone(clock: nat -> int)
    ensures TableProgressOf(Terminated(["`t` [100%]", "`t` [5%]"]), ["t"], clock)[0].status == InProgress
  {
    var l0, l1 := "`t` [100%]", "`t` [5%]";
    assert '\n' !in l0 && '\n' !in l1;
    assert l0[|l0| - 1] != '\r' && l1[|l1| - 1] != '\r';
    LinesOfTerminated([l0, l1]);
    FivePercentMatches();
    MatchesOfAt([l0, l1], 1);
    LastMentionDecides(Terminated([l0, l1]), ["t"], clock, 0, 1);
  }

  /** In "`t` [5%]" only the data pattern matches, capturing `t` at 5%. */
  lemma FivePercentMatches()
    ensures Matches("`t` [5%]") == LineMatches(None, Some(Capture("t", "5")), None, None)
  {
    var l := "`t` [5%]";
    FivePercentData(l);
    FivePercentNotCompleted(l);
    FivePercentNoSchema(l);
    FivePercentNoError(l);
  }

  lemma FivePercentNoError(l: string)
    requires l == "`t` [5%]"
    ensures ErrorCapture(l) == None
  {
    assert 'E' !in l;
    forall i | 0 <= i <= |l| ensures !MatchAt(l, "ERROR", i) {
      if i < |l| {
        assert l[i..][0] == l[i];
      }
    }
  }

  lemma FivePercentQuote(l: string)
    requires l == "`t` [5%]"
    ensures ClosingQuote(l, 1) == Some(2)
  {
    assert l[1..][0] != '`' && l[1..][1] == '`';
    assert FindChar(l[1..], '`') == Some(1);
  }

  lemma FivePercentData(l: string)
    requires l == "`t` [5%]"
    ensures DataCapture(l) == Some(Capture("t", "5"))
  {
    FivePercentQuote(l);
    FivePercentDigits(l);
    FivePercentMarks(l);
    assert MatchFrom(DataPattern, l, 0) == Some(Capture("t", "5"));
  }

  lemma FivePercentDigits(l: string)
    requires l == "`t` [5%]"
    ensures DigitRun(l, 5) == 1
  {
    BelowArabicIndic('%');
    assert DigitRun(l, 6) == 0;
  }

  /** A character below U+0660 is a decimal digit only when it is an ASCII one. */
  lemma BelowArabicIndic(c: char)
    requires c as int < 0x0660 && !IsDigit(c)
    ensures !IsDecimalDigit(c)
  {
  }

  /**
   * "`t` [٥%]", with U+0665 ARABIC-INDIC DIGIT FIVE: the data pattern's
   * `\d` matches the digit, but `parse::<u32>` accepts only ASCII digits,
   * so the percentage reads as 0.
   */
  lemma ArabicIndicDigitReadsAsZero()
    ensures DataCapture("`t` [\U{0665}%]") == Some(Capture("t", "\U{0665}"))
    ensures PercentOf(DataCapture("`t` [\U{0665}%]")) == 0
  {
    var l := "`t` [\U{0665}%]";
    ArabicIndicQuote(l);
    ArabicIndicDigits(l);
    ArabicIndicMarks(l);
    assert MatchFrom(DataPattern, l, 0) == Some(Capture("t", "\U{0665}"));
    ArabicIndicNoNumber();
  }

  lemma ArabicIndicQuote(l: string)
    requires l == "`t` [\U{0665}%]"
    ensures ClosingQuote(l, 1) == Some(2)
  {
    assert l[1..][0] != '`' && l[1..][1] == '`';
    assert FindChar(l[1..], '`') == Some(1);
  }

  lemma ArabicIndicDigits(l: string)
    requires l == "`t` [\U{0665}%]"
    ensures DigitRun(l, 5) == 1
  {
    assert InDigitRun(l[5] as int);
    BelowArabicIndic('%');
    assert DigitRun(l, 6) == 0;
  }

  lemma ArabicIndicMarks(l: string)
    requires l == "`t` [\U{0665}%]"
    ensures MatchAt(l, "` [", 2) && MatchAt(l, "%]", 6)
    ensures l[1..2] == "t" && l[5..6] == "\U{0665}"
  {
  }

  lemma ArabicIndicNoNumber()
    ensures ParseU32("\U{0665}").None?
  {
    assert !IsDigit("\U{0665}"[0]);
  }


  lemma FivePercentMarks(l: string)
    requires l == "`t` [5%]"
    ensures MatchAt(l, "` [", 2) && MatchAt(l, "%]", 6)
    ensures l[1..2] == "t" && l[5..6] == "5"
  {
  }

  lemma FivePercentNotCompleted(l: string)
    requires l == "`t` [5%]"
    ensures CompletedCapture(l) == None
  {
    forall i | 0 <= i <= |l| ensures MatchFrom(CompletedPattern, l, i).None? {
      if i == 0 {
        FivePercentQuote(l);
        assert !MatchAt(l, "` [100%]", 2);
      } else if i == 2 {
        assert '`' !in l[3..];
        assert ClosingQuote(l, 3).None?;
      }
    }
    LeftmostNone(CompletedPattern, l, 0);
  }

  lemma FivePercentNoSchema(l: string)
    requires l == "`t` [5%]"
    ensures SchemaCapture(l) == None
  {
    forall i | 0 <= i <= |l| ensures MatchFrom(SchemaPattern, l, i).None? {
      assert !MatchAt(l, SCHEMA_PREFIX, i);
    }
    LeftmostNone(SchemaPattern, l, 0);
  }

  lemma {:induction false} LeftmostNone(p: Pattern, l: string, i: nat)
    requires i <= |l|
    requires forall k :: i <= k <= |l| ==> MatchFrom(p, l, k).None?
    ensures Leftmost(p, l, i).None?
    decreases |l| - i
  {
    if i < |l| {
      LeftmostNone(p, l, i + 1);
    }
  }
}

=== FILE: store.dfy ===
/**
 * The SQLite store, as the tables the services and handlers read and write:
 * jobs, tasks, database configurations and backups, each keyed by its `id`
 * primary key. A statement's `WHERE id = ?` that matches no row changes
 * nothing; an `INSERT` of an id already present fails on the primary key.
 */
module Store {
  import opened Wrappers
  import opened Tasks
  import opened Jobs
  import opened DbConfigs
  import opened Backups

  /** One job status written by `update_job_status`, in the order written. */
  datatype StatusWrite = StatusWrite(jobId: string, status: string)

  /** What SQLite reports for an `INSERT` whose job id is taken. */
  const DUPLICATE_JOB_ID: string := "UNIQUE constraint failed: jobs.id"

  class Db {
    var jobs: map<string, Job>
    var tasks: map<string, Task>
    var configs: map<string, DatabaseConfig>
    var backups: map<string, Backup>
    /** Every status `update_job_status` has written so far. */
    ghost var statusLog: seq<StatusWrite>

    constructor(jobs0: map<string, Job>, tasks0: map<string, Task>,
                configs0: map<string, DatabaseConfig>, backups0: map<string, Backup>)
      ensures jobs == jobs0 && tasks == tasks0 && configs == configs0 && backups == backups0
      ensures statusLog == []
    {
      jobs, tasks, configs, backups := jobs0, tasks0, configs0, backups0;
      statusLog := [];
    }

    /** `INSERT INTO jobs`: the row is added under its id unless that id is taken. */
    method InsertJob(j: Job) returns (r: Result<(), string>)
      modifies this
      ensures r.Err? <==> j.id in old(jobs)
      ensures r.Err? ==> r.error == DUPLICATE_JOB_ID
      ensures r.Ok? ==> jobs == old(jobs)[j.id := j]
      ensures r.Err? ==> jobs == old(jobs)
      ensures tasks == old(tasks) && configs == old(configs) && backups == old(backups)
      ensures statusLog == old(statusLog)
    {
      if j.id in jobs {
        r := Err(DUPLICATE_JOB_ID);
      } else {
        jobs := jobs[j.id := j];
        r := Ok(());
      }
    }

    /** `UPDATE jobs ... WHERE id = ?` with the row's new value; no row, no change. */
    method PutJob(id: string, j: Job)
      modifies this
      ensures jobs == if id in old(jobs) then old(jobs)[id := j] else old(jobs)
      ensures tasks == old(tasks) && configs == old(configs) && backups == old(backups)
      ensures statusLog == old(statusLog)
    {
      if id in jobs {
        jobs := jobs[id := j];
      }
    }

    /** `DELETE FROM jobs WHERE id = ?`; no row, no change. */
    method DeleteJob(id: string)
      modifies this
      ensures jobs == old(jobs) - {id}
      ensures tasks == old(tasks) && configs == old(configs) && backups == old(backups)
      ensures statusLog == old(statusLog)
    {
      jobs := jobs - {id};
    }

    /** `DELETE FROM backups WHERE id = ?`; no row, no change. */
    method DeleteBackup(id: string)
      modifies this
      ensures backups == old(backups) - {id}
      ensures jobs == old(jobs) && tasks == old(tasks) && configs == old(configs)
      ensures statusLog == old(statusLog)
    {
      backups := backups - {id};
    }

    /** `UPDATE tasks ... WHERE id = ?` with the row's new value; no row, no change. */
    method PutTask(id: string, t: Task)
      modifies this
      ensures tasks == if id in old(tasks) then old(tasks)[id := t] else old(tasks)
      ensures jobs == old(jobs) && configs == old(configs) && backups == old(backups)
      ensures statusLog == old(statusLog)
    {
      if id in tasks {
        tasks := tasks[id := t];
      }
    }
  }
}

=== FILE: task.dfy ===
/**
 * Scheduled backup tasks: the compression setting, the task record and its
 * in-place updates, and the small cron evaluator that computes a task's next
 * run. Instants are Unix seconds in UTC; `now` is the instant `Utc::now()`
 * returns to the operation.
 */
module Tasks {
  import opened Wrappers
  import opened Text
  import opened Clock

  // ------------------------------------------------------------ compression

  /** The archive compression of a task (Rust's `None` variant is `NoCompression` here). */
  datatype CompressionType = NoCompression | Gzip | Zstd

  /** The `Default` compression. */
  const DEFAULT_COMPRESSION: CompressionType := Gzip

  /** `Display`: the lower-case names the tasks table stores. */
  function CompressionName(c: CompressionType): string {
    match c
    case NoCompression => "none"
    case Gzip => "gzip"
    case Zstd => "zstd"
  }

  /** `FromStr`: the three names, ignoring case; anything else is an error naming the input. */
  function ParseCompression(s: string): (r: Result<CompressionType, string>)
    ensures r.Err? ==> r.error == "Invalid compression type: " + s
  {
    var l := ToLower(s);
    if l == "none" then Ok(NoCompression)
    else if l == "gzip" then Ok(Gzip)
    else if l == "zstd" then Ok(Zstd)
    else Err("Invalid compression type: " + s)
  }

  /** A string parses to `c` exactly when its lower-case form is `c`'s name. */
  lemma ParseCompressionExact(s: string, c: CompressionType)
    ensures ParseCompression(s) == Ok(c) <==> ToLower(s) == CompressionName(c)
  {
  }

  /** Parsing what `Display` printed gives the compression back, in either case. */
  lemma CompressionRoundTrip(c: CompressionType)
    ensures ParseCompression(CompressionName(c)) == Ok(c)
    ensures ParseCompression(ToUpper(CompressionName(c))) == Ok(c)
  {
    var name := CompressionName(c);
    LowerOfUpper(name);
    ParseCompressionExact(name, c);
    ParseCompressionExact(ToUpper(name), c);
  }

  // ------------------------------------------------------------ the task record

  /**
   * A row of the tasks table. `databaseName` is the per-task database
   * override that the worker and the backup process read; the struct shown
   * lacks it, the table has the column.
   */
  datatype Task = Task(
    id: string,
    name: string,
    databaseConfigId: string,
    databaseName: Option<string>,
    cronSchedule: string,
    compressionType: string,
    cleanupDays: int,
    useNonTransactional: bool,
    isActive: bool,
    lastRun: Option<int>,
    nextRun: Option<int>,
    createdAt: int,
    updatedAt: int)

  datatype CreateTaskRequest = CreateTaskRequest(
    name: string,
    databaseConfigId: string,
    cronSchedule: string,
    compressionType: Option<CompressionType>,
    cleanupDays: Option<int>,
    useNonTransactional: Option<bool>)

  datatype UpdateTaskRequest = UpdateTaskRequest(
    name: Option<string>,
    cronSchedule: Option<string>,
    compressionType: Option<CompressionType>,
    cleanupDays: Option<int>,
    useNonTransactional: Option<bool>,
    isActive: Option<bool>)

  /** `Task::new`: `id` is the fresh uuid; defaults gzip, 30 days, transactional; active and never run. */
  function NewTask(req: CreateTaskRequest, id: string, now: int): (t: Task)
    ensures t.id == id && t.name == req.name && t.databaseConfigId == req.databaseConfigId
    ensures t.cronSchedule == req.cronSchedule && t.databaseName.None?
    ensures t.compressionType == CompressionName(req.compressionType.UnwrapOr(DEFAULT_COMPRESSION))
    ensures t.cleanupDays == req.cleanupDays.UnwrapOr(30)
    ensures t.useNonTransactional == req.useNonTransactional.UnwrapOr(false)
    ensures t.isActive && t.lastRun.None? && t.nextRun.None?
    ensures t.createdAt == now && t.updatedAt == now
  {
    Task(id, req.name, req.databaseConfigId, None, req.cronSchedule,
         CompressionName(req.compressionType.UnwrapOr(DEFAULT_COMPRESSION)),
         req.cleanupDays.UnwrapOr(30), req.useNonTransactional.UnwrapOr(false),
         true, None, None, now, now)
  }

  /** `Task::compression_type`. */
  function TaskCompression(t: Task): Result<CompressionType, string> {
    ParseCompression(t.compressionType)
  }

  /** A new task's stored compression always parses back to the requested one (gzip when none was given). */
  lemma NewTaskCompression(req: CreateTaskRequest, id: string, now: int)
    ensures TaskCompression(NewTask(req, id, now)) == Ok(req.compressionType.UnwrapOr(DEFAULT_COMPRESSION))
  {
    CompressionRoundTrip(req.compressionType.UnwrapOr(DEFAULT_COMPRESSION));
  }

  /**
   * `Task::update`: every field given in the request is overwritten,
   * `updated_at` becomes `now`, and nothing else changes.
   */
  function UpdateTask(t: Task, req: UpdateTaskRequest, now: int): (r: Task)
    ensures r.name == req.name.UnwrapOr(t.name)
    ensures r.cronSchedule == req.cronSchedule.UnwrapOr(t.cronSchedule)
    ensures r.compressionType == (if req.compressionType.Some? then CompressionName(req.compressionType.value) else t.compressionType)
    ensures r.cleanupDays == req.cleanupDays.UnwrapOr(t.cleanupDays)
    ensures r.useNonTransactional == req.useNonTransactional.UnwrapOr(t.useNonTransactional)
    ensures r.isActive == req.isActive.UnwrapOr(t.isActive)
    ensures r.updatedAt == now
    ensures r.id == t.id && r.databaseConfigId == t.databaseConfigId && r.databaseName == t.databaseName
    ensures r.createdAt == t.createdAt && r.lastRun == t.lastRun && r.nextRun == t.nextRun
  {
    t.(name := req.name.UnwrapOr(t.name),
       cronSchedule := req.cronSchedule.UnwrapOr(t.cronSchedule),
       compressionType := if req.compressionType.Some? then CompressionName(req.compressionType.value) else t.compressionType,
       cleanupDays := req.cleanupDays.UnwrapOr(t.cleanupDays),
       useNonTransactional := req.useNonTransactional.UnwrapOr(t.useNonTransactional),
       isActive := req.isActive.UnwrapOr(t.isActive),
       updatedAt := now)
  }

  /** Applying the same request twice is applying it once (at the later instant). */
  lemma UpdateIdempotent(t: Task, req: UpdateTaskRequest, now1: int, now2: int)
    ensures UpdateTask(UpdateTask(t, req, now1), req, now2) == UpdateTask(t, req, now2)
  {
  }

  /** An empty request only refreshes `updated_at`. */
  lemma EmptyUpdate(t: Task, now: int)
    ensures UpdateTask(t, UpdateTaskRequest(None, None, None, None, None, None), now) == t.(updatedAt := now)
  {
  }

  // ------------------------------------------------------------ the cron evaluator

  const SECONDS_PER_MINUTE: int := 60
  const SECONDS_PER_HOUR: int := 3600

  predicate OnTheHour(t: int) { t % SECONDS_PER_HOUR == 0 }

  predicate AtMidnight(t: int) { t % SECONDS_PER_DAY == 0 }

  /** The start of the hour containing `t`: `with_minute(0)`, `with_second(0)`, `with_nanosecond(0)` in UTC. */
  function StartOfHour(t: int): (r: int)
    ensures r <= t < r + SECONDS_PER_HOUR && OnTheHour(r)
  {
    t - t % SECONDS_PER_HOUR
  }

  /** `(8 - num_days_from_monday) % 7`, with 0 replaced by 7. */
  function DaysUntilMonday(now: int): (d: nat)
    ensures 1 <= d <= 7
  {
    var d := (8 - WeekdayFromMonday(now)) % 7;
    if d == 0 then 7 else d
  }

  /** Today's instant `offset` seconds after midnight if it is still ahead, otherwise the same time tomorrow. */
  function NextDailyAt(now: int, offset: nat): int
    requires offset < SECONDS_PER_DAY
  {
    var today := StartOfDay(now) + offset;
    if today <= now then today + SECONDS_PER_DAY else today
  }

  /** Seconds after midnight of the time of day H:M:00. */
  function TimeOfDay(hour: nat, minute: nat): (r: nat)
    requires hour <= 23 && minute <= 59
    ensures r < SECONDS_PER_DAY
  {
    hour * 3600 + minute * 60
  }

  /** `parse_specific_time_pattern`: "M H * * *" with M at most 59 and H at most 23. */
  function SpecificTimePattern(parts: seq<string>, now: int): Option<int>
    requires |parts| == 5
  {
    if parts[2] == "*" && parts[3] == "*" && parts[4] == "*" then
      var minute := ParseU32(parts[0]);
      var hour := ParseU32(parts[1]);
      if minute.Some? && hour.Some? && minute.value <= 59 && hour.value <= 23
      then Some(NextDailyAt(now, TimeOfDay(hour.value, minute.value)))
      else None
    else None
  }

  // The `i64` after a leading "*/", when the field starts with one.
  function StepValue(field: string): Option<int> {
    if StartsWith(field, "*/") then ParseI64(field[2..]) else None
  }

  // `parse_interval_pattern`, in seconds: "*/N * * * *" is N minutes and
  // "0 */N * * *" is N hours; N may be zero or negative.
  function IntervalPattern(expr: string): Option<int> {
    var parts := SplitWhitespace(expr);
    if |parts| != 5 then None
    else
      var rest := parts[2] == "*" && parts[3] == "*" && parts[4] == "*";
      var minutes := if parts[1] == "*" && rest then StepValue(parts[0]) else None;
      if minutes.Some? then Some(minutes.value * SECONDS_PER_MINUTE)
      else
        var hours := if parts[0] == "0" && rest then StepValue(parts[1]) else None;
        if hours.Some? then Some(hours.value * SECONDS_PER_HOUR) else None
  }

  /**
   * `parse_cron_schedule`: five whitespace-separated fields, then the four
   * literal forms, then "M H * * *", then the intervals.
   */
  function ParseCronSchedule(expr: string, now: int): (r: Result<int, string>)
    ensures |SplitWhitespace(expr)| != 5
            ==> r == Err("Invalid cron format. Expected 5 parts, got " + NatToString(|SplitWhitespace(expr)|))
    ensures |SplitWhitespace(expr)| == 5 && r.Err? ==> r.error == "Unsupported cron pattern: " + expr
  {
    var parts := SplitWhitespace(expr);
    if |parts| != 5 then Err("Invalid cron format. Expected 5 parts, got " + NatToString(|parts|))
    else if expr == "* * * * *" then Ok(now + SECONDS_PER_MINUTE)
    else if expr == "0 * * * *" then Ok(StartOfHour(now + SECONDS_PER_HOUR))
    else if expr == "0 0 * * *" then Ok(StartOfDay(now + SECONDS_PER_DAY))
    else if expr == "0 0 * * 1" then Ok(StartOfDay(now + DaysUntilMonday(now) * SECONDS_PER_DAY))
    else FieldPatterns(expr, parts, now)
  }

  // The patterns tried after the literal forms, in order.
  function FieldPatterns(expr: string, parts: seq<string>, now: int): (r: Result<int, string>)
    requires |parts| == 5
    ensures r.Err? ==> r.error == "Unsupported cron pattern: " + expr
  {
    match SpecificTimePattern(parts, now)
    case Some(next) => Ok(next)
    case None =>
      match IntervalPattern(expr)
      case Some(interval) => Ok(now + interval)
      case None => Err("Unsupported cron pattern: " + expr)
  }

  /** `calculate_next_run`: nothing for an inactive task, otherwise the schedule's next instant. */
  function CalculateNextRun(t: Task, now: int): (r: Result<Option<int>, string>)
    ensures !t.isActive ==> r == Ok(None)
    ensures t.isActive ==> (r.Ok? <==> ParseCronSchedule(t.cronSchedule, now).Ok?)
    ensures t.isActive && r.Ok? ==> r.value == Some(ParseCronSchedule(t.cronSchedule, now).value)
    ensures t.isActive && r.Err? ==> r.error == ParseCronSchedule(t.cronSchedule, now).error
  {
    if !t.isActive then Ok(None)
    else match ParseCronSchedule(t.cronSchedule, now)
      case Ok(next) => Ok(Some(next))
      case Err(e) => Err(e)
  }

  /** `update_next_run`: on success `next_run` and `updated_at` change; on error the task is left as it was. */
  function UpdateNextRun(t: Task, now: int): (r: (Task, Result<(), string>))
    ensures CalculateNextRun(t, now).Ok? ==> r == (t.(nextRun := CalculateNextRun(t, now).value, updatedAt := now), Ok(()))
    ensures CalculateNextRun(t, now).Err? ==> r == (t, Err(CalculateNextRun(t, now).error))
  {
    match CalculateNextRun(t, now)
    case Ok(next) => (t.(nextRun := next, updatedAt := now), Ok(()))
    case Err(e) => (t, Err(e))
  }

  /**
   * `mark_executed`: `last_run` is set first, so it stays set even when the
   * schedule cannot be evaluated and the call fails.
   */
  function MarkExecuted(t: Task, now: int): (r: (Task, Result<(), string>))
    ensures r.0.lastRun == Some(now)
    ensures r.1.Ok? <==> CalculateNextRun(t, now).Ok?
    ensures r.1.Ok? ==> r.0 == t.(lastRun := Some(now), nextRun := CalculateNextRun(t, now).value, updatedAt := now)
    ensures r.1.Err? ==> r.0 == t.(lastRun := Some(now))
  {
    var t1 := t.(lastRun := Some(now));
    assert CalculateNextRun(t1, now) == CalculateNextRun(t, now);
    UpdateNextRun(t1, now)
  }

  /** `should_run_now`. */
  predicate ShouldRunNow(t: Task, now: int) {
    t.isActive && t.nextRun.Some? && now >= t.nextRun.value
  }

  // ------------------------------------------------------------ properties of the cron forms

  /** Splitting `t` into whole days and the second within the day. */
  lemma DayDivision(t: int, day: int, second: int)
    requires 0 <= second < SECONDS_PER_DAY && t == day * SECONDS_PER_DAY + second
    ensures DayNumber(t) == day && SecondOfDay(t) == second
  {
  }

  lemma DayShift(t: int, k: int)
    ensures StartOfDay(t + k * SECONDS_PER_DAY) == StartOfDay(t) + k * SECONDS_PER_DAY
  {
    DayDivision(t + k * SECONDS_PER_DAY, DayNumber(t) + k, SecondOfDay(t));
  }

  lemma FiveFields(a: string, b: string, c: string, d: string, e: string)
    requires a != [] && b != [] && c != [] && d != [] && e != []
    requires forall i :: 0 <= i < |a| ==> !IsWhitespace(a[i])
    requires forall i :: 0 <= i < |b| ==> !IsWhitespace(b[i])
    requires forall i :: 0 <= i < |c| ==> !IsWhitespace(c[i])
    requires forall i :: 0 <= i < |d| ==> !IsWhitespace(d[i])
    requires forall i :: 0 <= i < |e| ==> !IsWhitespace(e[i])
    ensures SplitWhitespace(JoinSpaced([a, b, c, d, e])) == [a, b, c, d, e]
  {
    var w := [a, b, c, d, e];
    forall k | 0 <= k < |w| ensures w[k] != [] {
    }
    forall k, i | 0 <= k < |w| && 0 <= i < |w[k]| ensures !IsWhitespace(w[k][i]) {
    }
    SplitWhitespaceOfSpaced(w);
  }

  lemma SpacedLiteral(a: string, b: string, c: string, d: string, e: string, s: string)
    requires s == a + " " + b + " " + c + " " + d + " " + e
    ensures s == JoinSpaced([a, b, c, d, e])
  {
    assert [a, b, c, d, e][1..] == [b, c, d, e] && [b, c, d, e][1..] == [c, d, e];
    assert [c, d, e][1..] == [d, e] && [d, e][1..] == [e];
    assert JoinSpaced([d, e]) == d + " " + e;
    assert JoinSpaced([c, d, e]) == c + " " + (d + " " + e);
    assert JoinSpaced([b, c, d, e]) == b + " " + (c + " " + (d + " " + e));
  }

  lemma EveryMinuteFields()
    ensures SplitWhitespace("* * * * *") == ["*", "*", "*", "*", "*"]
  {
    SpacedLiteral("*", "*", "*", "*", "*", "* * * * *");
    FiveFields("*", "*", "*", "*", "*");
  }

  lemma HourlyFields()
    ensures SplitWhitespace("0 * * * *") == ["0", "*", "*", "*", "*"]
  {
    SpacedLiteral("0", "*", "*", "*", "*", "0 * * * *");
    FiveFields("0", "*", "*", "*", "*");
  }

  lemma DailyFields()
    ensures SplitWhitespace("0 0 * * *") == ["0", "0", "*", "*", "*"]
  {
    SpacedLiteral("0", "0", "*", "*", "*", "0 0 * * *");
    FiveFields("0", "0", "*", "*", "*");
  }

  lemma WeeklyFields()
    ensures SplitWhitespace("0 0 * * 1") == ["0", "0", "*", "*", "1"]
  {
    SpacedLiteral("0", "0", "*", "*", "1", "0 0 * * 1");
    FiveFields("0", "0", "*", "*", "1");
  }

  /** "* * * * *": one minute from now. */
  lemma EveryMinute(now: int)
    ensures ParseCronSchedule("* * * * *", now) == Ok(now + 60)
  {
    EveryMinuteFields();
  }

  /** "0 * * * *": the first full hour strictly after now. */
  lemma Hourly(now: int)
    ensures ParseCronSchedule("0 * * * *", now).Ok?
    ensures var r := ParseCronSchedule("0 * * * *", now).value;
            now < r <= now + SECONDS_PER_HOUR && OnTheHour(r) && forall t :: now < t < r ==> !OnTheHour(t)
  {
    HourlyFields();
    assert ParseCronSchedule("0 * * * *", now) == Ok(StartOfHour(now + SECONDS_PER_HOUR));
    NextFullHour(now);
  }

  lemma NextFullHour(now: int)
    ensures var r := StartOfHour(now + SECONDS_PER_HOUR);
            now < r <= now + SECONDS_PER_HOUR && forall t :: now < t < r ==> !OnTheHour(t)
  {
    var r := StartOfHour(now + SECONDS_PER_HOUR);
    forall t | now < t < r ensures !OnTheHour(t) {
      if OnTheHour(t) {
        HoursApart(t, r);
      }
    }
  }

  lemma HoursApart(a: int, b: int)
    requires OnTheHour(a) && OnTheHour(b) && a < b
    ensures a <= b - SECONDS_PER_HOUR
  {
    assert a == (a / SECONDS_PER_HOUR) * SECONDS_PER_HOUR;
    assert b == (b / SECONDS_PER_HOUR) * SECONDS_PER_HOUR;
  }

  /** "0 0 * * *": the first midnight strictly after now. */
  lemma Daily(now: int)
    ensures ParseCronSchedule("0 0 * * *", now).Ok?
    ensures var r := ParseCronSchedule("0 0 * * *", now).value;
            now < r <= now + SECONDS_PER_DAY && AtMidnight(r) && forall t :: now < t < r ==> !AtMidnight(t)
  {
    DailyFields();
    assert ParseCronSchedule("0 0 * * *", now) == Ok(StartOfDay(now + SECONDS_PER_DAY));
    NextMidnight(now);
  }

  lemma NextMidnight(now: int)
    ensures var r := StartOfDay(now + SECONDS_PER_DAY);
            now < r <= now + SECONDS_PER_DAY && forall t :: now < t < r ==> !AtMidnight(t)
  {
    var r := StartOfDay(now + SECONDS_PER_DAY);
    DayShift(now, 1);
    forall t | now < t < r ensures !AtMidnight(t) {
      if AtMidnight(t) {
        DayDivision(t, DayNumber(t), 0);
      }
    }
  }

  /** The weekday of a day number, counted from Monday (day 0 was a Thursday). */
  function DayWeekday(day: int): nat { (day + 3) % 7 }

  /** Seen from day `day`, `DaysUntilMonday` is the distance to the next day with weekday 1. */
  lemma WeeklyDistance(day: int, d: nat)
    requires d == (if (8 - DayWeekday(day)) % 7 == 0 then 7 else (8 - DayWeekday(day)) % 7)
    ensures DayWeekday(day + d) == 1
    ensures forall e :: day < e < day + d ==> DayWeekday(e) != 1
  {
  }

  /**
   * "0 0 * * 1": the first midnight strictly after now that starts a day with
   * `num_days_from_monday() == 1`, that is a Tuesday, at most seven days
   * ahead.
   */
  lemma Weekly(now: int)
    ensures ParseCronSchedule("0 0 * * 1", now).Ok?
    ensures var r := ParseCronSchedule("0 0 * * 1", now).value;
            now < r <= now + 7 * SECONDS_PER_DAY && AtMidnight(r) && WeekdayFromMonday(r) == 1
            && forall t :: now < t < r && AtMidnight(t) ==> WeekdayFromMonday(t) != 1
  {
    WeeklyFields();
    assert ParseCronSchedule("0 0 * * 1", now) == Ok(StartOfDay(now + DaysUntilMonday(now) * SECONDS_PER_DAY));
    NextTuesday(now);
  }

  lemma NextTuesday(now: int)
    ensures var r := StartOfDay(now + DaysUntilMonday(now) * SECONDS_PER_DAY);
            now < r <= now + 7 * SECONDS_PER_DAY && WeekdayFromMonday(r) == 1
            && forall t :: now < t < r && AtMidnight(t) ==> WeekdayFromMonday(t) != 1
  {
    var day, d := DayNumber(now), DaysUntilMonday(now);
    var r := StartOfDay(now + d * SECONDS_PER_DAY);
    DayDivision(now + d * SECONDS_PER_DAY, day + d, SecondOfDay(now));
    assert r == (day + d) * SECONDS_PER_DAY;
    DayDivision(r, day + d, 0);
    WeeklyDistance(day, d);
    assert WeekdayFromMonday(r) == DayWeekday(day + d);
    NoTuesdayBetween(now, r, day, d);
  }

  lemma NoTuesdayBetween(now: int, r: int, day: int, d: int)
    requires day == DayNumber(now) && r == (day + d) * SECONDS_PER_DAY
    requires forall e :: day < e < day + d ==> DayWeekday(e) != 1
    ensures forall t :: now < t < r && AtMidnight(t) ==> WeekdayFromMonday(t) != 1
  {
    forall t | now < t < r && AtMidnight(t) ensures WeekdayFromMonday(t) != 1 {
      var e := DayNumber(t);
      DayDivision(t, e, 0);
      assert day < e < day + d;
      assert DayWeekday(e) != 1;
    }
  }

  /** Where `NextDailyAt` lands: the first instant after now whose time of day is `offset`. */
  lemma NextDailyAtIsNext(now: int, offset: nat)
    requires offset < SECONDS_PER_DAY
    ensures var r := NextDailyAt(now, offset);
            now < r <= now + SECONDS_PER_DAY && SecondOfDay(r) == offset
            && forall t :: now < t < r ==> SecondOfDay(t) != offset
  {
    var start := StartOfDay(now);
    var r := NextDailyAt(now, offset);
    var day := DayNumber(now);
    if start + offset <= now {
      DayDivision(r, day + 1, offset);
    } else {
      DayDivision(r, day, offset);
    }
    forall t | now < t < r ensures SecondOfDay(t) != offset {
      if t < start + SECONDS_PER_DAY {
        DayDivision(t, day, t - start);
      } else {
        DayDivision(t, day + 1, t - start - SECONDS_PER_DAY);
      }
    }
  }

  lemma NotUnsigned(s: string)
    requires s != [] && !IsDigit(s[0]) && s[0] != '+'
    ensures ParseU32(s).None?
  {
  }

  /**
   * "M H * * *" (fields as written, e.g. "30 2 * * *" or "05 02 * * *"):
   * the next time of day H:M:00. "0 0 * * *", caught by the literal daily
   * form first, lands on the same instant.
   */
  lemma SpecificTime(expr: string, now: int, m: string, h: string, minute: nat, hour: nat)
    requires SplitWhitespace(expr) == [m, h, "*", "*", "*"]
    requires ParseU32(m) == Some(minute) && ParseU32(h) == Some(hour) && minute <= 59 && hour <= 23
    ensures ParseCronSchedule(expr, now) == Ok(NextDailyAt(now, TimeOfDay(hour, minute)))
  {
    if expr == "0 0 * * *" {
      SpecificMidnight(expr, now, m, h, minute, hour);
    } else {
      SpecificOther(expr, now, m, h, minute, hour);
    }
  }

  lemma SpecificMidnight(expr: string, now: int, m: string, h: string, minute: nat, hour: nat)
    requires expr == "0 0 * * *"
    requires SplitWhitespace(expr) == [m, h, "*", "*", "*"]
    requires ParseU32(m) == Some(minute) && ParseU32(h) == Some(hour)
    ensures minute == 0 && hour == 0
    ensures ParseCronSchedule(expr, now) == Ok(NextDailyAt(now, 0))
  {
    DailyFields();
    assert m == "0" && h == "0";
    DailyIsMidnightAt(now);
  }

  lemma SpecificOther(expr: string, now: int, m: string, h: string, minute: nat, hour: nat)
    requires expr != "0 0 * * *"
    requires SplitWhitespace(expr) == [m, h, "*", "*", "*"]
    requires ParseU32(m) == Some(minute) && ParseU32(h) == Some(hour) && minute <= 59 && hour <= 23
    ensures ParseCronSchedule(expr, now) == Ok(NextDailyAt(now, TimeOfDay(hour, minute)))
  {
    NotMinuteHourlyWeekly(expr, m, h);
    FieldPatternsApply(expr, now);
    SpecificValue(SplitWhitespace(expr), now, m, h, minute, hour);
  }

  lemma NotMinuteHourlyWeekly(expr: string, m: string, h: string)
    requires SplitWhitespace(expr) == [m, h, "*", "*", "*"] && ParseU32(m).Some? && ParseU32(h).Some?
    ensures expr != "* * * * *" && expr != "0 * * * *" && expr != "0 0 * * 1"
  {
    NotUnsigned("*");
    NotEveryMinute(expr);
    NotHourly(expr);
    NotWeekly(expr);
  }

  // The literal forms are told apart from other schedules by one field.
  lemma NotEveryMinute(expr: string)
    requires |SplitWhitespace(expr)| == 5 && SplitWhitespace(expr)[0] != "*"
    ensures expr != "* * * * *"
  {
    EveryMinuteFields();
  }

  lemma NotHourly(expr: string)
    requires |SplitWhitespace(expr)| == 5 && (SplitWhitespace(expr)[0] != "0" || SplitWhitespace(expr)[1] != "*")
    ensures expr != "0 * * * *"
  {
    HourlyFields();
  }

  lemma NotDaily(expr: string)
    requires |SplitWhitespace(expr)| == 5 && (SplitWhitespace(expr)[0] != "0" || SplitWhitespace(expr)[1] != "0")
    ensures expr != "0 0 * * *"
  {
    DailyFields();
  }

  lemma NotWeekly(expr: string)
    requires |SplitWhitespace(expr)| == 5 && (SplitWhitespace(expr)[0] != "0" || SplitWhitespace(expr)[4] != "1")
    ensures expr != "0 0 * * 1"
  {
    WeeklyFields();
  }

  lemma SpecificValue(parts: seq<string>, now: int, m: string, h: string, minute: nat, hour: nat)
    requires parts == [m, h, "*", "*", "*"]
    requires ParseU32(m) == Some(minute) && ParseU32(h) == Some(hour) && minute <= 59 && hour <= 23
    ensures SpecificTimePattern(parts, now) == Some(NextDailyAt(now, TimeOfDay(hour, minute)))
  {
  }

  lemma DailyIsMidnightAt(now: int)
    ensures ParseCronSchedule("0 0 * * *", now) == Ok(NextDailyAt(now, 0))
  {
    DailyFields();
    DayShift(now, 1);
  }

  lemma FieldPatternsApply(expr: string, now: int)
    requires |SplitWhitespace(expr)| == 5
    requires expr != "* * * * *" && expr != "0 * * * *" && expr != "0 0 * * *" && expr != "0 0 * * 1"
    ensures ParseCronSchedule(expr, now) == FieldPatterns(expr, SplitWhitespace(expr), now)
  {
  }

  // "*/N * * * *": N minutes from now, for any `i64` N, zero and negative ones included.
  lemma IntervalMinutes(expr: string, now: int, n: string, count: int)
    requires SplitWhitespace(expr) == ["*/" + n, "*", "*", "*", "*"]
    requires ParseI64(n) == Some(count)
    ensures ParseCronSchedule(expr, now) == Ok(now + count * SECONDS_PER_MINUTE)
  {
    var f := "*/" + n;
    StepField(f, n);
    NotEveryMinute(expr);
    NotHourly(expr);
    NotDaily(expr);
    NotWeekly(expr);
    FieldPatternsApply(expr, now);
    MinutesValue(expr, f, count);
    assert SpecificTimePattern(SplitWhitespace(expr), now).None?;
  }

  lemma MinutesValue(expr: string, f: string, count: int)
    requires SplitWhitespace(expr) == [f, "*", "*", "*", "*"] && StepValue(f) == Some(count)
    ensures IntervalPattern(expr) == Some(count * SECONDS_PER_MINUTE)
  {
  }

  // A field "*/N" is no number, no "*" and no "0", and its step is N.
  lemma StepField(f: string, n: string)
    requires f == "*/" + n
    ensures ParseU32(f).None? && f != "*" && f != "0" && StepValue(f) == ParseI64(n)
  {
    assert f[..2] == "*/" && f[2..] == n;
    assert |f| >= 2 && f[0] == '*';
    NotUnsigned(f);
  }

  // "0 */N * * *": N hours from now, for any `i64` N.
  lemma IntervalHours(expr: string, now: int, n: string, count: int)
    requires SplitWhitespace(expr) == ["0", "*/" + n, "*", "*", "*"]
    requires ParseI64(n) == Some(count)
    ensures ParseCronSchedule(expr, now) == Ok(now + count * SECONDS_PER_HOUR)
  {
    var f := "*/" + n;
    StepField(f, n);
    NotEveryMinute(expr);
    NotHourly(expr);
    NotDaily(expr);
    NotWeekly(expr);
    FieldPatternsApply(expr, now);
    HoursValue(expr, f, count);
    assert SpecificTimePattern(SplitWhitespace(expr), now).None?;
  }

  lemma HoursValue(expr: string, f: string, count: int)
    requires SplitWhitespace(expr) == ["0", f, "*", "*", "*"] && f != "*" && StepValue(f) == Some(count)
    ensures IntervalPattern(expr) == Some(count * SECONDS_PER_HOUR)
  {
  }

  /**
   * Every schedule lands strictly after now, except an interval of zero or a
   * negative number of minutes or hours.
   */
  lemma ScheduleIsAhead(expr: string, now: int)
    requires ParseCronSchedule(expr, now).Ok?
    ensures ParseCronSchedule(expr, now).value <= now
            ==> IntervalPattern(expr).Some? && IntervalPattern(expr).value <= 0
                && ParseCronSchedule(expr, now).value == now + IntervalPattern(expr).value
  {
    var parts := SplitWhitespace(expr);
    if expr == "0 * * * *" {
    } else if expr == "0 0 * * *" {
    } else if expr == "0 0 * * 1" {
      DayShift(now, DaysUntilMonday(now));
    } else if expr != "* * * * *" && SpecificTimePattern(parts, now).Some? {
      var minute, hour := ParseU32(parts[0]).value, ParseU32(parts[1]).value;
      NextDailyAtIsNext(now, TimeOfDay(hour, minute));
    }
  }

  /**
   * Right after `mark_executed` succeeds, the task is due again at the same
   * instant only when its schedule is an interval of zero or fewer minutes
   * or hours.
   */
  lemma DueRightAfterExecution(t: Task, now: int)
    requires MarkExecuted(t, now).1.Ok? && ShouldRunNow(MarkExecuted(t, now).0, now)
    ensures IntervalPattern(t.cronSchedule).Some? && IntervalPattern(t.cronSchedule).value <= 0
  {
    ScheduleIsAhead(t.cronSchedule, now);
  }

  /** An inactive task, and a task with no next run, is never due. */
  lemma InactiveNeverDue(t: Task, now: int)
    requires !t.isActive || t.nextRun.None?
    ensures !ShouldRunNow(t, now)
    ensures !t.isActive ==> UpdateNextRun(t, now).0.nextRun.None?
  {
  }
}

=== FILE: task_worker.dfy ===
/**
 * The background scheduler: a worker that wakes once a minute, runs every
 * active task whose `next_run` has come, refuses to start a second backup
 * of a task whose previous job is still pending or running, and once an
 * hour deletes backup directories older than their task's `cleanup_days`.
 *
 * The rows `SELECT` returns are parameters (`fetched`), and so are the job
 * uuids, the clock (one `now` per scheduling step), `read_dir`'s listing,
 * RFC 3339 parsing and `DatabaseConfig::get_database_name`, which the
 * source calls but never defines. The backup a task spawns finishes in a
 * separate step, `RunSpawnedBackup`, whose inputs (how mydumper and tar
 * ran, the archive's size, the clock readings of the run and of its final
 * `UPDATE`) are free.
 */
module Worker {
  import opened Wrappers
  import opened Text
  import opened Tasks
  import opened Jobs
  import opened DbConfigs
  import opened Backups
  import opened Paths
  import opened Disk
  import opened Store
  import Engines
  import BackupProcesses
  import FsBackups
  import Mydumper
  import opened Tools

  // ------------------------------------------------------------ one task

  const CONFIG_MISSING: string := "Database configuration not found"
  const STILL_RUNNING: string := "Previous task is still running"
  const NO_DATABASE_NAME: string := "No database name specified for task and config has no default database"

  /** A job of task `taskId` that the single-flight query finds: pending or running, not compressing. */
  predicate Live(j: Job, taskId: string) {
    j.taskId == Some(taskId) && (j.status == "pending" || j.status == "running")
  }

  /** The ids `SELECT * FROM jobs WHERE task_id = ? AND status IN ('pending', 'running')` matches. */
  function LiveJobIds(jobs: map<string, Job>, taskId: string): set<string> {
    set id | id in jobs && Live(jobs[id], taskId)
  }

  /** The single-flight query finds a row. */
  predicate HasLiveJob(jobs: map<string, Job>, taskId: string) {
    LiveJobIds(jobs, taskId) != {}
  }

  /** The task's own database, else the one its configuration names. */
  function DatabaseNameFor(task: Task, config: DatabaseConfig, getDb: DatabaseConfig -> Option<string>): Option<string> {
    if task.databaseName.Some? then task.databaseName else getDb(config)
  }

  /** The request both kinds of scheduled job are made from. */
  function BackupRequest(task: Task, usedDatabase: string): CreateJobRequest {
    CreateJobRequest(Some(task.id), Some(usedDatabase), JobType.Backup, None)
  }

  /** The job recorded instead of a run while the previous one is still live. */
  function CancelledJob(task: Task, usedDatabase: string, jobId: string, now: int): Job {
    NewJob(BackupRequest(task, usedDatabase), jobId, now).(
      status := StatusName(Cancelled), errorMessage := Some(STILL_RUNNING), completedAt := Some(now))
  }

  /** What a spawned backup is handed: its job, and the task and configuration as they were read. */
  datatype Spawned = Spawned(jobId: string, task: Task, config: DatabaseConfig)

  /** The tables after `execute_task`, the backup it spawned, if any, and its result. */
  datatype Executed = Executed(jobs: map<string, Job>, tasks: map<string, Task>,
                               spawned: Option<Spawned>, result: Result<(), string>)

  /** `UPDATE tasks SET next_run = ?, updated_at = ? WHERE id = ?` with the values of `t`. */
  function WithNextRun(tasks: map<string, Task>, t: Task): map<string, Task> {
    if t.id in tasks then tasks[t.id := tasks[t.id].(nextRun := t.nextRun, updatedAt := t.updatedAt)] else tasks
  }

  /** `UPDATE tasks SET last_run = ?, next_run = ?, updated_at = ? WHERE id = ?` with the values of `t`. */
  function WithRuns(tasks: map<string, Task>, t: Task): map<string, Task> {
    if t.id in tasks
    then tasks[t.id := tasks[t.id].(lastRun := t.lastRun, nextRun := t.nextRun, updatedAt := t.updatedAt)]
    else tasks
  }

  /** The live branch once the cancelled job is in: `update_next_run`, then its `UPDATE` when it succeeds. */
  function Refused(jobs: map<string, Job>, tasks: map<string, Task>, task: Task, usedDatabase: string,
                   jobId: string, now: int): Executed
  {
    var next := UpdateNextRun(task, now);
    var jobs' := jobs[jobId := CancelledJob(task, usedDatabase, jobId, now)];
    if next.1.Err? then Executed(jobs', tasks, None, Err(next.1.error))
    else Executed(jobs', WithNextRun(tasks, next.0), None, Ok(()))
  }

  /** The other branch once the pending job is in: the backup is spawned, then `mark_executed` and its `UPDATE`. */
  function Started(jobs: map<string, Job>, tasks: map<string, Task>, task: Task, config: DatabaseConfig,
                   usedDatabase: string, jobId: string, now: int): Executed
  {
    var marked := MarkExecuted(task, now);
    var jobs' := jobs[jobId := NewJob(BackupRequest(task, usedDatabase), jobId, now)];
    var spawned := Some(Spawned(jobId, task, config));
    if marked.1.Err? then Executed(jobs', tasks, spawned, Err(marked.1.error))
    else Executed(jobs', WithRuns(tasks, marked.0), spawned, Ok(()))
  }

  /**
   * `execute_task`, statement by statement: the configuration and the
   * database name are looked up in both branches before anything is
   * written; an `INSERT` of a taken id and a schedule that does not
   * evaluate end the call with an error, after what was already written.
   */
  function ExecuteOutcome(jobs: map<string, Job>, tasks: map<string, Task>, configs: map<string, DatabaseConfig>,
                          task: Task, jobId: string, now: int, getDb: DatabaseConfig -> Option<string>): Executed
  {
    if task.databaseConfigId !in configs then Executed(jobs, tasks, None, Err(CONFIG_MISSING))
    else
      var config := configs[task.databaseConfigId];
      match DatabaseNameFor(task, config, getDb)
      case None => Executed(jobs, tasks, None, Ok(()))
      case Some(name) =>
        if jobId in jobs then Executed(jobs, tasks, None, Err(DUPLICATE_JOB_ID))
        else if HasLiveJob(jobs, task.id) then Refused(jobs, tasks, task, config.name + "/" + name, jobId, now)
        else Started(jobs, tasks, task, config, config.name + "/" + name, jobId, now)
  }

  /** `execute_task` against the store; the spawned backup is handed back to finish later. */
  method ExecuteTask(db: Db, task: Task, jobId: string, now: int, getDb: DatabaseConfig -> Option<string>)
    returns (r: Result<(), string>, spawned: Option<Spawned>)
    modifies db
    ensures var e := ExecuteOutcome(old(db.jobs), old(db.tasks), old(db.configs), task, jobId, now, getDb);
            db.jobs == e.jobs && db.tasks == e.tasks && spawned == e.spawned && r == e.result
    ensures db.configs == old(db.configs) && db.backups == old(db.backups) && db.statusLog == old(db.statusLog)
  {
    var live := HasLiveJob(db.jobs, task.id);
    if task.databaseConfigId !in db.configs {
      return Err(CONFIG_MISSING), None;
    }
    var config := db.configs[task.databaseConfigId];
    var name := DatabaseNameFor(task, config, getDb);
    if name.None? {
      return Ok(()), None;
    }
    var used := config.name + "/" + name.value;
    if live {
      var inserted := db.InsertJob(CancelledJob(task, used, jobId, now));
      if inserted.Err? {
        return Err(inserted.error), None;
      }
      var next := UpdateNextRun(task, now);
      if next.1.Err? {
        return Err(next.1.error), None;
      }
      if task.id in db.tasks {
        db.PutTask(task.id, db.tasks[task.id].(nextRun := next.0.nextRun, updatedAt := next.0.updatedAt));
      }
      return Ok(()), None;
    }
    var inserted := db.InsertJob(NewJob(BackupRequest(task, used), jobId, now));
    if inserted.Err? {
      return Err(inserted.error), None;
    }
    spawned := Some(Spawned(jobId, task, config));
    var marked := MarkExecuted(task, now);
    if marked.1.Err? {
      return Err(marked.1.error), spawned;
    }
    if task.id in db.tasks {
      db.PutTask(task.id, db.tasks[task.id].(lastRun := marked.0.lastRun, nextRun := marked.0.nextRun,
                                               updatedAt := marked.0.updatedAt));
    }
    r := Ok(());
  }

  // ------------------------------------------------------------ what one task's execution promises

  /** No task has two live jobs. */
  ghost predicate SingleFlight(jobs: map<string, Job>) {
    forall a, b, t :: a in jobs && b in jobs && Live(jobs[a], t) && Live(jobs[b], t) ==> a == b
  }

  /** Once a configuration and a database name are found and the id is free, the live check picks the branch. */
  lemma ExecuteBranches(jobs: map<string, Job>, tasks: map<string, Task>, configs: map<string, DatabaseConfig>,
                        task: Task, jobId: string, now: int, getDb: DatabaseConfig -> Option<string>)
    requires task.databaseConfigId in configs && DatabaseNameFor(task, configs[task.databaseConfigId], getDb).Some?
    requires jobId !in jobs
    ensures var config := configs[task.databaseConfigId];
            var used := config.name + "/" + DatabaseNameFor(task, config, getDb).value;
            ExecuteOutcome(jobs, tasks, configs, task, jobId, now, getDb)
              == if HasLiveJob(jobs, task.id) then Refused(jobs, tasks, task, used, jobId, now)
                 else Started(jobs, tasks, task, config, used, jobId, now)
  {
  }

  /** The cancelled job reads back as Cancelled, carries its reason and task, and is live for no task. */
  lemma CancelledJobShape(task: Task, usedDatabase: string, jobId: string, now: int)
    ensures var j := CancelledJob(task, usedDatabase, jobId, now);
            JobStatusOf(j) == Ok(Cancelled) && j.errorMessage == Some(STILL_RUNNING) && j.completedAt == Some(now)
            && j.id == jobId && j.taskId == Some(task.id) && j.usedDatabase == Some(usedDatabase)
            && forall t :: !Live(j, t)
  {
    StatusRoundTrip(Cancelled);
    StatusRoundTrip(Pending);
    StatusRoundTrip(Running);
  }

  /** The pending job reads back as Pending and is live for its own task only. */
  lemma PendingJobShape(task: Task, usedDatabase: string, jobId: string, now: int)
    ensures var j := NewJob(BackupRequest(task, usedDatabase), jobId, now);
            JobStatusOf(j) == Ok(Pending) && j.id == jobId && j.usedDatabase == Some(usedDatabase)
            && forall t :: Live(j, t) <==> t == task.id
  {
    StatusRoundTrip(Pending);
  }

  /**
   * A spawned run that panics before its first write (a view's NULL engine
   * in the table analysis) leaves the job as the tick inserted it: the task
   * keeps a live job, so every later tick cancels its run
   * (`LiveJobCancelsRun`).
   */
  lemma PendingJobKeepsTaskLive(jobs: map<string, Job>, task: Task, usedDatabase: string, jobId: string, now: int)
    requires jobId in jobs && jobs[jobId] == NewJob(BackupRequest(task, usedDatabase), jobId, now)
    ensures HasLiveJob(jobs, task.id)
  {
    PendingJobShape(task, usedDatabase, jobId, now);
    assert jobId in LiveJobIds(jobs, task.id);
  }

  /**
   * Nothing is written when the configuration is missing, no database name
   * is known or the fresh id is taken; the first and the last are errors.
   */
  lemma ExecuteWritesNothing(jobs: map<string, Job>, tasks: map<string, Task>, configs: map<string, DatabaseConfig>,
                             task: Task, jobId: string, now: int, getDb: DatabaseConfig -> Option<string>)
    ensures var e := ExecuteOutcome(jobs, tasks, configs, task, jobId, now, getDb);
            task.databaseConfigId !in configs ==> e == Executed(jobs, tasks, None, Err(CONFIG_MISSING))
    ensures var e := ExecuteOutcome(jobs, tasks, configs, task, jobId, now, getDb);
            (task.databaseConfigId in configs && DatabaseNameFor(task, configs[task.databaseConfigId], getDb).None?)
              ==> e == Executed(jobs, tasks, None, Ok(()))
    ensures var e := ExecuteOutcome(jobs, tasks, configs, task, jobId, now, getDb);
            (task.databaseConfigId in configs && DatabaseNameFor(task, configs[task.databaseConfigId], getDb).Some?
             && jobId in jobs) ==> e == Executed(jobs, tasks, None, Err(DUPLICATE_JOB_ID))
  {
  }

  /** The live branch adds the cancelled job and writes at most the task's `next_run`. */
  lemma RefusedWrites(jobs: map<string, Job>, tasks: map<string, Task>, task: Task, usedDatabase: string,
                      jobId: string, now: int)
    ensures var e := Refused(jobs, tasks, task, usedDatabase, jobId, now);
            e.jobs == jobs[jobId := CancelledJob(task, usedDatabase, jobId, now)] && e.spawned.None?
            && e.tasks.Keys == tasks.Keys && (forall id :: id in tasks && id != task.id ==> e.tasks[id] == tasks[id])
            && (e.result.Ok? <==> CalculateNextRun(task, now).Ok?)
            && (task.id in tasks ==> e.tasks[task.id].lastRun == tasks[task.id].lastRun)
            && (task.id in tasks && e.result.Ok? ==> e.tasks[task.id].nextRun == CalculateNextRun(task, now).value)
  {
  }

  /** The other branch adds the pending job, spawns its backup and, when the schedule evaluates, records the run. */
  lemma StartedWrites(jobs: map<string, Job>, tasks: map<string, Task>, task: Task, config: DatabaseConfig,
                      usedDatabase: string, jobId: string, now: int)
    ensures var e := Started(jobs, tasks, task, config, usedDatabase, jobId, now);
            e.jobs == jobs[jobId := NewJob(BackupRequest(task, usedDatabase), jobId, now)]
            && e.spawned == Some(Spawned(jobId, task, config))
            && e.tasks.Keys == tasks.Keys && (forall id :: id in tasks && id != task.id ==> e.tasks[id] == tasks[id])
            && (e.result.Ok? <==> CalculateNextRun(task, now).Ok?)
            && (e.result.Err? ==> e.tasks == tasks)
            && (task.id in tasks && e.result.Ok? ==>
                  e.tasks[task.id].lastRun == Some(now) && e.tasks[task.id].nextRun == CalculateNextRun(task, now).value)
  {
  }

  /** Existing rows are never changed and at most one is added, under the fresh id; only the task's own row is written. */
  lemma ExecuteOnlyAppends(jobs: map<string, Job>, tasks: map<string, Task>, configs: map<string, DatabaseConfig>,
                           task: Task, jobId: string, now: int, getDb: DatabaseConfig -> Option<string>)
    ensures var e := ExecuteOutcome(jobs, tasks, configs, task, jobId, now, getDb);
            (e.jobs == jobs && e.tasks == tasks) || (jobId !in jobs && jobId in e.jobs && e.jobs == jobs[jobId := e.jobs[jobId]])
    ensures var e := ExecuteOutcome(jobs, tasks, configs, task, jobId, now, getDb);
            e.tasks.Keys == tasks.Keys && forall id :: id in tasks && id != task.id ==> e.tasks[id] == tasks[id]
  {
    var e := ExecuteOutcome(jobs, tasks, configs, task, jobId, now, getDb);
    if task.databaseConfigId in configs {
      var config := configs[task.databaseConfigId];
      var name := DatabaseNameFor(task, config, getDb);
      if name.Some? && jobId !in jobs {
        var used := config.name + "/" + name.value;
        ExecuteBranches(jobs, tasks, configs, task, jobId, now, getDb);
        RefusedWrites(jobs, tasks, task, used, jobId, now);
        StartedWrites(jobs, tasks, task, config, used, jobId, now);
      }
    }
  }

  /**
   * While a job of the task is pending or running, the task gets one
   * cancelled job saying so, starts no backup and keeps its `last_run`;
   * its `next_run` moves on when the schedule evaluates.
   */
  lemma LiveJobCancelsRun(jobs: map<string, Job>, tasks: map<string, Task>, configs: map<string, DatabaseConfig>,
                          task: Task, jobId: string, now: int, getDb: DatabaseConfig -> Option<string>)
    requires HasLiveJob(jobs, task.id) && jobId !in jobs
    requires task.databaseConfigId in configs && DatabaseNameFor(task, configs[task.databaseConfigId], getDb).Some?
    ensures var e := ExecuteOutcome(jobs, tasks, configs, task, jobId, now, getDb);
            var j := e.jobs[jobId];
            jobId in e.jobs && e.jobs == jobs[jobId := j] && e.spawned.None?
            && JobStatusOf(j) == Ok(Cancelled) && j.errorMessage == Some(STILL_RUNNING) && j.completedAt == Some(now)
            && j.taskId == Some(task.id) && (forall t :: !Live(j, t))
            && (e.result.Ok? <==> CalculateNextRun(task, now).Ok?)
            && (task.id in tasks ==> e.tasks[task.id].lastRun == tasks[task.id].lastRun)
            && (task.id in tasks && e.result.Ok? ==> e.tasks[task.id].nextRun == CalculateNextRun(task, now).value)
  {
    var config := configs[task.databaseConfigId];
    var used := config.name + "/" + DatabaseNameFor(task, config, getDb).value;
    ExecuteBranches(jobs, tasks, configs, task, jobId, now, getDb);
    RefusedWrites(jobs, tasks, task, used, jobId, now);
    CancelledJobShape(task, used, jobId, now);
  }

  /**
   * Otherwise the task gets one pending job for "<config name>/<database>"
   * and a backup is spawned for it; `last_run` becomes `now` and `next_run`
   * the schedule's next instant, unless the schedule does not evaluate, in
   * which case the task row is not written.
   */
  lemma IdleTaskStartsBackup(jobs: map<string, Job>, tasks: map<string, Task>, configs: map<string, DatabaseConfig>,
                             task: Task, jobId: string, now: int, getDb: DatabaseConfig -> Option<string>)
    requires !HasLiveJob(jobs, task.id) && jobId !in jobs
    requires task.databaseConfigId in configs && DatabaseNameFor(task, configs[task.databaseConfigId], getDb).Some?
    ensures var e := ExecuteOutcome(jobs, tasks, configs, task, jobId, now, getDb);
            var config := configs[task.databaseConfigId];
            var j := e.jobs[jobId];
            jobId in e.jobs && e.jobs == jobs[jobId := j]
            && JobStatusOf(j) == Ok(Pending) && Live(j, task.id)
            && j.usedDatabase == Some(config.name + "/" + DatabaseNameFor(task, config, getDb).value)
            && e.spawned == Some(Spawned(jobId, task, config))
            && (e.result.Ok? <==> CalculateNextRun(task, now).Ok?)
            && (e.result.Err? ==> e.tasks == tasks)
            && (task.id in tasks && e.result.Ok? ==>
                  e.tasks[task.id].lastRun == Some(now) && e.tasks[task.id].nextRun == CalculateNextRun(task, now).value)
  {
    var config := configs[task.databaseConfigId];
    var used := config.name + "/" + DatabaseNameFor(task, config, getDb).value;
    ExecuteBranches(jobs, tasks, configs, task, jobId, now, getDb);
    StartedWrites(jobs, tasks, task, config, used, jobId, now);
    PendingJobShape(task, used, jobId, now);
  }

  /** A live job of the task is one the single-flight query finds. */
  lemma LiveJobsFound(jobs: map<string, Job>, taskId: string)
    ensures forall id :: id in jobs && Live(jobs[id], taskId) ==> HasLiveJob(jobs, taskId)
  {
    forall id | id in jobs && Live(jobs[id], taskId)
      ensures HasLiveJob(jobs, taskId)
    {
      assert id in LiveJobIds(jobs, taskId);
    }
  }

  /** `execute_task` never gives a task a second live job. */
  lemma ExecuteKeepsSingleFlight(jobs: map<string, Job>, tasks: map<string, Task>, configs: map<string, DatabaseConfig>,
                                 task: Task, jobId: string, now: int, getDb: DatabaseConfig -> Option<string>)
    requires SingleFlight(jobs)
    ensures SingleFlight(ExecuteOutcome(jobs, tasks, configs, task, jobId, now, getDb).jobs)
  {
    var e := ExecuteOutcome(jobs, tasks, configs, task, jobId, now, getDb);
    ExecuteOnlyAppends(jobs, tasks, configs, task, jobId, now, getDb);
    if e.jobs != jobs {
      if HasLiveJob(jobs, task.id) {
        LiveJobCancelsRun(jobs, tasks, configs, task, jobId, now, getDb);
      } else {
        IdleTaskStartsBackup(jobs, tasks, configs, task, jobId, now, getDb);
        LiveJobsFound(jobs, task.id);
      }
    }
  }

  // ------------------------------------------------------------ one pass over the fetched tasks

  /** The tables after `check_and_execute_tasks`, how many `execute_task` calls returned Ok, and the backups spawned. */
  datatype Swept = Swept(jobs: map<string, Job>, tasks: map<string, Task>, executed: nat, spawned: seq<Spawned>)

  /**
   * `check_and_execute_tasks` over the rows the query fetched, in order:
   * each task that `should_run_now` is executed with the uuid drawn for
   * it, and every call that returns Ok is counted.
   */
  function SweepOutcome(jobs: map<string, Job>, tasks: map<string, Task>, configs: map<string, DatabaseConfig>,
                        fetched: seq<Task>, jobIds: seq<string>, now: int, getDb: DatabaseConfig -> Option<string>): Swept
    requires |jobIds| == |fetched|
    decreases |fetched|
  {
    if fetched == [] then Swept(jobs, tasks, 0, [])
    else
      var n := |fetched| - 1;
      var s := SweepOutcome(jobs, tasks, configs, fetched[..n], jobIds[..n], now, getDb);
      if !ShouldRunNow(fetched[n], now) then s
      else
        var e := ExecuteOutcome(s.jobs, s.tasks, configs, fetched[n], jobIds[n], now, getDb);
        Swept(e.jobs, e.tasks, s.executed + (if e.result.Ok? then 1 else 0),
              s.spawned + (if e.spawned.Some? then [e.spawned.value] else []))
  }

  /** The fetched tasks that are due. */
  function DueCount(fetched: seq<Task>, now: int): (c: nat)
    ensures c <= |fetched|
  {
    if fetched == [] then 0
    else DueCount(fetched[..|fetched| - 1], now) + (if ShouldRunNow(fetched[|fetched| - 1], now) then 1 else 0)
  }

  /** A pass runs each due task at most once and never a task that is not due: the count and the spawns are bounded by the due tasks. */
  lemma {:induction false} SweepCountsDueTasks(jobs: map<string, Job>, tasks: map<string, Task>,
                                               configs: map<string, DatabaseConfig>, fetched: seq<Task>,
                                               jobIds: seq<string>, now: int, getDb: DatabaseConfig -> Option<string>)
    requires |jobIds| == |fetched|
    ensures var s := SweepOutcome(jobs, tasks, configs, fetched, jobIds, now, getDb);
            s.executed <= DueCount(fetched, now) && |s.spawned| <= DueCount(fetched, now)
    decreases |fetched|
  {
    if fetched != [] {
      var n := |fetched| - 1;
      SweepCountsDueTasks(jobs, tasks, configs, fetched[..n], jobIds[..n], now, getDb);
    }
  }

  /** A task that is not due keeps its row; existing jobs are never changed; every new job belongs to a due task. */
  lemma SweepTouchesOnlyDue(jobs: map<string, Job>, tasks: map<string, Task>,
                            configs: map<string, DatabaseConfig>, fetched: seq<Task>,
                            jobIds: seq<string>, now: int, getDb: DatabaseConfig -> Option<string>)
    requires |jobIds| == |fetched|
    ensures var s := SweepOutcome(jobs, tasks, configs, fetched, jobIds, now, getDb);
            s.tasks.Keys == tasks.Keys
            && forall id :: id in tasks && (forall i :: 0 <= i < |fetched| && ShouldRunNow(fetched[i], now) ==> fetched[i].id != id)
                 ==> s.tasks[id] == tasks[id]
    ensures var s := SweepOutcome(jobs, tasks, configs, fetched, jobIds, now, getDb);
            forall id :: id in jobs ==> id in s.jobs && s.jobs[id] == jobs[id]
    ensures var s := SweepOutcome(jobs, tasks, configs, fetched, jobIds, now, getDb);
            forall id :: id in s.jobs && id !in jobs ==>
              exists i :: 0 <= i < |fetched| && ShouldRunNow(fetched[i], now) && jobIds[i] == id
                          && s.jobs[id].taskId == Some(fetched[i].id)
  {
    SweepKeepsIdleTasks(jobs, tasks, configs, fetched, jobIds, now, getDb);
    SweepKeepsJobs(jobs, tasks, configs, fetched, jobIds, now, getDb);
    SweepNewJobsDue(jobs, tasks, configs, fetched, jobIds, now, getDb);
  }

  /** A pass keeps the task table's keys and the row of every task that was not due. */
  lemma {:induction false} SweepKeepsIdleTasks(jobs: map<string, Job>, tasks: map<string, Task>,
                                               configs: map<string, DatabaseConfig>, fetched: seq<Task>,
                                               jobIds: seq<string>, now: int, getDb: DatabaseConfig -> Option<string>)
    requires |jobIds| == |fetched|
    ensures var s := SweepOutcome(jobs, tasks, configs, fetched, jobIds, now, getDb);
            s.tasks.Keys == tasks.Keys
            && forall id :: id in tasks && (forall i :: 0 <= i < |fetched| && ShouldRunNow(fetched[i], now) ==> fetched[i].id != id)
                 ==> s.tasks[id] == tasks[id]
    decreases |fetched|
  {
    if fetched != [] {
      var n := |fetched| - 1;
      var s := SweepOutcome(jobs, tasks, configs, fetched[..n], jobIds[..n], now, getDb);
      SweepKeepsIdleTasks(jobs, tasks, configs, fetched[..n], jobIds[..n], now, getDb);
      if ShouldRunNow(fetched[n], now) {
        ExecuteOnlyAppends(s.jobs, s.tasks, configs, fetched[n], jobIds[n], now, getDb);
      }
    }
  }

  /** A pass changes no job that was already there. */
  lemma {:induction false} SweepKeepsJobs(jobs: map<string, Job>, tasks: map<string, Task>,
                                               configs: map<string, DatabaseConfig>, fetched: seq<Task>,
                                               jobIds: seq<string>, now: int, getDb: DatabaseConfig -> Option<string>)
    requires |jobIds| == |fetched|
    ensures var s := SweepOutcome(jobs, tasks, configs, fetched, jobIds, now, getDb);
            forall id :: id in jobs ==> id in s.jobs && s.jobs[id] == jobs[id]
    decreases |fetched|
  {
    if fetched != [] {
      var n := |fetched| - 1;
      var s := SweepOutcome(jobs, tasks, configs, fetched[..n], jobIds[..n], now, getDb);
      SweepKeepsJobs(jobs, tasks, configs, fetched[..n], jobIds[..n], now, getDb);
      if ShouldRunNow(fetched[n], now) {
        ExecuteOnlyAppends(s.jobs, s.tasks, configs, fetched[n], jobIds[n], now, getDb);
      }
    }
  }

  /** Every job a pass adds has the uuid drawn for a due task and points at that task. */
  lemma {:induction false} SweepNewJobsDue(jobs: map<string, Job>, tasks: map<string, Task>,
                                               configs: map<string, DatabaseConfig>, fetched: seq<Task>,
                                               jobIds: seq<string>, now: int, getDb: DatabaseConfig -> Option<string>)
    requires |jobIds| == |fetched|
    ensures NewJobsFromDue(jobs, fetched, jobIds, now, SweepOutcome(jobs, tasks, configs, fetched, jobIds, now, getDb).jobs)
    decreases |fetched|
  {
    if fetched != [] {
      var n := |fetched| - 1;
      var s := SweepOutcome(jobs, tasks, configs, fetched[..n], jobIds[..n], now, getDb);
      SweepNewJobsDue(jobs, tasks, configs, fetched[..n], jobIds[..n], now, getDb);
      NewJobsWiden(jobs, fetched, jobIds, now, s.jobs);
      if ShouldRunNow(fetched[n], now) {
        NewJobOfTask(s.jobs, s.tasks, configs, fetched[n], jobIds[n], now, getDb);
        NewJobsAdd(jobs, fetched, jobIds, now, s.jobs, ExecuteOutcome(s.jobs, s.tasks, configs, fetched[n], jobIds[n], now, getDb).jobs);
      }
    }
  }

  /** Every job in `after` but not in `jobs` has the uuid drawn for a due task of `fetched` and points at that task. */
  ghost predicate NewJobsFromDue(jobs: map<string, Job>, fetched: seq<Task>, jobIds: seq<string>, now: int,
                                 after: map<string, Job>)
    requires |jobIds| == |fetched|
  {
    forall id :: id in after && id !in jobs ==>
      exists i :: 0 <= i < |fetched| && ShouldRunNow(fetched[i], now) && jobIds[i] == id
                  && after[id].taskId == Some(fetched[i].id)
  }

  lemma NewJobsWiden(jobs: map<string, Job>, fetched: seq<Task>, jobIds: seq<string>, now: int, after: map<string, Job>)
    requires |jobIds| == |fetched| && fetched != []
    requires NewJobsFromDue(jobs, fetched[..|fetched| - 1], jobIds[..|fetched| - 1], now, after)
    ensures NewJobsFromDue(jobs, fetched, jobIds, now, after)
  {
    var n := |fetched| - 1;
    forall id | id in after && id !in jobs
      ensures exists i :: 0 <= i < |fetched| && ShouldRunNow(fetched[i], now) && jobIds[i] == id
                          && after[id].taskId == Some(fetched[i].id)
    {
      var i :| 0 <= i < n && ShouldRunNow(fetched[..n][i], now) && jobIds[..n][i] == id
               && after[id].taskId == Some(fetched[..n][i].id);
      assert fetched[..n][i] == fetched[i] && jobIds[..n][i] == jobIds[i];
    }
  }

  lemma NewJobsAdd(jobs: map<string, Job>, fetched: seq<Task>, jobIds: seq<string>, now: int,
                   before: map<string, Job>, after: map<string, Job>)
    requires |jobIds| == |fetched| && fetched != [] && ShouldRunNow(fetched[|fetched| - 1], now)
    requires NewJobsFromDue(jobs, fetched, jobIds, now, before)
    requires forall id :: id in after ==> id in before || (id == jobIds[|fetched| - 1] && after[id].taskId == Some(fetched[|fetched| - 1].id))
    requires forall id :: id in before ==> id in after && after[id] == before[id]
    ensures NewJobsFromDue(jobs, fetched, jobIds, now, after)
  {
    var n := |fetched| - 1;
    forall id | id in after && id !in jobs
      ensures exists i :: 0 <= i < |fetched| && ShouldRunNow(fetched[i], now) && jobIds[i] == id
                          && after[id].taskId == Some(fetched[i].id)
    {
      if id in before {
        var i :| 0 <= i < |fetched| && ShouldRunNow(fetched[i], now) && jobIds[i] == id && before[id].taskId == Some(fetched[i].id);
        assert after[id] == before[id];
      } else {
        assert jobIds[n] == id && after[id].taskId == Some(fetched[n].id);
      }
    }
  }

  /** A run adds at most the job under the drawn uuid, and that job points at the task. */
  lemma NewJobOfTask(jobs: map<string, Job>, tasks: map<string, Task>, configs: map<string, DatabaseConfig>,
                     task: Task, jobId: string, now: int, getDb: DatabaseConfig -> Option<string>)
    ensures var e := ExecuteOutcome(jobs, tasks, configs, task, jobId, now, getDb);
            forall id :: id in e.jobs ==> id in jobs || (id == jobId && e.jobs[id].taskId == Some(task.id))
    ensures var e := ExecuteOutcome(jobs, tasks, configs, task, jobId, now, getDb);
            forall id :: id in jobs ==> id in e.jobs && e.jobs[id] == jobs[id]
  {
    ExecuteOnlyAppends(jobs, tasks, configs, task, jobId, now, getDb);
    var e := ExecuteOutcome(jobs, tasks, configs, task, jobId, now, getDb);
    if e.jobs != jobs {
      if HasLiveJob(jobs, task.id) {
        LiveJobCancelsRun(jobs, tasks, configs, task, jobId, now, getDb);
      } else {
        IdleTaskStartsBackup(jobs, tasks, configs, task, jobId, now, getDb);
      }
    }
  }

  /** A pass never gives a task a second live job. */
  lemma {:induction false} SweepKeepsSingleFlight(jobs: map<string, Job>, tasks: map<string, Task>,
                                                  configs: map<string, DatabaseConfig>, fetched: seq<Task>,
                                                  jobIds: seq<string>, now: int, getDb: DatabaseConfig -> Option<string>)
    requires |jobIds| == |fetched| && SingleFlight(jobs)
    ensures SingleFlight(SweepOutcome(jobs, tasks, configs, fetched, jobIds, now, getDb).jobs)
    decreases |fetched|
  {
    if fetched != [] {
      var n := |fetched| - 1;
      var s := SweepOutcome(jobs, tasks, configs, fetched[..n], jobIds[..n], now, getDb);
      SweepKeepsSingleFlight(jobs, tasks, configs, fetched[..n], jobIds[..n], now, getDb);
      ExecuteKeepsSingleFlight(s.jobs, s.tasks, configs, fetched[n], jobIds[n], now, getDb);
    }
  }

  // ------------------------------------------------------------ the spawned backup

  /** The final `UPDATE` of the spawned backup: completed with its archive, or failed with the error. */
  function SpawnedRow(j: Job, outcome: Result<string, string>, now: int): Job {
    match outcome
    case Ok(path) => j.(status := StatusName(Completed), completedAt := Some(now), progress := 100, backupPath := Some(path))
    case Err(e) => j.(status := StatusName(Failed), errorMessage := Some(e), completedAt := Some(now))
  }

  /** That `UPDATE ... WHERE id = ?` on the jobs table. */
  function AfterSpawn(jobs: map<string, Job>, id: string, outcome: Result<string, string>, now: int): map<string, Job> {
    if id in jobs then jobs[id := SpawnedRow(jobs[id], outcome, now)] else jobs
  }

  /**
   * The body of the spawned task: the database name is worked out again
   * (failing the job when there is none), the backup runs with the clock
   * readings `c`, and its result is written over the row, at `finished`,
   * whatever the run left there.
   */
  method RunSpawnedBackup(db: Db, fs: FileSystem, s: Spawned, getDb: DatabaseConfig -> Option<string>,
                          backupBase: string, logBase: string, uuid: string,
                          rows: Result<seq<Engines.EngineRow>, string>, dump: ToolRun, tar: ToolRun,
                          size: nat, modified: int, c: Mydumper.RunClock, finished: int)
    returns (outcome: Result<string, string>, ghost end: Mydumper.RunEnd)
    requires size < U64_BOUND
    modifies db, fs
    ensures db.tasks == old(db.tasks) && db.configs == old(db.configs) && db.backups == old(db.backups)
    ensures DatabaseNameFor(s.task, s.config, getDb).None? ==>
              outcome == Err(NO_DATABASE_NAME) && end == Mydumper.NotStarted
              && db.jobs == AfterSpawn(old(db.jobs), s.jobId, outcome, finished)
              && fs.nodes == old(fs.nodes) && db.statusLog == old(db.statusLog)
    ensures DatabaseNameFor(s.task, s.config, getDb).Some? ==>
              db.statusLog == old(db.statusLog) + Mydumper.RunWrites(s.jobId, end)
              && db.jobs == AfterSpawn(Mydumper.RunJobs(old(db.jobs), s.jobId, end, Mydumper.LogPath(logBase, s.jobId),
                                                        SpawnArchive(s, backupBase, uuid, c.archived),
                                                        Mydumper.DumpMessage(dump), c),
                                       s.jobId, outcome, finished)
              && (outcome.Ok? <==> end == Mydumper.Finished)
              && (outcome.Ok? ==> outcome.value == SpawnArchive(s, backupBase, uuid, c.archived))
              && (end != Mydumper.NotStarted ==>
                    Mydumper.Replied(outcome, end, dump, tar, SpawnArchive(s, backupBase, uuid, c.archived)))
  {
    var name := DatabaseNameFor(s.task, s.config, getDb);
    if name.None? {
      outcome, end := Err(NO_DATABASE_NAME), Mydumper.NotStarted;
    } else {
      outcome, end := Mydumper.CreateBackupWithProgress(db, fs, s.config, name.value, s.task, s.jobId, backupBase, logBase,
                                                        uuid, rows, dump, tar, size, modified, c);
    }
    if s.jobId in db.jobs {
      db.PutJob(s.jobId, SpawnedRow(db.jobs[s.jobId], outcome, finished));
    }
  }

  /** Where the spawned backup's archive goes, named by the instant `at` it is created. */
  function SpawnArchive(s: Spawned, backupBase: string, uuid: string, at: int): string {
    BackupProcesses.ArchivePath(FsBackups.ProcessFor(backupBase, s.jobId, s.config, Some(s.task), uuid), at)
  }

  /** The run's statements and the final `UPDATE` touch only the job's own row. */
  lemma SpawnedRunJobs(jobs: map<string, Job>, id: string, e: Mydumper.RunEnd, logPath: string, archive: string,
                       message: string, outcome: Result<string, string>, c: Mydumper.RunClock, finished: int)
    requires id in jobs
    ensures AfterSpawn(Mydumper.RunJobs(jobs, id, e, logPath, archive, message, c), id, outcome, finished)
            == jobs[id := SpawnedRow(Mydumper.RunRow(jobs[id], e, logPath, archive, message, c), outcome, finished)]
  {
    Mydumper.RunTouchesOneRow(jobs, id, e, logPath, archive, message, c);
  }

  /**
   * Whatever the run did, the row the spawned backup leaves reads back as
   * Completed or Failed, never as running or compressing: Completed with
   * its archive and full progress exactly when the run finished, Failed
   * with the error otherwise. It keeps `started_at` from the run's running
   * write and takes `completed_at` from the final `UPDATE`.
   */
  lemma SpawnedRunRow(j: Job, e: Mydumper.RunEnd, logPath: string, archive: string, message: string,
                      outcome: Result<string, string>, c: Mydumper.RunClock, finished: int)
    requires e != Mydumper.NotStarted
    requires (outcome.Ok? <==> e == Mydumper.Finished) && (outcome.Ok? ==> outcome.value == archive)
    ensures var row := SpawnedRow(Mydumper.RunRow(j, e, logPath, archive, message, c), outcome, finished);
            JobStatusOf(row) == Ok(if e == Mydumper.Finished then Completed else Failed)
            && row.startedAt == Some(c.running) && row.completedAt == Some(finished) && row.logOutput == Some(logPath)
            && (e == Mydumper.Finished ==> row.backupPath == Some(archive) && row.progress == 100)
            && (e != Mydumper.Finished ==> row.errorMessage == Some(outcome.error))
  {
    var run := Mydumper.RunRow(j, e, logPath, archive, message, c);
    assert run.startedAt == Some(c.running) && run.logOutput == Some(logPath) by {
      Mydumper.RunRowCarriesLastStatus(j, e, logPath, archive, message, c);
    }
    if e == Mydumper.Finished {
      StatusRoundTrip(Completed);
    } else {
      StatusRoundTrip(Failed);
    }
  }

  /** A spawned backup without a database name fails its job and touches nothing else. */
  lemma UnnamedSpawnFails(jobs: map<string, Job>, id: string, now: int)
    requires id in jobs
    ensures var row := AfterSpawn(jobs, id, Err(NO_DATABASE_NAME), now)[id];
            JobStatusOf(row) == Ok(Failed) && row.errorMessage == Some(NO_DATABASE_NAME) && row.completedAt == Some(now)
  {
    StatusRoundTrip(Failed);
  }

  /** A backup is only spawned for a task whose name was found, so the spawned body never takes its no-name branch. */
  lemma SpawnHasDatabaseName(jobs: map<string, Job>, tasks: map<string, Task>, configs: map<string, DatabaseConfig>,
                             task: Task, jobId: string, now: int, getDb: DatabaseConfig -> Option<string>)
    ensures var e := ExecuteOutcome(jobs, tasks, configs, task, jobId, now, getDb);
            e.spawned.Some? ==>
              e.spawned.value.jobId == jobId && e.spawned.value.task == task && jobId in e.jobs
              && DatabaseNameFor(task, e.spawned.value.config, getDb).Some?
  {
  }

  // ------------------------------------------------------------ removing old backups

  /** The instant `cleanup_days` days before `now`. */
  function Cutoff(t: Task, now: int): int {
    now - t.cleanupDays * 86400
  }

  /** The cleanup query's filter: active, and keeping backups for a positive number of days. */
  predicate KeepsLimitedDays(t: Task) {
    t.isActive && t.cleanupDays > 0
  }

  /** Where an entry's sidecar sits. */
  function SidecarPath(dir: string): string {
    Join(dir, BackupProcesses.META_FILE_NAME)
  }

  /** What the cleanup looks at in an entry: the node at its path and the node at its sidecar's path. */
  datatype EntryView = EntryView(entry: Option<Node>, sidecar: Option<Node>)

  function ViewOf(nodes: map<string, Node>, dir: string): EntryView {
    EntryView(if dir in nodes then Some(nodes[dir]) else None,
              if SidecarPath(dir) in nodes then Some(nodes[SidecarPath(dir)]) else None)
  }

  /** An entry of which nothing is left. */
  const GONE: EntryView := EntryView(None, None)

  /**
   * The entry is a directory whose sidecar is a JSON object with a string
   * `task_id` naming task `t` and a string `created_at` that reads as an
   * instant before the task's cutoff; the rest of the sidecar is not
   * looked at.
   */
  predicate ExpiredView(v: EntryView, t: Task, now: int, rfc3339: string -> Option<int>) {
    v.entry == Some(Directory) && v.sidecar.Some? && v.sidecar.value.Sidecar?
    && v.sidecar.value.taskId == Some(t.id)
    && v.sidecar.value.createdAt.Some?
    && rfc3339(v.sidecar.value.createdAt.value).Some?
    && rfc3339(v.sidecar.value.createdAt.value).value < Cutoff(t, now)
  }

  predicate Expired(nodes: map<string, Node>, dir: string, t: Task, now: int, rfc3339: string -> Option<int>) {
    ExpiredView(ViewOf(nodes, dir), t, now, rfc3339)
  }

  /** The filesystem after a cleanup and the number of directories it removed. */
  datatype Cleaned = Cleaned(nodes: map<string, Node>, deleted: nat)

  /** One task's walk over the listing of `base`: each expired entry is removed and counted. */
  function SweepEntries(nodes: map<string, Node>, base: string, names: seq<string>, t: Task, now: int,
                        rfc3339: string -> Option<int>): Cleaned
    decreases |names|
  {
    if names == [] then Cleaned(nodes, 0)
    else
      var n := |names| - 1;
      var c := SweepEntries(nodes, base, names[..n], t, now, rfc3339);
      var dir := Join(base, names[n]);
      if Expired(c.nodes, dir, t, now, rfc3339) then Cleaned(WithoutTree(c.nodes, dir), c.deleted + 1) else c
  }

  /** The walks of the fetched tasks in turn; `read_dir` of a base that is not a directory fails and skips the task. */
  function CleanupPasses(nodes: map<string, Node>, base: string, fetched: seq<Task>, names: seq<string>, now: int,
                         rfc3339: string -> Option<int>): Cleaned
    decreases |fetched|
  {
    if fetched == [] then Cleaned(nodes, 0)
    else
      var n := |fetched| - 1;
      var c := CleanupPasses(nodes, base, fetched[..n], names, now, rfc3339);
      if KeepsLimitedDays(fetched[n]) && IsDir(c.nodes, base) then
        var w := SweepEntries(c.nodes, base, names, fetched[n], now, rfc3339);
        Cleaned(w.nodes, c.deleted + w.deleted)
      else c
  }

  /** `cleanup_old_backups`: nothing at all when the base path does not exist. */
  function CleanupOutcome(nodes: map<string, Node>, base: string, fetched: seq<Task>, names: seq<string>, now: int,
                          rfc3339: string -> Option<int>): Cleaned
  {
    if base !in nodes then Cleaned(nodes, 0) else CleanupPasses(nodes, base, fetched, names, now, rfc3339)
  }

  /** `q` lies in none of the listed entries. */
  ghost predicate OutsideListing(q: string, base: string, names: seq<string>) {
    forall k :: 0 <= k < |names| ==> !Under(q, Join(base, names[k]))
  }

  /** `after` only lacks paths of `before`, and keeps everything outside the listed entries. */
  ghost predicate OnlyRemovesListed(before: map<string, Node>, after: map<string, Node>, base: string, names: seq<string>) {
    (forall q :: q in after ==> q in before && after[q] == before[q])
    && (forall q :: q in before && OutsideListing(q, base, names) ==> q in after)
  }

  lemma {:induction false} SweepEntriesOnlyRemovesListed(nodes: map<string, Node>, base: string, names: seq<string>,
                                                         t: Task, now: int, rfc3339: string -> Option<int>)
    ensures OnlyRemovesListed(nodes, SweepEntries(nodes, base, names, t, now, rfc3339).nodes, base, names)
    decreases |names|
  {
    if names != [] {
      var n := |names| - 1;
      SweepEntriesOnlyRemovesListed(nodes, base, names[..n], t, now, rfc3339);
      forall q | q in nodes && OutsideListing(q, base, names)
        ensures OutsideListing(q, base, names[..n]) && !Under(q, Join(base, names[n]))
      {
      }
    }
  }

  /** The cleanup removes paths and adds or changes none, and leaves everything outside the listed entries alone. */
  lemma {:induction false} CleanupOnlyRemovesListed(nodes: map<string, Node>, base: string, fetched: seq<Task>,
                                                    names: seq<string>, now: int, rfc3339: string -> Option<int>)
    ensures OnlyRemovesListed(nodes, CleanupOutcome(nodes, base, fetched, names, now, rfc3339).nodes, base, names)
  {
    if base in nodes {
      PassesOnlyRemoveListed(nodes, base, fetched, names, now, rfc3339);
    }
  }

  lemma {:induction false} PassesOnlyRemoveListed(nodes: map<string, Node>, base: string, fetched: seq<Task>,
                                                  names: seq<string>, now: int, rfc3339: string -> Option<int>)
    ensures OnlyRemovesListed(nodes, CleanupPasses(nodes, base, fetched, names, now, rfc3339).nodes, base, names)
    decreases |fetched|
  {
    if fetched != [] {
      var n := |fetched| - 1;
      var c := CleanupPasses(nodes, base, fetched[..n], names, now, rfc3339);
      PassesOnlyRemoveListed(nodes, base, fetched[..n], names, now, rfc3339);
      SweepEntriesOnlyRemovesListed(c.nodes, base, names, fetched[n], now, rfc3339);
    }
  }

  /** Every listed name is a single normal component, as `read_dir` yields. */
  ghost predicate AllNormal(names: seq<string>) {
    forall k :: 0 <= k < |names| ==> NormalName(names[k])
  }

  lemma MetaFileNameNormal()
    ensures NormalName(BackupProcesses.META_FILE_NAME) && BackupProcesses.META_FILE_NAME[0] != '/'
  {
    assert BackupProcesses.META_FILE_NAME == "rdumper.backup.json";
  }

  /** An entry joined below `base`, and its sidecar, spelled out. */
  lemma EntryPaths(base: string, a: string)
    requires NormalName(a)
    ensures Join(base, a) == DirPrefix(base) + a
    ensures SidecarPath(Join(base, a)) == DirPrefix(base) + a + "/" + BackupProcesses.META_FILE_NAME
  {
    assert a[0] != '/' by { assert a[0] in a; }
    var d := DirPrefix(base) + a;
    assert d[|d| - 1] == a[|a| - 1];
    assert a[|a| - 1] != '/' by { assert a[|a| - 1] in a; }
    MetaFileNameNormal();
  }

  /** An entry's sidecar lies in the entry; the base lies in no entry. */
  lemma EntryHoldsSidecar(base: string, a: string)
    requires NormalName(a)
    ensures Under(SidecarPath(Join(base, a)), Join(base, a))
    ensures !Under(base, Join(base, a))
  {
    EntryPaths(base, a);
    var d := DirPrefix(base) + a;
    assert SidecarPath(d) == (d + "/") + BackupProcesses.META_FILE_NAME;
  }

  /** A component followed by a separator neither is nor starts another separator-free component and a separator. */
  lemma ComponentsDiffer(a: string, b: string, f: string)
    requires '/' !in a && '/' !in b && a != b
    ensures a + "/" + f != b
    ensures !StartsWith(a + "/" + f, b + "/")
  {
    var q, y := a + "/" + f, b + "/";
    assert q[|a|] == '/';
    assert y[|b|] == '/';
    if |a| < |b| {
      assert b[|a|] in b;
      assert y[|a|] != q[|a|];
    } else if |b| < |a| {
      assert a[|b|] in a;
      assert q[|b|] != y[|b|];
    } else {
      assert q[..|a|] == a && y[..|b|] == b;
    }
  }

  /** Neither an entry nor its sidecar lies in a sibling entry. */
  lemma EntriesApart(base: string, a: string, b: string)
    requires NormalName(a) && NormalName(b) && a != b
    ensures !Under(Join(base, a), Join(base, b))
    ensures !Under(SidecarPath(Join(base, a)), Join(base, b))
  {
    SiblingsApart(base, a, b);
    SidecarApart(base, a, b);
  }

  lemma SidecarApart(base: string, a: string, b: string)
    requires NormalName(a) && NormalName(b) && a != b
    ensures !Under(SidecarPath(Join(base, a)), Join(base, b))
  {
    var x, f := DirPrefix(base), BackupProcesses.META_FILE_NAME;
    var p, q := SidecarPath(Join(base, a)), Join(base, b);
    assert q == x + b by { EntryPaths(base, b); }
    assert p == x + (a + "/" + f) by { EntryPaths(base, a); }
    ComponentNotUnder(x, a, b, f, p, q);
  }

  /** Below a common prefix, a component and what follows it never lie in a different component. */
  lemma ComponentNotUnder(x: string, a: string, b: string, f: string, p: string, q: string)
    requires '/' !in a && '/' !in b && a != b
    requires p == x + (a + "/" + f) && q == x + b
    ensures !Under(p, q)
  {
    var s := a + "/" + f;
    ComponentsDiffer(a, b, f);
    PrefixCancels(x, s, b);
    PrefixCancels(x, s, b + "/");
    assert x + b + "/" == x + (b + "/");
  }

  /** A common prefix changes neither equality nor being a prefix. */
  lemma PrefixCancels(x: string, s: string, t: string)
    ensures (x + s == x + t) == (s == t)
    ensures (x + t <= x + s) == (t <= s)
  {
    if x + s == x + t {
      assert s == (x + s)[|x|..] == (x + t)[|x|..] == t;
    }
    if x + t <= x + s {
      assert t == (x + t)[|x|..] == (x + s)[|x|..|x| + |t|];
    }
  }

  /** Removing an entry leaves nothing of it. */
  lemma RemovalHidesEntry(nodes: map<string, Node>, base: string, a: string)
    requires NormalName(a)
    ensures ViewOf(WithoutTree(nodes, Join(base, a)), Join(base, a)) == GONE
  {
    EntryHoldsSidecar(base, a);
  }

  /** Removing an entry leaves its siblings and the base as they were. */
  lemma RemovalSparesSiblings(nodes: map<string, Node>, base: string, a: string, b: string)
    requires NormalName(a) && NormalName(b) && a != b
    ensures ViewOf(WithoutTree(nodes, Join(base, b)), Join(base, a)) == ViewOf(nodes, Join(base, a))
  {
    EntriesApart(base, a, b);
  }

  /** One task's walk keeps the base directory. */
  lemma {:induction false} SweepEntriesKeepsBase(nodes: map<string, Node>, base: string, names: seq<string>,
                                                 t: Task, now: int, rfc3339: string -> Option<int>)
    requires AllNormal(names)
    ensures IsDir(SweepEntries(nodes, base, names, t, now, rfc3339).nodes, base) == IsDir(nodes, base)
    decreases |names|
  {
    if names != [] {
      var n := |names| - 1;
      SweepEntriesKeepsBase(nodes, base, names[..n], t, now, rfc3339);
      EntryHoldsSidecar(base, names[n]);
    }
  }

  /** One step of a walk: the entry it looks at goes if it is expired; every other entry stays as it was. */
  lemma StepView(nodes: map<string, Node>, base: string, x: string, t: Task, now: int,
                 rfc3339: string -> Option<int>, m: string)
    requires NormalName(x) && NormalName(m)
    ensures ViewOf(if Expired(nodes, Join(base, x), t, now, rfc3339) then WithoutTree(nodes, Join(base, x)) else nodes, Join(base, m))
            == if m == x && Expired(nodes, Join(base, m), t, now, rfc3339) then GONE else ViewOf(nodes, Join(base, m))
  {
    if Expired(nodes, Join(base, x), t, now, rfc3339) {
      if m == x {
        RemovalHidesEntry(nodes, base, m);
      } else {
        RemovalSparesSiblings(nodes, base, m, x);
      }
    }
  }

  /** A name is listed when it is listed before the last place or in it. */
  lemma InPrefixOrLast(names: seq<string>, m: string)
    requires names != []
    ensures m in names <==> m in names[..|names| - 1] || m == names[|names| - 1]
  {
    assert names == names[..|names| - 1] + [names[|names| - 1]];
  }

  /** After one task's walk, a listed entry is gone exactly when it was expired for that task; any other entry is as it was. */
  lemma {:induction false} SweepEntriesView(nodes: map<string, Node>, base: string, names: seq<string>, t: Task,
                                            now: int, rfc3339: string -> Option<int>, m: string)
    requires AllNormal(names) && NormalName(m)
    ensures ViewOf(SweepEntries(nodes, base, names, t, now, rfc3339).nodes, Join(base, m))
            == if m in names && Expired(nodes, Join(base, m), t, now, rfc3339) then GONE else ViewOf(nodes, Join(base, m))
    decreases |names|
  {
    if names != [] {
      var n := |names| - 1;
      var c := SweepEntries(nodes, base, names[..n], t, now, rfc3339);
      var x, d := names[n], Join(base, m);
      SweepEntriesView(nodes, base, names[..n], t, now, rfc3339, m);
      StepView(c.nodes, base, x, t, now, rfc3339, m);
      InPrefixOrLast(names, m);
      if m in names[..n] && Expired(nodes, d, t, now, rfc3339) {
        assert ViewOf(c.nodes, d) == GONE;
        assert !Expired(c.nodes, d, t, now, rfc3339);
      } else {
        assert ViewOf(c.nodes, d) == ViewOf(nodes, d);
        assert Expired(c.nodes, d, t, now, rfc3339) == Expired(nodes, d, t, now, rfc3339);
      }
    }
  }

  /** The listed names whose entries are expired for `t`. */
  ghost function ExpiredNames(nodes: map<string, Node>, base: string, names: seq<string>, t: Task, now: int,
                              rfc3339: string -> Option<int>): set<string>
  {
    set m | m in names && Expired(nodes, Join(base, m), t, now, rfc3339)
  }

  /** One task's walk removes each expired entry once, however often it is listed. */
  lemma SweepEntriesCount(nodes: map<string, Node>, base: string, names: seq<string>, t: Task,
                          now: int, rfc3339: string -> Option<int>)
    requires AllNormal(names)
    ensures SweepEntries(nodes, base, names, t, now, rfc3339).deleted == |ExpiredNames(nodes, base, names, t, now, rfc3339)|
  {
    var k := 0;
    assert names[..0] == [];
    while k < |names|
      invariant k <= |names|
      invariant Counted(nodes, base, names[..k], t, now, rfc3339)
    {
      PrefixNormal(names, k);
      SweepEntriesCountStep(nodes, base, names[..k], names[k], t, now, rfc3339);
      k := k + 1;
    }
    assert names[..k] == names;
  }

  /** A prefix of normal names, and the name after it. */
  lemma PrefixNormal(names: seq<string>, k: nat)
    requires AllNormal(names) && k < |names|
    ensures AllNormal(names[..k]) && NormalName(names[k])
    ensures names[..k + 1] == names[..k] + [names[k]]
  {
    forall i | 0 <= i < k ensures NormalName(names[..k][i]) { assert names[..k][i] == names[i]; }
  }

  /** The walk over `q` removed as many entries as `q` names expired ones. */
  ghost predicate Counted(nodes: map<string, Node>, base: string, q: seq<string>, t: Task, now: int,
                          rfc3339: string -> Option<int>) {
    SweepEntries(nodes, base, q, t, now, rfc3339).deleted == |ExpiredNames(nodes, base, q, t, now, rfc3339)|
  }

  /** The count is kept when the walk takes in one more listed name. */
  lemma SweepEntriesCountStep(nodes: map<string, Node>, base: string, q: seq<string>, x: string, t: Task,
                              now: int, rfc3339: string -> Option<int>)
    requires AllNormal(q) && NormalName(x)
    requires Counted(nodes, base, q, t, now, rfc3339)
    ensures Counted(nodes, base, q + [x], t, now, rfc3339)
  {
    SweepEntriesAppend(nodes, base, q, x, t, now, rfc3339);
    ExpiredNamesAppend(nodes, base, q, x, t, now, rfc3339);
  }

  /** The walk over one more name removes one more entry exactly when that name is new and expired. */
  lemma SweepEntriesAppend(nodes: map<string, Node>, base: string, q: seq<string>, x: string, t: Task,
                           now: int, rfc3339: string -> Option<int>)
    requires AllNormal(q) && NormalName(x)
    ensures SweepEntries(nodes, base, q + [x], t, now, rfc3339).deleted
            == SweepEntries(nodes, base, q, t, now, rfc3339).deleted
               + if x !in q && Expired(nodes, Join(base, x), t, now, rfc3339) then 1 else 0
  {
    assert (q + [x])[..|q|] == q;
    assert (q + [x])[|q|] == x;
    SweepEntriesView(nodes, base, q, t, now, rfc3339, x);
  }

  /** The expired names of one more name: that name joins them when it is new and expired. */
  lemma ExpiredNamesAppend(nodes: map<string, Node>, base: string, q: seq<string>, x: string, t: Task,
                           now: int, rfc3339: string -> Option<int>)
    ensures |ExpiredNames(nodes, base, q + [x], t, now, rfc3339)|
            == |ExpiredNames(nodes, base, q, t, now, rfc3339)|
               + if x !in q && Expired(nodes, Join(base, x), t, now, rfc3339) then 1 else 0
  {
    var before, after := ExpiredNames(nodes, base, q, t, now, rfc3339), ExpiredNames(nodes, base, q + [x], t, now, rfc3339);
    forall m
      ensures m in after <==> m in before || (m == x && Expired(nodes, Join(base, x), t, now, rfc3339))
    {
      assert m in q + [x] <==> m in q || m == x;
    }
    if x in q || !Expired(nodes, Join(base, x), t, now, rfc3339) {
      assert after == before;
    } else {
      assert x !in before;
      assert after == before + {x};
    }
  }

  /** Some fetched task that keeps backups for limited days finds the entry expired. */
  ghost predicate Doomed(nodes: map<string, Node>, dir: string, fetched: seq<Task>, now: int,
                         rfc3339: string -> Option<int>) {
    exists i :: 0 <= i < |fetched| && KeepsLimitedDays(fetched[i]) && Expired(nodes, dir, fetched[i], now, rfc3339)
  }

  lemma DoomedByPrefixOrLast(nodes: map<string, Node>, dir: string, fetched: seq<Task>, now: int,
                             rfc3339: string -> Option<int>)
    requires fetched != []
    ensures var n := |fetched| - 1;
            Doomed(nodes, dir, fetched, now, rfc3339)
            <==> Doomed(nodes, dir, fetched[..n], now, rfc3339)
                 || (KeepsLimitedDays(fetched[n]) && Expired(nodes, dir, fetched[n], now, rfc3339))
  {
    var n := |fetched| - 1;
    if Doomed(nodes, dir, fetched, now, rfc3339) {
      var i :| 0 <= i < |fetched| && KeepsLimitedDays(fetched[i]) && Expired(nodes, dir, fetched[i], now, rfc3339);
      if i < n {
        assert fetched[..n][i] == fetched[i];
      }
    }
    if Doomed(nodes, dir, fetched[..n], now, rfc3339) {
      var i :| 0 <= i < n && KeepsLimitedDays(fetched[..n][i]) && Expired(nodes, dir, fetched[..n][i], now, rfc3339);
      assert fetched[..n][i] == fetched[i];
    }
  }

  /** A base that is not a directory cannot be listed, so every pass is skipped. */
  lemma {:induction false} PassesSkipNonDirectory(nodes: map<string, Node>, base: string, fetched: seq<Task>,
                                                  names: seq<string>, now: int, rfc3339: string -> Option<int>)
    requires !IsDir(nodes, base)
    ensures CleanupPasses(nodes, base, fetched, names, now, rfc3339) == Cleaned(nodes, 0)
    decreases |fetched|
  {
    if fetched != [] {
      PassesSkipNonDirectory(nodes, base, fetched[..|fetched| - 1], names, now, rfc3339);
    }
  }

  /** Every pass keeps the base directory. */
  lemma {:induction false} PassesKeepBase(nodes: map<string, Node>, base: string, fetched: seq<Task>, names: seq<string>,
                                          now: int, rfc3339: string -> Option<int>)
    requires AllNormal(names) && IsDir(nodes, base)
    ensures IsDir(CleanupPasses(nodes, base, fetched, names, now, rfc3339).nodes, base)
    decreases |fetched|
  {
    if fetched != [] {
      var n := |fetched| - 1;
      var c := CleanupPasses(nodes, base, fetched[..n], names, now, rfc3339);
      PassesKeepBase(nodes, base, fetched[..n], names, now, rfc3339);
      SweepEntriesKeepsBase(c.nodes, base, names, fetched[n], now, rfc3339);
    }
  }

  lemma ListedNormal(names: seq<string>, m: string)
    requires AllNormal(names) && m in names
    ensures NormalName(m)
  {
    var k :| 0 <= k < |names| && names[k] == m;
  }

  /** After every pass, a listed entry is gone exactly when some task found it expired; the base stays a directory. */
  lemma {:induction false} PassesView(nodes: map<string, Node>, base: string, fetched: seq<Task>, names: seq<string>,
                                      now: int, rfc3339: string -> Option<int>, m: string)
    requires AllNormal(names) && NormalName(m) && IsDir(nodes, base)
    ensures ViewOf(CleanupPasses(nodes, base, fetched, names, now, rfc3339).nodes, Join(base, m))
            == if m in names && Doomed(nodes, Join(base, m), fetched, now, rfc3339) then GONE else ViewOf(nodes, Join(base, m))
    decreases |fetched|
  {
    if fetched != [] {
      var n, d := |fetched| - 1, Join(base, m);
      var c := CleanupPasses(nodes, base, fetched[..n], names, now, rfc3339);
      PassesView(nodes, base, fetched[..n], names, now, rfc3339, m);
      PassesKeepBase(nodes, base, fetched[..n], names, now, rfc3339);
      DoomedByPrefixOrLast(nodes, d, fetched, now, rfc3339);
      if KeepsLimitedDays(fetched[n]) {
        SweepEntriesView(c.nodes, base, names, fetched[n], now, rfc3339, m);
        if m in names && Doomed(nodes, d, fetched[..n], now, rfc3339) {
          assert !Expired(c.nodes, d, fetched[n], now, rfc3339);
        } else {
          assert Expired(c.nodes, d, fetched[n], now, rfc3339) == Expired(nodes, d, fetched[n], now, rfc3339);
        }
      }
    }
  }

  /** The listed names whose entries some fetched task finds expired. */
  ghost function DoomedNames(nodes: map<string, Node>, base: string, names: seq<string>, fetched: seq<Task>, now: int,
                             rfc3339: string -> Option<int>): set<string>
  {
    set m | m in names && Doomed(nodes, Join(base, m), fetched, now, rfc3339)
  }

  /** Every pass together removes each doomed entry once. */
  lemma {:induction false} PassesCount(nodes: map<string, Node>, base: string, fetched: seq<Task>, names: seq<string>,
                                       now: int, rfc3339: string -> Option<int>)
    requires AllNormal(names) && IsDir(nodes, base)
    ensures CleanupPasses(nodes, base, fetched, names, now, rfc3339).deleted == |DoomedNames(nodes, base, names, fetched, now, rfc3339)|
    decreases |fetched|
  {
    if fetched != [] {
      var n := |fetched| - 1;
      PassesCount(nodes, base, fetched[..n], names, now, rfc3339);
      if KeepsLimitedDays(fetched[n]) {
        PassesKeepBase(nodes, base, fetched[..n], names, now, rfc3339);
        var c := CleanupPasses(nodes, base, fetched[..n], names, now, rfc3339);
        SweepEntriesCount(c.nodes, base, names, fetched[n], now, rfc3339);
        DoomedNamesGrow(nodes, base, fetched, names, now, rfc3339);
      } else {
        DoomedNamesKept(nodes, base, fetched, names, now, rfc3339);
      }
    }
  }

  /** A last task that keeps backups for limited days adds the entries it finds expired and no earlier task did. */
  lemma DoomedNamesGrow(nodes: map<string, Node>, base: string, fetched: seq<Task>, names: seq<string>,
                        now: int, rfc3339: string -> Option<int>)
    requires AllNormal(names) && IsDir(nodes, base) && fetched != [] && KeepsLimitedDays(fetched[|fetched| - 1])
    ensures var n := |fetched| - 1;
            var c := CleanupPasses(nodes, base, fetched[..n], names, now, rfc3339);
            var before := DoomedNames(nodes, base, names, fetched[..n], now, rfc3339);
            var added := ExpiredNames(c.nodes, base, names, fetched[n], now, rfc3339);
            DoomedNames(nodes, base, names, fetched, now, rfc3339) == before + added && before * added == {}
  {
    var n := |fetched| - 1;
    var c := CleanupPasses(nodes, base, fetched[..n], names, now, rfc3339);
    var before, after := DoomedNames(nodes, base, names, fetched[..n], now, rfc3339), DoomedNames(nodes, base, names, fetched, now, rfc3339);
    var added := ExpiredNames(c.nodes, base, names, fetched[n], now, rfc3339);
    forall m | m in names
      ensures m in added <==> m !in before && Expired(nodes, Join(base, m), fetched[n], now, rfc3339)
      ensures m in after <==> m in before || m in added
    {
      ListedNormal(names, m);
      PassesView(nodes, base, fetched[..n], names, now, rfc3339, m);
      DoomedByPrefixOrLast(nodes, Join(base, m), fetched, now, rfc3339);
    }
  }

  /** A last task that keeps backups forever dooms nothing more. */
  lemma DoomedNamesKept(nodes: map<string, Node>, base: string, fetched: seq<Task>, names: seq<string>,
                        now: int, rfc3339: string -> Option<int>)
    requires fetched != [] && !KeepsLimitedDays(fetched[|fetched| - 1])
    ensures DoomedNames(nodes, base, names, fetched, now, rfc3339)
            == DoomedNames(nodes, base, names, fetched[..|fetched| - 1], now, rfc3339)
  {
    forall m | m in names
      ensures Doomed(nodes, Join(base, m), fetched, now, rfc3339)
              == Doomed(nodes, Join(base, m), fetched[..|fetched| - 1], now, rfc3339)
    {
      DoomedByPrefixOrLast(nodes, Join(base, m), fetched, now, rfc3339);
    }
  }

  /**
   * `cleanup_old_backups` as a whole: when the base is a directory, a
   * listed entry goes exactly when some task that keeps backups for limited
   * days finds it expired, and the count is the number of such entries;
   * otherwise nothing changes and the count is zero.
   */
  lemma CleanupRemovesExactlyExpired(nodes: map<string, Node>, base: string, fetched: seq<Task>, names: seq<string>,
                                     now: int, rfc3339: string -> Option<int>, m: string)
    requires AllNormal(names) && NormalName(m)
    ensures var r := CleanupOutcome(nodes, base, fetched, names, now, rfc3339);
            ViewOf(r.nodes, Join(base, m))
            == if IsDir(nodes, base) && m in names && Doomed(nodes, Join(base, m), fetched, now, rfc3339) then GONE
               else ViewOf(nodes, Join(base, m))
    ensures var r := CleanupOutcome(nodes, base, fetched, names, now, rfc3339);
            r.deleted == if IsDir(nodes, base) then |DoomedNames(nodes, base, names, fetched, now, rfc3339)| else 0
  {
    if IsDir(nodes, base) {
      PassesView(nodes, base, fetched, names, now, rfc3339, m);
      PassesCount(nodes, base, fetched, names, now, rfc3339);
    } else if base in nodes {
      PassesSkipNonDirectory(nodes, base, fetched, names, now, rfc3339);
    }
  }

  // ------------------------------------------------------------ the worker

  /** `WorkerStatus`; the two counters are `u64`s that a minute's tick cannot bring near their bound. */
  datatype WorkerStatus = WorkerStatus(isRunning: bool, lastTick: Option<int>, totalTicks: nat, tasksExecuted: nat)

  /** One more tick completes another hour exactly when its number is a multiple of 60. */
  lemma HourlyCleanup(ticks: nat)
    ensures (ticks + 1) / 60 == ticks / 60 + (if (ticks + 1) % 60 == 0 then 1 else 0)
  {
    var q, r := ticks / 60, ticks % 60;
    assert ticks == 60 * q + r;
    if r == 59 {
      assert ticks + 1 == 60 * (q + 1);
    } else {
      assert ticks + 1 == 60 * q + (r + 1);
    }
  }

  class TaskWorker {
    const pool: Db
    var status: WorkerStatus
    /** The cleanup passes run so far. */
    ghost var cleanups: nat

    /** One cleanup pass for every full 60 ticks. */
    ghost predicate Valid()
      reads this
    {
      cleanups == status.totalTicks / 60
    }

    /** `TaskWorker::new`: stopped, never ticked, nothing executed. */
    constructor(pool: Db)
      ensures this.pool == pool && status == WorkerStatus(false, None, 0, 0) && cleanups == 0
      ensures Valid()
    {
      this.pool := pool;
      status := WorkerStatus(false, None, 0, 0);
      cleanups := 0;
    }

    /** `get_status`: a copy of the status. */
    function GetStatus(): WorkerStatus
      reads this
    {
      status
    }

    /** The first statement of `start`: the worker is marked running before its loop of ticks. */
    method MarkRunning()
      modifies this
      ensures status == old(status).(isRunning := true) && cleanups == old(cleanups)
    {
      status := status.(isRunning := true);
    }

    /**
     * One turn of `start`'s loop: the tick is stamped and counted, the due
     * tasks run, and on every 60th tick the old backups are removed; the
     * minute's sleep between turns is not modelled.
     */
    method Tick(fs: FileSystem, fetched: seq<Task>, jobIds: seq<string>, now: int, getDb: DatabaseConfig -> Option<string>,
                cleanupFetched: seq<Task>, base: string, names: seq<string>, rfc3339: string -> Option<int>)
      returns (spawned: seq<Spawned>, deleted: Option<nat>)
      requires Valid() && |jobIds| == |fetched|
      modifies this, pool, fs
      ensures Valid()
      ensures var s := SweepOutcome(old(pool.jobs), old(pool.tasks), old(pool.configs), fetched, jobIds, now, getDb);
              pool.jobs == s.jobs && pool.tasks == s.tasks && spawned == s.spawned
              && status == WorkerStatus(old(status).isRunning, Some(now), old(status).totalTicks + 1,
                                        old(status).tasksExecuted + s.executed)
      ensures pool.configs == old(pool.configs) && pool.backups == old(pool.backups) && pool.statusLog == old(pool.statusLog)
      ensures deleted.Some? <==> status.totalTicks % 60 == 0
      ensures deleted.Some? ==> Cleaned(fs.nodes, deleted.value) == CleanupOutcome(old(fs.nodes), base, cleanupFetched, names, now, rfc3339)
      ensures deleted.None? ==> fs.nodes == old(fs.nodes)
    {
      status := status.(lastTick := Some(now), totalTicks := status.totalTicks + 1);
      spawned := CheckAndExecuteTasks(fetched, jobIds, now, getDb);
      if status.totalTicks % 60 == 0 {
        var removed := CleanupOldBackups(fs, base, cleanupFetched, names, now, rfc3339);
        deleted := Some(removed);
        cleanups := cleanups + 1;
      } else {
        deleted := None;
      }
      HourlyCleanup(old(status.totalTicks));
    }

    /** `check_and_execute_tasks`: the pass, then `tasks_executed` grows by the calls that returned Ok. */
    method CheckAndExecuteTasks(fetched: seq<Task>, jobIds: seq<string>, now: int, getDb: DatabaseConfig -> Option<string>)
      returns (spawned: seq<Spawned>)
      requires |jobIds| == |fetched|
      modifies this, pool
      ensures var s := SweepOutcome(old(pool.jobs), old(pool.tasks), old(pool.configs), fetched, jobIds, now, getDb);
              pool.jobs == s.jobs && pool.tasks == s.tasks && spawned == s.spawned
              && status == old(status).(tasksExecuted := old(status).tasksExecuted + s.executed)
      ensures pool.configs == old(pool.configs) && pool.backups == old(pool.backups)
      ensures pool.statusLog == old(pool.statusLog) && cleanups == old(cleanups)
    {
      var executed := 0;
      spawned := [];
      var i := 0;
      while i < |fetched|
        invariant 0 <= i <= |fetched|
        invariant var s := SweepOutcome(old(pool.jobs), old(pool.tasks), old(pool.configs), fetched[..i], jobIds[..i], now, getDb);
                  pool.jobs == s.jobs && pool.tasks == s.tasks && executed == s.executed && spawned == s.spawned
        invariant pool.configs == old(pool.configs) && pool.backups == old(pool.backups)
        invariant pool.statusLog == old(pool.statusLog)
        invariant status == old(status) && cleanups == old(cleanups)
      {
        assert fetched[..i + 1][..i] == fetched[..i] && jobIds[..i + 1][..i] == jobIds[..i];
        var task := fetched[i];
        if ShouldRunNow(task, now) {
          var r, started := ExecuteTask(pool, task, jobIds[i], now, getDb);
          if r.Ok? {
            executed := executed + 1;
          }
          if started.Some? {
            spawned := spawned + [started.value];
          }
        }
        i := i + 1;
      }
      assert fetched[..i] == fetched && jobIds[..i] == jobIds;
      status := status.(tasksExecuted := status.tasksExecuted + executed);
    }

    /** One task's walk over the listing: each listed directory whose sidecar names the task and is older than its cutoff goes. */
    method RemoveExpiredEntries(fs: FileSystem, base: string, task: Task, names: seq<string>, now: int,
                                rfc3339: string -> Option<int>) returns (deleted: nat)
      modifies fs
      ensures Cleaned(fs.nodes, deleted) == SweepEntries(old(fs.nodes), base, names, task, now, rfc3339)
    {
      deleted := 0;
      var k := 0;
      while k < |names|
        invariant 0 <= k <= |names|
        invariant Cleaned(fs.nodes, deleted) == SweepEntries(old(fs.nodes), base, names[..k], task, now, rfc3339)
      {
        assert names[..k + 1][..k] == names[..k];
        var dir := Join(base, names[k]);
        if IsDir(fs.nodes, dir) {
          var fields := fs.ReadSidecarFields(SidecarPath(dir));
          if fields.Ok? && fields.value.0 == Some(task.id) && fields.value.1.Some? {
            var created := rfc3339(fields.value.1.value);
            if created.Some? && created.value < now - task.cleanupDays * 86400 {
              var removed := fs.RemoveDirAll(dir);
              if removed.Ok? {
                deleted := deleted + 1;
              }
            }
          }
        }
        k := k + 1;
      }
      assert names[..k] == names;
    }

    /**
     * `cleanup_old_backups` over the fetched tasks and the names `read_dir`
     * lists under `base`, counting the directories removed.
     */
    method CleanupOldBackups(fs: FileSystem, base: string, fetched: seq<Task>, names: seq<string>, now: int,
                             rfc3339: string -> Option<int>) returns (deleted: nat)
      modifies fs
      ensures Cleaned(fs.nodes, deleted) == CleanupOutcome(old(fs.nodes), base, fetched, names, now, rfc3339)
    {
      if base !in fs.nodes {
        return 0;
      }
      deleted := 0;
      var i := 0;
      while i < |fetched|
        invariant 0 <= i <= |fetched|
        invariant Cleaned(fs.nodes, deleted) == CleanupPasses(old(fs.nodes), base, fetched[..i], names, now, rfc3339)
      {
        assert fetched[..i + 1][..i] == fetched[..i];
        var task := fetched[i];
        if KeepsLimitedDays(task) && IsDir(fs.nodes, base) {
          var removed := RemoveExpiredEntries(fs, base, task, names, now, rfc3339);
          deleted := deleted + removed;
        }
        i := i + 1;
      }
      assert fetched[..i] == fetched;
    }
  }
}

=== FILE: text.dfy ===
/**
 * The parts of Rust's `str` and `char` API that the backend relies on, stated
 * over `string = seq<char>`: whitespace splitting, `lines()`, `find`/`rfind`,
 * prefix and suffix tests, `replace`, `trim_matches`, `trim_end_matches`,
 * case mapping towards ASCII targets, and the integer `parse`/`to_string` pair.
 */
module Text {
  import opened Wrappers

  // ---------------------------------------------------------------- characters

  /** Rust's `char::is_whitespace`: the Unicode White_Space property. */
  predicate IsWhitespace(c: char) {
    ('\t' <= c <= '\r') || c == ' ' || c == '\U{85}' || c == '\U{A0}' || c == '\U{1680}'
    || ('\U{2000}' <= c <= '\U{200A}') || c == '\U{2028}' || c == '\U{2029}'
    || c == '\U{202F}' || c == '\U{205F}' || c == '\U{3000}'
  }

  predicate IsDigit(c: char) { '0' <= c <= '9' }

  predicate AllDigits(s: string) { forall i :: 0 <= i < |s| ==> IsDigit(s[i]) }

  predicate IsAsciiAlphanumeric(c: char) { IsDigit(c) || ('a' <= c <= 'z') || ('A' <= c <= 'Z') }

  /**
   * One character of `to_lowercase`, for the characters whose lower-case form
   * is a single ASCII character: ASCII capitals and U+212A KELVIN SIGN.
   */
  function LowerChar(c: char): char {
    if 'A' <= c <= 'Z' then (c as int + 32) as char
    else if c == '\U{212A}' then 'k'
    else c
  }

  /**
   * One character of `to_uppercase`, for the characters whose upper-case form
   * is a single ASCII character: ASCII small letters, U+0131 (dotless i) and
   * U+017F (long s).
   */
  function UpperChar(c: char): char {
    if 'a' <= c <= 'z' then (c as int - 32) as char
    else if c == '\U{131}' then 'I'
    else if c == '\U{17F}' then 'S'
    else c
  }

  function ToLower(s: string): (r: string)
    ensures |r| == |s|
    ensures forall i :: 0 <= i < |s| ==> r[i] == LowerChar(s[i])
  {
    if s == [] then [] else [LowerChar(s[0])] + ToLower(s[1..])
  }

  function ToUpper(s: string): (r: string)
    ensures |r| == |s|
    ensures forall i :: 0 <= i < |s| ==> r[i] == UpperChar(s[i])
  {
    if s == [] then [] else [UpperChar(s[0])] + ToUpper(s[1..])
  }

  /** Lower-casing leaves a lower-case ASCII word unchanged. */
  lemma {:induction false} ToLowerFixesLowercase(s: string)
    requires forall i :: 0 <= i < |s| ==> !('A' <= s[i] <= 'Z') && s[i] != '\U{212A}'
    ensures ToLower(s) == s
  {
    if s != [] {
      ToLowerFixesLowercase(s[1..]);
    }
  }

  /** Upper-casing leaves an upper-case ASCII word unchanged. */
  lemma {:induction false} UpperFixesUppercase(s: string)
    requires forall i :: 0 <= i < |s| ==> 'A' <= s[i] <= 'Z'
    ensures ToUpper(s) == s
  {
    if s != [] {
      UpperFixesUppercase(s[1..]);
    }
  }

  /** Only ASCII small letters. */
  predicate LowerAscii(s: string) { forall i :: 0 <= i < |s| ==> 'a' <= s[i] <= 'z' }

  /** Lower-casing the upper-case spelling of a lower-case ASCII word gives the word back. */
  lemma LowerOfUpper(s: string)
    requires LowerAscii(s)
    ensures ToLower(s) == s && ToLower(ToUpper(s)) == s
  {
    ToLowerFixesLowercase(s);
    var u := ToUpper(s);
    forall i | 0 <= i < |s| ensures ToLower(u)[i] == s[i] {
      assert u[i] == UpperChar(s[i]);
    }
  }

  // ------------------------------------------------------------ searching

  /** `s.find(c)`: the first index holding `c`. */
  function FindChar(s: string, c: char): (r: Option<nat>)
    ensures r.Some? ==> r.value < |s| && s[r.value] == c && c !in s[..r.value]
    ensures r.None? <==> c !in s
  {
    if s == [] then None
    else if s[0] == c then Some(0)
    else match FindChar(s[1..], c)
      case None => None
      case Some(i) => Some(i + 1)
  }

  /** `s.rfind(c)`: the last index holding `c`. */
  function RFindChar(s: string, c: char): (r: Option<nat>)
    ensures r.Some? ==> r.value < |s| && s[r.value] == c && c !in s[r.value + 1..]
    ensures r.None? <==> c !in s
  {
    if s == [] then None
    else if s[|s| - 1] == c then Some(|s| - 1)
    else
      assert s == s[..|s| - 1] + [s[|s| - 1]];
      RFindChar(s[..|s| - 1], c)
  }

  predicate StartsWith(s: string, p: string) { p <= s }

  predicate EndsWith(s: string, p: string) { |p| <= |s| && s[|s| - |p|..] == p }

  /** `pat` occurs in `s` starting at index `i`. */
  predicate MatchAt(s: string, pat: string, i: int) {
    0 <= i <= |s| && pat <= s[i..]
  }

  predicate Contains(s: string, pat: string) {
    exists i :: 0 <= i <= |s| && MatchAt(s, pat, i)
  }

  /** `s.find(pat)`: the first index at which `pat` occurs. */
  function FindStr(s: string, pat: string, from: nat := 0): (r: Option<nat>)
    requires from <= |s|
    ensures r.Some? ==> from <= r.value <= |s| && MatchAt(s, pat, r.value)
    ensures r.Some? ==> forall i :: from <= i < r.value ==> !MatchAt(s, pat, i)
    ensures r.None? ==> forall i :: from <= i <= |s| ==> !MatchAt(s, pat, i)
    decreases |s| - from
  {
    if MatchAt(s, pat, from) then Some(from)
    else if from == |s| then None
    else FindStr(s, pat, from + 1)
  }

  /** `s.split_once(c)`: the text before and after the first `c`. */
  function SplitOnce(s: string, c: char): (r: Option<(string, string)>)
    ensures r.None? <==> c !in s
    ensures r.Some? ==> s == r.value.0 + [c] + r.value.1 && c !in r.value.0
  {
    match FindChar(s, c)
    case None => None
    case Some(i) =>
      assert s == s[..i] + [c] + s[i + 1..];
      Some((s[..i], s[i + 1..]))
  }

  /** Splitting at the first `c` finds the one placed after a `c`-free prefix. */
  lemma SplitAtFirst(a: string, b: string, c: char)
    requires c !in a
    ensures SplitOnce(a + [c] + b, c) == Some((a, b))
  {
    var s := a + [c] + b;
    assert s[|a|] == c && s[..|a|] == a;
    assert FindChar(s, c) == Some(|a|);
    assert s[|a| + 1..] == b;
  }

  // ------------------------------------------------------------ splitting

  /** Length of the leading run of non-whitespace characters. */
  function TokenLength(s: string): (n: nat)
    ensures n <= |s|
    ensures forall i :: 0 <= i < n ==> !IsWhitespace(s[i])
    ensures n < |s| ==> IsWhitespace(s[n])
  {
    if s == [] || IsWhitespace(s[0]) then 0 else 1 + TokenLength(s[1..])
  }

  /** `s.split_whitespace()`: the maximal runs of non-whitespace characters. */
  function SplitWhitespace(s: string): (r: seq<string>)
    ensures forall k :: 0 <= k < |r| ==> r[k] != []
    ensures forall k, i :: 0 <= k < |r| && 0 <= i < |r[k]| ==> !IsWhitespace(r[k][i])
    decreases |s|
  {
    if s == [] then []
    else if IsWhitespace(s[0]) then SplitWhitespace(s[1..])
    else
      var n := TokenLength(s);
      [s[..n]] + SplitWhitespace(s[n..])
  }

  /** Words joined by single spaces split back into the same words. */
  lemma {:induction false} SplitWhitespaceOfSpaced(words: seq<string>)
    requires forall k :: 0 <= k < |words| ==> words[k] != []
    requires forall k, i :: 0 <= k < |words| && 0 <= i < |words[k]| ==> !IsWhitespace(words[k][i])
    ensures SplitWhitespace(JoinSpaced(words)) == words
    decreases |words|
  {
    if words != [] {
      var w := words[0];
      TokenOfWord(w, if |words| == 1 then [] else [' '] + JoinSpaced(words[1..]));
      if |words| > 1 {
        var rest := JoinSpaced(words[1..]);
        assert JoinSpaced(words) == w + ([' '] + rest);
        assert (w + ([' '] + rest))[|w|..] == [' '] + rest;
        assert ([' '] + rest)[1..] == rest;
        SplitWhitespaceOfSpaced(words[1..]);
      } else {
        assert JoinSpaced(words) == w;
        assert w + [] == w;
        assert w[..|w|] == w && w[|w|..] == [];
        assert SplitWhitespace(w) == [w[..|w|]] + SplitWhitespace(w[|w|..]);
      }
    }
  }

  /** The first token of `w + t` is `w` when `w` has no whitespace and `t` is empty or starts with it. */
  lemma {:induction false} TokenOfWord(w: string, t: string)
    requires forall i :: 0 <= i < |w| ==> !IsWhitespace(w[i])
    requires t == [] || IsWhitespace(t[0])
    ensures TokenLength(w + t) == |w|
    decreases |w|
  {
    if w == [] {
      assert w + t == t;
    } else {
      assert (w + t)[1..] == w[1..] + t;
      TokenOfWord(w[1..], t);
    }
  }

  /** Words separated by one space each. */
  function JoinSpaced(words: seq<string>): string {
    if words == [] then []
    else if |words| == 1 then words[0]
    else words[0] + [' '] + JoinSpaced(words[1..])
  }

  /** A line without its `\r` when it ended in `\r\n`. */
  function StripCr(l: string): (r: string)
    ensures r == l || (l == r + ['\r'])
  {
    if l != [] && l[|l| - 1] == '\r' then l[..|l| - 1] else l
  }

  /**
   * `s.lines()`: split after every `\n`, drop a `\r` that preceded the `\n`;
   * a final `\n` does not start an empty last line.
   */
  function Lines(s: string): (r: seq<string>)
    ensures forall k :: 0 <= k < |r| ==> '\n' !in r[k]
    ensures s == [] ==> r == []
    decreases |s|
  {
    if s == [] then []
    else match FindChar(s, '\n')
      case None => [s]
      case Some(i) => [StripCr(s[..i])] + Lines(s[i + 1..])
  }

  /** Lines written one after another, each ended by `\n`, read back as those lines. */
  lemma {:induction false} LinesOfTerminated(ls: seq<string>)
    requires forall k :: 0 <= k < |ls| ==> '\n' !in ls[k] && (ls[k] == [] || ls[k][|ls[k]| - 1] != '\r')
    ensures Lines(Terminated(ls)) == ls
    decreases |ls|
  {
    if ls != [] {
      var l, rest := ls[0], Terminated(ls[1..]);
      var s := l + ['\n'] + rest;
      assert Terminated(ls) == s;
      assert s[|l|] == '\n' && s[..|l|] == l;
      assert FindChar(s, '\n') == Some(|l|);
      assert s[|l| + 1..] == rest;
      LinesOfTerminated(ls[1..]);
    }
  }

  /** Each line followed by `\n`. */
  function Terminated(ls: seq<string>): string {
    if ls == [] then [] else ls[0] + ['\n'] + Terminated(ls[1..])
  }

  // ------------------------------------------------------------ rewriting

  /** `s.replace(pat, rep)`: one left-to-right pass over non-overlapping matches. */
  function ReplaceAll(s: string, pat: string, rep: string): string
    requires pat != []
    decreases |s|
  {
    if pat <= s then rep + ReplaceAll(s[|pat|..], pat, rep)
    else if s == [] then []
    else [s[0]] + ReplaceAll(s[1..], pat, rep)
  }

  /** A prefix in which no match of `pat` starts passes through `replace` untouched. */
  lemma ReplaceAllSkipsPrefix(x: string, y: string, pat: string, rep: string)
    requires pat != []
    requires forall i :: 0 <= i < |x| ==> !MatchAt(x + y, pat, i)
    ensures ReplaceAll(x + y, pat, rep) == x + ReplaceAll(y, pat, rep)
  {
    var k := |x|;
    assert x[k..] + y == y;
    while k > 0
      invariant 0 <= k <= |x|
      invariant ReplaceAll(x[k..] + y, pat, rep) == x[k..] + ReplaceAll(y, pat, rep)
    {
      k := k - 1;
      ReplaceAllSkipsOne(x, y, k, pat, rep);
    }
    assert x[0..] == x;
  }

  /** Where no match starts, `replace` keeps the character and goes on with the rest. */
  lemma ReplaceAllSkipsOne(x: string, y: string, k: nat, pat: string, rep: string)
    requires pat != [] && k < |x| && !MatchAt(x + y, pat, k)
    requires ReplaceAll(x[k + 1..] + y, pat, rep) == x[k + 1..] + ReplaceAll(y, pat, rep)
    ensures ReplaceAll(x[k..] + y, pat, rep) == x[k..] + ReplaceAll(y, pat, rep)
  {
    SuffixSlices(x, y, k);
    ReplaceAllKeepsHead(x[k..] + y, pat, rep);
    AppendAssoc([x[k]], x[k + 1..], ReplaceAll(y, pat, rep));
  }

  lemma AppendAssoc<T>(a: seq<T>, b: seq<T>, c: seq<T>)
    ensures a + (b + c) == (a + b) + c
  {
  }

  /** The slices of `x + y` from a position inside `x`. */
  lemma SuffixSlices<T>(x: seq<T>, y: seq<T>, k: nat)
    requires k < |x|
    ensures (x + y)[k..] == x[k..] + y && (x[k..] + y)[0] == x[k] && (x[k..] + y)[1..] == x[k + 1..] + y
    ensures x[k..] == [x[k]] + x[k + 1..]
  {
  }

  /** Without a match at its start, `replace` keeps the first character. */
  lemma ReplaceAllKeepsHead(s: string, pat: string, rep: string)
    requires pat != [] && s != [] && !(pat <= s)
    ensures ReplaceAll(s, pat, rep) == [s[0]] + ReplaceAll(s[1..], pat, rep)
  {
  }

  /** `replace` of a string in which `pat` never occurs is the identity. */
  lemma ReplaceAllNoMatch(s: string, pat: string, rep: string)
    requires pat != []
    requires forall i :: 0 <= i < |s| ==> !MatchAt(s, pat, i)
    ensures ReplaceAll(s, pat, rep) == s
  {
    assert s + [] == s;
    ReplaceAllSkipsPrefix(s, [], pat, rep);
  }

  /** `s.trim_matches(c)`: every leading and trailing `c` removed. */
  function TrimChar(s: string, c: char): (r: string)
    ensures r == [] || (r[0] != c && r[|r| - 1] != c)
    ensures s == [] || (s[0] != c && s[|s| - 1] != c) ==> r == s
    ensures |r| <= |s|
    decreases |s|
  {
    if s == [] then []
    else if s[0] == c then TrimChar(s[1..], c)
    else if s[|s| - 1] == c then TrimChar(s[..|s| - 1], c)
    else s
  }

  /** `s.trim()`: leading and trailing whitespace removed. */
  function Trim(s: string): (r: string)
    ensures r == [] || (!IsWhitespace(r[0]) && !IsWhitespace(r[|r| - 1]))
    decreases |s|
  {
    if s == [] then []
    else if IsWhitespace(s[0]) then Trim(s[1..])
    else if IsWhitespace(s[|s| - 1]) then Trim(s[..|s| - 1])
    else s
  }

  /** `s.trim_end_matches(p)`: every trailing repetition of `p` removed. */
  function TrimEndMatches(s: string, p: string): (r: string)
    requires p != []
    ensures !EndsWith(r, p)
    ensures r <= s
    decreases |s|
  {
    if EndsWith(s, p) then TrimEndMatches(s[..|s| - |p|], p) else s
  }

  /** `s.replace(c, r)` for a single character. */
  function ReplaceChar(s: string, c: char, r: char): (t: string)
    ensures |t| == |s|
    ensures forall i :: 0 <= i < |s| ==> t[i] == (if s[i] == c then r else s[i])
  {
    if s == [] then [] else [if s[0] == c then r else s[0]] + ReplaceChar(s[1..], c, r)
  }

  /** Every occurrence of `c` deleted. */
  function RemoveChar(s: string, c: char): (t: string)
    ensures c !in t
    ensures |t| <= |s|
  {
    if s == [] then [] else (if s[0] == c then [] else [s[0]]) + RemoveChar(s[1..], c)
  }

  /** Strings joined with a separator character between them. */
  function JoinWith(parts: seq<string>, sep: char): string {
    if parts == [] then []
    else if |parts| == 1 then parts[0]
    else parts[0] + [sep] + JoinWith(parts[1..], sep)
  }

  // ------------------------------------------------------------ numbers

  function DigitChar(d: nat): (c: char)
    requires d < 10
    ensures IsDigit(c)
  {
    ('0' as int + d) as char
  }

  function DigitValue(c: char): (d: nat)
    requires IsDigit(c)
    ensures d < 10 && DigitChar(d) == c
  {
    c as int - '0' as int
  }

  /** The number written by a string of decimal digits, most significant first. */
  function DigitsValue(s: string): nat
    requires AllDigits(s)
  {
    if s == [] then 0 else 10 * DigitsValue(s[..|s| - 1]) + DigitValue(s[|s| - 1])
  }

  /** `n.to_string()` for a non-negative integer. */
  function NatToString(n: nat): (s: string)
    ensures s != [] && AllDigits(s)
    ensures |s| > 1 ==> s[0] != '0'
  {
    if n < 10 then [DigitChar(n)] else NatToString(n / 10) + [DigitChar(n % 10)]
  }

  /** `n.to_string()` for any integer: a `-` sign before the magnitude. */
  function IntToString(n: int): (s: string)
    ensures s != []
  {
    if n < 0 then "-" + NatToString(-n) else NatToString(n)
  }

  lemma {:induction false} DigitsValueOfNatToString(n: nat)
    ensures DigitsValue(NatToString(n)) == n
  {
    var s := NatToString(n);
    if n >= 10 {
      DigitsValueOfNatToString(n / 10);
      assert s[..|s| - 1] == NatToString(n / 10);
      assert DigitValue(s[|s| - 1]) == n % 10;
    } else {
      assert s[..0] == [];
    }
  }

  /**
   * `s.parse::<T>()` for an unsigned integer type whose values are below
   * `bound`: an optional leading `+`, at least one ASCII digit, no overflow.
   */
  function ParseUnsigned(s: string, bound: nat): (r: Option<nat>)
    ensures r.Some? ==> r.value < bound
    ensures r.Some? ==> s != [] && (IsDigit(s[0]) || s[0] == '+')
  {
    if s == [] || s == "+" || s == "-" then None
    else
      var digits := if s[0] == '+' then s[1..] else s;
      if AllDigits(digits) && DigitsValue(digits) < bound then Some(DigitsValue(digits)) else None
  }

  /**
   * `s.parse::<T>()` for a signed integer type with range `lo..=hi`: an
   * optional `+` or `-`, at least one ASCII digit, no overflow.
   */
  function ParseSigned(s: string, lo: int, hi: int): (r: Option<int>)
    requires lo <= 0 <= hi
    ensures r.Some? ==> lo <= r.value <= hi
  {
    if s == [] || s == "+" || s == "-" then None
    else if s[0] == '-' then
      if AllDigits(s[1..]) && lo <= 0 - DigitsValue(s[1..]) then Some(0 - DigitsValue(s[1..])) else None
    else
      var digits := if s[0] == '+' then s[1..] else s;
      if AllDigits(digits) && DigitsValue(digits) <= hi then Some(DigitsValue(digits)) else None
  }

  const U32_BOUND: nat := 0x1_0000_0000
  const U64_BOUND: nat := 0x1_0000_0000_0000_0000
  const I64_MIN: int := -0x8000_0000_0000_0000
  const I64_MAX: int := 0x7FFF_FFFF_FFFF_FFFF

  function ParseU32(s: string): (r: Option<nat>)
    ensures r.Some? ==> r.value < U32_BOUND
  {
    ParseUnsigned(s, U32_BOUND)
  }

  function ParseU64(s: string): (r: Option<nat>)
    ensures r.Some? ==> r.value < U64_BOUND
  {
    ParseUnsigned(s, U64_BOUND)
  }

  function ParseI64(s: string): (r: Option<int>)
    ensures r.Some? ==> I64_MIN <= r.value <= I64_MAX
  {
    ParseSigned(s, I64_MIN, I64_MAX)
  }

  /** Parsing what `to_string` printed gives the number back, inside the type's range. */
  lemma ParseUnsignedOfNatToString(n: nat, bound: nat)
    requires n < bound
    ensures ParseUnsigned(NatToString(n), bound) == Some(n)
  {
    DigitsValueOfNatToString(n);
    var s := NatToString(n);
    assert s[0] != '+' && s[0] != '-' by { assert IsDigit(s[0]); }
  }

  /** A leading `-` is never accepted for an unsigned type. */
  lemma ParseUnsignedRejectsMinus(s: string, bound: nat)
    requires s != [] && s[0] == '-'
    ensures ParseUnsigned(s, bound) == None
  {
    assert !IsDigit(s[0]);
  }
}

=== FILE: tools.dfy ===
/**
 * The outcome of running an external program (mydumper, tar) with
 * `Command::status().await?`: the program either could not be started,
 * and the `?` returns the io error, or it ran and exited.
 */
module Tools {
  import opened Wrappers

  /**
   * `NotSpawned` carries the io error's text (the program is not installed
   * or not executable); `Exited` carries `ExitStatus::code()`, `None` when
   * a signal ended the process.
   */
  datatype ToolRun = NotSpawned(error: string) | Exited(code: Option<int>)

  /** `ExitStatus::success`: the program ran and exited with code 0. */
  predicate Succeeded(t: ToolRun) {
    t == Exited(Some(0))
  }

  /** The program ran but did not succeed. */
  predicate FailedExit(t: ToolRun) {
    t.Exited? && t.code != Some(0)
  }
}

=== FILE: wrappers.dfy ===
/** Optional values and results with an error payload, the shapes of Rust's `Option` and `Result`. */
module Wrappers {
  datatype Option<T> = None | Some(value: T)
  {
    function UnwrapOr(default: T): (r: T)
      ensures Some? ==> r == value
      ensures None? ==> r == default
    {
      match this
      case Some(v) => v
      case None => default
    }
  }

  datatype Result<T, E> = Ok(value: T) | Err(error: E)
  {
    function UnwrapOr(default: T): (r: T)
      ensures Ok? ==> r == value
      ensures Err? ==> r == default
    {
      match this
      case Ok(v) => v
      case Err(_) => default
    }
  }
}
